=== FILE: README.md ===
# Util (com.k2.Util) in Dafny

This project models the core of the Java utility library `com.k2.Util` and
proves properties of the model.  The core is the part of the library that
reasons about classes, entities and keys by reflection, plus the text and
value helpers it leans on:

- the key codec of `KeyUtil`: how a key is serialised to text, field by
  field, and read back, and which class is the key class of an entity;
- member and accessor resolution in `classes/ClassUtil`: supertype chains,
  declared and inherited fields and methods, `MethodSignature`, getters
  (`MethodGetter`, `FieldGetter`) and the getter cache;
- identity resolution: `EntityUtil.getIdMember`, the `EntityToKey`
  strategies (`EntityIdClassToKey`, `EntityFieldToKey`, `KeyByMethod`),
  `KeyConstructor` and `IdentityUtil`;
- the entity metadata of `EntityCache`, `EntityField` and `EntityLink`, and
  the domain-entity lookups of `EntityUtil` and `DomainEntityMap`;
- the supporting pieces: `StringUtil` (case converters, `plural`, `trim`,
  `replaceAll`, bijective base-26 indexing), `JavaUtil` literal escaping,
  `Dependency`/`Dependencies`, the versions of `Version`, `ArrayUtil`,
  `ObjectUtil`, the tuples, the `Null` registry and `BooleanUtil`.

Reflection is replaced by an explicit class model (`ClassModel`): a map from
class name to a declaration holding its superclass, interfaces, fields,
methods, constructors and annotations.  A runtime object is a `Value`
(`Values`) whose fields are slots keyed by declaring class and name.
Exceptions are the error side of a `Result`.  Every static cache of the
library (getters, entity caches, id members, key strategies, identity
members, domain-entity maps, the `Null` registry, the `BooleanUtil`
settings) is explicit state passed in and returned, so each lookup states
what it leaves in the cache and each cache carries a lemma that a warm
answer equals the cold one.  Code the library calls but cannot see is a
parameter: method bodies, `toString` of user objects and the body of a
zero-argument constructor (whether it throws, and what it leaves in the
fields, initialisers included) are the functions of `Host`, and the key
constructors taking arguments are `construct`.

One module per source area, one file per module; every file is given to
Dafny together.

## Model

| member | source | states |
|---|---|---|
| KeyUtil.SerializeFieldValue | src/main/java/com/k2/Util/KeyUtil.java:260-302 | only null fails (NullPointerException); a String is form-encoded so that it decodes back and holds no ':'; a Boolean is "1"/"0"; an integral value is decimal text that parses back and holds no ':'; a Date is its milliseconds; a Character is itself, unescaped; any other object is its toString |
| KeyUtil.SerializeFields | src/main/java/com/k2/Util/KeyUtil.java:361-370 | the loop yields one part per field, each the encoding of that field's value; it fails exactly when some field cannot be read or holds null, and then with a UtilityError |
| KeyUtil.Serialize | src/main/java/com/k2/Util/KeyUtil.java:349-378 | a null key throws; a java.* or package-less key class is encoded whole; otherwise the declared fields' encodings are joined by ':' and any field failure is the result |
| KeyUtil.BoxedKind | src/main/java/com/k2/Util/KeyUtil.java:304-347 | the integral kind found is the one whose boxed class has that name, and none is found only for other names |
| KeyUtil.ParseIntegral | src/main/java/com/k2/Util/KeyUtil.java:310-319 | an integral text succeeds exactly when it parses for the kind, with the parsed value, and otherwise is a UtilityError naming the class |
| KeyUtil.DeserializeFieldValue | src/main/java/com/k2/Util/KeyUtil.java:304-347 | boolean is true exactly for "1"; integral primitives parse; every failure is a UtilityError naming the class |
| KeyUtil.Constructed | src/main/java/com/k2/Util/KeyUtil.java:341-346 | a (String) constructor call succeeds exactly when the constructor does, with its value, and its failure becomes a UtilityError naming the class |
| KeyUtil.SetFieldsFrom | src/main/java/com/k2/Util/KeyUtil.java:395-398 | the loop of deserialize keeps the key an object of its class |
| KeyUtil.Deserialize | src/main/java/com/k2/Util/KeyUtil.java:381-404 | a scalar key class decodes the whole text; otherwise a part count other than the declared-field count throws, an abstract class, an interface or a class without a public zero-argument constructor is a UtilityError, a constructor body that throws an InstantiationException or IllegalAccessException becomes a UtilityError while any other exception of it escapes as it is, and a success is an object of the key class |
| KeyUtil.UndeclaredAssignable | src/main/java/com/k2/Util/KeyUtil.java:326-338 | a JDK class the model does not declare is assignable only to itself and, unless primitive, to Object, so the String, Date and Boolean tests pick out exactly those classes |
| KeyUtil.FieldValueRoundTrip | src/main/java/com/k2/Util/KeyUtil.java:260-347 | every String, boolean/Boolean or in-range integral value is encoded without ':' and decodes back to itself for its field type |
| KeyUtil.StringRoundTrip | src/main/java/com/k2/Util/KeyUtil.java:286-292 | a String field value encodes without ':' and decodes back to itself |
| KeyUtil.BoolRoundTrip | src/main/java/com/k2/Util/KeyUtil.java:296-298 | a boolean or Boolean field value encodes as "1"/"0" and decodes back to itself |
| KeyUtil.IntRoundTrip | src/main/java/com/k2/Util/KeyUtil.java:300 | an in-range byte, short, int or long value, primitive or boxed, encodes without ':' and decodes back to itself |
| KeyUtil.BoxedDecodes | src/main/java/com/k2/Util/KeyUtil.java:341-342 | a boxed integral class decodes exactly what parses for its kind |
| KeyUtil.SetFieldsFromStores | src/main/java/com/k2/Util/KeyUtil.java:395-398 | when every part decodes, writing the parts in turn succeeds and leaves each field holding its decoded value |
| KeyUtil.SplitJoined | src/main/java/com/k2/Util/KeyUtil.java:386 | splitting ':'-free parts joined by ':' gives them back, provided the last of two or more parts is not empty |
| KeyUtil.SplitJoinColon | src/main/java/com/k2/Util/KeyUtil.java:386 | before trailing empty parts are dropped, the split of the joined parts is the parts |
| KeyUtil.FieldValues | src/main/java/com/k2/Util/KeyUtil.java:362 | one value per field, the one each readable field holds |
| KeyUtil.PartsDecode | src/main/java/com/k2/Util/KeyUtil.java:361-370 | when every field holds a carried value, serialization of the fields succeeds and each part is ':'-free and decodes to its field's value |
| KeyUtil.DeserializeComposite | src/main/java/com/k2/Util/KeyUtil.java:386-399 | for a composite class whose text has as many parts as fields and whose newInstance succeeds, deserialize is the field-by-field write onto the object the zero-argument constructor leaves |
| KeyUtil.RoundTrip | src/main/java/com/k2/Util/KeyUtil.java:349-404 | a composite key whose fields all hold carried values (the last of two or more not encoding to "") and whose class newInstance can make without the constructor body throwing serializes, and deserializing the text gives an object of the same class whose every declared field reads as on the original, whatever the constructor left in the fresh key |
| KeyUtil.SerializedParts | src/main/java/com/k2/Util/KeyUtil.java:354-373 | such a key's text is its parts joined by ':', splitting that text gives the parts back, and each part decodes to its field's value |
| KeyUtil.ReadBack | src/main/java/com/k2/Util/KeyUtil.java:393-399 | decoding the parts onto any fresh object of the key class leaves every field reading as it does on the original |
| KeyUtil.SlotsReadBack | src/main/java/com/k2/Util/KeyUtil.java:395-398 | an object of the key's class whose slots hold the key's field values reads like the key |
| KeyUtil.SerializeTwoFields | src/main/java/com/k2/Util/KeyUtil.java:361-370 | two readable non-null fields give exactly their two encodings |
| KeyUtil.TrailingEmptyFieldLost | src/main/java/com/k2/Util/KeyUtil.java:366-367 | a two-field key whose last String field is empty serializes to text ending in ':', which split returns one part short, so deserialize throws |
| KeyUtil.DatesNeverDecode | src/main/java/com/k2/Util/KeyUtil.java:328-337 | a Date key encodes as its milliseconds, yet neither a Date key nor a Date field ever decodes, Date having no (Long) constructor |
| KeyUtil.CharFieldsNotEscaped | src/main/java/com/k2/Util/KeyUtil.java:299-301 | a char field holding ':' is written as it is, the text gains a separator and no longer deserializes, and a Character field never decodes at all |
| KeyUtil.CharSeparatorSerialized | src/main/java/com/k2/Util/KeyUtil.java:299-301 | a ':' char field followed by a String field serializes to "::" plus the encoded string |
| KeyUtil.CharSeparatorSplits | src/main/java/com/k2/Util/KeyUtil.java:386-392 | text with an extra leading separator never fits a class of two declared fields |
| KeyUtil.CharacterNeverDecodes | src/main/java/com/k2/Util/KeyUtil.java:341-346 | java.lang.Character has no (String) constructor, so no text decodes to one |
| KeyUtil.ExtraSeparatorSplit | src/main/java/com/k2/Util/KeyUtil.java:386 | text starting with two separators never splits into exactly two parts |
| KeyUtil.KeyClassAmong | src/main/java/com/k2/Util/KeyUtil.java:112-126 | the key class is the type of the first @Id/@EmbeddedId field, else the return type of the first such method, else none |
| KeyUtil.GetKeyClass | src/main/java/com/k2/Util/KeyUtil.java:108-127 | a cached class is returned as it is; otherwise the answer fails exactly when resolution finds nothing (a UtilityError naming the class) and a success is cached |
| KeyUtil.GetKeyClassSound | src/main/java/com/k2/Util/KeyUtil.java:108-127 | over a sound cache getKeyClass answers as a fresh resolution would and the cache stays sound |
| Version.Create | src/main/java/com/k2/Util/Version/Version.java:17-30 | `create(major, minor, point)` gives a plain SimpleVersion holding exactly the three given ints |
| Version.Inc | src/main/java/com/k2/Util/Version/SimpleVersion.java:78-96 | an increment keeps the three components within the int range and keeps the class of the version; a StaticVersion is left unchanged |
| Version.IncResults | src/main/java/com/k2/Util/Version/SimpleVersion.java:78-96 | MAJOR raises major and zeroes minor and point, MINOR raises minor and zeroes point, POINT raises point only, whenever the raised component does not overflow |
| Version.IncMovesForward | src/main/java/com/k2/Util/Version/SimpleVersion.java:78-108 | without overflow the incremented version includes the old one and the old one does not include it |
| Version.IncWraps | src/main/java/com/k2/Util/Version/SimpleVersion.java:89-91 | a point number at the top of the int range wraps to the smallest int, after which the new version no longer includes the old one |
| Version.IncludesIsLexLeq | src/main/java/com/k2/Util/Version/SimpleVersion.java:99-108 | `includes(ver)` holds exactly when ver is at most this version in the lexicographic order of (major, minor, point) |
| Version.IncludesIsTotalPreorder | src/main/java/com/k2/Util/Version/SimpleVersion.java:99-108 | includes is reflexive, transitive and total, and two versions include each other exactly when they are equal |
| Version.Hash | src/main/java/com/k2/Util/Version/SimpleVersion.java:36-43 | the hash code is a Java int |
| Version.HashConsistent | src/main/java/com/k2/Util/Version/SimpleVersion.java:36-64 | equal versions have equal hash codes whatever their build numbers |
| Version.ToString | src/main/java/com/k2/Util/Version/SimpleVersion.java:70-72 | the rendering starts with 'v' |
| Version.ToStringRoundTrip | src/main/java/com/k2/Util/Version/SimpleVersion.java:70-72 | the text of toString reads back into the same major, minor and point numbers |
| Version.ToStringMatchesEqual | src/main/java/com/k2/Util/Version/SimpleVersion.java:49-72 | two versions print alike exactly when equals holds between them |
| ArrayUtil.Search | src/main/java/com/k2/Util/ArrayUtil.java:13-19 | the inner scan throws NullPointerException exactly when it meets a null item before an item equal to the value, and answers true exactly when it meets an equal item first; without null items it answers whether the value occurs |
| ArrayUtil.Contains | src/main/java/com/k2/Util/ArrayUtil.java:10-28 | without null items ANY holds when some value occurs and ALL when every value occurs, with an empty list of values giving false; a throw happens only when some value's scan meets a null item, and always when the first value's does |
| ObjectUtil.FindFirstMatch | src/main/java/com/k2/Util/ObjectUtil.java:69-80 | the result is the earliest element of the first list that also occurs in the second; there is none exactly when the lists share nothing |
| ObjectUtil.FindFirstMatchExample | src/main/java/com/k2/Util/ObjectUtil.java:69-80 | [1..6] against [10, 7, 20, -1, 5, 6] gives 5 |
| ObjectUtil.CopyFields | src/main/java/com/k2/Util/ObjectUtil.java:26-41 | the copy loop leaves a non-object target as it is and never changes the class of an object target; when every field copies it succeeds and the key caches are untouched; it throws only after some field failed to copy, from the getId calls of the warning |
| ObjectUtil.Copy | src/main/java/com/k2/Util/ObjectUtil.java:20-45 | copy does nothing when either object is null and keeps the target's class; when every declared field of the source's class copies it succeeds with the key caches untouched; a throw needs two non-null objects and a declared field that does not copy |
| ObjectUtil.CopyFieldsLeavesOthers | src/main/java/com/k2/Util/ObjectUtil.java:26-41 | when the loop returns, slots that no copied field names keep their presence and contents |
| ObjectUtil.CopyFieldsSets | src/main/java/com/k2/Util/ObjectUtil.java:26-41 | when the loop returns, a field whose value can be read and fits the target holds the source's value |
| ObjectUtil.CopySetsDeclaredField | src/main/java/com/k2/Util/ObjectUtil.java:20-45 | when copy returns, every readable declared field of the source's class is set on a target that has it |
| ObjectUtil.CopyLeavesOthers | src/main/java/com/k2/Util/ObjectUtil.java:20-45 | when copy returns, every slot that no declared field of the source's class names is untouched |
| ObjectUtil.LogArguments | src/main/java/com/k2/Util/ObjectUtil.java:33-38 | the warning's arguments evaluate getId of the target first, and getId of the source only when that returns, over the caches the first left |
| ObjectUtil.CopiesByClass | src/main/java/com/k2/Util/ObjectUtil.java:31-32 | whether Field.set accepts a value depends on the target's class, not on what its fields hold |
| ObjectUtil.CopyOntoSuperclassThrows | src/main/java/com/k2/Util/ObjectUtil.java:20-41 | copy(new Sub(), new Base()), with Sub extends Base declaring x and Base without any id member, cannot set x and throws the UtilityError of getId(Base) from the catch block |
| NullRegistry.RegisterClass | src/main/java/com/k2/Util/nullable/Null.java:45-76 | an unregistered class that newInstance can make is stored as the object its zero-argument constructor leaves; an abstract class, an interface, a class without a public zero-argument constructor or a constructor body throwing InstantiationException or IllegalAccessException gives null under WARNING and a UtilityError otherwise; any other exception of the constructor body escapes; a registered class throws under FAIL, NullPointerException without a type, and otherwise returns the stored instance; only the given class is added |
| NullRegistry.RegisterClassKeepsWellFormed | src/main/java/com/k2/Util/nullable/Null.java:45-76 | registration keeps every stored value what newInstance of its class gives, and returns null or the stored instance |
| NullRegistry.RegisterClasses | src/main/java/com/k2/Util/nullable/Null.java:82-97 | registering a list adds only classes of that list |
| NullRegistry.WarningRegistersConstructible | src/main/java/com/k2/Util/nullable/Null.java:93-97 | with WARNING only an unchecked exception of some constructor body escapes, and without one the call succeeds; then every class of the list newInstance can make ends up registered, earlier registrations stay and the registry stays well formed |
| NullRegistry.RegisterTwiceWithoutType | src/main/java/com/k2/Util/nullable/Null.java:82-86 | the untyped registerClasses throws NullPointerException on the second registration of a class newInstance can make |
| NullRegistry.AbstractClassRefused | src/main/java/com/k2/Util/nullable/Null.java:45-62 | an abstract class with a public zero-argument constructor is refused by newInstance: FAIL throws a UtilityError and WARNING returns null without registering |
| NullRegistry.ThrowingConstructorEscapes | src/main/java/com/k2/Util/nullable/Null.java:47-51 | an IllegalStateException thrown by the constructor body escapes registerClass and registerClasses even under WARNING |
| NullRegistry.IsNull | src/main/java/com/k2/Util/nullable/Null.java:146-151 | null is null; an object of an unregistered class throws a UtilityError; otherwise the answer is equals against the registered instance |
| NullRegistry.GetNull | src/main/java/com/k2/Util/nullable/Null.java:159-167 | a registered class gives its stored instance and changes nothing; an unregistered class succeeds exactly when newInstance can make it, and then stores and returns the object its constructor leaves; an unchecked exception of the constructor body escapes and every other failure is a UtilityError |
| NullRegistry.GetNullStable | src/main/java/com/k2/Util/nullable/Null.java:159-167 | a second getNull returns the same instance and leaves the registry as it is |
| NullRegistry.GetNullIsNull | src/main/java/com/k2/Util/nullable/Null.java:146-167 | the instance getNull hands out is null by isNull for any reflexive equals |
| BooleanUtil.RestoreDefaults | src/main/java/com/k2/Util/BooleanUtil.java:29-34 | whatever was set before, the forms are "true"/"false" and 1/0 again |
| BooleanUtil.TrueAsString | src/main/java/com/k2/Util/BooleanUtil.java:42 | the text for true becomes the given text and the other three settings stay |
| BooleanUtil.FalseAsString | src/main/java/com/k2/Util/BooleanUtil.java:55 | the text for false becomes the given text and the other three settings stay |
| BooleanUtil.TrueAsInt | src/main/java/com/k2/Util/BooleanUtil.java:73 | the integer for true becomes the given int and the other three settings stay |
| BooleanUtil.FalseAsInt | src/main/java/com/k2/Util/BooleanUtil.java:86 | the integer for false becomes the given int and the other three settings stay |
| BooleanUtil.ToInteger | src/main/java/com/k2/Util/BooleanUtil.java:97-100 | null gives null and only null does; true and false give an Integer |
| BooleanUtil.ToLong | src/main/java/com/k2/Util/BooleanUtil.java:106-109 | null gives null and only null does; otherwise a Long holding the same number as toInteger |
| BooleanUtil.ToString | src/main/java/com/k2/Util/BooleanUtil.java:187-190 | null gives null and only null does |
| BooleanUtil.ToIntegerInjective | src/main/java/com/k2/Util/BooleanUtil.java:97-109 | with distinct integer forms, toInteger and toLong tell true, false and null apart |
| BooleanUtil.ToStringInjective | src/main/java/com/k2/Util/BooleanUtil.java:187-190 | with distinct text forms, toString tells true, false and null apart |
| BooleanUtil.DefaultForms | src/main/java/com/k2/Util/BooleanUtil.java:22-25 | under the initial settings true and false print as "true"/"false" and convert to 1/0 |
| BooleanUtil.SettersIndependent | src/main/java/com/k2/Util/BooleanUtil.java:42-99 | each setter moves only its own form: text setters leave toInteger alone, integer setters leave toString alone, and a setter for true leaves false's form alone |
| BooleanUtil.RegisterTypeConverter | src/main/java/com/k2/Util/BooleanUtil.java:138-141 | the converter is stored for its class, replacing any earlier one, and every other class keeps its converter |
| BooleanUtil.ToBoolean | src/main/java/com/k2/Util/BooleanUtil.java:155-170 | null gives null; a value of one of the parsed classes goes to the parser for the first such class; otherwise a Boolean gives itself; otherwise a result comes only from a registered converter for a class the value belongs to, and with none such the result is null |
| BooleanUtil.FirstInstance | src/main/java/com/k2/Util/BooleanUtil.java:157-168 | the position found is the first class in the list that the value is an instance of, and there is none exactly when it belongs to none |
| BooleanUtil.Nvl | src/main/java/com/k2/Util/BooleanUtil.java:205-207 | a non-null value is returned as it is; a null one gives the fallback; the result is null only when both are |
| BooleanUtil.NvlIdempotent | src/main/java/com/k2/Util/BooleanUtil.java:205-207 | applying nvl twice with the same fallback gives what one application gives |
| JavaSource.CharEscape | src/main/java/com/k2/Util/java/JavaUtil.java:33-54 | the eight special characters become a backslash and one more character; every other character stands for itself |
| JavaSource.StringSource | src/main/java/com/k2/Util/java/JavaUtil.java:11-19 | the string form is wrapped in double quotes |
| JavaSource.CharSource | src/main/java/com/k2/Util/java/JavaUtil.java:56 | the char form is one character or one escape wrapped in single quotes |
| JavaSource.CharacterSource | src/main/java/com/k2/Util/java/JavaUtil.java:57 | a null Character throws NullPointerException on unboxing, and only a null one does |
| JavaSource.ObjectSource | src/main/java/com/k2/Util/java/JavaUtil.java:7-9 | a null object throws NullPointerException, and only a null one does |
| JavaSource.EscapeOne | src/main/java/com/k2/Util/java/JavaUtil.java:33-54 | each escape a Java reader takes back is read as the one character it came from |
| JavaSource.ReadEscapeBody | src/main/java/com/k2/Util/java/JavaUtil.java:11-19 | reading the escaped characters of a string as a literal body gives the string back |
| JavaSource.ReadStringSource | src/main/java/com/k2/Util/java/JavaUtil.java:11-19 | every string's source form is a well-formed Java string literal denoting that string |
| JavaSource.ReadCharSource | src/main/java/com/k2/Util/java/JavaUtil.java:56 | every char's source form is a well-formed Java character literal denoting that char |
| JavaSource.StringSourceInjective | src/main/java/com/k2/Util/java/JavaUtil.java:11-19 | different strings get different source forms |
| JavaSource.IntSource | src/main/java/com/k2/Util/java/JavaUtil.java:21 | the int form is a minus for negatives followed by decimal digits, and Integer.parseInt reads it back as the value |
| JavaSource.ReadSignedShown | src/main/java/com/k2/Util/java/JavaUtil.java:21-24 | the decimal text of a value reads back as a literal exactly when the value lies inside the literal's range |
| JavaSource.ReadIntSource | src/main/java/com/k2/Util/java/JavaUtil.java:21 | the int form is a valid int literal whose value is the int |
| JavaSource.ReadLongSource | src/main/java/com/k2/Util/java/JavaUtil.java:24 | the long form is a valid long literal whose value is the long |
| JavaSource.BoxedLongOutOfIntRange | src/main/java/com/k2/Util/java/JavaUtil.java:25 | the Long form as written is not valid source for any long outside the int range |
| JavaSource.BoxedLongThreeBillion | src/main/java/com/k2/Util/java/JavaUtil.java:25 | three billion is a long whose Long form as written is not valid source |
| JavaSource.ReadBoxedLongFixed | src/main/java/com/k2/Util/java/JavaUtil.java:25 | with the `L` suffix on the argument every long's Long form reads back as that long |
| JavaSource.BoolSourceMeans | src/main/java/com/k2/Util/java/JavaUtil.java:65-66 | the boolean and Boolean forms say "true" exactly for true, so the value can be read off the text |
| ClassModel.Chain | src/main/java/com/k2/Util/classes/ClassUtil.java:306-316 | the walk starts at the class, follows the superclass link, never repeats or revisits a class, and stops only at a class with no superclass or one it has seen |
| ClassModel.Supertypes | src/main/java/com/k2/Util/classes/ClassUtil.java:306-316 | getSupertypes starts with the class, each next class is the superclass of the one before, no class repeats, and the last class has no superclass unless the hierarchy is cyclic |
| ClassModel.DirectInterfacesMeaning | src/main/java/com/k2/Util/Identity/IdentityUtil.java:125 | the interfaces declared along a class chain are exactly those some class of the chain lists |
| ClassModel.InterfaceClosureMeaning | src/main/java/com/k2/Util/Identity/IdentityUtil.java:125 | the super-interface worklist holds every start not yet seen, is closed under super-interfaces, and each member is a start or a super-interface of another member |
| ClassModel.ImplementedMeaning | src/main/java/com/k2/Util/Identity/IdentityUtil.java:125 | the interfaces a class implements include every one its chain declares and every super-interface of one of them; each is declared along the chain or extended by another of them |
| ClassModel.NothingImplemented | src/main/java/com/k2/Util/FieldGetter.java:26-27 | a class whose chain declares no interface implements none |
| ClassModel.Undeclared | src/main/java/com/k2/Util/FieldGetter.java:26-27 | a class outside the model is its own only supertype and implements nothing |
| ClassModel.SuperinterfaceAssignable | src/main/java/com/k2/Util/Identity/IdentityUtil.java:125 | isAssignableFrom holds from a class to every super-interface of an interface it implements |
| ClassModel.InheritedInterfaceExample | src/main/java/com/k2/Util/Identity/IdentityUtil.java:125 | with J, I extends J, and C implements I, both I and J are assignable from C |
| ClassModel.InheritedInterfaceOneWay | src/main/java/com/k2/Util/FieldGetter.java:26-27 | in the same hierarchy the interface J is not assignable to the class C |
| Hierarchy.SupertypesIsChain | src/main/java/com/k2/Util/classes/ClassUtil.java:306-316 | getSupertypes lists a class and its superclasses in order |
| Hierarchy.TaggedFrom | src/main/java/com/k2/Util/classes/ClassUtil.java:932-937 | the recursive annotation lookup finds the first class carrying the annotation before the walk reaches a class whose superclass is Object; it finds nothing exactly when such a class comes first; it fails exactly when neither happens, with a NullPointerException for a class without superclass |
| Hierarchy.TaggedAlong | src/main/java/com/k2/Util/classes/ClassUtil.java:932-937 | a class the lookup finds lies on the chain and carries the annotation |
| Hierarchy.GetAnnotation | src/main/java/com/k2/Util/classes/ClassUtil.java:932-937 | getAnnotation gives an annotation of the asked kind taken from the class the lookup finds, and none exactly when the lookup finds no class |
| Hierarchy.ChainEndsWithoutSuper | src/main/java/com/k2/Util/classes/ClassUtil.java:310-314 | only the last class of getSupertypes may lack a superclass |
| Hierarchy.TaggedFromBelowObject | src/main/java/com/k2/Util/classes/ClassUtil.java:932-937 | on a chain that ends at Object the lookup from below Object finishes, and finds a class exactly when some class from there up to Object (excluded) carries the annotation |
| Hierarchy.TaggedAlongBelowObject | src/main/java/com/k2/Util/classes/ClassUtil.java:932-937 | in a hierarchy ending at Object the lookup from any other class finishes, and finds a class exactly when some class of the chain other than Object carries the annotation |
| Hierarchy.ChainSeenIrrelevant | src/main/java/com/k2/Util/classes/ClassUtil.java:306-316 | classes the chain never meets do not change it |
| Hierarchy.ClassNotInSuperChain | src/main/java/com/k2/Util/classes/ClassUtil.java:306-316 | in an acyclic hierarchy a class is not on its superclass's chain |
| Hierarchy.SupertypesStep | src/main/java/com/k2/Util/classes/ClassUtil.java:306-316 | in an acyclic hierarchy a class's chain is the class followed by its superclass's chain |
| Hierarchy.SuperOnChain | src/main/java/com/k2/Util/classes/ClassUtil.java:306-316 | a class strictly above another on its chain lies on the shorter chain of that class's superclass |
| Hierarchy.AfterSuper | src/main/java/com/k2/Util/entity/EntityUtil.java:127-137 | a member the superclass supplies is returned and not cached for the class; otherwise the class's fallback member is returned and cached; otherwise null |
| Hierarchy.MemberFrom | src/main/java/com/k2/Util/entity/EntityUtil.java:96-137 | the cached member walk only adds cache entries, never changes an existing one, adds only classes of the chain, and adds nothing when it finds nothing |
| Hierarchy.GetMember | src/main/java/com/k2/Util/entity/EntityUtil.java:96-137 | a cached class returns its cached member; the walk only adds cache entries for classes of the chain and adds none when it finds nothing |
| Hierarchy.MemberFromAt | src/main/java/com/k2/Util/entity/EntityUtil.java:96-137 | the walk from a class depends only on the chain from that class on |
| Hierarchy.GetMemberStep | src/main/java/com/k2/Util/entity/EntityUtil.java:127-137 | a class that is not cached and has no own member gives the superclass's answer completed by its own fallback |
| Hierarchy.GetMemberOwn | src/main/java/com/k2/Util/entity/EntityUtil.java:98-125 | a class with its own member returns it and caches it; if its own rule throws, the walk throws the same |
| Hierarchy.GetMemberSound | src/main/java/com/k2/Util/entity/EntityUtil.java:96-137 | over a sound cache the walk gives what a walk with an empty cache gives, and leaves the cache sound |
| Hierarchy.MemberFromFailure | src/main/java/com/k2/Util/entity/EntityUtil.java:96-137 | when the own rule never throws, the walk fails only by running round a cyclic chain |
| Hierarchy.GetMemberFailure | src/main/java/com/k2/Util/entity/EntityUtil.java:96-137 | when the own rule never throws, a walk from a class fails only on a cyclic chain |
| Hierarchy.CacheSoundExtend | src/main/java/com/k2/Util/entity/EntityUtil.java:104-132 | caching the member an empty-cache walk finds keeps the cache sound |
| Hierarchy.AfterSuperSound | src/main/java/com/k2/Util/entity/EntityUtil.java:127-137 | agreeing warm and cold superclass answers give agreeing class answers and keep the warm cache sound |
| Hierarchy.AncestorFallbackWins | src/main/java/com/k2/Util/entity/EntityUtil.java:127-135 | with no own member anywhere on the chain, the fallback of the most ancestral class that has one is the answer |
| Members.DeclaredFields | src/main/java/com/k2/Util/classes/ClassUtil.java:452-466 | getDeclaredFields holds exactly the class's own fields that are neither synthetic nor named serialVersionUID |
| Members.AllFields | src/main/java/com/k2/Util/classes/ClassUtil.java:437-443 | getAllFields starts with the class's own declared fields and holds only kept fields |
| Members.FieldsAlongMember | src/main/java/com/k2/Util/classes/ClassUtil.java:437-443 | the fields gathered along a chain are exactly those some class of the chain declares |
| Members.AllFieldsMember | src/main/java/com/k2/Util/classes/ClassUtil.java:437-443 | a field is in getAllFields exactly when some supertype of the class declares it (and keeps it) |
| Members.GetField | src/main/java/com/k2/Util/classes/ClassUtil.java:500-507 | getField(cls, alias, strict) returns a field of getAllFields with that name; a miss throws a UtilityError exactly when strict and returns null exactly when not strict |
| Members.GetFieldIsFirst | src/main/java/com/k2/Util/classes/ClassUtil.java:500-507 | the field found is the earliest of that name in getAllFields, so a subclass field hides an ancestor's |
| Members.GetFieldFor | src/main/java/com/k2/Util/classes/ClassUtil.java:509-514 | getField(cls, type) returns the first field in getAllFields order whose type accepts the given class (no earlier field's type does), and null exactly when none does |
| Members.DeclaredMethods | src/main/java/com/k2/Util/classes/ClassUtil.java:380-394 | getDeclaredMethods holds exactly the class's own non-synthetic methods |
| Members.SameSignatureIsStrictEquality | src/main/java/com/k2/Util/classes/ClassUtil.java:363-369 | the shadowing test of getAllMethods is MethodSignature's strict equality |
| Members.AddNewDistinct | src/main/java/com/k2/Util/classes/ClassUtil.java:363-369 | adding methods only when their signature is not yet listed keeps signatures distinct |
| Members.AddNewCovers | src/main/java/com/k2/Util/classes/ClassUtil.java:363-369 | every offered method ends with its signature listed |
| Members.AddNewKeepsFirst | src/main/java/com/k2/Util/classes/ClassUtil.java:363-369 | the first offered method of a new signature is the one kept |
| Members.MethodsAlongSound | src/main/java/com/k2/Util/classes/ClassUtil.java:361-371 | every method of the chain walk is declared by a class of the chain other than Object |
| Members.AllMethodsDistinct | src/main/java/com/k2/Util/classes/ClassUtil.java:351-374 | getAllMethods lists every signature at most once |
| Members.AllMethodsSound | src/main/java/com/k2/Util/classes/ClassUtil.java:351-374 | every method of getAllMethods is non-synthetic and comes from a superinterface's expansion or a class of the chain below Object; for a class, only from the chain |
| Members.AllMethodsComplete | src/main/java/com/k2/Util/classes/ClassUtil.java:351-374 | every method of a superinterface's expansion or of the chain below Object has its signature in getAllMethods |
| Members.SuperinterfaceMethodsListed | src/main/java/com/k2/Util/classes/ClassUtil.java:353-360 | an interface's getAllMethods carries the signature of every method of each direct superinterface's getAllMethods |
| Members.OwnMethodKept | src/main/java/com/k2/Util/classes/ClassUtil.java:351-374 | a method the class itself declares is kept unless an earlier own declaration or a superinterface brings its signature first |
| Members.OwnMethodsFirst | src/main/java/com/k2/Util/classes/ClassUtil.java:361-371 | below Object, the chain walk lists the class's own methods first, in order |
| ClassUtil.FindMatchingSupertype | src/main/java/com/k2/Util/classes/ClassUtil.java:326-333 | findMatchingSupertype returns the class itself for two equal classes, and otherwise a class on both chains |
| ClassUtil.MatchingSupertypeIsCommon | src/main/java/com/k2/Util/classes/ClassUtil.java:326-333 | the supertype found is assignable from both classes |
| ClassUtil.MatchingSupertypeIsNearest | src/main/java/com/k2/Util/classes/ClassUtil.java:326-333 | no class below it on the first class's chain is a supertype of the second class |
| ClassUtil.SameRootMatches | src/main/java/com/k2/Util/classes/ClassUtil.java:326-333 | two classes whose chains end at the same root always have a matching supertype |
| ClassUtil.GetterMember | src/main/java/com/k2/Util/classes/ClassUtil.java:733-747 | getGetterMember returns a getter method of getAllMethods when one exists; only when none exists, a field of getAllFields named by the alias whose type fits; null exactly when neither exists |
| ClassUtil.GetterMemberIsFirst | src/main/java/com/k2/Util/classes/ClassUtil.java:734-745 | the method answered is the first getter in getAllMethods order, and the field the first matching one in getAllFields order |
| ClassUtil.SetterMember | src/main/java/com/k2/Util/classes/ClassUtil.java:763-777 | getSetterMember(cls, type, alias) returns a setter method of getAllMethods when one exists; only when none exists, a field named by the alias whose type fits; null exactly when neither exists |
| ClassUtil.SetterMemberIsFirst | src/main/java/com/k2/Util/classes/ClassUtil.java:764-775 | the method answered is the first setter in getAllMethods order, and the field the first matching one in getAllFields order |
| ClassUtil.SetterMemberFor | src/main/java/com/k2/Util/classes/ClassUtil.java:749-761 | getSetterMember(cls, type) returns a one-parameter method accepting the type when one exists; only when none exists, a field whose type accepts it; null exactly when neither exists |
| ClassUtil.SetterMemberForIsFirst | src/main/java/com/k2/Util/classes/ClassUtil.java:750-759 | the method answered is the first accepting one in getAllMethods order, and the field the first of a fitting type in getAllFields order |
| ClassUtil.BuildGetter | src/main/java/com/k2/Util/classes/ClassUtil.java:645-651 | a getter built from a resolved member works through the requested object class and supplies a value assignable to the requested value class |
| ClassUtil.GetGetter | src/main/java/com/k2/Util/classes/ClassUtil.java:639-666 | a cached getter is returned only when it supplies the requested value class, else null, and the cache is unchanged; an uncached lookup caches exactly the getter it returns, and caches nothing when it returns null |
| ClassUtil.CanGet | src/main/java/com/k2/Util/classes/ClassUtil.java:729-731 | canGet is true exactly when getGetter returns a getter, and leaves the cache getGetter leaves |
| ClassUtil.GetGetterFits | src/main/java/com/k2/Util/classes/ClassUtil.java:639-666 | every getter returned supplies a value assignable to the requested class through the requested object class |
| ClassUtil.GetGetterKeepsInvariant | src/main/java/com/k2/Util/classes/ClassUtil.java:639-666 | every cached getter stays keyed by its own object class |
| ClassUtil.GetGetterRepeats | src/main/java/com/k2/Util/classes/ClassUtil.java:639-666 | asking the same question again gives the same getter and leaves the cache alone |
| ClassUtil.ExactTypeResolves | src/main/java/com/k2/Util/classes/ClassUtil.java:639-666 | a cold request whose member's type is exactly the requested class yields a getter |
| ClassUtil.ColdSupertypeRequestThrows | src/main/java/com/k2/Util/classes/ClassUtil.java:639-666 | a cold request for a strict supertype of the member's type fails in the getter's constructor with a UtilityError |
| ClassUtil.WarmSupertypeRequestSucceeds | src/main/java/com/k2/Util/classes/ClassUtil.java:655-661 | a warm request for any class assignable from the cached getter's type returns the cached getter |
| ClassNames.PackageName | src/main/java/com/k2/Util/classes/ClassUtil.java:863-868 | the package of a canonical name is "" for null, "" or a name without '.', and otherwise the proper prefix that ends just before a '.' |
| ClassNames.Basename | src/main/java/com/k2/Util/classes/ClassUtil.java:870-875 | the basename is "void" for null or "", contains no '.', and is the whole name when the name has no '.' |
| ClassNames.SplitRejoins | src/main/java/com/k2/Util/classes/ClassUtil.java:863-875 | package, '.', and basename put back together give the name |
| ClassNames.SplitIsAtLastDot | src/main/java/com/k2/Util/classes/ClassUtil.java:863-875 | the split is at the last '.' |
| ClassNames.AliasFromMethodName | src/main/java/com/k2/Util/classes/ClassUtil.java:854-860 | the alias of a method name is "" for null or "", drops exactly three characters from a get/set name, and keeps the length otherwise |
| ClassNames.AliasOfGetter | src/main/java/com/k2/Util/classes/ClassUtil.java:854-860 | the alias of get/set followed by a property is the property with its initial lower-cased |
| Members.FieldsAlong | src/main/java/com/k2/Util/classes/ClassUtil.java:437-443 | every field collected along the chain is a kept field: not synthetic and not serialVersionUID |
| Members.IndexOfName | src/main/java/com/k2/Util/classes/ClassUtil.java:500-507 | the index found is the first field with the name, and none is found only when no field has it |
| Members.IndexOfTypeFor | src/main/java/com/k2/Util/classes/ClassUtil.java:509-514 | the index found is the first field whose type accepts the requested type, and none is found only when no field's type does |
| Members.AllMethods | src/main/java/com/k2/Util/classes/ClassUtil.java:351-374 | getAllMethods never lists a synthetic method |
| Members.SuperinterfaceMethods | src/main/java/com/k2/Util/classes/ClassUtil.java:353-360 | the methods collected from the superinterfaces are never synthetic |
| Getters.NewMethodGetter | src/main/java/com/k2/Util/classes/MethodGetter.java:28-35 | a method getter is built exactly when the method's return type is assignable from the requested type and its declaring class from the object class; otherwise a UtilityError |
| Getters.NewFieldGetter | src/main/java/com/k2/Util/FieldGetter.java:25-33 | a field getter is built exactly when the field's type is assignable from the requested class and its declaring class from the object class; otherwise a UtilityError |
| Getters.ConstructedGetterFits | src/main/java/com/k2/Util/classes/MethodGetter.java:28-35 | a constructed getter supplies the requested type through a subclass of its declaring class |
| Getters.Alias | src/main/java/com/k2/Util/classes/MethodGetter.java:95-97 | a field getter's alias is the field name; a method getter's is its name without the first three characters, initial lower-cased, and an index error for a name shorter than three |
| Getters.MethodGetterAlias | src/main/java/com/k2/Util/classes/MethodGetter.java:95-97 | the getter of "get" + initialUpperCase(alias) reports initialLowerCase(alias) as its alias |
| Getters.EqualIsIdentity | src/main/java/com/k2/Util/classes/MethodGetter.java:50-71 | two getters are equal exactly when they have the same kind, member and object class |
| Getters.Get | src/main/java/com/k2/Util/classes/MethodGetter.java:80-87 | get on null throws a NullPointerException; any other failure is a UtilityError naming the declaring class; a field getter succeeds exactly when the field read does, with its value; a method getter on a non-null object succeeds exactly when the no-argument call does, and returns what it returns |
| Getters.FieldGetterReads | src/main/java/com/k2/Util/FieldGetter.java:75-82 | a field getter used on an instance reads the field's slot, or the field type's default when the slot was never written |
| CanGetCases.SupertypesOfABC | src/test/java/com/k2/Util/ClassUtilTest.java:131-139 | getSupertypes(ABC) is ABC, AB, A, Object: four classes |
| CanGetCases.MatchingSupertypeOfABCAndAD | src/test/java/com/k2/Util/ClassUtilTest.java:142-145 | findMatchingSupertype(ABC, AD) is A |
| CanGetCases.DeclaredFieldsOfTestClasses | src/test/java/com/k2/Util/ClassUtilTest.java:95-115 | the inner test classes' synthetic outer references are dropped from getDeclaredFields |
| CanGetCases.AllFieldsOfABC | src/test/java/com/k2/Util/ClassUtilTest.java:95-110 | getAllFields(ABC) is c, ab, b, a |
| CanGetCases.AllMethodsOfABC | src/test/java/com/k2/Util/ClassUtilTest.java:105-110 | getAllMethods(ABC) is getAAndB alone |
| CanGetCases.ColdStep | src/main/java/com/k2/Util/classes/ClassUtil.java:639-666 | a first request whose member passes both constructor checks answers true and caches the getter |
| CanGetCases.ColdMissStep | src/main/java/com/k2/Util/classes/ClassUtil.java:639-666 | a first request with no member answers false and caches nothing |
| CanGetCases.WarmStep | src/main/java/com/k2/Util/classes/ClassUtil.java:655-661 | a request the cache answers tells whether the cached getter's type fits, cache unchanged |
| CanGetCases.Step1 | src/test/java/com/k2/Util/ClassUtilTest.java:119 | canGet(ABC, int, "a") is true and caches the field getter of a |
| CanGetCases.Step2 | src/test/java/com/k2/Util/ClassUtilTest.java:120 | canGet(ABC, int, "b") is true |
| CanGetCases.Step3 | src/test/java/com/k2/Util/ClassUtilTest.java:121 | canGet(ABC, int, "c") is true |
| CanGetCases.Step4 | src/test/java/com/k2/Util/ClassUtilTest.java:122 | canGet(ABC, AB, "ab") is true and caches the getter of ab |
| CanGetCases.Step5 | src/test/java/com/k2/Util/ClassUtilTest.java:123 | canGet(ABC, A, "ab") is true from the cache |
| CanGetCases.Step6 | src/test/java/com/k2/Util/ClassUtilTest.java:124 | canGet(ABC, AB, "aAndB") is true and caches the method getter |
| CanGetCases.Step7 | src/test/java/com/k2/Util/ClassUtilTest.java:125 | canGet(ABC, A, "aAndB") is true from the cache |
| CanGetCases.Step8 | src/test/java/com/k2/Util/ClassUtilTest.java:126 | canGet(ABC, String, "c") is false: the cached int getter does not supply a String |
| CanGetCases.Step9 | src/test/java/com/k2/Util/ClassUtilTest.java:127 | canGet(ABC, int, "d") is false: AD's field is not ABC's |
| CanGetCases.ColdOrderFails | src/test/java/com/k2/Util/ClassUtilTest.java:122-123 | asked first, canGet(ABC, A, "ab") throws instead of answering: the assertions pass only in their written order |
| CanGetCases.ColdOrderFailsForMethod | src/test/java/com/k2/Util/ClassUtilTest.java:124-125 | asked first, canGet(ABC, A, "aAndB") throws as well |
| IdMembers.DeclaredIdMember | src/main/java/com/k2/Util/entity/EntityUtil.java:101-125 | a class's own id member is its first declared @Id/@EmbeddedId field, else its first annotated declared method, which must take no arguments (a UtilityError otherwise); none exactly when no declared field or method is annotated |
| IdMembers.IdNamedField | src/main/java/com/k2/Util/entity/EntityUtil.java:130-135 | the fallback is a raw declared field named "id" in any case with a Serializable type, and none exactly when no field qualifies |
| IdMembers.IdNamedMember | src/main/java/com/k2/Util/entity/EntityUtil.java:130-135 | the fallback member exists exactly when the "id" field does, and is that field |
| IdMembers.GetIdMember | src/main/java/com/k2/Util/entity/EntityUtil.java:96-140 | getIdMember returns a cached member as is, fails with the class's UtilityError when its own annotated method is bad, returns and caches its own annotated member, and otherwise only adds cache entries for classes of the chain |
| IdMembers.GetIdFieldType | src/main/java/com/k2/Util/entity/EntityUtil.java:202-213 | getIdFieldType succeeds exactly when getIdMember does, is null exactly when the member is, and is the field type or the method's return type |
| IdMembers.GetIdMemberSound | src/main/java/com/k2/Util/entity/EntityUtil.java:96-140 | over a cache holding only what uncached lookups find, getIdMember answers as an uncached lookup and leaves such a cache |
| IdMembers.AnnotatedBeatsIdNamed | src/main/java/com/k2/Util/entity/EntityUtil.java:96-140 | an @Id field anywhere up the chain makes the member found an annotated one, never a field merely named "id" |
| IdMembers.InheritedIdDecides | src/main/java/com/k2/Util/entity/EntityUtil.java:127-128 | a class without own annotated members takes the annotated member or the failure of its superclass |
| IdMembers.AncestorIdFieldWins | src/main/java/com/k2/Util/entity/EntityUtil.java:127-135 | without annotations anywhere, the "id" field of the most ancestral class that has one is the id member, and null exactly when no class has one |
| IdMembers.IdNamedAbove | src/main/java/com/k2/Util/entity/EntityUtil.java:130-135 | no class above the winning one on the chain has an "id" field |
| IdMembers.IdFallback | src/main/java/com/k2/Util/entity/EntityUtil.java:130-135 | the fallback rule of the walk is exactly the class's "id" field |
| IdentityUtil.OwnIdentity | src/main/java/com/k2/Util/Identity/IdentityUtil.java:78-90 | a class's own identity member never fails and carries @Identity |
| IdentityUtil.OwnIdentityOrder | src/main/java/com/k2/Util/Identity/IdentityUtil.java:78-90 | a declared @Identity method comes before any @Identity field, and none is found exactly when the class declares neither |
| IdentityUtil.AliasMemberMeaning | src/main/java/com/k2/Util/Identity/IdentityUtil.java:95-102 | the alias member is the String getter member of the earliest of "identity", "alias", "name", "title" that has one, and none exactly when none has |
| IdentityUtil.GetIdentityMember | src/main/java/com/k2/Util/Identity/IdentityUtil.java:73-107 | a cached member is returned; an own @Identity member is returned and cached; a null answer leaves the cache alone; entries are only added; the only failure is a stack overflow |
| IdentityUtil.OwnIdentityNeverThrows | src/main/java/com/k2/Util/Identity/IdentityUtil.java:78-90 | looking at a class's own @Identity members never throws |
| IdentityUtil.GetIdentityMemberTotal | src/main/java/com/k2/Util/Identity/IdentityUtil.java:73-107 | in an acyclic hierarchy getIdentityMember never throws |
| IdentityUtil.GetIdentityMemberSound | src/main/java/com/k2/Util/Identity/IdentityUtil.java:73-107 | over a sound cache getIdentityMember answers as an uncached lookup and leaves a sound cache |
| IdentityUtil.AnnotatedBeatsAlias | src/main/java/com/k2/Util/Identity/IdentityUtil.java:73-107 | an @Identity member anywhere up the chain makes the member found an @Identity one, never an alias getter |
| IdentityUtil.OwnIdentityDecides | src/main/java/com/k2/Util/Identity/IdentityUtil.java:78-90 | a class with an own @Identity member finds it |
| IdentityUtil.InheritedIdentityDecides | src/main/java/com/k2/Util/Identity/IdentityUtil.java:92-93 | a class without own @Identity members takes the @Identity member its superclass finds |
| IdentityUtil.AncestorAliasWins | src/main/java/com/k2/Util/Identity/IdentityUtil.java:92-102 | without @Identity members anywhere, the alias getter of the most ancestral class that has one wins |
| IdentityUtil.NoAliasAboveWinner | src/main/java/com/k2/Util/Identity/IdentityUtil.java:92-102 | no class above the winning one has an alias getter |
| IdentityUtil.MemberValue | src/main/java/com/k2/Util/Identity/IdentityUtil.java:126-143 | an @Identity member that is not public cannot be read (IllegalAccess); otherwise the value is the field read or the no-argument call |
| IdentityUtil.AsString | src/main/java/com/k2/Util/Identity/IdentityUtil.java:131 | the String cast passes a String or null and throws ClassCastException for anything else |
| IdentityUtil.IdText | src/main/java/com/k2/Util/Identity/IdentityUtil.java:146-150 | the last resort is the text of getId's result, or the default when getId throws or gives null |
| IdentityUtil.GetIdentity | src/main/java/com/k2/Util/Identity/IdentityUtil.java:121-152 | getIdentity is null for null and the object's own identity for an Identified object; otherwise it can fail only with a ClassCastException or a cyclic hierarchy |
| IdentityUtil.ByMember | src/main/java/com/k2/Util/Identity/IdentityUtil.java:125-150 | a readable member gives its value cast to String; an unreadable or missing member falls back to the id text without failing |
| IdentityUtil.GetIdentityOf | src/main/java/com/k2/Util/Identity/IdentityUtil.java:109-111 | the one-argument form throws NullPointerException on null and otherwise uses the class's simple name as the default |
| IdentityUtil.GetIdentitySound | src/main/java/com/k2/Util/Identity/IdentityUtil.java:121-152 | over sound caches getIdentity answers as with empty caches and keeps them sound |
| IdentityUtil.GetIdentitySoundByMember | src/main/java/com/k2/Util/Identity/IdentityUtil.java:125-150 | the same for an object that is not Identified |
| IdentityUtil.GetIdentityByMember | src/main/java/com/k2/Util/Identity/IdentityUtil.java:125-150 | for an object that is not Identified, getIdentity is the member lookup followed by the member read |
| IdentityUtil.ByMemberSound | src/main/java/com/k2/Util/Identity/IdentityUtil.java:125-150 | warm and cold lookups that found the same member give the same identity |
| IdentityUtil.IdTextSound | src/main/java/com/k2/Util/Identity/IdentityUtil.java:146-150 | the id-text fallback over sound key caches gives what it gives over empty ones and keeps them sound |
| IdentityUtil.NoIdentityIsDefault | src/main/java/com/k2/Util/Identity/IdentityUtil.java:146-150 | without an identity member, when getId throws or gives null, the identity is the default |
| IdentityUtil.NoIdentityIsIdText | src/main/java/com/k2/Util/Identity/IdentityUtil.java:146-150 | without an identity member, the identity is the text of the id getId gives |
| IdentityUtil.IdentityFieldGivesValue | src/main/java/com/k2/Util/Identity/IdentityUtil.java:137-139 | a readable identity field holding a String gives that String, whatever the default |
| IdentityUtil.HiddenIdentityFallsBack | src/main/java/com/k2/Util/Identity/IdentityUtil.java:126-150 | a non-public @Identity field or method is not readable, and the identity falls back to the id text or the default |
| Values.CheckedRead | src/main/java/com/k2/Util/Identity/IdentityUtil.java:138-141 | reading a field that was never made accessible succeeds exactly when the field is public and the read itself succeeds, with the same value; a non-public field is an IllegalAccessException |
| Values.CheckedInvoke | src/main/java/com/k2/Util/Identity/IdentityUtil.java:131-134 | invoking a method that was never made accessible succeeds exactly when the method is public and the call succeeds, with the same result; a non-public method is an IllegalAccessException |
| EntityKeys.SingleOfIsSingletonSet | src/main/java/com/k2/Util/Identity/EntityToKey.java:34-48 | a rule of forClass picks a member exactly when its annotated list holds one distinct member |
| EntityKeys.AnnotatedFields | src/main/java/com/k2/Util/classes/ClassUtil.java:478-487 | getAllAnnotatedFields holds exactly the fields of getAllFields that carry the annotation |
| EntityKeys.AnnotatedMethods | src/main/java/com/k2/Util/classes/ClassUtil.java:407-416 | getAllAnnotatedMethods holds exactly the methods of getAllMethods that carry the annotation |
| EntityKeys.PairKeyFields | src/main/java/com/k2/Util/Identity/EntityIdClassToKey.java:16-26 | the id-class extractor pairs each @Id field, in order, with the id class's field of the same name, and fails with a UtilityError exactly when one of those names is missing from the id class |
| EntityKeys.PairKeyFieldsMeaning | src/main/java/com/k2/Util/Identity/EntityIdClassToKey.java:16-26 | pairing succeeds exactly when every id field's name is a field of the id class, and each pair holds that field |
| EntityKeys.CopyIdFields | src/main/java/com/k2/Util/Identity/EntityIdClassToKey.java:42-48 | copying keeps the key's class; a null entity is a NullPointerException; any other failure is a UtilityError naming an id field |
| EntityKeys.CopyIdFieldsSucceeds | src/main/java/com/k2/Util/Identity/EntityIdClassToKey.java:42-48 | the key is built exactly when every pair's entity field reads and its key field accepts the value |
| EntityKeys.CopyIdFieldsWrites | src/main/java/com/k2/Util/Identity/EntityIdClassToKey.java:42-48 | every key field written holds the value its last pair copied |
| EntityKeys.CopyIdFieldsKeeps | src/main/java/com/k2/Util/Identity/EntityIdClassToKey.java:42-48 | a key slot no pair writes is left as it was |
| EntityKeys.CopyIdFieldsSlotAgrees | src/main/java/com/k2/Util/Identity/EntityIdClassToKey.java:42-48 | two pair lists with the same pairs build keys that agree slot by slot |
| EntityKeys.IdClassKeyOrderFree | src/main/java/com/k2/Util/Identity/EntityIdClassToKey.java:42-48 | with distinct key fields the order of the pairs does not change the key built |
| EntityKeys.PairKeyFieldsDistinct | src/main/java/com/k2/Util/Identity/EntityIdClassToKey.java:19-23 | id fields with distinct names pair with distinct key fields |
| EntityKeys.PairKeyFieldsOrderFree | src/main/java/com/k2/Util/Identity/EntityIdClassToKey.java:19-23 | the same id fields in any order give the same pairs |
| EntityKeys.PairFailureCarries | src/main/java/com/k2/Util/Identity/EntityIdClassToKey.java:19-23 | a missing key field makes pairing fail for every list holding its id field |
| EntityKeys.PairsIncluded | src/main/java/com/k2/Util/Identity/EntityIdClassToKey.java:19-23 | every pair made from a list is made from any list holding all its id fields |
| EntityKeys.IdClassGetKey | src/main/java/com/k2/Util/Identity/EntityIdClassToKey.java:34-49 | an id class newInstance refuses, or whose constructor body throws InstantiationException or IllegalAccessException, gives a UtilityError naming it; any other exception of the constructor body escapes; once the key is made, a null entity is a NullPointerException and any other failure a UtilityError naming an id field; a key built is an instance of the id class |
| EntityKeys.IdClassKeyHoldsIds | src/main/java/com/k2/Util/Identity/EntityIdClassToKey.java:34-49 | the key is built exactly when newInstance makes the id class and every pair copies, and then every key field reads back the copied id value |
| EntityKeys.GetKey | src/main/java/com/k2/Util/Identity/EntityFieldToKey.java:23-29 | the id-class extractor builds the paired key; a field extractor succeeds exactly when the entity is an instance of the declaring class and the field is annotated or public, with the field's value; a method extractor exactly when the no-argument call succeeds, with its result; their failures are NullPointerExceptions because the extractor's entity class is never set |
| EntityKeys.IdClassOf | src/main/java/com/k2/Util/Identity/EntityToKey.java:30-32 | the id class is the one named by the @IdClass the annotation lookup finds along the chain, and its failures are the lookup's |
| EntityKeys.KeyOfMember | src/main/java/com/k2/Util/Identity/EntityToKey.java:50-58 | the last rule builds an extractor reading exactly the member getIdMember finds, and fails with a UtilityError naming the class when it finds none |
| EntityKeys.CountedExtractor | src/main/java/com/k2/Util/Identity/EntityToKey.java:34-48 | the counted rules never build an id-class extractor |
| EntityKeys.Decide | src/main/java/com/k2/Util/Identity/EntityToKey.java:28-48 | the annotation lookup's failure is forClass's; without @IdClass the counted rules decide; an id-class extractor uses the id class the annotation names |
| EntityKeys.ForClass | src/main/java/com/k2/Util/Identity/EntityToKey.java:28-60 | forClass fails when the decision fails, and a decided extractor leaves the id-member cache untouched |
| EntityKeys.ForClassOrder | src/main/java/com/k2/Util/Identity/EntityToKey.java:34-57 | without @IdClass, the first of @EmbeddedId field, @EmbeddedId method, @Id field, @Id method with exactly one distinct member picks it; when none has exactly one, getIdMember decides |
| EntityKeys.IdClassAnywhereWins | src/main/java/com/k2/Util/Identity/EntityToKey.java:30-32 | an @IdClass on the class or an ancestor below Object selects the id-class extractor whatever other id members exist; forClass then succeeds exactly when pairing does |
| EntityKeys.FallbackFindsAnnotated | src/main/java/com/k2/Util/Identity/EntityToKey.java:50-55 | when some class of the chain declares an @Id field, the last rule extracts through an annotated member |
| EntityKeys.TwoIdFieldsFallThrough | src/main/java/com/k2/Util/Identity/EntityToKey.java:42-55 | two distinct @Id fields and no other id members fall through to the getIdMember rule, which extracts through an annotated member |
| EntityKeys.NoKeySourceIsError | src/main/java/com/k2/Util/Identity/EntityToKey.java:50-58 | with no @IdClass, no annotated id member and no "id" field along the chain, forClass throws a UtilityError naming the class |
| EntityKeys.NoDeclaredIdMember | src/main/java/com/k2/Util/entity/EntityUtil.java:101-125 | a class declaring no annotated field or method has no own id member |
| EntityKeys.FallbackWithoutIdIsError | src/main/java/com/k2/Util/Identity/EntityToKey.java:50-58 | a last rule that finds no member is a UtilityError naming the class |
| EntityKeys.NoKeyMembersCounted | src/main/java/com/k2/Util/Identity/EntityToKey.java:34-48 | with no @Id or @EmbeddedId member along the chain no counted rule applies |
| EntityKeys.NothingAnnotatedCounted | src/main/java/com/k2/Util/Identity/EntityToKey.java:34-48 | with no annotated field or method at all no counted rule applies |
| EntityKeys.FallbackKeyClassIsIdFieldType | src/main/java/com/k2/Util/entity/EntityUtil.java:202-213 | the key class of the last rule's extractor is what getIdFieldType reports |
| EntityKeys.ForClassSound | src/main/java/com/k2/Util/Identity/EntityToKey.java:28-60 | over a sound id-member cache forClass builds what it builds from an empty cache and keeps the cache sound |
| EntityKeys.ForClassNoEntityClass | src/main/java/com/k2/Util/Identity/EntityFieldToKey.java:11-13 | no extractor forClass builds has its entity class set |
| EntityKeys.FallbackKeySound | src/main/java/com/k2/Util/Identity/EntityToKey.java:50-58 | the last rule over a sound cache agrees with the last rule over an empty one |
| EntityKeys.KeyOfMemberAgrees | src/main/java/com/k2/Util/Identity/EntityToKey.java:50-58 | lookups that agree on the member build the same extractor |
| EntityKeys.ChooseKeyConstructor | src/main/java/com/k2/Util/Identity/KeyConstructor.java:11-26 | keyConstructor picks the first own method annotated @KeySetter taking one String; without one, the (String) constructor; a UtilityError exactly when neither exists |
| EntityKeys.InheritedKeySetterIgnored | src/main/java/com/k2/Util/Identity/KeyConstructor.java:13-19 | a key setter inherited from a superclass is not seen |
| EntityKeys.MakeKey | src/main/java/com/k2/Util/Identity/KeyByMethod.java:17-26 | a method key succeeds exactly when newInstance makes the key class and the setter call on that object succeeds, with the setter's result; an exception of the constructor body other than the four caught escapes as it is; a constructor key needs a successful constructor call; every other failure is a UtilityError naming the key class |
| EntityKeys.ToKey | src/main/java/com/k2/Util/entity/EntityUtil.java:187-195 | toKey uses the cached constructor; otherwise it chooses one and caches it before use, and caches nothing when the choice fails |
| EntityKeys.ToKeySound | src/main/java/com/k2/Util/entity/EntityUtil.java:187-195 | over a sound constructor cache toKey gives what it gives with an empty cache and keeps the cache sound |
| EntityKeys.GeneratorFor | src/main/java/com/k2/Util/entity/EntityUtil.java:163-167 | the generator is the cached one, or forClass's, which is then cached |
| EntityKeys.GeneratorForSound | src/main/java/com/k2/Util/entity/EntityUtil.java:163-167 | over sound caches the generator is what forClass builds from nothing, and the caches stay sound |
| EntityKeys.GeneratorsExtend | src/main/java/com/k2/Util/entity/EntityUtil.java:163-167 | caching a generator built from nothing keeps the generator cache sound |
| EntityKeys.AsSerializable | src/main/java/com/k2/Util/entity/EntityUtil.java:166 | the Serializable cast passes null and serializable values unchanged and throws ClassCastException otherwise |
| EntityKeys.GetId | src/main/java/com/k2/Util/entity/EntityUtil.java:155-167 | getId is null for null, the object's own id for an Id, and otherwise its generator's key, which is null or Serializable; a failed generator fails getId and changes no cache |
| EntityKeys.ExtractId | src/main/java/com/k2/Util/entity/EntityUtil.java:166 | an extracted id is null or Serializable |
| EntityKeys.GetIdSound | src/main/java/com/k2/Util/entity/EntityUtil.java:155-167 | over sound caches getId gives what it gives with empty ones and keeps them sound |
| EntityKeys.GetIdSoundByGenerator | src/main/java/com/k2/Util/entity/EntityUtil.java:162-166 | the same for an object whose id comes from its generator |
| EntityKeys.GetIdByGenerator | src/main/java/com/k2/Util/entity/EntityUtil.java:162-166 | the id of an object that is not an Id is its generator's extraction |
| EntityKeys.EntityKeyClassIsIdFieldType | src/main/java/com/k2/Util/entity/EntityUtil.java:216-223 | without @IdClass and counted members, an entity's key class is what getIdFieldType reports over the same cache |
| EntityFields.ColumnNameOf | src/main/java/com/k2/Util/entity/EntityField.java:55-61 | a field has a column name exactly when it carries @Column, and the name is that annotation's |
| EntityFields.ManyToOneOf | src/main/java/com/k2/Util/entity/EntityLink.java:34-42 | a field has link attributes exactly when it carries @ManyToOne, and they are that annotation's fetch type and cascades |
| EntityFields.JoinColumnOf | src/main/java/com/k2/Util/entity/EntityLink.java:44-46 | a field's @JoinColumn, exactly when it carries one |
| EntityFields.JoinColumnsOf | src/main/java/com/k2/Util/entity/EntityLink.java:73-79 | a field's @JoinColumns entries, and none without the annotation |
| EntityFields.NewEntityField | src/main/java/com/k2/Util/entity/EntityField.java:29-62 | an EntityField is built exactly when getGetter succeeds; it records the class, type, field, alias and column name, the getter and setter members when they are methods, and the getter getGetter returns, leaving getGetter's cache |
| EntityFields.LinkFromFields | src/main/java/com/k2/Util/entity/EntityLink.java:101-107 | getLinkFromFields gives each join's from-side field, in join order |
| EntityFields.LinkToFields | src/main/java/com/k2/Util/entity/EntityLink.java:109-115 | getLinkToFields as intended gives each join's to-side field, in join order |
| EntityFields.LinkToFieldsAsWrittenIsFrom | src/main/java/com/k2/Util/entity/EntityLink.java:109-115 | getLinkToFields as written always equals getLinkFromFields |
| EntityFields.LinkToFieldsAsWrittenWrong | src/main/java/com/k2/Util/entity/EntityLink.java:109-115 | on a link with one join between different fields the written getLinkToFields returns the from-field where the intended one returns the to-field |
| EntityCaches.NewEntityCache | src/main/java/com/k2/Util/entity/EntityCache.java:30-48 | a cache is built exactly for a class carrying @Entity (otherwise a UtilityError); the entity name is the annotation's unless empty, then the simple name; the table name is the @Table name when there is one, else the entity name; all maps start empty |
| EntityCaches.EntityNameOf | src/main/java/com/k2/Util/entity/EntityCache.java:38 | the entity name is the given name unless it is empty, then the class's simple name |
| EntityCaches.GetEntityCache | src/main/java/com/k2/Util/entity/EntityUtil.java:40-47 | getEntityCache returns the cached cache unchanged; a class without @Entity fails and caches nothing; otherwise the cache it returns is the one left in the map; no earlier cache is lost and soundness is kept |
| EntityCaches.SizeIsCardinality | src/main/java/com/k2/Util/entity/EntityUtil.java:40-47 | the count of classes still uncached is the cardinality of that set, which bounds the mutual recursion of getEntityCache and EntityLink |
| EntityCaches.PendingShrinks | src/main/java/com/k2/Util/entity/EntityUtil.java:45-46 | putting a new class's cache in the map leaves fewer classes uncached |
| EntityCaches.SoundAfterPut | src/main/java/com/k2/Util/entity/EntityUtil.java:45-46 | putting a sound cache keeps the map sound |
| EntityCaches.PopulateColumns | src/main/java/com/k2/Util/entity/EntityCache.java:51-59 | the column loop keeps the entity's class and name and keeps a cache sound |
| EntityCaches.DefaultTarget | src/main/java/com/k2/Util/entity/EntityLink.java:51-61 | a defaulted join target needs exactly one key field with @Column: more is a UtilityError, none an index error, one without @Column a NullPointerException |
| EntityCaches.KeyColumnName | src/main/java/com/k2/Util/KeyUtil.java:419-421 | an embedded key field stands for its @Column name when set, else its field name |
| EntityCaches.FirstKeyField | src/main/java/com/k2/Util/KeyUtil.java:409-427 | the first field of getAllFields annotated @Id or @EmbeddedId, and none exactly when there is none |
| EntityCaches.FieldByName | src/main/java/com/k2/Util/entity/EntityCache.java:87-92 | getEntityFieldByName returns the EntityField recorded under the column name, fails with a UtilityError naming it exactly when none is recorded, and leaves a cached state unchanged |
| EntityCaches.KeyColumns | src/main/java/com/k2/Util/KeyUtil.java:418-424 | an embedded key gives one column field for each @Column field of the key class |
| EntityCaches.GetKeyFields | src/main/java/com/k2/Util/KeyUtil.java:409-430 | getKeyFields throws a UtilityError naming a class without key fields, returns an @Id field on its own, and otherwise only @Column fields |
| EntityCaches.MakeJoin | src/main/java/com/k2/Util/entity/EntityLink.java:65-70 | a join built joins the named column of the linking class with the named column of the class linked to |
| EntityCaches.Joins | src/main/java/com/k2/Util/entity/EntityLink.java:79-93 | the @JoinColumns loop gives one join per entry, each matching its entry's columns |
| EntityCaches.JoinTarget | src/main/java/com/k2/Util/entity/EntityLink.java:48-61 | a referenced column as written is used as is; an empty one defaults to the key column of the class linked to, failing as getKeyFields or the default fails |
| EntityCaches.SingleJoin | src/main/java/com/k2/Util/entity/EntityLink.java:44-71 | a field without @JoinColumn adds no join; with one, the join of its columns |
| EntityCaches.LinkJoins | src/main/java/com/k2/Util/entity/EntityLink.java:44-96 | a link's joins are its @JoinColumn join, if any, then its @JoinColumns joins |
| EntityCaches.NewLink | src/main/java/com/k2/Util/entity/EntityLink.java:29-97 | a link built records the field, its class, type and alias, the @ManyToOne attributes and the joins; a field without @ManyToOne is refused |
| EntityCaches.RecordLinkSound | src/main/java/com/k2/Util/entity/EntityCache.java:66-67 | recording a link keeps a cache sound |
| EntityCaches.PopulateLinks | src/main/java/com/k2/Util/entity/EntityCache.java:61-70 | the link loop only adds links to the class's cache, leaves its columns alone and keeps the other caches |
| EntityCaches.Populate | src/main/java/com/k2/Util/entity/EntityCache.java:50-71 | populateFields keeps every other class's cache and keeps the state sound |
| EntityCaches.ColumnByName | src/main/java/com/k2/Util/entity/EntityUtil.java:49-51 | getColumnByName succeeds as getEntityFieldByName does, with a field whose @Column names the column |
| EntityCaches.FieldByAlias | src/main/java/com/k2/Util/entity/EntityCache.java:101-106 | getEnityFieldByAlias returns what is recorded under the field name, fails with a UtilityError naming it exactly when nothing is, and passes on getEntityCache's failure |
| EntityCaches.ColumnByAlias | src/main/java/com/k2/Util/entity/EntityCache.java:94-99 | getColumnByAlias succeeds exactly when the recorded field has a column name, and fails with a UtilityError otherwise |
| EntityCaches.LinkByAlias | src/main/java/com/k2/Util/entity/EntityUtil.java:65-67 | getEnityLinkByAlias returns the recorded link, throws ClassCastException for a plain column field, and fails when nothing is recorded |
| EntityCaches.LazyLinks | src/main/java/com/k2/Util/entity/EntityUtil.java:69-77 | getLazyLoadLinks holds exactly the recorded links fetched lazily |
| EntityCaches.PopulateColumnsLastWins | src/main/java/com/k2/Util/entity/EntityCache.java:51-59 | after the column loop a column name is held by the last @Column field naming it and a field name by the last @Column field of that name |
| EntityCaches.PopulateLinksLastWins | src/main/java/com/k2/Util/entity/EntityCache.java:61-70 | after the link loop a field name is held by a link from the last @ManyToOne field of that name |
| EntityCaches.PopulateContents | src/main/java/com/k2/Util/entity/EntityCache.java:50-71 | after populateFields, columns and field names follow the fields in getAllFields order, the last declaration of a name winning and links replacing columns |
| EntityCaches.ColdEntityCacheContents | src/main/java/com/k2/Util/entity/EntityUtil.java:40-47 | a cache built from nothing holds exactly what populateFields records |
| EntityCaches.DefaultTargetNullOnlyForBareId | src/main/java/com/k2/Util/entity/EntityLink.java:51-61 | a defaulted join target throws NullPointerException exactly when the linked class's key is a single @Id field without @Column |
| EntityCaches.ColdLookups | src/main/java/com/k2/Util/entity/EntityUtil.java:49-67 | on a class built from nothing, a column name is found exactly when some @Column field names it (the last one), a field name exactly when a @Column or @ManyToOne field has it, a link exactly when a @ManyToOne field has it |
| DomainEntities.IsRootEntity | src/main/java/com/k2/Util/entity/EntityUtil.java:235-241 | a class carrying @RootEntity is a root entity; an untagged class whose superclass is Object is not; an untagged class without a superclass throws a NullPointerException; a yes means some class of the superclass chain carries @RootEntity; the only failures are NullPointerException and unbounded recursion |
| DomainEntities.IsRootEntityBelowObject | src/main/java/com/k2/Util/entity/EntityUtil.java:235-241 | for a class whose hierarchy reaches Object the answer is defined, and it is yes exactly when some class of its chain other than Object carries @RootEntity |
| DomainEntities.NotRootMeansDeclared | src/main/java/com/k2/Util/entity/EntityUtil.java:235-241 | a class found not to be a root entity is declared and has a superclass |
| DomainEntities.BaseEntityClass | src/main/java/com/k2/Util/entity/EntityUtil.java:225-233 | the base entity class is always one of the class's supertypes |
| DomainEntities.BaseEntityClassMeaning | src/main/java/com/k2/Util/entity/EntityUtil.java:225-233 | the base entity class is the topmost supertype carrying @Entity, and the class itself when none does |
| DomainEntities.LastTagged | src/main/java/com/k2/Util/entity/DomainEntityMap.java:23-32 | the field the constructor keeps for an annotation is the last one of the list carrying it, and there is none exactly when no field carries it |
| DomainEntities.OwnMap | src/main/java/com/k2/Util/entity/DomainEntityMap.java:23-32 | the map of a class that is not a root entity holds the last @RootEntity and the last @ParentEntity field of getAllFields, with their types |
| DomainEntities.GetMap | src/main/java/com/k2/Util/entity/EntityUtil.java:245-252 | a cached class gets its cached map; a lookup only adds maps, leaves the class's new map in the cache, never adds a map for a class still under construction, and fails only with a NullPointerException or unbounded recursion |
| DomainEntities.NewMap | src/main/java/com/k2/Util/entity/DomainEntityMap.java:16-40 | constructing the map of a class already under construction recurses for ever; a constructed map is for the class, extends the cache and leaves no entry for the class or any class under construction |
| DomainEntities.GetRootEntityType | src/main/java/com/k2/Util/entity/EntityUtil.java:254-256 | a cached class answers the cached root type with the cache unchanged; a failure leaves the cache unchanged; the cache only grows |
| DomainEntities.GetParentEntityType | src/main/java/com/k2/Util/entity/EntityUtil.java:258-260 | a cached class answers the cached parent type with the cache unchanged; a failure leaves the cache unchanged; the cache only grows |
| DomainEntities.Caught | src/main/java/com/k2/Util/entity/DomainEntityMap.java:59-60 | an IllegalArgumentException or IllegalAccessException becomes a UtilityError naming the object's class; any other error passes through |
| DomainEntities.GetRootEntity | src/main/java/com/k2/Util/entity/EntityUtil.java:262-264 | a null object is a NullPointerException; the cache only grows; no reflection error escapes unwrapped |
| DomainEntities.RootThroughMap | src/main/java/com/k2/Util/entity/DomainEntityMap.java:51-63 | a root entity is its own root; otherwise a successful answer through a root field is that field's value; with neither field the answer is null; no reflection error escapes unwrapped |
| DomainEntities.GetParentEntity | src/main/java/com/k2/Util/entity/EntityUtil.java:266-268 | a null object is a NullPointerException; the cache only grows; no reflection error escapes unwrapped |
| DomainEntities.ParentThroughMap | src/main/java/com/k2/Util/entity/DomainEntityMap.java:66-76 | with neither field the parent entity is null, and every failure is a UtilityError naming the object's class |
| DomainEntities.EntryRuleExtends | src/main/java/com/k2/Util/entity/EntityUtil.java:245-252 | a map built against the cached maps is still one the constructor builds after the cache grows |
| DomainEntities.PutKeepsConsistent | src/main/java/com/k2/Util/entity/EntityUtil.java:249-251 | putting a map the constructor builds into a consistent cache keeps it consistent |
| DomainEntities.GetMapConsistent | src/main/java/com/k2/Util/entity/EntityUtil.java:245-252 | a lookup keeps the cache consistent and returns the map the constructor builds for the class |
| DomainEntities.NewMapConsistent | src/main/java/com/k2/Util/entity/DomainEntityMap.java:16-40 | a construction against a consistent cache keeps it consistent and builds the map the constructor rule describes |
| DomainEntities.EmptyCacheConsistent | src/main/java/com/k2/Util/entity/EntityUtil.java:243 | the empty cache the class starts with is consistent |
| DomainEntities.RootTypeMeaning | src/main/java/com/k2/Util/entity/DomainEntityMap.java:16-40 | the root type is the class itself for a root entity, else the type of its last @RootEntity field, else the root type of its parent type, else none; an answer implies the root-entity test succeeded |
| DomainEntities.SelfParentOverflows | src/main/java/com/k2/Util/entity/DomainEntityMap.java:33-37 | an uncached class that is not a root entity and whose only link is a @ParentEntity field of its own type recurses for ever |
| DomainEntities.MapFollowsRule | src/main/java/com/k2/Util/entity/DomainEntityMap.java:16-40 | with a consistent cache the map found is the root map for a root entity and otherwise holds the class's last @RootEntity and @ParentEntity fields |
| DomainEntities.ParentSource | src/main/java/com/k2/Util/entity/DomainEntityMap.java:66-76 | the field read for the parent is the parent field when there is one, else the root field, and none exactly when neither exists |
| DomainEntities.ParentEntityMeaning | src/main/java/com/k2/Util/entity/DomainEntityMap.java:66-76 | the parent entity of a root entity is null; otherwise it is the value of the parent field, else of the root field, else null, and a field that cannot be read is a UtilityError naming the class; the cache stays consistent |
| DomainEntities.RootEntityMeaning | src/main/java/com/k2/Util/entity/DomainEntityMap.java:51-63 | the root entity of a root entity is the object itself; otherwise the value of the last @RootEntity field, else null when there is no parent field either |
| DomainEntities.ThroughParentField | src/main/java/com/k2/Util/entity/DomainEntityMap.java:57-58 | a map with only a parent field hands the lookup on to the object in that field |
| DomainEntities.RootStep | src/main/java/com/k2/Util/entity/DomainEntityMap.java:57-58 | along a parent link the root entity of an object is the root entity of its parent, found with a consistent cache |
| DomainEntities.RootAlongParents | src/main/java/com/k2/Util/entity/DomainEntityMap.java:51-63 | following parent fields from object to object until a root entity, getRootEntity of the first object answers the last one |
| StringUtil.InitialLowerCase | src/main/java/com/k2/Util/StringUtil.java:324-329 | the length is kept, the first character is lower-cased, the rest is unchanged, and the empty string stays empty |
| StringUtil.InitialUpperCase | src/main/java/com/k2/Util/StringUtil.java:335-340 | the length is kept, the first character is upper-cased, the rest is unchanged, and the empty string stays empty |
| StringUtil.InitialCaseAbsorbs | src/main/java/com/k2/Util/StringUtil.java:324-340 | changing the case of the initial twice keeps only the second change |
| StringUtil.IsSetMeans | src/main/java/com/k2/Util/StringUtil.java:346-350 | a string is set exactly when it does not trim to the empty string |
| StringUtil.Words | src/main/java/com/k2/Util/StringUtil.java:356-358 | no word holds white space, and a value without white space is its own single word |
| StringUtil.SafeWord | src/main/java/com/k2/Util/StringUtil.java:367-374 | the safe word is never empty, and when the word has safe characters it is exactly those characters in order |
| StringUtil.KeepSafe | src/main/java/com/k2/Util/StringUtil.java:367-374 | the kept characters are all safe, no more than the word's, and a word of safe characters is kept whole |
| StringUtil.VerySafeWord | src/main/java/com/k2/Util/StringUtil.java:383-390 | the very safe word is a non-empty run of letters, and a word of letters only is returned as it is |
| StringUtil.AliasIsLoweredClass | src/main/java/com/k2/Util/StringUtil.java:399-452 | aliasCase is classCase with a lower-case initial whenever no safe word after the first starts with a digit |
| StringUtil.AliasClassDifferOnLaterDigit | src/main/java/com/k2/Util/StringUtil.java:399-452 | for "a 1" aliasCase gives "a1" but classCase gives "A_1": the two part on a later digit-led word |
| StringUtil.CamelSplits | src/main/java/com/k2/Util/StringUtil.java:423-435 | splitting a camelCase result on spaces gives back the words, each capitalised |
| StringUtil.StaticCaseAlphabet | src/main/java/com/k2/Util/StringUtil.java:460-474 | staticCase output holds only upper-case letters, digits and underscores |
| StringUtil.KebabSplits | src/main/java/com/k2/Util/StringUtil.java:482-494 | splitting a kebabCase result on hyphens gives back the lower-cased words when no word holds a hyphen |
| StringUtil.DollarEncode | src/main/java/com/k2/Util/StringUtil.java:505-523 | the encoded text has no dollar sign, adds no backslash or brace, and leaves a text without a dollar sign unchanged |
| StringUtil.ReplacementText | src/main/java/com/k2/Util/StringUtil.java:537 | a null replacement is written as "null", and one without a backslash as its dollar-encoded text |
| StringUtil.FindBraces | src/main/java/com/k2/Util/StringUtil.java:537 | the placeholder found is the first "{}" of the text, and none is found only when the text has none |
| StringUtil.ReplaceAllNoPlaceholder | src/main/java/com/k2/Util/StringUtil.java:533-548 | a text without a placeholder comes back unchanged whatever the replacements |
| StringUtil.ReplaceAllFills | src/main/java/com/k2/Util/StringUtil.java:533-548 | with brace-free pieces and replacements, the i-th replacement fills the i-th placeholder, extra replacements are ignored and extra placeholders stay |
| StringUtil.ReplacementRefilled | src/main/java/com/k2/Util/StringUtil.java:533-548 | a replacement that itself holds "{}" is filled by the next replacement |
| StringUtil.BracesFilled | src/main/java/com/k2/Util/StringUtil.java:533-548 | one replacement fills the single placeholder of "a{}b" |
| StringUtil.DollarReplacement | src/main/java/com/k2/Util/StringUtil.java:521-537 | a dollar sign in a replacement arrives as "+%24" |
| StringUtil.PluralRuleOf | src/main/java/com/k2/Util/StringUtil.java:598-610 | each rule drops at most the last two characters, appends no less than it drops, appends nothing only to a word ending in s or S, and otherwise ends the word in s, S or an apostrophe |
| StringUtil.PluralBlank | src/main/java/com/k2/Util/StringUtil.java:598-599 | the plural is empty exactly when the word is not set |
| StringUtil.PluralGrows | src/main/java/com/k2/Util/StringUtil.java:598-610 | a plural is at least as long as its word and keeps all but at most its last two characters |
| StringUtil.PluralEnding | src/main/java/com/k2/Util/StringUtil.java:598-610 | every plural of a set word ends in s, S or an apostrophe |
| StringUtil.PluralOfEs | src/main/java/com/k2/Util/StringUtil.java:600 | a word ending in "es" is its own plural |
| StringUtil.PluralOfS | src/main/java/com/k2/Util/StringUtil.java:604 | a word ending in s, but not in "es" or "'s", gains "es" |
| StringUtil.PluralOfEsPlural | src/main/java/com/k2/Util/StringUtil.java:598-610 | pluralising what the s rule produced changes nothing more |
| StringUtil.LowerLetter | src/main/java/com/k2/Util/StringUtil.java:631-634 | the letter for an index from 0 to 25 is a lower-case letter |
| StringUtil.IndexToString | src/main/java/com/k2/Util/StringUtil.java:659-670 | a negative index is an IllegalArgumentException and nothing else is; the result is a non-empty run of lower-case letters |
| StringUtil.Base26ValueOf | src/main/java/com/k2/Util/StringUtil.java:659-670 | the letters produced for index i have bijective base-26 value i + 1 |
| StringUtil.Base26Examples | src/main/java/com/k2/Util/StringUtil.java:659-670 | 0, 25, 26, 51, 52, 701, 702, 1377 and 1378 give a, z, aa, az, ba, zz, aaa, azz and baa |
| StringUtil.Fold26Wraps | src/main/java/com/k2/Util/StringUtil.java:643-653 | the fold stringToIndex runs in int arithmetic is the exact base-26 value reduced to 32 bits |
| StringUtil.StringToIndex | src/main/java/com/k2/Util/StringUtil.java:643-653 | the answer is always a Java int |
| StringUtil.StringToIndexOfIndexToString | src/main/java/com/k2/Util/StringUtil.java:643-670 | stringToIndex inverts indexToString for every non-negative int |
| StringUtil.StripLeading | src/main/java/com/k2/Util/StringUtil.java:687-701 | the result is a suffix of the text, everything dropped is in the class, and the result does not start with a class character |
| StringUtil.RunOf | src/main/java/com/k2/Util/StringUtil.java:699-701 | the run from a position holds only characters of the class and stops at the end or at a character outside it |
| StringUtil.LastDollar | src/main/java/com/k2/Util/StringUtil.java:689-703 | the match end chosen is the last position in range where the end anchor matches, and there is none only when the anchor matches nowhere in range |
| StringUtil.TrimChars | src/main/java/com/k2/Util/StringUtil.java:679-709 | a pattern built around an unescaped operator that does not compile is an IllegalArgumentException and is the only failure; an unescaped ^, $ or ? leaves the text unchanged; a trim never lengthens the text |
| StringUtil.TrimCharRuns | src/main/java/com/k2/Util/StringUtil.java:693-704 | with a character that is not a pattern operator and no final line terminator, leading, trailing and both-sided trims remove exactly the maximal leading and/or trailing run of it |
| StringUtil.TrimBeforeTerminator | src/main/java/com/k2/Util/StringUtil.java:703 | the trailing trim stops in front of a final line terminator, as the end anchor does |
| Tuples.ToArray | src/main/java/com/k2/Util/tuple/GenericTuple.java:20-24 | toArray has one entry per member, the members of a fixed tuple in order and the values of a GenericTuple in insertion order |
| Tuples.DefaultAliasesAreIndexNames | src/main/java/com/k2/Util/tuple/AbstractTuple.java:29 | the default alias array "a" to "z" is the first 26 names indexToString gives |
| Tuples.AliasIndexFrom | src/main/java/com/k2/Util/tuple/AbstractTuple.java:45-63 | the index found is the first below the size whose alias matches; none is found only when no alias below the size matches; an alias array shorter than the tuple is an ArrayIndexOutOfBoundsException once the scan passes its end, and never otherwise |
| Tuples.FixedGetIndex | src/main/java/com/k2/Util/tuple/AbstractTuple.java:107-111 | an index inside the tuple gives that member; one at or past the size is an IllegalArgumentException and a negative one an index-out-of-bounds error |
| Tuples.FixedGetAlias | src/main/java/com/k2/Util/tuple/AbstractTuple.java:98-102 | a null alias is an IllegalArgumentException; a success is the member at the first index whose alias matches; with enough aliases the lookup succeeds exactly when some alias below the size matches |
| Tuples.FixedGetElementFrom | src/main/java/com/k2/Util/tuple/AbstractTuple.java:76-93 | the scan stops at the first member that is null, lacks an alias, or matches (runtime class equal to the element's type, alias equal when the element names one): a match gives Success with that member, so the lookup cannot fail when a match has only clean members before it; a null gives a NullPointerException, a missing alias an ArrayIndexOutOfBoundsException, and a scan that passes every member an IllegalArgumentException, each exactly then |
| Tuples.FixedElements | src/main/java/com/k2/Util/tuple/AbstractTuple.java:148-160 | getElements succeeds exactly when there are enough aliases, and gives one element per member with its alias and its class, Object for a null member |
| Tuples.Lookup | src/main/java/com/k2/Util/tuple/GenericTuple.java:18 | a value is found under a key exactly when some entry has that key, and it is stored there |
| Tuples.Put | src/main/java/com/k2/Util/tuple/GenericTuple.java:18 | putting under a new key appends the entry; an existing key keeps its place; entries under other keys stay |
| Tuples.PutAll | src/main/java/com/k2/Util/tuple/GenericTuple.java:26-42 | the constructors' loop fails exactly when a value is null, with a NullPointerException |
| Tuples.IndexNames | src/main/java/com/k2/Util/tuple/GenericTuple.java:26-32 | member i of GenericTuple(values) is named indexToString(i) |
| Tuples.NewGeneric | src/main/java/com/k2/Util/tuple/GenericTuple.java:26-32 | GenericTuple(values) fails exactly when a value is null, with a NullPointerException |
| Tuples.NewGenericAliased | src/main/java/com/k2/Util/tuple/GenericTuple.java:34-42 | fewer aliases than values is an IllegalArgumentException; otherwise the construction fails exactly when a value is null |
| Tuples.GenericGetAlias | src/main/java/com/k2/Util/tuple/GenericTuple.java:53-62 | a null alias or an alias no entry has is an IllegalArgumentException; otherwise the value of the first entry with that alias |
| Tuples.FirstWithAlias | src/main/java/com/k2/Util/tuple/GenericTuple.java:56-59 | the entry found is the first with that alias, and none is found only when no entry has it |
| Tuples.GenericGetElement | src/main/java/com/k2/Util/tuple/GenericTuple.java:44-50 | success exactly when a non-null value is stored under that element and its class is assignable to the element's type, and then it is that value; every failure is an IllegalArgumentException |
| Tuples.GetIndex | src/main/java/com/k2/Util/tuple/AbstractTuple.java:107-111 | get(i) succeeds exactly for an index inside the tuple, answers the member at i, and an index at or past the size is an IllegalArgumentException |
| Tuples.GetAlias | src/main/java/com/k2/Util/tuple/AbstractTuple.java:98-102 | a null alias is an IllegalArgumentException for both kinds of tuple |
| Tuples.GetElement | src/main/java/com/k2/Util/tuple/AbstractTuple.java:77-78 | a null element gives null on a fixed tuple and an IllegalArgumentException on a GenericTuple |
| Tuples.GetAliasTyped | src/main/java/com/k2/Util/tuple/AbstractTuple.java:117-126 | a fixed tuple returns a non-null member only when the member's class is assignable from the requested class, otherwise an IllegalArgumentException; a GenericTuple returns the value stored under the exact (alias, class) element |
| Tuples.GetIndexTyped | src/main/java/com/k2/Util/tuple/AbstractTuple.java:132-142 | a null member comes back as null; a fixed tuple returns a member whose class is assignable from the requested class, a GenericTuple one assignable to it; an index past the size is an IllegalArgumentException |
| Tuples.GetElements | src/main/java/com/k2/Util/tuple/GenericTuple.java:89-94 | a GenericTuple reports its keys in insertion order, and a success has one element per member |
| Tuples.MakeTuple | src/main/java/com/k2/Util/tuple/TupleUtil.java:37-95 | a null or empty value array is a UtilityError; 1 to 26 values give the fixed tuple with the default aliases; more give a GenericTuple |
| Tuples.AliasedTuple | src/main/java/com/k2/Util/tuple/TupleUtil.java:23-28 | beyond 26 values the result is an aliased GenericTuple; otherwise the fixed tuple of the values with the given alias array |
| Tuples.TupleElement | src/main/java/com/k2/Util/tuple/TupleUtil.java:106-120 | the element carries the given alias and type |
| Tuples.Base26Injective | src/main/java/com/k2/Util/tuple/GenericTuple.java:26-32 | indexToString never gives two members the same name |
| Tuples.PutAllFresh | src/main/java/com/k2/Util/tuple/GenericTuple.java:34-42 | putting non-null values under distinct new aliases appends one entry per value, in order, keyed by alias and runtime class |
| Tuples.NewGenericKeepsOrder | src/main/java/com/k2/Util/tuple/GenericTuple.java:26-32 | a GenericTuple built from non-null values keeps them in order, each under its index name and runtime class |
| Tuples.NewGenericAliasLookup | src/main/java/com/k2/Util/tuple/GenericTuple.java:53-62 | in a GenericTuple built from non-null values, get(indexToString(i)) is the i-th value |
| Tuples.MakeTupleKeepsValues | src/main/java/com/k2/Util/tuple/TupleUtil.java:37-95 | a tuple built from non-null values gives them back in order, and it is a fixed tuple exactly when there are at most 26 |
| Tuples.FixedDefaultAliasLookup | src/main/java/com/k2/Util/tuple/AbstractTuple.java:98-102 | with the default aliases get of the k-th letter is the k-th member, and a letter past the size is an IllegalArgumentException |
| Tuples.FixedElementScan | src/main/java/com/k2/Util/tuple/AbstractTuple.java:76-93 | the element scan stops at the member whose alias no earlier member shares |
| Tuples.FixedElementsLeadBack | src/main/java/com/k2/Util/tuple/AbstractTuple.java:76-93 | on a fixed tuple with distinct aliases and no null member, get of the i-th reported element is the i-th member |
| Tuples.GenericElementsLeadBack | src/main/java/com/k2/Util/tuple/GenericTuple.java:44-50 | on a GenericTuple built from non-null values, get of the i-th reported element is the i-th value |
| Tuples.LookupDistinct | src/main/java/com/k2/Util/tuple/GenericTuple.java:26-32 | in a GenericTuple built from values, the i-th key is stored nowhere else |
| Tuples.ShortAliasArrays | src/main/java/com/k2/Util/tuple/TupleUtil.java:23-28 | an aliased fixed tuple with fewer aliases than members is built, but looking up an alias it lacks runs off the alias array; beyond 26 values the same aliases are refused |
| Tuples.TypedGettersDisagree | src/main/java/com/k2/Util/tuple/AbstractTuple.java:132-142 | asked for an Object, a fixed tuple holding an Integer throws where a GenericTuple returns it |
| Dependencies.FromString | src/main/java/com/k2/Util/classes/Dependency.java:14-16 | fromString takes the package as the text before the last dot and the class name as the text after it |
| Dependencies.FromStringName | src/main/java/com/k2/Util/classes/Dependency.java:14-16 | getName gives back the original name whenever it has no dot, or a non-blank package part |
| Dependencies.FromStringBlankPackage | src/main/java/com/k2/Util/classes/Dependency.java:52 | a name whose package part is blank loses it: " .X" comes back as "X" |
| Dependencies.ForClass | src/main/java/com/k2/Util/classes/Dependency.java:34-36 | a null class gives the dependency ("", ""); otherwise the class name is the simple name and a primitive has no package |
| Dependencies.ReflectNeedsNoImport | src/main/java/com/k2/Util/classes/Dependencies.java:21-24 | a class in a subpackage of java.lang, such as java.lang.reflect.Method, needs no import, while java.util.Date does |
| Dependencies.SortedIsDistinct | src/main/java/com/k2/Util/classes/Dependencies.java:15 | no two entries of the ordered set share an import clause |
| Dependencies.InsertBy | src/main/java/com/k2/Util/classes/Dependency.java:75-77 | adding to the ordered set keeps it ascending by import clause, adds the new clause, keeps every entry, adds nothing else, and changes nothing when the clause is present |
| Dependencies.AddAllBy | src/main/java/com/k2/Util/classes/Dependencies.java:39-41 | the union keeps the set ascending and holds exactly the clauses of both |
| Dependencies.AddAllIdempotent | src/main/java/com/k2/Util/classes/Dependencies.java:39-41 | adding clauses already present leaves the set unchanged |
| Dependencies.AddEach | src/main/java/com/k2/Util/classes/MethodSignature.java:134-138 | adding the dependency of each needed item keeps the set ascending and adds exactly the clauses of the needed items |
| Dependencies.AddEachSource | src/main/java/com/k2/Util/classes/MethodSignature.java:134-138 | every clause the loop adds comes from a needed item |
| Dependencies.AddEachConstant | src/main/java/com/k2/Util/classes/MethodSignature.java:134-138 | when every item maps to the same dependency, the loop adds it once if any item is needed and nothing otherwise |
| Dependencies.ForClasses | src/main/java/com/k2/Util/classes/Dependencies.java:30-33 | one dependency per class, in argument order |
| Dependencies.Add | src/main/java/com/k2/Util/classes/Dependencies.java:30-33 | add keeps the set ascending and adds exactly the clauses of the given classes' dependencies |
| Dependencies.AddAll | src/main/java/com/k2/Util/classes/Dependencies.java:39-41 | addAll keeps the set ascending and holds exactly the clauses of both sets |
| MethodSignatures.ForMethod | src/main/java/com/k2/Util/classes/MethodSignature.java:26-31 | a signature taken from a method has its name and parameter types and remembers the method |
| MethodSignatures.ForSignature | src/main/java/com/k2/Util/classes/MethodSignature.java:33-38 | a signature built from a name and types has no method |
| MethodSignatures.StrictEqualsMeans | src/main/java/com/k2/Util/classes/MethodSignature.java:103-125 | strict equality holds exactly when the names and the parameter type lists are equal; the method itself is ignored |
| MethodSignatures.StrictImpliesLoose | src/main/java/com/k2/Util/classes/MethodSignature.java:116-123 | strictly equal signatures are equal in the non-strict sense too |
| MethodSignatures.LooseNotSymmetric | src/main/java/com/k2/Util/classes/MethodSignature.java:116-123 | non-strict equality accepts (String) against (Object) but not the reverse, and neither is strict |
| MethodSignatures.HashConsistent | src/main/java/com/k2/Util/classes/MethodSignature.java:87-93 | strictly equal signatures have equal hash codes |
| MethodSignatures.StringHash | src/main/java/com/k2/Util/classes/MethodSignature.java:90 | the name's hash is a Java int |
| MethodSignatures.TypeList | src/main/java/com/k2/Util/classes/MethodSignature.java:188-192 | no types give the empty list and one type gives its simple name |
| MethodSignatures.TypeListIsJoin | src/main/java/com/k2/Util/classes/MethodSignature.java:188-192 | the list is the simple names of the parameter types, in order, joined with ", " |
| MethodSignatures.TypeListSnoc | src/main/java/com/k2/Util/classes/MethodSignature.java:188-192 | one more parameter type extends a non-empty list by ", " and its simple name |
| MethodSignatures.AppendNames | src/main/java/com/k2/Util/classes/MethodSignature.java:188-192 | the loop that appends each name followed by ", " unless it is the last builds exactly the names joined with ", " |
| MethodSignatures.ToString | src/main/java/com/k2/Util/classes/MethodSignature.java:185-195 | the rendering is the name (or "null"), "(", the simple parameter type names joined with ", ", and ")" |
| MethodSignatures.BuildString | src/main/java/com/k2/Util/classes/MethodSignature.java:185-195 | the StringBuilder construction of toString yields exactly that rendering |
| MethodSignatures.ToStringOfPair | src/main/java/com/k2/Util/classes/MethodSignature.java:185-195 | a two-parameter signature renders as the name, then the two simple type names separated by ", " in parentheses |
| MethodSignatures.ToStringExample | src/main/java/com/k2/Util/classes/MethodSignature.java:185-195 | put(String, int) renders as "put(String, int)" |
| MethodSignatures.GetDependencies | src/main/java/com/k2/Util/classes/MethodSignature.java:131-140 | a name-only signature is an error and any other succeeds with an ordered set |
| MethodSignatures.GetDependenciesOnlyReturnType | src/main/java/com/k2/Util/classes/MethodSignature.java:131-140 | as written, the only dependency a method can have is its return type's |
| MethodSignatures.GetDependenciesHasReturnType | src/main/java/com/k2/Util/classes/MethodSignature.java:131-140 | as written, the return type's dependency is present exactly when the return type or some parameter type needs an import |
| MethodSignatures.DependenciesLoseParameter | src/main/java/com/k2/Util/classes/MethodSignature.java:136-138 | as written, a void method taking a Date depends on "import void;" and not on java.util.Date |
| MethodSignatures.GetDependenciesFixed | src/main/java/com/k2/Util/classes/MethodSignature.java:131-140 | corrected, a name-only signature is still an error and any other succeeds with an ordered set |
| MethodSignatures.GetDependenciesFixedComplete | src/main/java/com/k2/Util/classes/MethodSignature.java:131-140 | corrected, every type of the signature that needs an import is present |
| MethodSignatures.GetDependenciesFixedSound | src/main/java/com/k2/Util/classes/MethodSignature.java:131-140 | corrected, nothing but the types of the signature that need an import is present |
| MethodSignatures.DependenciesKeepParameter | src/main/java/com/k2/Util/classes/MethodSignature.java:136-138 | corrected, the void method taking a Date depends on java.util.Date |
| FormCodec.Encode | src/main/java/com/k2/Util/KeyUtil.java:289 | the encoding is empty exactly for the empty string and never shorter than its input |
| FormCodec.EncodeAlphabet | src/main/java/com/k2/Util/KeyUtil.java:289 | the encoding holds only unreserved characters, plus signs and percent signs |
| FormCodec.EncodeHasNoColon | src/main/java/com/k2/Util/KeyUtil.java:286-292 | an encoded string never holds the ':' that separates the fields of a composite key |
| FormCodec.EncodeUnreserved | src/main/java/com/k2/Util/KeyUtil.java:289 | a string of unreserved characters encodes to itself |
| FormCodec.DecodeEncode | src/main/java/com/k2/Util/KeyUtil.java:289-327 | URL decoding gives back every URL-encoded string |
| JavaInt.Wrap32 | src/main/java/com/k2/Util/StringUtil.java:646-652 | the result is a Java int congruent to its input modulo 2^32, and an int is left alone |
| JavaInt.ShowInt | src/main/java/com/k2/Util/KeyUtil.java:276-278 | the decimal text of a number is non-empty, all digits for a non-negative one and a minus sign then digits for a negative one |
| JavaInt.ParseInt | src/main/java/com/k2/Util/KeyUtil.java:315-319 | a parsed number is in the range of the requested kind and comes from non-empty text |
| JavaInt.ParseShowInt | src/main/java/com/k2/Util/KeyUtil.java:310-319 | parsing the decimal text of a number in the range of a kind gives the number back |

## Left out

- FormCodec.Decode: malformed UTF-8 after percent-decoding is an error here, where `URLDecoder` substitutes U+FFFD; and a percent escape whose two characters `Integer.parseInt(…, 16)` would still accept, such as "%+1", is rejected.  The decoder is exact on everything `URLEncoder` produces, which is all the key codec feeds it.
- DomainEntities.GetRootEntity: an object is a `Value`, a finite tree, so two fields cannot share one object and no chain of parent fields can lead back to an object already on it.  In Java a cyclic parent graph makes DomainEntityMap.java:57-58 and EntityUtil.java:262-264 call each other until the stack overflows; the model has no such input, and it does not model object identity or aliasing either.
- Members.DeclaredFields: static fields are not modelled.  The class model has no static modifier, so the static fields `getDeclaredFields` would return, and that `KeyUtil` serialize/deserialize (KeyUtil.java:55-90) would then walk, do not exist in the model.
- Text.Lower: a Java `char` is modelled as a Dafny `char`, a Unicode scalar value, not a UTF-16 code unit.  Lengths, indices and the per-character escaping agree with Java only for text inside the Basic Multilingual Plane; this includes the char fields of KeyUtil.CharFieldsNotEscaped.
- Text.ToLower: case mapping (and with it Text.ToUpper, Text.Lower and Text.Upper) covers ASCII letters only, where `Character.toLowerCase`/`toUpperCase` map every Unicode letter.
- KeyUtil.DeserializeFieldValue: a key field whose class is a subclass of Date with a constructor taking a Long decodes to a plain date value carrying the milliseconds, not to an instance of that subclass.  The branch through a constructor taking a Date (KeyUtil.java:333-336) is not modelled: `getConstructor` throws rather than returning null, so it is only reached when a Long constructor exists, and then the earlier branch has already returned.
- JavaInt.ParseInt: accepts the ASCII digits 0-9 after an optional sign, where `Integer.parseInt` also accepts the other Unicode decimal digits.
- ObjectUtil.Copy: copies the fields of `Members.DeclaredFields` (the `getDeclaredFields` of `classes/ClassUtil`).  ObjectUtil.java:24 calls `getDeclaredFields` of the `ClassUtil` in its own package, and that file is not part of this model.
- Values.NewInstance: the outcome of a zero-argument constructor is a function of the class alone (`Host.initialise`), so a constructor that reads global state or counts its calls is modelled as giving the same object or the same exception on every call.
- ObjectUtil.Copy: the warning's logger call and the `getClass` of both objects are not modelled; only the two `getId` calls among its arguments can change the outcome.
- ObjectUtil.FindFirstMatch: elements are compared with Dafny equality.  The `NullPointerException` that `t1.equals(t2)` throws for a null element of the first list (ObjectUtil.java:76), and user `equals` methods that are not an equivalence, are not modelled.
- Text.Less: orders strings by Unicode scalar value, where `String.compareTo` compares UTF-16 code units; the two orders differ only when a supplementary character meets a character from U+E000 to U+FFFF.  Dependencies.InsertBy and the dependency ordering rest on it.
- StringUtil.InitialLowerCase: a null string is not modelled (Java returns null); the same holds for `initialUpperCase`, `isSet(null)`, `trim(…, null)` and `lines(null)`.
- StringUtil.SafeWord: the random word `random(6)` (and `random(10)` in `verySafeWord`) is a parameter, and the safe and very safe character sets are fixed at their defaults, letters and digits and letters only; the setters `saltChars`, `safeChars` and `verySafeChars` are not modelled.
- StringUtil: `random`, `toString(Object)` with its registered type converters, `toInteger`, `toLong`, `toFloat`, `toDouble`, `toDate`, `toBoolean`, `nvl`, `concatenate`, `braceConcatenate`, `lastChar`, `splitCamelCase`, `containsChar` and `lines` are not modelled: they are randomness, floating point, date formats or thin wrappers over JDK calls outside the core.
- ClassUtil: classpath scanning (`getClasses`, `findClasses`, `packageNameToPath`), `createClassFromString` (a runtime compiler), the generic-type helpers (`getFieldGenericTypeClass`, `getMethodGenericTypeClass`, `getClassGenericTypeClass`), `getSetter`, `getMethod`, the `title`/`alias` helpers and `isCollection` are not modelled: the file system, the compiler and generic type arguments are outside the class model.
- KeyUtil: `getRootKey`, `toString`, `keyFor`, `getKey` and `constructKey` reflect on user key constructors and cache one constructor per key class whatever the argument types; `toKey(entityClass, ser)` is `deserialize` of `getKeyClass` and is not modelled separately.
- EntityUtil: `toString`, `getRootPath`, `getParentPath` and `getPath` (string building over `toString` of user objects) and the by-name and by-alias `EntityField` wrappers are not modelled.
- NullRegistry: `registerEntities` and `registerAll` scan the classpath and are not modelled.
- Caches are single-threaded here: the library's static `HashMap` caches are not synchronised, and interleavings of concurrent callers are not modelled.
- EntityCaches.LazyLinks: the lazy links are returned as a set, since the library lists them in `HashMap` iteration order, which Java does not specify.
- Hierarchy.TaggedFrom: a cyclic hierarchy or an endless parent chain, which makes Java recurse until a `StackOverflowError`, is a `StackOverflow` failure here; a finite recursion deep enough to exhaust the Java stack is not modelled.
- Floating point, dates as calendar values, logging and the `UnsupportedEncodingException` paths of `URLEncoder`/`URLDecoder` (UTF-8 is always supported) are not modelled.

## Findings

| source | as written | input that shows it | evidently intended | confidence | as-written member | corrected member |
|---|---|---|---|---|---|---|
| src/main/java/com/k2/Util/classes/MethodSignature.java:136-138 | for each parameter type that needs an import, the dependency of the return type is added again | a void method taking a `java.util.Date`: the dependencies are {"import void;"} | each such parameter type adds its own dependency | high, not executed | MethodSignatures.DependenciesLoseParameter | MethodSignatures.GetDependenciesFixedComplete |
| src/main/java/com/k2/Util/entity/EntityLink.java:109-115 | `getLinkToFields` reads each join's from-side, so it returns the from-fields again | a link with one join from a field to a different field: the to-fields are the from-field | the field of each join's to-side, in join order | high, not executed | EntityFields.LinkToFieldsAsWrittenWrong | EntityFields.LinkToFields |
| src/main/java/com/k2/Util/java/JavaUtil.java:25 | `toJavaSource(Long)` writes `Long.valueOf(` + value + `)` without the `L` suffix | 3000000000: `Long.valueOf(3000000000)` is not valid Java, the literal is out of int range | `Long.valueOf(3000000000L)` | high, not executed | JavaSource.BoxedLongThreeBillion | JavaSource.ReadBoxedLongFixed |

=== FILE: array_util.dfy ===
/**
 * ArrayUtil.contains: whether an array holds any, or all, of a list of
 * values.  Java's null is `None`: a null value is equal to no item, and a
 * null item that the scan reaches is a NullPointerException, since the scan
 * calls `item.equals(value)`.
 */
module ArrayUtil {
  import opened Wrappers

  /** ArrayUtil.CheckType. */
  datatype CheckType = Any | All

  /** `v` is a non-null value equal to some item of `arr`. */
  predicate Matches<T(==)>(arr: seq<Option<T>>, v: Option<T>) {
    v.Some? && v in arr
  }

  /** The scan for `v` meets a null item before any item equal to `v`. */
  predicate HitsNull<T(==)>(arr: seq<Option<T>>, v: Option<T>) {
    exists k :: 0 <= k < |arr| && arr[k].None? && forall j :: 0 <= j < k ==> arr[j] != v
  }

  /** The scan for `v` meets an item equal to `v` before any null item. */
  predicate FoundBeforeNull<T(==)>(arr: seq<Option<T>>, v: Option<T>) {
    v.Some? && exists k :: 0 <= k < |arr| && arr[k] == v && forall j :: 0 <= j < k ==> arr[j].Some?
  }

  /**
   * The inner loop of contains: walk the items in order until one equals
   * `v`; a null item reached first throws.
   */
  method Search<T(==)>(arr: seq<Option<T>>, v: Option<T>) returns (r: Result<bool>)
    ensures r.Failure? <==> HitsNull(arr, v)
    ensures r.Failure? ==> r.error == NullPointer
    ensures r == Success(true) <==> FoundBeforeNull(arr, v)
    ensures None !in arr ==> r == Success(Matches(arr, v))
    ensures r == Success(true) ==> Matches(arr, v)
    ensures r == Success(false) ==> None !in arr && !Matches(arr, v)
  {
    var k := 0;
    while k < |arr|
      invariant 0 <= k <= |arr|
      invariant forall j :: 0 <= j < k ==> arr[j].Some? && arr[j] != v
    {
      if arr[k].None? {
        return Failure(NullPointer);
      }
      if arr[k] == v {
        return Success(true);
      }
      k := k + 1;
    }
    return Success(false);
  }

  /**
   * contains(arr, checkType, values...): with ANY, true as soon as one value
   * is found; with ALL, false as soon as one is missing; otherwise the
   * outcome for the last value, so an empty list of values gives false.
   */
  method Contains<T(==)>(arr: seq<Option<T>>, check: CheckType, values: seq<Option<T>>) returns (r: Result<bool>)
    ensures r.Failure? ==> r.error == NullPointer && None in arr
    ensures r.Failure? ==> exists i :: 0 <= i < |values| && HitsNull(arr, values[i])
    ensures |values| > 0 && HitsNull(arr, values[0]) ==> r == Failure(NullPointer)
    ensures None !in arr ==> r.Success?
    ensures None !in arr && check == Any ==>
              (r.value <==> exists i :: 0 <= i < |values| && Matches(arr, values[i]))
    ensures None !in arr && check == All ==>
              (r.value <==> |values| > 0 && forall i :: 0 <= i < |values| ==> Matches(arr, values[i]))
  {
    var matched := false;
    var i := 0;
    while i < |values|
      invariant 0 <= i <= |values|
      invariant i > 0 ==> !HitsNull(arr, values[0])
      invariant check == Any ==> !matched && (i > 0 ==> None !in arr)
      invariant check == Any ==> forall j :: 0 <= j < i ==> !Matches(arr, values[j])
      invariant check == All ==> matched == (i > 0)
      invariant check == All ==> forall j :: 0 <= j < i ==> Matches(arr, values[j])
    {
      var found := Search(arr, values[i]);
      if found.Failure? {
        return Failure(NullPointer);
      }
      matched := found.value;
      if check == Any && matched {
        return Success(true);
      }
      if check == All && !matched {
        return Success(false);
      }
      i := i + 1;
    }
    return Success(matched);
  }
}

=== FILE: boolean_util.dfy ===
/**
 * BooleanUtil: the configurable text and integer forms of true and false,
 * the conversions that use them, and the dispatch of toBoolean(Object).
 * The four static settings are an explicit `Representation` value.
 */
module BooleanUtil {
  import opened Wrappers
  import opened ClassModel
  import opened Values
  import JavaInt

  /** The static settings TRUE_STRING, FALSE_STRING, TRUE_INT and FALSE_INT. */
  datatype Representation = Representation(trueString: string, falseString: string, trueInt: int, falseInt: int)

  /** The initial settings, which restoreDefaults brings back. */
  const DEFAULTS := Representation("true", "false", 1, 0)

  /** restoreDefaults: whatever was set before, the defaults again. */
  function RestoreDefaults(rep: Representation): (r: Representation)
    ensures r == DEFAULTS
    ensures r.trueString == "true" && r.falseString == "false" && r.trueInt == 1 && r.falseInt == 0
  {
    DEFAULTS
  }

  function TrueAsString(rep: Representation, value: string): (r: Representation)
    ensures r.trueString == value
    ensures r.falseString == rep.falseString && r.trueInt == rep.trueInt && r.falseInt == rep.falseInt
  {
    rep.(trueString := value)
  }

  function FalseAsString(rep: Representation, value: string): (r: Representation)
    ensures r.falseString == value
    ensures r.trueString == rep.trueString && r.trueInt == rep.trueInt && r.falseInt == rep.falseInt
  {
    rep.(falseString := value)
  }

  /** trueAsInt(int): the setting is a Java int. */
  function TrueAsInt(rep: Representation, value: int): (r: Representation)
    requires JavaInt.IntKind.IntegerKind.InRange(value)
    ensures r.trueInt == value
    ensures r.trueString == rep.trueString && r.falseString == rep.falseString && r.falseInt == rep.falseInt
  {
    rep.(trueInt := value)
  }

  function FalseAsInt(rep: Representation, value: int): (r: Representation)
    requires JavaInt.IntKind.IntegerKind.InRange(value)
    ensures r.falseInt == value
    ensures r.trueString == rep.trueString && r.falseString == rep.falseString && r.trueInt == rep.trueInt
  {
    rep.(falseInt := value)
  }

  /** The current integer for `b`. */
  function IntFor(rep: Representation, b: bool): int {
    if b then rep.trueInt else rep.falseInt
  }

  /** toInteger(Boolean): an Integer, or null for null. */
  function ToInteger(rep: Representation, v: Option<bool>): (r: Value)
    ensures v.None? <==> r == Null
    ensures v.Some? ==> r.Int? && r.kind == JavaInt.IntKind.IntegerKind
  {
    match v
    case None => Null
    case Some(b) => Int(JavaInt.IntKind.IntegerKind, IntFor(rep, b))
  }

  /** toLong(Boolean): a Long holding the same number, or null for null. */
  function ToLong(rep: Representation, v: Option<bool>): (r: Value)
    ensures v.None? <==> r == Null
    ensures v.Some? ==> r.Int? && r.kind == JavaInt.IntKind.LongKind
    ensures v.Some? ==> r.i == ToInteger(rep, v).i
  {
    match v
    case None => Null
    case Some(b) => Int(JavaInt.IntKind.LongKind, IntFor(rep, b))
  }

  /** toString(Boolean): the current text for true or false, or null for null. */
  function ToString(rep: Representation, v: Option<bool>): (r: Option<string>)
    ensures v.None? <==> r.None?
  {
    match v
    case None => None
    case Some(b) => Some(if b then rep.trueString else rep.falseString)
  }

  /** With distinct integer forms the integer tells true from false. */
  lemma ToIntegerInjective(rep: Representation, a: Option<bool>, b: Option<bool>)
    requires rep.trueInt != rep.falseInt
    ensures ToInteger(rep, a) == ToInteger(rep, b) <==> a == b
    ensures ToLong(rep, a) == ToLong(rep, b) <==> a == b
  {
  }

  /** With distinct text forms the text tells true from false. */
  lemma ToStringInjective(rep: Representation, a: Option<bool>, b: Option<bool>)
    requires rep.trueString != rep.falseString
    ensures ToString(rep, a) == ToString(rep, b) <==> a == b
  {
  }

  /** Under the defaults true and false read as "true"/"false" and 1/0. */
  lemma DefaultForms()
    ensures ToString(DEFAULTS, Some(true)) == Some("true") && ToString(DEFAULTS, Some(false)) == Some("false")
    ensures ToInteger(DEFAULTS, Some(true)) == Int(JavaInt.IntKind.IntegerKind, 1)
    ensures ToInteger(DEFAULTS, Some(false)) == Int(JavaInt.IntKind.IntegerKind, 0)
  {
  }

  /**
   * Each setter changes only its own form: the text forms do not move the
   * integer conversions and the integer forms do not move the text.
   */
  lemma SettersIndependent(rep: Representation, s: string, n: int, v: Option<bool>)
    requires JavaInt.IntKind.IntegerKind.InRange(n)
    ensures ToInteger(TrueAsString(rep, s), v) == ToInteger(rep, v)
    ensures ToInteger(FalseAsString(rep, s), v) == ToInteger(rep, v)
    ensures ToString(TrueAsInt(rep, n), v) == ToString(rep, v)
    ensures ToString(FalseAsInt(rep, n), v) == ToString(rep, v)
    ensures ToString(TrueAsString(rep, s), Some(true)) == Some(s)
    ensures ToString(TrueAsString(rep, s), Some(false)) == ToString(rep, Some(false))
    ensures ToInteger(FalseAsInt(rep, n), Some(false)) == Int(JavaInt.IntKind.IntegerKind, n)
    ensures ToInteger(FalseAsInt(rep, n), Some(true)) == ToInteger(rep, Some(true))
  {
  }

  /** A registered TypeConverter: converts an object of its class, possibly to null. */
  type Converter = Value -> Option<bool>

  /** The converter map, keyed by the class each converter converts. */
  type Converters = map<ClassName, Converter>

  /** registerTypeConverter: the converter replaces any earlier one for its class. */
  function RegisterTypeConverter(convs: Converters, cls: ClassName, conv: Converter): (r: Converters)
    ensures cls in r && r[cls] == conv
    ensures r.Keys == convs.Keys + {cls}
    ensures forall c :: c in convs && c != cls ==> r[c] == convs[c]
  {
    convs[cls := conv]
  }

  const INTEGER: ClassName := "java.lang.Integer"
  const LONG: ClassName := "java.lang.Long"
  const FLOAT: ClassName := "java.lang.Float"
  const DOUBLE: ClassName := "java.lang.Double"

  /**
   * The classes toBoolean hands to another utility's parser, in the order it
   * tests them.
   */
  const PARSED: seq<ClassName> := [STRING, INTEGER, LONG, FLOAT, DOUBLE, DATE]

  /**
   * toBoolean(Object).  `parse(c, v)` is the other utility's conversion for
   * the first class `c` of PARSED that `v` is an instance of; `order` is the
   * iteration order of the converter map's key set, which Java leaves
   * unspecified.
   */
  function ToBoolean(cm: Classes, convs: Converters, order: seq<ClassName>,
                     parse: (ClassName, Value) -> Option<bool>, v: Value): (r: Option<bool>)
    requires forall c :: c in convs <==> c in order
    ensures v.Null? ==> r.None?
    ensures v != Null && (forall i :: 0 <= i < |PARSED| ==> !IsInstance(cm, v, PARSED[i])) && v.Bool? ==> r == Some(v.b)
    ensures v != Null && (exists i :: 0 <= i < |PARSED| && IsInstance(cm, v, PARSED[i])) ==>
              exists i :: 0 <= i < |PARSED| && IsInstance(cm, v, PARSED[i]) && r == parse(PARSED[i], v)
                          && forall j :: 0 <= j < i ==> !IsInstance(cm, v, PARSED[j])
    ensures (v != Null && (forall i :: 0 <= i < |PARSED| ==> !IsInstance(cm, v, PARSED[i])) && !v.Bool?
             && (forall c :: c in convs ==> !IsInstance(cm, v, c))) ==> r.None?
    ensures v != Null && (forall i :: 0 <= i < |PARSED| ==> !IsInstance(cm, v, PARSED[i])) && !v.Bool? && r.Some? ==>
              exists c :: c in convs && IsInstance(cm, v, c) && r == convs[c](v)
  {
    if v.Null? then None
    else
      match FirstInstance(cm, v, PARSED)
      case Some(k) => parse(PARSED[k], v)
      case None =>
        if v.Bool? then Some(v.b)
        else
          match FirstInstance(cm, v, order)
          case Some(k) => convs[order[k]](v)
          case None => None
  }

  /** The position of the first class in `cs` that `v` is an instance of. */
  function FirstInstance(cm: Classes, v: Value, cs: seq<ClassName>): (r: Option<nat>)
    ensures r.Some? ==> r.value < |cs| && IsInstance(cm, v, cs[r.value])
    ensures r.Some? ==> forall j :: 0 <= j < r.value ==> !IsInstance(cm, v, cs[j])
    ensures r.None? <==> forall j :: 0 <= j < |cs| ==> !IsInstance(cm, v, cs[j])
  {
    if cs == [] then None
    else if IsInstance(cm, v, cs[0]) then Some(0)
    else
      match FirstInstance(cm, v, cs[1..])
      case None => None
      case Some(k) => Some(k + 1)
  }

  /** nvl(check, ifNull): the checked value unless it is null. */
  function Nvl(checkValue: Option<bool>, valueIfNull: Option<bool>): (r: Option<bool>)
    ensures checkValue.Some? ==> r == checkValue
    ensures checkValue.None? ==> r == valueIfNull
    ensures r.None? <==> checkValue.None? && valueIfNull.None?
  {
    if checkValue.None? then valueIfNull else checkValue
  }

  /** nvl with the same fallback twice changes nothing more. */
  lemma NvlIdempotent(a: Option<bool>, b: Option<bool>)
    ensures Nvl(Nvl(a, b), b) == Nvl(a, b)
  {
  }
}

=== FILE: can_get_cases.dfy ===
/**
 * The four inner classes of the ClassUtil test (A, AB extends A, ABC extends
 * AB, AD extends A), as a class model, and what ClassUtil does with them:
 * their supertype chains, their nearest shared supertype, and the canGet
 * sequence of the test, whose answers depend on the order of the calls.
 */
module CanGetCases {
  import opened Wrappers
  import opened ClassModel
  import opened Members
  import opened Getters
  import opened ClassUtil
  import StringUtil
  import ObjectUtil

  const OUTER: ClassName := "com.k2.Util.ClassUtilTest"
  const A: ClassName := "com.k2.Util.ClassUtilTest$A"
  const AB: ClassName := "com.k2.Util.ClassUtilTest$AB"
  const ABC: ClassName := "com.k2.Util.ClassUtilTest$ABC"
  const AD: ClassName := "com.k2.Util.ClassUtilTest$AD"
  const INT: ClassName := "int"

  /** An inner class's reference to its enclosing instance, which javac marks synthetic. */
  function Outer(c: ClassName): Field {
    Field(c, "this$0", OUTER, true, false, [])
  }

  const FA := Field(A, "a", INT, false, false, [])
  const FB := Field(AB, "b", INT, false, false, [])
  const FC := Field(ABC, "c", INT, false, false, [])
  const FAB := Field(ABC, "ab", AB, false, false, [])
  const FD := Field(AD, "d", INT, false, false, [])
  const GET_A_AND_B := Method(ABC, "getAAndB", [], [], AB, false, true, [])

  function Inner(sup: ClassName, fields: seq<Field>, methods: seq<Method>): ClassDecl {
    ClassDecl(Some(sup), false, false, [], fields, methods, [], [])
  }

  const TEST_CLASSES: Classes := map[
    A := Inner(OBJECT, [FA, Outer(A)], []),
    AB := Inner(A, [FB, Outer(AB)], []),
    ABC := Inner(AB, [FC, FAB, Outer(ABC)], [GET_A_AND_B]),
    AD := Inner(A, [FD, Outer(AD)], [])]

  // ------------------------------------------------------------ chains

  lemma ChainOfA(seen: set<ClassName>)
    requires A !in seen && OBJECT !in seen
    ensures Chain(TEST_CLASSES, A, seen) == [A, OBJECT]
  {
    assert SuperOf(TEST_CLASSES, A) == Some(OBJECT);
    assert SuperOf(TEST_CLASSES, OBJECT) == None;
    assert Chain(TEST_CLASSES, OBJECT, seen + {A}) == [OBJECT];
  }

  lemma ChainOfAB(seen: set<ClassName>)
    requires AB !in seen && A !in seen && OBJECT !in seen
    ensures Chain(TEST_CLASSES, AB, seen) == [AB, A, OBJECT]
  {
    assert SuperOf(TEST_CLASSES, AB) == Some(A);
    ChainOfA(seen + {AB});
  }

  /** getSupertypes(ABC) has four classes: ABC, AB, A and Object. */
  lemma SupertypesOfABC()
    ensures Supertypes(TEST_CLASSES, ABC) == [ABC, AB, A, OBJECT]
    ensures |Supertypes(TEST_CLASSES, ABC)| == 4
  {
    assert SuperOf(TEST_CLASSES, ABC) == Some(AB);
    ChainOfAB({ABC});
    assert {} + {ABC} == {ABC};
    assert Chain(TEST_CLASSES, ABC, {}) == [ABC] + Chain(TEST_CLASSES, AB, {ABC});
  }

  lemma SupertypesOfAD()
    ensures Supertypes(TEST_CLASSES, AD) == [AD, A, OBJECT]
  {
    assert SuperOf(TEST_CLASSES, AD) == Some(A);
    ChainOfA({AD});
    assert {} + {AD} == {AD};
    assert Chain(TEST_CLASSES, AD, {}) == [AD] + Chain(TEST_CLASSES, A, {AD});
  }

  /** findMatchingSupertype(ABC, AD) is A. */
  lemma MatchingSupertypeOfABCAndAD()
    ensures FindMatchingSupertype(TEST_CLASSES, ABC, AD) == Some(A)
  {
    SupertypesOfABC();
    SupertypesOfAD();
    var l2 := [AD, A, OBJECT];
    assert ABC !in l2 && AB !in l2 && A in l2;
    assert ObjectUtil.FindFirstMatch([A, OBJECT], l2) == Some(A);
    assert [AB, A, OBJECT][1..] == [A, OBJECT];
    assert ObjectUtil.FindFirstMatch([AB, A, OBJECT], l2) == Some(A);
    assert [ABC, AB, A, OBJECT][1..] == [AB, A, OBJECT];
  }

  // ------------------------------------------------------------ members

  /** A kept field followed by the enclosing-instance reference keeps just that field. */
  lemma KeepBeforeOuter(f: Field, c: ClassName)
    requires KeptField(f)
    ensures KeepFields([f, Outer(c)]) == [f]
  {
    assert [f, Outer(c)][1..] == [Outer(c)];
    assert KeepFields([Outer(c)]) == [];
  }

  lemma DeclaredFieldsOfTestClasses()
    ensures DeclaredFields(TEST_CLASSES, ABC) == [FC, FAB]
    ensures DeclaredFields(TEST_CLASSES, AB) == [FB]
    ensures DeclaredFields(TEST_CLASSES, A) == [FA]
    ensures DeclaredFields(TEST_CLASSES, OBJECT) == []
  {
    KeepBeforeOuter(FAB, ABC);
    assert [FC, FAB, Outer(ABC)][1..] == [FAB, Outer(ABC)];
    KeepBeforeOuter(FB, AB);
    KeepBeforeOuter(FA, A);
  }

  /** getAllFields(ABC) lists c, ab, b, a: the synthetic outer references are dropped. */
  lemma AllFieldsOfABC()
    ensures AllFields(TEST_CLASSES, ABC) == [FC, FAB, FB, FA]
  {
    SupertypesOfABC();
    DeclaredFieldsOfTestClasses();
    var h := [ABC, AB, A, OBJECT];
    assert FieldsAlong(TEST_CLASSES, h[3..]) == [];
    assert FieldsAlong(TEST_CLASSES, h[2..]) == [FA];
    assert FieldsAlong(TEST_CLASSES, h[1..]) == [FB, FA];
  }

  /** getAllMethods(ABC) is the one method ABC declares. */
  lemma AllMethodsOfABC()
    ensures AllMethods(TEST_CLASSES, ABC) == [GET_A_AND_B]
  {
    SupertypesOfABC();
    var h := [ABC, AB, A, OBJECT];
    assert DeclaredMethods(TEST_CLASSES, ABC) == [GET_A_AND_B] by {
      assert KeepMethods([GET_A_AND_B][1..]) == [];
    }
    assert DeclaredMethods(TEST_CLASSES, AB) == [] && DeclaredMethods(TEST_CLASSES, A) == [];
    assert MethodsAlong(TEST_CLASSES, h[3..]) == [];
    assert MethodsAlong(TEST_CLASSES, h[2..]) == [];
    assert MethodsAlong(TEST_CLASSES, h[1..]) == [];
    assert MethodsAlong(TEST_CLASSES, h) == [GET_A_AND_B];
    assert InterfaceMethods(TEST_CLASSES, ABC) == [];
    assert !Listed([], GET_A_AND_B);
    assert AddNew([], [] + [GET_A_AND_B]) == AddNew([GET_A_AND_B], []);
  }

  // ------------------------------------------------------------ assignability

  /** An A is not an AB: A's supertypes are A and Object, neither of which implements anything. */
  lemma NotABFromA()
    ensures !IsAssignableFrom(TEST_CLASSES, AB, A)
  {
    ChainOfA({});
    assert Supertypes(TEST_CLASSES, A) == [A, OBJECT];
    assert forall c :: c in [A, OBJECT] ==> Decl(TEST_CLASSES, c).interfaces == [];
    NothingImplemented(TEST_CLASSES, A);
  }

  /** An int is not a String. */
  lemma NotStringFromInt()
    ensures !IsAssignableFrom(TEST_CLASSES, STRING, INT)
  {
    assert INT !in TEST_CLASSES;
    Undeclared(TEST_CLASSES, INT);
  }

  lemma AFromAB()
    ensures IsAssignableFrom(TEST_CLASSES, A, AB)
  {
    ChainOfAB({});
  }

  // ------------------------------------------------------------ getter members

  /** No method of ABC is the getter of an alias whose length is not that of "aAndB". */
  lemma NoGetterMethod(t: ClassName, alias: string)
    requires |alias| != 5
    ensures forall m :: m in AllMethods(TEST_CLASSES, ABC) ==> !IsGetterMethod(TEST_CLASSES, t, alias, m)
  {
    AllMethodsOfABC();
    assert |"get" + StringUtil.InitialUpperCase(alias)| != |GET_A_AND_B.name|;
  }

  /**
   * With no getter method, the getter member is the first field that fits
   * the alias: here the field at `k`, every earlier field having another name.
   */
  lemma FieldIsMember(cm: Classes, c: ClassName, t: ClassName, alias: string, k: nat)
    requires forall m :: m in AllMethods(cm, c) ==> !IsGetterMethod(cm, t, alias, m)
    requires k < |AllFields(cm, c)| && IsAliasField(cm, t, alias, AllFields(cm, c)[k])
    requires forall i :: 0 <= i < k ==> AllFields(cm, c)[i].name != alias
    ensures GetterMember(cm, c, t, alias) == Some(FieldMember(AllFields(cm, c)[k]))
  {
    var fs := AllFields(cm, c);
    var j := FirstAliasField(cm, fs, t, alias).value;
    assert j == k;
  }

  /** The names of ABC's fields, in getAllFields order, and how they differ. */
  lemma FieldNamesOfABC()
    ensures FC.name == "c" && FAB.name == "ab" && FB.name == "b" && FA.name == "a" && FD.name == "d"
    ensures "c" != "a" && "ab" != "a" && "b" != "a" && "c" != "b" && "ab" != "b" && "c" != "ab"
  {
  }

  const ABC_FIELDS: seq<Field> := [FC, FAB, FB, FA]

  /**
   * The getter member of ABC for an alias that no method fits is the first
   * of ABC's fields, in getAllFields order, with that name.
   */
  lemma FieldMemberOfABC(t: ClassName, alias: string, k: nat)
    requires |alias| != 5
    requires k < |ABC_FIELDS| && IsAliasField(TEST_CLASSES, t, alias, ABC_FIELDS[k])
    requires forall i :: 0 <= i < k ==> ABC_FIELDS[i].name != alias
    ensures GetterMember(TEST_CLASSES, ABC, t, alias) == Some(FieldMember(ABC_FIELDS[k]))
  {
    AllFieldsOfABC();
    NoGetterMethod(t, alias);
    FieldIsMember(TEST_CLASSES, ABC, t, alias, k);
  }

  lemma MemberA()
    ensures GetterMember(TEST_CLASSES, ABC, INT, "a") == Some(FieldMember(FA))
  {
    FieldNamesOfABC();
    FieldMemberOfABC(INT, "a", 3);
  }

  lemma MemberB()
    ensures GetterMember(TEST_CLASSES, ABC, INT, "b") == Some(FieldMember(FB))
  {
    FieldNamesOfABC();
    FieldMemberOfABC(INT, "b", 2);
  }

  lemma MemberC()
    ensures GetterMember(TEST_CLASSES, ABC, INT, "c") == Some(FieldMember(FC))
  {
    FieldNamesOfABC();
    FieldMemberOfABC(INT, "c", 0);
  }

  /** The field `ab` fits the alias "ab" for an AB and, AB being an A, for an A. */
  lemma AliasFieldAB(t: ClassName)
    requires t == AB || t == A
    ensures IsAliasField(TEST_CLASSES, t, "ab", FAB)
  {
    if t == A {
      AFromAB();
    }
  }

  lemma MemberAB(t: ClassName)
    requires t == AB || t == A
    ensures GetterMember(TEST_CLASSES, ABC, t, "ab") == Some(FieldMember(FAB))
  {
    FieldNamesOfABC();
    AliasFieldAB(t);
    FieldMemberOfABC(t, "ab", 1);
  }

  /** No field of ABC has a name other than those of c, ab, b and a. */
  lemma NoFieldOfABCNamed(alias: string)
    requires alias != "c" && alias != "ab" && alias != "b" && alias != "a"
    ensures forall f :: f in AllFields(TEST_CLASSES, ABC) ==> f.name != alias
  {
    AllFieldsOfABC();
    FieldNamesOfABC();
  }

  lemma MemberD()
    ensures GetterMember(TEST_CLASSES, ABC, INT, "d") == None
  {
    NoGetterMethod(INT, "d");
    NoFieldOfABCNamed("d");
  }

  lemma AAndBText()
    ensures "get" + StringUtil.InitialUpperCase("aAndB") == "getAAndB"
  {
  }

  /** "aAndB" resolves to getAAndB: "get" + initialUpperCase("aAndB") is its name. */
  lemma GetterMethodOfABC(t: ClassName)
    requires t == AB || t == A
    ensures GetterMember(TEST_CLASSES, ABC, t, "aAndB") == Some(MethodMember(GET_A_AND_B))
  {
    AllMethodsOfABC();
    if t == A {
      AFromAB();
    }
    AAndBText();
    assert IsGetterMethod(TEST_CLASSES, t, "aAndB", GET_A_AND_B);
  }

  // ------------------------------------------------------------ the canGet sequence

  // The canGet sequence of the test, one lemma per call; each call starts
  // from the cache the previous one left behind (C1 .. C6 below).

  const C1: GetterCache := map[(ABC, "a") := FieldGetter(FA, ABC)]
  const C2: GetterCache := C1[(ABC, "b") := FieldGetter(FB, ABC)]
  const C3: GetterCache := C2[(ABC, "c") := FieldGetter(FC, ABC)]
  const C4: GetterCache := C3[(ABC, "ab") := FieldGetter(FAB, ABC)]
  const C6: GetterCache := C4[(ABC, "aAndB") := MethodGetter(GET_A_AND_B, ABC)]

  /** A first request whose member fits both checks builds a getter and caches it. */
  lemma ColdStep(cache: GetterCache, t: ClassName, alias: string, m: Member, g: Getter)
    requires (ABC, alias) !in cache
    requires GetterMember(TEST_CLASSES, ABC, t, alias) == Some(m)
    requires BuildGetter(TEST_CLASSES, ABC, t, m) == Success(g)
    ensures CanGet(TEST_CLASSES, cache, ABC, t, alias) == Success((true, cache[(ABC, alias) := g]))
  {
  }

  /** A first request for which no member is found answers false and caches nothing. */
  lemma ColdMissStep(cache: GetterCache, t: ClassName, alias: string)
    requires (ABC, alias) !in cache
    requires GetterMember(TEST_CLASSES, ABC, t, alias) == None
    ensures CanGet(TEST_CLASSES, cache, ABC, t, alias) == Success((false, cache))
  {
  }

  /** A request the cache already answers: it answers whether the cached getter's type fits. */
  lemma WarmStep(cache: GetterCache, t: ClassName, alias: string, fits: bool)
    requires (ABC, alias) in cache
    requires IsAssignableFrom(TEST_CLASSES, t, cache[(ABC, alias)].JavaType()) == fits
    ensures CanGet(TEST_CLASSES, cache, ABC, t, alias) == Success((fits, cache))
  {
  }

  lemma Step1()
    ensures CanGet(TEST_CLASSES, map[], ABC, INT, "a") == Success((true, C1))
  {
    assert GetterMember(TEST_CLASSES, ABC, INT, "a") == Some(FieldMember(FA)) by {
      MemberA();
    }
    assert BuildGetter(TEST_CLASSES, ABC, INT, FieldMember(FA)) == Success(FieldGetter(FA, ABC)) by {
      SupertypesOfABC();
    }
    ColdStep(map[], INT, "a", FieldMember(FA), FieldGetter(FA, ABC));
  }

  lemma Step2()
    ensures CanGet(TEST_CLASSES, C1, ABC, INT, "b") == Success((true, C2))
  {
    assert (ABC, "b") !in C1;
    assert GetterMember(TEST_CLASSES, ABC, INT, "b") == Some(FieldMember(FB)) by {
      MemberB();
    }
    assert BuildGetter(TEST_CLASSES, ABC, INT, FieldMember(FB)) == Success(FieldGetter(FB, ABC)) by {
      SupertypesOfABC();
    }
    ColdStep(C1, INT, "b", FieldMember(FB), FieldGetter(FB, ABC));
  }

  lemma Step3()
    ensures CanGet(TEST_CLASSES, C2, ABC, INT, "c") == Success((true, C3))
  {
    assert (ABC, "c") !in C2;
    assert GetterMember(TEST_CLASSES, ABC, INT, "c") == Some(FieldMember(FC)) by {
      MemberC();
    }
    assert BuildGetter(TEST_CLASSES, ABC, INT, FieldMember(FC)) == Success(FieldGetter(FC, ABC));
    ColdStep(C2, INT, "c", FieldMember(FC), FieldGetter(FC, ABC));
  }

  lemma Step4()
    ensures CanGet(TEST_CLASSES, C3, ABC, AB, "ab") == Success((true, C4))
  {
    assert (ABC, "ab") !in C3;
    assert GetterMember(TEST_CLASSES, ABC, AB, "ab") == Some(FieldMember(FAB)) by {
      MemberAB(AB);
    }
    assert BuildGetter(TEST_CLASSES, ABC, AB, FieldMember(FAB)) == Success(FieldGetter(FAB, ABC));
    ColdStep(C3, AB, "ab", FieldMember(FAB), FieldGetter(FAB, ABC));
  }

  lemma Step5()
    ensures CanGet(TEST_CLASSES, C4, ABC, A, "ab") == Success((true, C4))
  {
    assert C4[(ABC, "ab")] == FieldGetter(FAB, ABC);
    assert IsAssignableFrom(TEST_CLASSES, A, AB) by {
      AFromAB();
    }
    WarmStep(C4, A, "ab", true);
  }

  lemma Step6()
    ensures CanGet(TEST_CLASSES, C4, ABC, AB, "aAndB") == Success((true, C6))
  {
    assert (ABC, "aAndB") !in C4;
    assert GetterMember(TEST_CLASSES, ABC, AB, "aAndB") == Some(MethodMember(GET_A_AND_B)) by {
      GetterMethodOfABC(AB);
    }
    assert BuildGetter(TEST_CLASSES, ABC, AB, MethodMember(GET_A_AND_B)) == Success(MethodGetter(GET_A_AND_B, ABC));
    ColdStep(C4, AB, "aAndB", MethodMember(GET_A_AND_B), MethodGetter(GET_A_AND_B, ABC));
  }

  lemma Step7()
    ensures CanGet(TEST_CLASSES, C6, ABC, A, "aAndB") == Success((true, C6))
  {
    assert C6[(ABC, "aAndB")] == MethodGetter(GET_A_AND_B, ABC);
    assert IsAssignableFrom(TEST_CLASSES, A, AB) by {
      AFromAB();
    }
    WarmStep(C6, A, "aAndB", true);
  }

  /** A cached int getter does not supply a String: the hit answers false. */
  lemma Step8()
    ensures CanGet(TEST_CLASSES, C6, ABC, STRING, "c") == Success((false, C6))
  {
    assert C6[(ABC, "c")] == FieldGetter(FC, ABC);
    assert !IsAssignableFrom(TEST_CLASSES, STRING, INT) by {
      NotStringFromInt();
    }
    WarmStep(C6, STRING, "c", false);
  }

  lemma Step9()
    ensures CanGet(TEST_CLASSES, C6, ABC, INT, "d") == Success((false, C6))
  {
    assert (ABC, "d") !in C6;
    assert GetterMember(TEST_CLASSES, ABC, INT, "d") == None by {
      MemberD();
    }
    ColdMissStep(C6, INT, "d");
  }

  /**
   * The order of the test matters: asked first for an `A` under "ab", the
   * cold lookup finds the field `ab` of type AB (an AB is an A), but the
   * FieldGetter constructor checks the opposite direction and throws.
   */
  lemma ColdOrderFails()
    ensures CanGet(TEST_CLASSES, map[], ABC, A, "ab") == Failure(UtilityError(ABC))
  {
    MemberAB(A);
    NotABFromA();
  }

  /** The same holds for the method getter getAAndB. */
  lemma ColdOrderFailsForMethod()
    ensures CanGet(TEST_CLASSES, map[], ABC, A, "aAndB") == Failure(UtilityError(ABC))
  {
    GetterMethodOfABC(A);
    NotABFromA();
  }
}

=== FILE: class_model.dfy ===
/**
 * The class model that stands in for Java reflection: named classes with an
 * optional superclass, implemented interfaces, declared fields, declared
 * methods, public constructors and annotations ("tags").  Assignability
 * (Class.isAssignableFrom) is the subtype relation of this model.
 *
 * A name that the model does not declare behaves as a class with no members,
 * no annotations and no superclass.
 */
module ClassModel {
  import opened Wrappers
  import opened Text

  /** A fully qualified class name (Class.getName). */
  type ClassName = string

  const OBJECT: ClassName := "java.lang.Object"
  const STRING: ClassName := "java.lang.String"
  const BOOLEAN: ClassName := "java.lang.Boolean"
  const CHARACTER: ClassName := "java.lang.Character"
  const DATE: ClassName := "java.util.Date"
  const SERIALIZABLE: ClassName := "java.io.Serializable"
  const VOID: ClassName := "void"

  predicate IsPrimitive(c: ClassName) {
    c in {"boolean", "byte", "short", "int", "long", "char", "float", "double", "void"}
  }

  datatype FetchType = Eager | Lazy

  /** One @JoinColumn: the local column and the referenced column (possibly ""). */
  datatype JoinSpec = JoinSpec(name: string, referencedColumnName: string)

  /** The annotations the library inspects, with the attributes it reads. */
  datatype Tag =
    | IdTag
    | EmbeddedIdTag
    | ColumnTag(columnName: string)
    | ManyToOneTag(fetch: FetchType, cascade: seq<string>)
    | JoinColumnTag(join: JoinSpec)
    | JoinColumnsTag(joins: seq<JoinSpec>)
    | IdClassTag(idClass: ClassName)
    | EntityTag(entityName: string)
    | TableTag(tableName: string)
    | RootEntityTag
    | ParentEntityTag
    | IdentityTag
    | KeySetterTag
    | OtherTag(annotation: ClassName)
  {
    /** The annotation type, which is what isAnnotationPresent asks about. */
    function Kind(): (r: TagKind)
      ensures OtherTag? <==> r.OtherKind?
    {
      match this
      case IdTag => IdKind
      case EmbeddedIdTag => EmbeddedIdKind
      case ColumnTag(_) => ColumnKind
      case ManyToOneTag(_, _) => ManyToOneKind
      case JoinColumnTag(_) => JoinColumnKind
      case JoinColumnsTag(_) => JoinColumnsKind
      case IdClassTag(_) => IdClassKind
      case EntityTag(_) => EntityKind
      case TableTag(_) => TableKind
      case RootEntityTag => RootEntityKind
      case ParentEntityTag => ParentEntityKind
      case IdentityTag => IdentityKind
      case KeySetterTag => KeySetterKind
      case OtherTag(a) => OtherKind(a)
    }
  }

  datatype TagKind =
    | IdKind | EmbeddedIdKind | ColumnKind | ManyToOneKind | JoinColumnKind | JoinColumnsKind
    | IdClassKind | EntityKind | TableKind | RootEntityKind | ParentEntityKind | IdentityKind
    | KeySetterKind | OtherKind(annotation: ClassName)

  /** isAnnotationPresent. */
  predicate HasTag(tags: seq<Tag>, k: TagKind) {
    exists i :: 0 <= i < |tags| && tags[i].Kind() == k
  }

  /** getAnnotation: the annotation of the given type, if present. */
  function TagOf(tags: seq<Tag>, k: TagKind): (r: Option<Tag>)
    ensures r.Some? <==> HasTag(tags, k)
    ensures r.Some? ==> r.value in tags && r.value.Kind() == k
  {
    if tags == [] then None
    else if tags[0].Kind() == k then Some(tags[0])
    else TagOf(tags[1..], k)
  }

  /**
   * A declared field.  `isPublic`: the field and its class are public, so
   * reflection from the library's own classes reaches it without
   * setAccessible(true).
   */
  datatype Field = Field(declaring: ClassName, name: string, ftype: ClassName, synthetic: bool, isPublic: bool, tags: seq<Tag>)

  /** A declared method; `isPublic` as for fields. */
  datatype Method = Method(
    declaring: ClassName,
    name: string,
    params: seq<ClassName>,
    paramNames: seq<string>,
    ret: ClassName,
    synthetic: bool,
    isPublic: bool,
    tags: seq<Tag>)

  /** A field or a method (java.lang.reflect.Member as the library uses it). */
  datatype Member = FieldMember(f: Field) | MethodMember(m: Method) {
    function Tags(): seq<Tag> {
      match this
      case FieldMember(f) => f.tags
      case MethodMember(m) => m.tags
    }
  }

  /**
   * A declared class or interface: `isAbstract` is the abstract modifier
   * (interfaces carry it too) and `ctors` the parameter lists of its public
   * constructors.
   */
  datatype ClassDecl = ClassDecl(
    superclass: Option<ClassName>,
    isInterface: bool,
    isAbstract: bool,
    interfaces: seq<ClassName>,
    fields: seq<Field>,
    methods: seq<Method>,
    ctors: seq<seq<ClassName>>,
    tags: seq<Tag>)

  const NO_DECL := ClassDecl(None, false, false, [], [], [], [], [])

  type Classes = map<ClassName, ClassDecl>

  function Decl(cm: Classes, c: ClassName): (r: ClassDecl)
    ensures c !in cm ==> r == NO_DECL
  {
    if c in cm then cm[c] else NO_DECL
  }

  function SuperOf(cm: Classes, c: ClassName): Option<ClassName> {
    Decl(cm, c).superclass
  }

  /** Class.getSimpleName: the text after the last '.' and after the last '$'. */
  function SimpleName(c: ClassName): (r: string)
    ensures '.' !in r && '$' !in r
  {
    var afterDot := AfterLast(c, '.');
    var r := AfterLast(afterDot, '$');
    NotInSuffix(afterDot, |afterDot| - |r|, '.');
    r
  }

  /** A name with neither '.' nor '$' is its own simple name. */
  lemma SimpleNameOfPlain(c: ClassName)
    requires '.' !in c && '$' !in c
    ensures SimpleName(c) == c
  {
  }

  /** The simple name of `pkg.c` is that of `c`, when `c` has no '.'. */
  lemma SimpleNameOfQualified(pkg: string, c: ClassName)
    requires '.' !in c && '$' !in c
    ensures SimpleName(pkg + "." + c) == c
  {
    var n := pkg + "." + c;
    assert n[|pkg|] == '.';
    assert n[|pkg| + 1..] == c;
    assert forall i :: |pkg| < i < |n| ==> n[i] == c[i - |pkg| - 1];
    assert LastIndexOf(n, '.') == |pkg|;
    SimpleNameOfPlain(c);
  }

  /** "void" is its own simple name. */
  lemma SimpleNameOfVoid()
    ensures SimpleName(VOID) == VOID
  {
    assert |VOID| == 4 && VOID[0] == 'v' && VOID[1] == 'o' && VOID[2] == 'i' && VOID[3] == 'd';
    assert '.' !in VOID && '$' !in VOID;
    SimpleNameOfPlain(VOID);
  }

  predicate HasCtor(cm: Classes, c: ClassName, params: seq<ClassName>) {
    params in Decl(cm, c).ctors
  }

  /**
   * The superclass chain from `c`, never revisiting a class in `seen`; with an
   * empty `seen` this is ClassUtil.getSupertypes.
   */
  function Chain(cm: Classes, c: ClassName, seen: set<ClassName>): (r: seq<ClassName>)
    ensures c !in seen ==> |r| >= 1 && r[0] == c
    ensures c in seen ==> r == []
    ensures forall i :: 0 <= i < |r| ==> r[i] !in seen
    ensures forall i :: 0 <= i < |r| - 1 ==> SuperOf(cm, r[i]) == Some(r[i + 1])
    ensures forall i, j :: 0 <= i < j < |r| ==> r[i] != r[j]
    ensures r != [] ==> SuperOf(cm, r[|r| - 1]).None? || SuperOf(cm, r[|r| - 1]).value in seen || SuperOf(cm, r[|r| - 1]).value in r
    decreases cm.Keys - seen
  {
    if c in seen then []
    else
      match SuperOf(cm, c)
      case None => [c]
      case Some(s) =>
        assert c in cm;
        var rest := Chain(cm, s, seen + {c});
        ConsDistinct(c, rest);
        ConsLast(c, rest);
        [c] + rest
  }

  /** Putting a class that its rest does not contain in front keeps a chain free of repeats. */
  lemma ConsDistinct(c: ClassName, rest: seq<ClassName>)
    requires c !in rest
    requires forall i, j :: 0 <= i < j < |rest| ==> rest[i] != rest[j]
    ensures forall i, j :: 0 <= i < j < |[c] + rest| ==> ([c] + rest)[i] != ([c] + rest)[j]
  {
    var r := [c] + rest;
    forall i, j | 0 <= i < j < |r|
      ensures r[i] != r[j]
    {
      assert r[j] == rest[j - 1];
      if i > 0 {
        assert r[i] == rest[i - 1];
      }
    }
  }

  /** The last class of a non-empty rest is the last of the longer chain; every class of the rest is in it. */
  lemma ConsLast(c: ClassName, rest: seq<ClassName>)
    ensures ([c] + rest)[|[c] + rest| - 1] == if rest == [] then c else rest[|rest| - 1]
    ensures c in [c] + rest && forall x :: x in rest ==> x in [c] + rest
  {
  }

  /** ClassUtil.getSupertypes: the class followed by its superclasses. */
  function Supertypes(cm: Classes, c: ClassName): (r: seq<ClassName>)
    ensures |r| >= 1 && r[0] == c
    ensures forall i :: 0 <= i < |r| - 1 ==> SuperOf(cm, r[i]) == Some(r[i + 1])
    ensures forall i, j :: 0 <= i < j < |r| ==> r[i] != r[j]
    ensures SuperOf(cm, r[|r| - 1]).None? || SuperOf(cm, r[|r| - 1]).value in r
  {
    Chain(cm, c, {})
  }

  /** The last class of the chain (Object, for a well-formed hierarchy). */
  function Root(cm: Classes, c: ClassName): (r: ClassName)
    ensures r in Supertypes(cm, c)
  {
    var h := Supertypes(cm, c);
    h[|h| - 1]
  }

  /** No class is its own ancestor, so every chain ends at a class with no superclass. */
  predicate Acyclic(cm: Classes) {
    forall c :: c in cm ==> SuperOf(cm, Root(cm, c)).None?
  }

  /** The interfaces the classes `cs` declare directly (Class.getInterfaces of each), in order. */
  function DirectInterfaces(cm: Classes, cs: seq<ClassName>): seq<ClassName> {
    if cs == [] then []
    else Decl(cm, cs[0]).interfaces + DirectInterfaces(cm, cs[1..])
  }

  /** The list holds exactly the interfaces some class of `cs` declares, and is empty when none declares any. */
  lemma {:induction false} DirectInterfacesMeaning(cm: Classes, cs: seq<ClassName>)
    ensures forall i :: i in DirectInterfaces(cm, cs) <==> exists c :: c in cs && i in Decl(cm, c).interfaces
    ensures (forall c :: c in cs ==> Decl(cm, c).interfaces == []) ==> DirectInterfaces(cm, cs) == []
  {
    if cs != [] {
      DirectInterfacesMeaning(cm, cs[1..]);
      assert forall c :: c in cs <==> c == cs[0] || c in cs[1..];
    }
  }

  /**
   * The interfaces reachable from `todo` through super-interfaces, leaving out
   * those in `seen`: a worklist that visits each interface once.
   */
  function InterfaceClosure(cm: Classes, todo: seq<ClassName>, seen: set<ClassName>): set<ClassName>
    decreases cm.Keys - seen, |todo|
  {
    if todo == [] then {}
    else if todo[0] in seen then InterfaceClosure(cm, todo[1..], seen)
    else {todo[0]} + InterfaceClosure(cm, Decl(cm, todo[0]).interfaces + todo[1..], seen + {todo[0]})
  }

  /**
   * The worklist's result holds every start outside `seen`, is closed under
   * super-interfaces (up to `seen`), and each member is a start or a
   * super-interface of another member.
   */
  lemma {:induction false} InterfaceClosureMeaning(cm: Classes, todo: seq<ClassName>, seen: set<ClassName>)
    ensures var r := InterfaceClosure(cm, todo, seen);
            (forall i :: i in todo && i !in seen ==> i in r)
            && (forall i :: i in r ==> i !in seen)
            && (forall i, j :: i in r && j in Decl(cm, i).interfaces && j !in seen ==> j in r)
            && (forall i :: i in r ==> i in todo || exists k :: k in r && i in Decl(cm, k).interfaces)
    decreases cm.Keys - seen, |todo|
  {
    if todo == [] {
    } else if todo[0] in seen {
      InterfaceClosureMeaning(cm, todo[1..], seen);
      assert forall x :: x in todo[1..] ==> x in todo;
      assert forall x :: x in todo && x !in seen ==> x in todo[1..] by {
        forall x | x in todo && x !in seen
          ensures x in todo[1..]
        {
          var k :| 0 <= k < |todo| && todo[k] == x;
          assert k != 0;
          assert todo[1..][k - 1] == x;
        }
      }
    } else {
      var i := todo[0];
      InterfaceClosureMeaning(cm, Decl(cm, i).interfaces + todo[1..], seen + {i});
      assert forall x :: x in todo[1..] ==> x in todo;
      assert forall x :: x in todo && x != i ==> x in todo[1..] by {
        forall x | x in todo && x != i
          ensures x in todo[1..]
        {
          var k :| 0 <= k < |todo| && todo[k] == x;
          assert k != 0;
          assert todo[1..][k - 1] == x;
        }
      }
    }
  }

  /** Every interface `c` implements: those its class chain declares and, transitively, their super-interfaces. */
  function Implemented(cm: Classes, c: ClassName): set<ClassName> {
    InterfaceClosure(cm, DirectInterfaces(cm, Supertypes(cm, c)), {})
  }

  /**
   * The interfaces `c` implements hold what its chain declares and are
   * closed under super-interfaces; each one is declared along the chain or
   * is a super-interface of another of them.
   */
  lemma ImplementedMeaning(cm: Classes, c: ClassName)
    ensures var r := Implemented(cm, c);
            (forall k, i :: k in Supertypes(cm, c) && i in Decl(cm, k).interfaces ==> i in r)
            && (forall i, j :: i in r && j in Decl(cm, i).interfaces ==> j in r)
            && (forall i :: i in r ==> (exists k :: k in Supertypes(cm, c) && i in Decl(cm, k).interfaces)
                                       || (exists k :: k in r && i in Decl(cm, k).interfaces))
  {
    DirectInterfacesMeaning(cm, Supertypes(cm, c));
    InterfaceClosureMeaning(cm, DirectInterfaces(cm, Supertypes(cm, c)), {});
  }

  /** A chain that declares no interface implements none. */
  lemma NothingImplemented(cm: Classes, c: ClassName)
    requires forall k :: k in Supertypes(cm, c) ==> Decl(cm, k).interfaces == []
    ensures Implemented(cm, c) == {}
  {
    DirectInterfacesMeaning(cm, Supertypes(cm, c));
  }

  /** A class the model does not declare has itself as its only supertype and implements nothing. */
  lemma Undeclared(cm: Classes, c: ClassName)
    requires c !in cm
    ensures Supertypes(cm, c) == [c] && Implemented(cm, c) == {}
  {
    assert Chain(cm, c, {}) == [c];
    NothingImplemented(cm, c);
  }

  /**
   * Class.isAssignableFrom: `to` is `from` itself, Object for any reference
   * type, a superclass of `from`, or an interface `from` implements.  The
   * `interfaces` list of a class holds only what it declares itself
   * (getInterfaces); super-interfaces are followed here.
   */
  predicate IsAssignableFrom(cm: Classes, to: ClassName, from: ClassName) {
    to == from
    || (to == OBJECT && !IsPrimitive(from))
    || to in Supertypes(cm, from)
    || to in Implemented(cm, from)
  }

  /**
   * Assignability reaches through super-interfaces: a class that implements
   * an interface is assignable to everything that interface extends.
   */
  lemma SuperinterfaceAssignable(cm: Classes, sup: ClassName, i: ClassName, from: ClassName)
    requires i in Implemented(cm, from) && sup in Decl(cm, i).interfaces
    ensures IsAssignableFrom(cm, sup, from)
  {
    ImplementedMeaning(cm, from);
  }

  /** interface J {}; interface I extends J {}; class C implements I {}. */
  const EXTENDS_EXAMPLE: Classes := map[
    "J" := ClassDecl(None, true, true, [], [], [], [], []),
    "I" := ClassDecl(None, true, true, ["J"], [], [], [], []),
    "C" := ClassDecl(Some(OBJECT), false, false, ["I"], [], [], [], [])]

  /** C is assignable to I, which it declares, and to J, which only I declares. */
  lemma InheritedInterfaceExample()
    ensures IsAssignableFrom(EXTENDS_EXAMPLE, "I", "C") && IsAssignableFrom(EXTENDS_EXAMPLE, "J", "C")
  {
    var cm := EXTENDS_EXAMPLE;
    ImplementedMeaning(cm, "C");
    assert "C" in Supertypes(cm, "C") && "I" in Decl(cm, "C").interfaces;
    assert "J" in Decl(cm, "I").interfaces;
  }

  /** The relation is not symmetric: the interface J is not assignable to the class C. */
  lemma InheritedInterfaceOneWay()
    ensures !IsAssignableFrom(EXTENDS_EXAMPLE, "C", "J")
  {
    var cm := EXTENDS_EXAMPLE;
    assert Supertypes(cm, "J") == ["J"] by {
      assert Chain(cm, "J", {}) == ["J"];
    }
    NothingImplemented(cm, "J");
  }
}

=== FILE: class_names.dfy ===
/**
 * ClassUtil's name helpers: splitting a canonical class name into package
 * and basename, and the alias a getter or setter name stands for.  A Java
 * null string is `None`.
 */
module ClassNames {
  import opened Wrappers
  import opened Text
  import StringUtil

  /** getPackageNameFromCanonicalName: the text before the last '.', or "". */
  function PackageName(name: Option<string>): (r: string)
    ensures name.None? || name == Some([]) ==> r == []
    ensures name.Some? && '.' !in name.value ==> r == []
    ensures name.Some? && '.' in name.value ==> |r| < |name.value| && name.value[..|r|] == r && name.value[|r|] == '.'
  {
    if name.None? || name.value == [] then []
    else
      var k := LastIndexOf(name.value, '.');
      if k == -1 then [] else name.value[..k]
  }

  /** getBasenameFromCanonicalName: the text after the last '.'; "void" for null or "". */
  function Basename(name: Option<string>): (r: string)
    ensures name.None? || name == Some([]) ==> r == "void"
    ensures name.Some? && name.value != [] ==> '.' !in r
    ensures name.Some? && '.' !in name.value && name.value != [] ==> r == name.value
  {
    if name.None? || name.value == [] then "void"
    else
      var k := LastIndexOf(name.value, '.');
      if k == -1 then name.value else name.value[k + 1..]
  }

  /** A name that contains a '.' is its package, a '.', and its basename. */
  lemma SplitRejoins(n: string)
    requires '.' in n
    ensures PackageName(Some(n)) + "." + Basename(Some(n)) == n
  {
    var k := LastIndexOf(n, '.');
    assert n == n[..k] + "." + n[k + 1..];
  }

  /** A package name never ends where the basename could have started: the basename has no '.'. */
  lemma SplitIsAtLastDot(n: string)
    requires '.' in n
    ensures '.' !in Basename(Some(n))
    ensures |PackageName(Some(n))| == LastIndexOf(n, '.')
  {
  }

  /**
   * getAliasFromMethodName: a name starting with "get" or "set" loses those
   * three characters; the initial of what remains is lower-cased.
   */
  function AliasFromMethodName(name: Option<string>): (r: string)
    ensures name.None? || name == Some([]) ==> r == []
    ensures name.Some? && (StartsWith(name.value, "get") || StartsWith(name.value, "set")) ==> |r| == |name.value| - 3
    ensures name.Some? && !(StartsWith(name.value, "get") || StartsWith(name.value, "set")) ==> |r| == |name.value|
  {
    if name.None? || name.value == [] then []
    else if StartsWith(name.value, "get") || StartsWith(name.value, "set") then
      StringUtil.InitialLowerCase(name.value[3..])
    else StringUtil.InitialLowerCase(name.value)
  }

  /** The alias of a getter name is the property name with its initial lower-cased. */
  lemma AliasOfGetter(prop: string)
    requires prop != []
    ensures AliasFromMethodName(Some("get" + prop)) == StringUtil.InitialLowerCase(prop)
    ensures AliasFromMethodName(Some("set" + prop)) == StringUtil.InitialLowerCase(prop)
  {
    assert ("get" + prop)[3..] == prop;
    assert ("set" + prop)[3..] == prop;
  }
}

=== FILE: class_util.dfy ===
/**
 * ClassUtil's resolution rules: the nearest supertype two classes share, the
 * member behind a getter or a setter, and the getter cache keyed by
 * (object class, alias).  The cache is explicit state: each lookup takes the
 * cache and returns the cache it leaves behind.
 */
module ClassUtil {
  import opened Wrappers
  import opened ClassModel
  import opened Members
  import opened Getters
  import StringUtil
  import ObjectUtil
  import Seqs

  // ------------------------------------------------------------ supertypes

  /**
   * findMatchingSupertype: the class itself when both are the same class,
   * otherwise the first class of cls1's chain that is also in cls2's chain
   * (null when the chains share none).
   */
  function FindMatchingSupertype(cm: Classes, c1: ClassName, c2: ClassName): (r: Option<ClassName>)
    ensures c1 == c2 ==> r == Some(c1)
    ensures r.Some? ==> r.value in Supertypes(cm, c1) && r.value in Supertypes(cm, c2)
  {
    if c1 == c2 then Some(c1)
    else ObjectUtil.FindFirstMatch(Supertypes(cm, c1), Supertypes(cm, c2))
  }

  /** The shared supertype is assignable from both classes. */
  lemma MatchingSupertypeIsCommon(cm: Classes, c1: ClassName, c2: ClassName)
    requires FindMatchingSupertype(cm, c1, c2).Some?
    ensures IsAssignableFrom(cm, FindMatchingSupertype(cm, c1, c2).value, c1)
    ensures IsAssignableFrom(cm, FindMatchingSupertype(cm, c1, c2).value, c2)
  {
  }

  /** It is the nearest one: no class below it on cls1's chain is a supertype of cls2. */
  lemma MatchingSupertypeIsNearest(cm: Classes, c1: ClassName, c2: ClassName, j: nat)
    requires c1 != c2
    requires FindMatchingSupertype(cm, c1, c2).Some?
    requires j < |Supertypes(cm, c1)| && Supertypes(cm, c1)[j] == FindMatchingSupertype(cm, c1, c2).value
    ensures forall i :: 0 <= i < j ==> Supertypes(cm, c1)[i] !in Supertypes(cm, c2)
  {
    var h := Supertypes(cm, c1);
    var k :| 0 <= k < |h| && h[k] == FindMatchingSupertype(cm, c1, c2).value
             && forall i :: 0 <= i < k ==> h[i] !in Supertypes(cm, c2);
    // the chain has no repeats, so the matching class sits at one index only
    assert k == j;
  }

  /** Two classes whose chains end at the same root always have a matching supertype. */
  lemma SameRootMatches(cm: Classes, c1: ClassName, c2: ClassName)
    requires Root(cm, c1) == Root(cm, c2)
    ensures FindMatchingSupertype(cm, c1, c2).Some?
  {
  }

  // ------------------------------------------------------------ getter and setter members

  /** A getter method for `alias`: named "get" + initialUpperCase(alias), no parameters, returning a `t`. */
  predicate IsGetterMethod(cm: Classes, t: ClassName, alias: string, m: Method) {
    m.name == "get" + StringUtil.InitialUpperCase(alias) && |m.params| == 0 && IsAssignableFrom(cm, t, m.ret)
  }

  /** A field backing `alias` for a getter or setter of `t`: named `alias`, of a type assignable to `t`. */
  predicate IsAliasField(cm: Classes, t: ClassName, alias: string, f: Field) {
    f.name == alias && IsAssignableFrom(cm, t, f.ftype)
  }

  function FirstGetterMethod(cm: Classes, ms: seq<Method>, t: ClassName, alias: string): (r: Option<nat>)
    ensures r.Some? ==> r.value < |ms| && IsGetterMethod(cm, t, alias, ms[r.value])
    ensures r.Some? ==> forall j :: 0 <= j < r.value ==> !IsGetterMethod(cm, t, alias, ms[j])
    ensures r.None? <==> forall j :: 0 <= j < |ms| ==> !IsGetterMethod(cm, t, alias, ms[j])
  {
    Seqs.FirstIndex(ms, (m: Method) => IsGetterMethod(cm, t, alias, m))
  }

  function FirstAliasField(cm: Classes, fs: seq<Field>, t: ClassName, alias: string): (r: Option<nat>)
    ensures r.Some? ==> r.value < |fs| && IsAliasField(cm, t, alias, fs[r.value])
    ensures r.Some? ==> forall j :: 0 <= j < r.value ==> !IsAliasField(cm, t, alias, fs[j])
    ensures r.None? <==> forall j :: 0 <= j < |fs| ==> !IsAliasField(cm, t, alias, fs[j])
  {
    Seqs.FirstIndex(fs, (f: Field) => IsAliasField(cm, t, alias, f))
  }

  /**
   * getGetterMember: the first getter method of getAllMethods; only when
   * there is none, the first field of getAllFields named `alias`; else null.
   */
  function GetterMember(cm: Classes, c: ClassName, t: ClassName, alias: string): (r: Option<Member>)
    ensures r.Some? && r.value.MethodMember? ==> r.value.m in AllMethods(cm, c) && IsGetterMethod(cm, t, alias, r.value.m)
    ensures r.Some? && r.value.FieldMember? ==> r.value.f in AllFields(cm, c) && IsAliasField(cm, t, alias, r.value.f)
    ensures r.Some? && r.value.FieldMember? ==> forall m :: m in AllMethods(cm, c) ==> !IsGetterMethod(cm, t, alias, m)
    ensures r.None? <==> (forall m :: m in AllMethods(cm, c) ==> !IsGetterMethod(cm, t, alias, m))
                         && (forall f :: f in AllFields(cm, c) ==> !IsAliasField(cm, t, alias, f))
  {
    var ms := AllMethods(cm, c);
    match FirstGetterMethod(cm, ms, t, alias)
    case Some(i) => Some(MethodMember(ms[i]))
    case None =>
      var fs := AllFields(cm, c);
      match FirstAliasField(cm, fs, t, alias)
      case Some(j) => Some(FieldMember(fs[j]))
      case None => None
  }

  /** getGetterMember answers the first getter method in getAllMethods order, or else the first matching field in getAllFields order. */
  lemma GetterMemberIsFirst(cm: Classes, c: ClassName, t: ClassName, alias: string)
    ensures var r := GetterMember(cm, c, t, alias);
            r.Some? && r.value.MethodMember? ==>
              exists k :: 0 <= k < |AllMethods(cm, c)| && AllMethods(cm, c)[k] == r.value.m
                          && forall j :: 0 <= j < k ==> !IsGetterMethod(cm, t, alias, AllMethods(cm, c)[j])
    ensures var r := GetterMember(cm, c, t, alias);
            r.Some? && r.value.FieldMember? ==>
              exists k :: 0 <= k < |AllFields(cm, c)| && AllFields(cm, c)[k] == r.value.f
                          && forall j :: 0 <= j < k ==> !IsAliasField(cm, t, alias, AllFields(cm, c)[j])
  {
    var ms, fs := AllMethods(cm, c), AllFields(cm, c);
    match FirstGetterMethod(cm, ms, t, alias)
    case Some(i) =>
      assert GetterMember(cm, c, t, alias) == Some(MethodMember(ms[i]));
    case None =>
      match FirstAliasField(cm, fs, t, alias)
      case Some(i) =>
        assert GetterMember(cm, c, t, alias) == Some(FieldMember(fs[i]));
      case None =>
  }

  /** A setter method for `alias`: named "set" + initialUpperCase(alias), one parameter that accepts a `t`. */
  predicate IsSetterMethod(cm: Classes, t: ClassName, alias: string, m: Method) {
    m.name == "set" + StringUtil.InitialUpperCase(alias) && |m.params| == 1 && IsAssignableFrom(cm, m.params[0], t)
  }

  function FirstSetterMethod(cm: Classes, ms: seq<Method>, t: ClassName, alias: string): (r: Option<nat>)
    ensures r.Some? ==> r.value < |ms| && IsSetterMethod(cm, t, alias, ms[r.value])
    ensures r.Some? ==> forall j :: 0 <= j < r.value ==> !IsSetterMethod(cm, t, alias, ms[j])
    ensures r.None? <==> forall j :: 0 <= j < |ms| ==> !IsSetterMethod(cm, t, alias, ms[j])
  {
    Seqs.FirstIndex(ms, (m: Method) => IsSetterMethod(cm, t, alias, m))
  }

  /**
   * getSetterMember(cls, type, alias): the first setter method of
   * getAllMethods; only when there is none, the first field named `alias`
   * whose type is assignable to `type`; else null.
   */
  function SetterMember(cm: Classes, c: ClassName, t: ClassName, alias: string): (r: Option<Member>)
    ensures r.Some? && r.value.MethodMember? ==> r.value.m in AllMethods(cm, c) && IsSetterMethod(cm, t, alias, r.value.m)
    ensures r.Some? && r.value.FieldMember? ==> r.value.f in AllFields(cm, c) && IsAliasField(cm, t, alias, r.value.f)
    ensures r.Some? && r.value.FieldMember? ==> forall m :: m in AllMethods(cm, c) ==> !IsSetterMethod(cm, t, alias, m)
    ensures r.None? <==> (forall m :: m in AllMethods(cm, c) ==> !IsSetterMethod(cm, t, alias, m))
                         && (forall f :: f in AllFields(cm, c) ==> !IsAliasField(cm, t, alias, f))
  {
    var ms := AllMethods(cm, c);
    match FirstSetterMethod(cm, ms, t, alias)
    case Some(i) => Some(MethodMember(ms[i]))
    case None =>
      var fs := AllFields(cm, c);
      match FirstAliasField(cm, fs, t, alias)
      case Some(j) => Some(FieldMember(fs[j]))
      case None => None
  }

  /** getSetterMember(cls, type, alias) answers the first setter method in getAllMethods order, or else the first matching field. */
  lemma SetterMemberIsFirst(cm: Classes, c: ClassName, t: ClassName, alias: string)
    ensures var r := SetterMember(cm, c, t, alias);
            r.Some? && r.value.MethodMember? ==>
              exists k :: 0 <= k < |AllMethods(cm, c)| && AllMethods(cm, c)[k] == r.value.m
                          && forall j :: 0 <= j < k ==> !IsSetterMethod(cm, t, alias, AllMethods(cm, c)[j])
    ensures var r := SetterMember(cm, c, t, alias);
            r.Some? && r.value.FieldMember? ==>
              exists k :: 0 <= k < |AllFields(cm, c)| && AllFields(cm, c)[k] == r.value.f
                          && forall j :: 0 <= j < k ==> !IsAliasField(cm, t, alias, AllFields(cm, c)[j])
  {
    var ms, fs := AllMethods(cm, c), AllFields(cm, c);
    match FirstSetterMethod(cm, ms, t, alias)
    case Some(i) =>
      assert SetterMember(cm, c, t, alias) == Some(MethodMember(ms[i]));
    case None =>
      match FirstAliasField(cm, fs, t, alias)
      case Some(i) =>
        assert SetterMember(cm, c, t, alias) == Some(FieldMember(fs[i]));
      case None =>
  }

  /** A one-parameter method whose parameter accepts a `t`, whatever its name. */
  predicate AcceptsOne(cm: Classes, t: ClassName, m: Method) {
    |m.params| == 1 && IsAssignableFrom(cm, m.params[0], t)
  }

  function FirstAccepting(cm: Classes, ms: seq<Method>, t: ClassName): (r: Option<nat>)
    ensures r.Some? ==> r.value < |ms| && AcceptsOne(cm, t, ms[r.value])
    ensures r.Some? ==> forall j :: 0 <= j < r.value ==> !AcceptsOne(cm, t, ms[j])
    ensures r.None? <==> forall j :: 0 <= j < |ms| ==> !AcceptsOne(cm, t, ms[j])
  {
    Seqs.FirstIndex(ms, (m: Method) => AcceptsOne(cm, t, m))
  }

  function FirstOfType(cm: Classes, fs: seq<Field>, t: ClassName): (r: Option<nat>)
    ensures r.Some? ==> r.value < |fs| && IsAssignableFrom(cm, t, fs[r.value].ftype)
    ensures r.Some? ==> forall j :: 0 <= j < r.value ==> !IsAssignableFrom(cm, t, fs[j].ftype)
    ensures r.None? <==> forall j :: 0 <= j < |fs| ==> !IsAssignableFrom(cm, t, fs[j].ftype)
  {
    Seqs.FirstIndex(fs, (f: Field) => IsAssignableFrom(cm, t, f.ftype))
  }

  /**
   * getSetterMember(cls, type): the first one-parameter method accepting a
   * `type`, whatever its name; otherwise the first field whose type is
   * assignable to `type`; else null.
   */
  function SetterMemberFor(cm: Classes, c: ClassName, t: ClassName): (r: Option<Member>)
    ensures r.Some? && r.value.MethodMember? ==> r.value.m in AllMethods(cm, c) && AcceptsOne(cm, t, r.value.m)
    ensures r.Some? && r.value.FieldMember? ==> r.value.f in AllFields(cm, c) && IsAssignableFrom(cm, t, r.value.f.ftype)
    ensures r.Some? && r.value.FieldMember? ==> forall m :: m in AllMethods(cm, c) ==> !AcceptsOne(cm, t, m)
    ensures r.None? <==> (forall m :: m in AllMethods(cm, c) ==> !AcceptsOne(cm, t, m))
                         && (forall f :: f in AllFields(cm, c) ==> !IsAssignableFrom(cm, t, f.ftype))
  {
    var ms := AllMethods(cm, c);
    match FirstAccepting(cm, ms, t)
    case Some(i) => Some(MethodMember(ms[i]))
    case None =>
      var fs := AllFields(cm, c);
      match FirstOfType(cm, fs, t)
      case Some(j) => Some(FieldMember(fs[j]))
      case None => None
  }

  /** getSetterMember(cls, type) answers the first accepting method in getAllMethods order, or else the first field of a fitting type. */
  lemma SetterMemberForIsFirst(cm: Classes, c: ClassName, t: ClassName)
    ensures var r := SetterMemberFor(cm, c, t);
            r.Some? && r.value.MethodMember? ==>
              exists k :: 0 <= k < |AllMethods(cm, c)| && AllMethods(cm, c)[k] == r.value.m
                          && forall j :: 0 <= j < k ==> !AcceptsOne(cm, t, AllMethods(cm, c)[j])
    ensures var r := SetterMemberFor(cm, c, t);
            r.Some? && r.value.FieldMember? ==>
              exists k :: 0 <= k < |AllFields(cm, c)| && AllFields(cm, c)[k] == r.value.f
                          && forall j :: 0 <= j < k ==> !IsAssignableFrom(cm, t, AllFields(cm, c)[j].ftype)
  {
    var ms, fs := AllMethods(cm, c), AllFields(cm, c);
    match FirstAccepting(cm, ms, t)
    case Some(i) =>
      assert SetterMemberFor(cm, c, t) == Some(MethodMember(ms[i]));
    case None =>
      match FirstOfType(cm, fs, t)
      case Some(i) =>
        assert SetterMemberFor(cm, c, t) == Some(FieldMember(fs[i]));
      case None =>
  }

  // ------------------------------------------------------------ the getter cache

  /** The static getter cache: only getters that were built are stored. */
  type GetterCache = map<(ClassName, string), Getter>

  /** What a getGetter call returns (null is None) and the cache it leaves. */
  datatype Lookup = Lookup(getter: Option<Getter>, cache: GetterCache)

  /** Every cached getter is used through the class of its key. */
  predicate CacheInvariant(cache: GetterCache) {
    forall k :: k in cache ==> cache[k].objectClass == k.0
  }

  /** The getter built for a resolved member; the constructors' checks may fail. */
  function BuildGetter(cm: Classes, objectClass: ClassName, valueClass: ClassName, m: Member): (r: Result<Getter>)
    ensures r.Success? ==> r.value.objectClass == objectClass
    ensures r.Success? ==> IsAssignableFrom(cm, r.value.JavaType(), valueClass)
  {
    match m
    case MethodMember(meth) => NewMethodGetter(cm, objectClass, valueClass, meth)
    case FieldMember(f) => NewFieldGetter(cm, objectClass, valueClass, f)
  }

  /**
   * getGetter(objectClass, valueClass, alias).  On a miss the member is
   * resolved with getGetterMember and a getter built for it (the
   * constructor may throw) and stored; nothing is stored when no member is
   * found.  On a hit the cached getter is returned if its type is assignable
   * to valueClass, and null otherwise, without resolving again.
   */
  function GetGetter(cm: Classes, cache: GetterCache, objectClass: ClassName, valueClass: ClassName, alias: string): (r: Result<Lookup>)
    ensures (objectClass, alias) in cache ==> r.Success? && r.value.cache == cache
    ensures (objectClass, alias) in cache ==>
              (r.value.getter.Some? <==> IsAssignableFrom(cm, valueClass, cache[(objectClass, alias)].JavaType()))
    ensures (objectClass, alias) in cache && r.value.getter.Some? ==> r.value.getter.value == cache[(objectClass, alias)]
    ensures (objectClass, alias) !in cache && r.Success? && r.value.getter.None? ==>
              r.value.cache == cache && GetterMember(cm, objectClass, valueClass, alias).None?
    ensures (objectClass, alias) !in cache && r.Success? && r.value.getter.Some? ==>
              r.value.cache == cache[(objectClass, alias) := r.value.getter.value]
    ensures (objectClass, alias) !in cache ==>
              (r.Failure? <==> GetterMember(cm, objectClass, valueClass, alias).Some?
                               && BuildGetter(cm, objectClass, valueClass, GetterMember(cm, objectClass, valueClass, alias).value).Failure?)
  {
    var key := (objectClass, alias);
    if key in cache then
      var g := cache[key];
      if IsAssignableFrom(cm, valueClass, g.JavaType()) then Success(Lookup(Some(g), cache))
      else Success(Lookup(None, cache))
    else
      match GetterMember(cm, objectClass, valueClass, alias)
      case None => Success(Lookup(None, cache))
      case Some(m) =>
        match BuildGetter(cm, objectClass, valueClass, m)
        case Failure(e) => Failure(e)
        case Success(g) => Success(Lookup(Some(g), cache[key := g]))
  }

  /** canGet: whether getGetter returns a getter (its failures propagate). */
  function CanGet(cm: Classes, cache: GetterCache, objectClass: ClassName, valueClass: ClassName, alias: string): (r: Result<(bool, GetterCache)>)
    ensures r.Success? <==> GetGetter(cm, cache, objectClass, valueClass, alias).Success?
    ensures r.Success? ==> r.value.0 == GetGetter(cm, cache, objectClass, valueClass, alias).value.getter.Some?
    ensures r.Success? ==> r.value.1 == GetGetter(cm, cache, objectClass, valueClass, alias).value.cache
  {
    match GetGetter(cm, cache, objectClass, valueClass, alias)
    case Failure(e) => Failure(e)
    case Success(l) => Success((l.getter.Some?, l.cache))
  }

  /** Every getter getGetter returns supplies a value assignable to the requested class, through the requested class. */
  lemma GetGetterFits(cm: Classes, cache: GetterCache, objectClass: ClassName, valueClass: ClassName, alias: string)
    requires CacheInvariant(cache)
    requires GetGetter(cm, cache, objectClass, valueClass, alias).Success?
    requires GetGetter(cm, cache, objectClass, valueClass, alias).value.getter.Some?
    ensures var g := GetGetter(cm, cache, objectClass, valueClass, alias).value.getter.value;
            IsAssignableFrom(cm, valueClass, g.JavaType()) && g.objectClass == objectClass
  {
    var key := (objectClass, alias);
    if key !in cache {
      var m := GetterMember(cm, objectClass, valueClass, alias).value;
      var g := BuildGetter(cm, objectClass, valueClass, m).value;
      assert g.JavaType() == (if m.MethodMember? then m.m.ret else m.f.ftype);
    }
  }

  /** The cache keeps its invariant through every lookup. */
  lemma GetGetterKeepsInvariant(cm: Classes, cache: GetterCache, objectClass: ClassName, valueClass: ClassName, alias: string)
    requires CacheInvariant(cache)
    requires GetGetter(cm, cache, objectClass, valueClass, alias).Success?
    ensures CacheInvariant(GetGetter(cm, cache, objectClass, valueClass, alias).value.cache)
  {
  }

  /**
   * Asking again with the same arguments is answered from the cache with the
   * same getter and leaves the cache as it is.
   */
  lemma GetGetterRepeats(cm: Classes, cache: GetterCache, objectClass: ClassName, valueClass: ClassName, alias: string)
    requires CacheInvariant(cache)
    requires GetGetter(cm, cache, objectClass, valueClass, alias).Success?
    ensures var l := GetGetter(cm, cache, objectClass, valueClass, alias).value;
            GetGetter(cm, l.cache, objectClass, valueClass, alias) == Success(l)
  {
    var l := GetGetter(cm, cache, objectClass, valueClass, alias).value;
    if l.getter.Some? {
      GetGetterFits(cm, cache, objectClass, valueClass, alias);
    }
  }

  /**
   * A member that supplies exactly the requested class always yields a
   * getter when the class is asked about for the first time.
   */
  lemma ExactTypeResolves(cm: Classes, cache: GetterCache, objectClass: ClassName, valueClass: ClassName, alias: string)
    requires (objectClass, alias) !in cache
    requires GetterMember(cm, objectClass, valueClass, alias).Some?
    requires var m := GetterMember(cm, objectClass, valueClass, alias).value;
             (if m.MethodMember? then m.m.ret else m.f.ftype) == valueClass
             && IsAssignableFrom(cm, if m.MethodMember? then m.m.declaring else m.f.declaring, objectClass)
    ensures GetGetter(cm, cache, objectClass, valueClass, alias).Success?
    ensures GetGetter(cm, cache, objectClass, valueClass, alias).value.getter.Some?
  {
  }

  /**
   * On a cold cache, a member whose type is a proper subtype of the
   * requested class passes getGetterMember's check but fails the getter
   * constructor's reverse check: getGetter throws.
   */
  lemma ColdSupertypeRequestThrows(cm: Classes, cache: GetterCache, objectClass: ClassName, valueClass: ClassName, alias: string)
    requires (objectClass, alias) !in cache
    requires GetterMember(cm, objectClass, valueClass, alias).Some?
    requires var m := GetterMember(cm, objectClass, valueClass, alias).value;
             !IsAssignableFrom(cm, if m.MethodMember? then m.m.ret else m.f.ftype, valueClass)
    ensures GetGetter(cm, cache, objectClass, valueClass, alias).Failure?
    ensures GetGetter(cm, cache, objectClass, valueClass, alias).error.UtilityError?
  {
  }

  /**
   * Once a getter of type `t` is cached, a request for any class assignable
   * from `t` succeeds from the cache, whatever the cold lookup would do.
   */
  lemma WarmSupertypeRequestSucceeds(cm: Classes, cache: GetterCache, objectClass: ClassName, valueClass: ClassName, alias: string)
    requires (objectClass, alias) in cache
    requires IsAssignableFrom(cm, valueClass, cache[(objectClass, alias)].JavaType())
    ensures GetGetter(cm, cache, objectClass, valueClass, alias) == Success(Lookup(Some(cache[(objectClass, alias)]), cache))
  {
  }
}

=== FILE: dependencies.dfy ===
/**
 * Dependency (a package name and a simple class name, as an import clause)
 * and Dependencies (a TreeSet of them ordered by import clause).  The tree
 * set is a sequence kept strictly ascending by import clause, so two
 * dependencies with the same clause are never both present.
 */
module Dependencies {
  import opened Wrappers
  import opened Text
  import opened ClassModel
  import StringUtil
  import ClassNames

  datatype Dependency = Dependency(packageName: string, className: string)

  /** getName: the qualified name, or the bare class name when the package is blank. */
  function Name(d: Dependency): string {
    if StringUtil.IsSet(d.packageName) then d.packageName + "." + d.className else d.className
  }

  function ImportClause(d: Dependency): string {
    "import " + Name(d) + ";"
  }

  /** Dependency.fromString(name): split at the last '.'. */
  function FromString(name: Option<string>): (r: Dependency)
    ensures r.className == ClassNames.Basename(name)
    ensures r.packageName == ClassNames.PackageName(name)
  {
    Dependency(ClassNames.PackageName(name), ClassNames.Basename(name))
  }

  /**
   * The name survives fromString whenever it has no '.' (and is not empty),
   * or its package part is not blank.
   */
  lemma FromStringName(n: string)
    requires ('.' !in n && n != []) || ('.' in n && StringUtil.IsSet(ClassNames.PackageName(Some(n))))
    ensures Name(FromString(Some(n))) == n
  {
    if '.' in n {
      ClassNames.SplitRejoins(n);
    } else {
      assert !StringUtil.IsSet([]) by {
        StringUtil.IsSetMeans([]);
      }
    }
  }

  /** A name whose package part is blank loses it: " .X" comes back as "X". */
  lemma FromStringBlankPackage()
    ensures Name(FromString(Some(" .X"))) == "X"
  {
    assert LastIndexOf(" .X", '.') == 1;
    assert ClassNames.PackageName(Some(" .X")) == " ";
    assert !StringUtil.IsSet(" ") by {
      StringUtil.IsSetMeans(" ");
    }
  }

  /**
   * new Dependency(Class): a null class gives ("", ""); otherwise the
   * package (none for a primitive) and the simple name.
   */
  function ForClass(c: Option<ClassName>): (r: Dependency)
    ensures c.None? ==> r == Dependency("", "")
    ensures c.Some? ==> r.className == SimpleName(c.value)
    ensures c.Some? && IsPrimitive(c.value) ==> r.packageName == ""
  {
    match c
    case None => Dependency("", "")
    case Some(n) => Dependency(if IsPrimitive(n) then "" else ClassNames.PackageName(c), SimpleName(n))
  }

  /** Dependencies.requiresImport: neither a primitive nor anything under "java.lang.". */
  predicate RequiresImport(c: ClassName) {
    !IsPrimitive(c) && !StartsWith(c, "java.lang.")
  }

  /** Subpackages of java.lang need no import either. */
  lemma ReflectNeedsNoImport()
    ensures !RequiresImport("java.lang.reflect.Method")
    ensures RequiresImport("java.util.Date")
  {
    assert "java.lang.reflect.Method"[..10] == "java.lang.";
    assert "java.util.Date"[5] != "java.lang."[5];
  }

  /**
   * The TreeSet, for any ordering key: a sequence strictly ascending by key.
   * For Dependencies the key is the import clause.
   */
  predicate SortedBy<T(==)>(ds: seq<T>, key: T -> string) {
    forall i, j :: 0 <= i < j < |ds| ==> Less(key(ds[i]), key(ds[j]))
  }

  function KeysOf<T(==)>(ds: seq<T>, key: T -> string): set<string> {
    set x | x in ds :: key(x)
  }

  /** In a sorted set no two entries share a key. */
  lemma SortedIsDistinct<T>(ds: seq<T>, key: T -> string, i: nat, j: nat)
    requires SortedBy(ds, key) && i < j < |ds|
    ensures key(ds[i]) != key(ds[j])
  {
    LessIrreflexive(key(ds[i]));
  }

  lemma PrependSorted<T>(d: T, ds: seq<T>, key: T -> string)
    requires SortedBy(ds, key) && ds != [] && Less(key(d), key(ds[0]))
    ensures SortedBy([d] + ds, key)
  {
    var s := [d] + ds;
    forall i, j | 0 <= i < j < |s|
      ensures Less(key(s[i]), key(s[j]))
    {
      if i == 0 && j > 1 {
        LessTransitive(key(d), key(ds[0]), key(ds[j - 1]));
      } else if i > 0 {
        assert s[i] == ds[i - 1] && s[j] == ds[j - 1];
      }
    }
  }

  /** Nothing in a sorted set has a key below its first entry's. */
  lemma NotPresentBefore<T>(ds: seq<T>, d: T, key: T -> string)
    requires SortedBy(ds, key) && ds != [] && Less(key(d), key(ds[0]))
    ensures key(d) !in KeysOf(ds, key)
  {
    if key(d) in KeysOf(ds, key) {
      var x :| x in ds && key(x) == key(d);
      var j :| 0 <= j < |ds| && ds[j] == x;
      if j == 0 {
        LessIrreflexive(key(d));
      } else {
        LessAsymmetric(key(ds[0]), key(ds[j]));
      }
    }
  }

  /** TreeSet.add: insert in order unless an entry with the same key is present. */
  function InsertBy<T(==)>(ds: seq<T>, d: T, key: T -> string): (r: seq<T>)
    requires SortedBy(ds, key)
    ensures SortedBy(r, key)
    ensures KeysOf(r, key) == KeysOf(ds, key) + {key(d)}
    ensures forall x :: x in r ==> x in ds || x == d
    ensures forall x :: x in ds ==> x in r
    ensures key(d) in KeysOf(ds, key) ==> r == ds
  {
    if ds == [] then [d]
    else if key(d) == key(ds[0]) then ds
    else if Less(key(d), key(ds[0])) then
      PrependSorted(d, ds, key);
      NotPresentBefore(ds, d, key);
      [d] + ds
    else
      LessTotal(key(d), key(ds[0]));
      var rest := InsertBy(ds[1..], d, key);
      assert ds == [ds[0]] + ds[1..];
      assert forall x :: x in rest ==> Less(key(ds[0]), key(x));
      [ds[0]] + rest
  }

  /** TreeSet.addAll: the union. */
  function AddAllBy<T(==)>(ds: seq<T>, other: seq<T>, key: T -> string): (r: seq<T>)
    requires SortedBy(ds, key)
    ensures SortedBy(r, key)
    ensures KeysOf(r, key) == KeysOf(ds, key) + KeysOf(other, key)
    ensures forall x :: x in ds ==> x in r
    decreases |other|
  {
    if other == [] then ds
    else
      var r := AddAllBy(InsertBy(ds, other[0], key), other[1..], key);
      assert other == [other[0]] + other[1..];
      r
  }

  /** Adding what is already there changes nothing. */
  lemma {:induction false} AddAllIdempotent<T>(ds: seq<T>, other: seq<T>, key: T -> string)
    requires SortedBy(ds, key)
    requires KeysOf(other, key) <= KeysOf(ds, key)
    ensures AddAllBy(ds, other, key) == ds
    decreases |other|
  {
    if other != [] {
      assert key(other[0]) in KeysOf(ds, key);
      assert other == [other[0]] + other[1..];
      AddAllIdempotent(ds, other[1..], key);
    }
  }

  /**
   * Adds `dep(c)` for each `c` of `items` that `needs`, in order: the loop
   * shape of MethodSignature.getDependencies.
   */
  function AddEach<T(==)>(ds: seq<T>, items: seq<ClassName>, needs: ClassName -> bool, dep: ClassName -> T, key: T -> string): (r: seq<T>)
    requires SortedBy(ds, key)
    ensures SortedBy(r, key)
    ensures KeysOf(r, key) == KeysOf(ds, key) + set i | 0 <= i < |items| && needs(items[i]) :: key(dep(items[i]))
    decreases |items|
  {
    if items == [] then ds
    else
      var next := if needs(items[0]) then InsertBy(ds, dep(items[0]), key) else ds;
      var r := AddEach(next, items[1..], needs, dep, key);
      var all := set i | 0 <= i < |items| && needs(items[i]) :: key(dep(items[i]));
      var tail := set i | 0 <= i < |items[1..]| && needs(items[1..][i]) :: key(dep(items[1..][i]));
      assert all == (if needs(items[0]) then {key(dep(items[0]))} else {}) + tail by {
        forall x | x in tail
          ensures x in all
        {
          var i :| 0 <= i < |items[1..]| && needs(items[1..][i]) && x == key(dep(items[1..][i]));
          assert items[i + 1] == items[1..][i];
        }
        forall x | x in all
          ensures x in tail || (needs(items[0]) && x == key(dep(items[0])))
        {
          var i :| 0 <= i < |items| && needs(items[i]) && x == key(dep(items[i]));
          if i > 0 {
            assert items[1..][i - 1] == items[i];
          }
        }
      }
      r
  }

  /** Everything AddEach holds was already there or is the dependency of a needed item. */
  lemma AddEachOnly<T>(ds: seq<T>, items: seq<ClassName>, needs: ClassName -> bool, dep: ClassName -> T, key: T -> string)
    requires SortedBy(ds, key)
    ensures forall x :: x in KeysOf(AddEach(ds, items, needs, dep, key), key) ==>
      x in KeysOf(ds, key) || exists i :: 0 <= i < |items| && needs(items[i]) && x == key(dep(items[i]))
    ensures forall i :: 0 <= i < |items| && needs(items[i]) ==> key(dep(items[i])) in KeysOf(AddEach(ds, items, needs, dep, key), key)
  {
  }

  /** AddEach keeps every key already present. */
  lemma AddEachKeeps<T>(ds: seq<T>, items: seq<ClassName>, needs: ClassName -> bool, dep: ClassName -> T, key: T -> string, x: string)
    requires SortedBy(ds, key) && x in KeysOf(ds, key)
    ensures x in KeysOf(AddEach(ds, items, needs, dep, key), key)
  {
  }

  /** AddEach adds the key of every needed item. */
  lemma AddEachAdds<T>(ds: seq<T>, items: seq<ClassName>, needs: ClassName -> bool, dep: ClassName -> T, key: T -> string, i: nat)
    requires SortedBy(ds, key) && i < |items| && needs(items[i])
    ensures key(dep(items[i])) in KeysOf(AddEach(ds, items, needs, dep, key), key)
  {
  }

  /** A key AddEach holds that was not there before comes from a needed item. */
  lemma AddEachSource<T>(ds: seq<T>, items: seq<ClassName>, needs: ClassName -> bool, dep: ClassName -> T, key: T -> string, x: string)
    requires SortedBy(ds, key) && x in KeysOf(AddEach(ds, items, needs, dep, key), key) && x !in KeysOf(ds, key)
    ensures exists i :: 0 <= i < |items| && needs(items[i]) && x == key(dep(items[i]))
  {
  }

  /** When every item maps to the same `d`, AddEach adds `d` once if any item is needed. */
  lemma AddEachConstant<T>(ds: seq<T>, items: seq<ClassName>, needs: ClassName -> bool, dep: ClassName -> T, key: T -> string, d: T)
    requires SortedBy(ds, key)
    requires forall i :: 0 <= i < |items| ==> dep(items[i]) == d
    ensures forall x :: x in KeysOf(AddEach(ds, items, needs, dep, key), key) ==> x in KeysOf(ds, key) || x == key(d)
    ensures (exists i :: 0 <= i < |items| && needs(items[i])) ==> key(d) in KeysOf(AddEach(ds, items, needs, dep, key), key)
    ensures (forall i :: 0 <= i < |items| ==> !needs(items[i])) ==> KeysOf(AddEach(ds, items, needs, dep, key), key) == KeysOf(ds, key)
  {
    var r := AddEach(ds, items, needs, dep, key);
    forall x | x in KeysOf(r, key)
      ensures x in KeysOf(ds, key) || x == key(d)
    {
      if x !in KeysOf(ds, key) {
        var i :| 0 <= i < |items| && needs(items[i]) && x == key(dep(items[i]));
      }
    }
    if exists i :: 0 <= i < |items| && needs(items[i]) {
      var i :| 0 <= i < |items| && needs(items[i]);
      assert key(dep(items[i])) in KeysOf(r, key);
    }
    if forall i :: 0 <= i < |items| ==> !needs(items[i]) {
      assert (set i | 0 <= i < |items| && needs(items[i]) :: key(dep(items[i]))) == {};
    }
  }

  /** The dependency set, ascending by import clause. */
  predicate Sorted(ds: seq<Dependency>) {
    SortedBy(ds, ImportClause)
  }

  function Clauses(ds: seq<Dependency>): set<string> {
    KeysOf(ds, ImportClause)
  }

  /** One dependency per class, in order. */
  function ForClasses(classes: seq<Option<ClassName>>): (r: seq<Dependency>)
    ensures |r| == |classes|
    ensures forall i :: 0 <= i < |r| ==> r[i] == ForClass(classes[i])
  {
    if classes == [] then [] else [ForClass(classes[0])] + ForClasses(classes[1..])
  }

  /** Dependencies.add(classes...): one dependency per class, in argument order. */
  function Add(ds: seq<Dependency>, classes: seq<Option<ClassName>>): (r: seq<Dependency>)
    requires Sorted(ds)
    ensures Sorted(r)
    ensures Clauses(r) == Clauses(ds) + Clauses(ForClasses(classes))
  {
    AddAllBy(ds, ForClasses(classes), ImportClause)
  }

  /** Dependencies.addAll. */
  function AddAll(ds: seq<Dependency>, other: seq<Dependency>): (r: seq<Dependency>)
    requires Sorted(ds)
    ensures Sorted(r)
    ensures Clauses(r) == Clauses(ds) + Clauses(other)
  {
    AddAllBy(ds, other, ImportClause)
  }
}

=== FILE: domain_entities.dfy ===
/**
 * The domain-entity lookups of EntityUtil and DomainEntityMap: whether a
 * class is a root entity, its base @Entity class, and, for each class, the
 * map that records the @RootEntity and @ParentEntity fields leading from an
 * entity to its root and its parent.
 *
 * EntityUtil keeps the maps in a static cache and puts a map there only
 * once its constructor has returned.  The constructor of a map whose class
 * has a @ParentEntity field but no @RootEntity field asks for the root type
 * of the parent type, which may construct further maps; so a chain of
 * parent types that comes back to a class still under construction
 * recurses for ever.  The cache is explicit state here.  A failed
 * construction puts nothing in the cache: every put follows a construction
 * that returned, and an exception propagates straight out of every
 * construction it passes through.
 */
module DomainEntities {
  import opened Wrappers
  import opened ClassModel
  import opened Values
  import opened Hierarchy
  import Seqs
  import Members

  // ------------------------------------------------------------ isRootEntity, getBaseEntityClass

  /**
   * EntityUtil.isRootEntity: the class or an ancestor below Object carries
   * @RootEntity.  Like every walk of Hierarchy it throws a
   * NullPointerException when it runs off a class without a superclass
   * (Object itself, an interface, an undeclared class).
   */
  function IsRootEntity(cm: Classes, c: ClassName): (r: Result<bool>)
    ensures ClassTagged(cm, c, RootEntityKind) ==> r == Success(true)
    ensures !ClassTagged(cm, c, RootEntityKind) && SuperOf(cm, c) == Some(OBJECT) ==> r == Success(false)
    ensures !ClassTagged(cm, c, RootEntityKind) && SuperOf(cm, c).None? ==> r == Failure(NullPointer)
    ensures r == Success(true) ==> exists d :: d in Supertypes(cm, c) && ClassTagged(cm, d, RootEntityKind)
    ensures r.Failure? ==> r.error == NullPointer || r.error == StackOverflow
  {
    match TaggedAlong(cm, c, RootEntityKind)
    case Failure(e) => Failure(e)
    case Success(found) => Success(found.Some?)
  }

  /** Below Object, a class is a root entity exactly when some class of its chain other than Object is tagged. */
  lemma IsRootEntityBelowObject(cm: Classes, c: ClassName)
    requires c != OBJECT && Root(cm, c) == OBJECT
    ensures IsRootEntity(cm, c).Success?
    ensures IsRootEntity(cm, c).value <==>
              exists d :: d in Supertypes(cm, c) && d != OBJECT && ClassTagged(cm, d, RootEntityKind)
  {
    TaggedAlongBelowObject(cm, c, RootEntityKind);
  }

  /** A class that is found not to be a root entity is declared and has a superclass. */
  lemma NotRootMeansDeclared(cm: Classes, c: ClassName)
    requires IsRootEntity(cm, c) == Success(false)
    ensures c in cm && SuperOf(cm, c).Some?
  {
    assert TaggedAlong(cm, c, RootEntityKind) == Success(None);
  }

  /** The class carries @Entity. */
  predicate EntityTagged(cm: Classes, d: ClassName) {
    ClassTagged(cm, d, EntityKind)
  }

  /**
   * EntityUtil.getBaseEntityClass: the most ancestral class of the chain
   * that carries @Entity, or the class itself when none does.
   */
  function BaseEntityClass(cm: Classes, c: ClassName): (r: ClassName)
    ensures r in Supertypes(cm, c)
  {
    var h := Supertypes(cm, c);
    var j := Seqs.LastIndex(h, d => EntityTagged(cm, d));
    if j >= 0 then h[j] else c
  }

  /** The base entity class is tagged and no class above it is; with no tagged class it is the class itself. */
  lemma BaseEntityClassMeaning(cm: Classes, c: ClassName)
    ensures var h := Supertypes(cm, c);
            (exists i :: 0 <= i < |h| && EntityTagged(cm, h[i])) ==>
              exists j :: 0 <= j < |h| && h[j] == BaseEntityClass(cm, c) && EntityTagged(cm, h[j])
                          && forall l :: j < l < |h| ==> !EntityTagged(cm, h[l])
    ensures var h := Supertypes(cm, c);
            (forall i :: 0 <= i < |h| ==> !EntityTagged(cm, h[i])) ==> BaseEntityClass(cm, c) == c
  {
    var h := Supertypes(cm, c);
    var p := d => EntityTagged(cm, d);
    var j := Seqs.LastIndex(h, p);
    assert BaseEntityClass(cm, c) == if j >= 0 then h[j] else c;
    assert j >= 0 ==> EntityTagged(cm, h[j]) by {
      assert Seqs.IsLastIndex(h, p, j);
    }
    assert forall l :: j < l < |h| ==> !EntityTagged(cm, h[l]) by {
      assert Seqs.IsLastIndex(h, p, j);
    }
  }

  // ------------------------------------------------------------ DomainEntityMap

  /**
   * One DomainEntityMap: the class it describes, the types of its root and
   * parent entities and the fields that hold them.
   */
  datatype EntityMap = EntityMap(
    cls: ClassName,
    rootType: Option<ClassName>,
    parentType: Option<ClassName>,
    rootField: Option<Field>,
    parentField: Option<Field>)

  /** EntityUtil's cache of maps by class. */
  type MapCache = map<ClassName, EntityMap>

  /** The outcome of a lookup through the cache: a value or an exception, and the cache left behind. */
  datatype Answer<T> = Answer(result: Result<T>, cache: MapCache)

  /** `b` keeps every map of `a` and may hold more. */
  predicate Extends(a: MapCache, b: MapCache) {
    a.Keys <= b.Keys && forall d :: d in a ==> b[d] == a[d]
  }

  /** The map of a root entity: it is its own root and has no fields to follow. */
  function RootMap(c: ClassName): EntityMap {
    EntityMap(c, Some(c), None, None, None)
  }

  /** The last field of `fs` carrying an annotation of kind `k`, as the constructor's loop leaves it. */
  function LastTagged(fs: seq<Field>, k: TagKind): (r: Option<Field>)
    ensures r.None? <==> forall i :: 0 <= i < |fs| ==> !HasTag(fs[i].tags, k)
    ensures r.Some? ==> exists i :: 0 <= i < |fs| && fs[i] == r.value && HasTag(fs[i].tags, k)
                                    && forall l :: i < l < |fs| ==> !HasTag(fs[l].tags, k)
  {
    var i := Seqs.LastIndex(fs, (f: Field) => HasTag(f.tags, k));
    assert Seqs.IsLastIndex(fs, (f: Field) => HasTag(f.tags, k), i);
    if i >= 0 then Some(fs[i]) else None
  }

  /** The type of a field, if there is one. */
  function TypeOf(f: Option<Field>): (r: Option<ClassName>)
    ensures r.Some? <==> f.Some?
    ensures f.Some? ==> r.value == f.value.ftype
  {
    match f
    case None => None
    case Some(g) => Some(g.ftype)
  }

  /**
   * What the constructor of a map for a class that is not a root entity
   * finds among all its fields: the last @RootEntity field and its type,
   * the last @ParentEntity field and its type.
   */
  function OwnMap(cm: Classes, c: ClassName): (r: EntityMap)
    ensures r.cls == c
    ensures r.rootField == LastTagged(Members.AllFields(cm, c), RootEntityKind)
    ensures r.parentField == LastTagged(Members.AllFields(cm, c), ParentEntityKind)
    ensures r.rootType == TypeOf(r.rootField) && r.parentType == TypeOf(r.parentField)
  {
    var fs := Members.AllFields(cm, c);
    var rf := LastTagged(fs, RootEntityKind);
    var pf := LastTagged(fs, ParentEntityKind);
    EntityMap(c, TypeOf(rf), TypeOf(pf), rf, pf)
  }

  /** The map has a parent field but no root field, so its root type is the parent type's. */
  predicate ParentOnly(m: EntityMap) {
    m.rootField.None? && m.parentField.Some?
  }

  /**
   * EntityUtil.getDomainEntityMap: the cached map, else a new one, which
   * is put in the cache once built.  `pending` holds the classes whose
   * constructors are still running.
   */
  function GetMap(cm: Classes, cache: MapCache, c: ClassName, pending: set<ClassName>): (r: Result<(EntityMap, MapCache)>)
    ensures c in cache ==> r == Success((cache[c], cache))
    ensures r.Success? ==> Extends(cache, r.value.1) && c in r.value.1 && r.value.1[c] == r.value.0
    ensures c !in cache && r.Success? ==> r.value.0.cls == c
    ensures r.Success? ==> forall d :: d in r.value.1 && d !in cache ==> d !in pending
    ensures r.Failure? ==> r.error == NullPointer || r.error == StackOverflow
    decreases cm.Keys - pending, 1
  {
    if c in cache then Success((cache[c], cache))
    else
      match NewMap(cm, cache, c, pending)
      case Failure(e) => Failure(e)
      case Success((m, cache1)) => Success((m, cache1[c := m]))
  }

  /**
   * The DomainEntityMap constructor: a root entity is its own root;
   * otherwise the map records the last @RootEntity and @ParentEntity fields
   * of all fields of the class and, having only a parent field, takes the
   * root type of the parent type.  Constructing a class whose constructor
   * is already running recurses for ever.
   */
  function NewMap(cm: Classes, cache: MapCache, c: ClassName, pending: set<ClassName>): (r: Result<(EntityMap, MapCache)>)
    ensures c in pending ==> r == Failure(StackOverflow)
    ensures r.Success? ==> Extends(cache, r.value.1) && r.value.0.cls == c
    ensures r.Success? ==> forall d :: d in r.value.1 && d !in cache ==> d !in pending && d != c
    ensures r.Failure? ==> r.error == NullPointer || r.error == StackOverflow
    decreases cm.Keys - pending, 0
  {
    if c in pending then Failure(StackOverflow)
    else
      match IsRootEntity(cm, c)
      case Failure(e) => Failure(e)
      case Success(true) => Success((RootMap(c), cache))
      case Success(false) =>
        NotRootMeansDeclared(cm, c);
        var own := OwnMap(cm, c);
        if ParentOnly(own) then
          match GetMap(cm, cache, own.parentField.value.ftype, pending + {c})
          case Failure(e) => Failure(e)
          case Success((pm, cache1)) => Success((own.(rootType := pm.rootType), cache1))
        else Success((own, cache))
  }

  /** EntityUtil.getRootEntityType: the root type the class's map records. */
  function GetRootEntityType(cm: Classes, cache: MapCache, c: ClassName): (r: Answer<Option<ClassName>>)
    ensures r.result.Failure? ==> r.cache == cache
    ensures Extends(cache, r.cache)
    ensures c in cache ==> r == Answer(Success(cache[c].rootType), cache)
  {
    match GetMap(cm, cache, c, {})
    case Failure(e) => Answer(Failure(e), cache)
    case Success((m, cache1)) => Answer(Success(m.rootType), cache1)
  }

  /** EntityUtil.getParentEntityType: the parent type the class's map records. */
  function GetParentEntityType(cm: Classes, cache: MapCache, c: ClassName): (r: Answer<Option<ClassName>>)
    ensures r.result.Failure? ==> r.cache == cache
    ensures Extends(cache, r.cache)
    ensures c in cache ==> r == Answer(Success(cache[c].parentType), cache)
  {
    match GetMap(cm, cache, c, {})
    case Failure(e) => Answer(Failure(e), cache)
    case Success((m, cache1)) => Answer(Success(m.parentType), cache1)
  }

  /** The catch clauses of the map's getters: reflection errors become a UtilityError naming the object's class. */
  function Caught(e: Error, subject: ClassName): (r: Error)
    ensures e == IllegalArgument || e == IllegalAccess ==> r == UtilityError(subject)
    ensures e != IllegalArgument && e != IllegalAccess ==> r == e
  {
    if e == IllegalArgument || e == IllegalAccess then UtilityError(subject) else e
  }

  /**
   * EntityUtil.getRootEntity: through the map of the object's class, the
   * object itself when its class is a root entity, else the value of its
   * root field, else the root entity of the value of its parent field,
   * else null.  A null object is a NullPointerException.
   */
  function GetRootEntity(cm: Classes, cache: MapCache, obj: Value): (r: Answer<Value>)
    ensures obj == Null ==> r == Answer(Failure(NullPointer), cache)
    ensures Extends(cache, r.cache)
    ensures r.result.Failure? ==> r.result.error != IllegalArgument && r.result.error != IllegalAccess
    decreases if obj.Obj? then 1 else 0, obj, 1
  {
    if obj == Null then Answer(Failure(NullPointer), cache)
    else
      match GetMap(cm, cache, RuntimeClass(obj).value, {})
      case Failure(e) => Answer(Failure(e), cache)
      case Success((m, cache1)) => RootThroughMap(cm, cache1, obj, m)
  }

  /** DomainEntityMap.getRootEntity: the root entity of a non-null object, given the map of its class. */
  function RootThroughMap(cm: Classes, cache: MapCache, obj: Value, m: EntityMap): (r: Answer<Value>)
    requires obj != Null
    ensures Extends(cache, r.cache)
    ensures r.result.Failure? ==> r.result.error != IllegalArgument && r.result.error != IllegalAccess
    ensures IsRootEntity(cm, RuntimeClass(obj).value) == Success(true) ==> r.result == Success(obj)
    ensures IsRootEntity(cm, RuntimeClass(obj).value) == Success(false) && m.rootField.Some? && r.result.Success? ==>
              ReadField(cm, obj, m.rootField.value) == r.result
    ensures IsRootEntity(cm, RuntimeClass(obj).value) == Success(false) && m.rootField.None? && m.parentField.None? ==>
              r.result == Success(Null)
    decreases if obj.Obj? then 1 else 0, obj, 0
  {
    var c := RuntimeClass(obj).value;
    match IsRootEntity(cm, c)
    case Failure(e) => Answer(Failure(e), cache)
    case Success(true) => Answer(Success(obj), cache)
    case Success(false) =>
      if m.rootField.Some? then
        match ReadField(cm, obj, m.rootField.value)
        case Failure(e) => Answer(Failure(Caught(e, c)), cache)
        case Success(v) => Answer(Success(v), cache)
      else if m.parentField.Some? then
        match ReadField(cm, obj, m.parentField.value)
        case Failure(e) => Answer(Failure(Caught(e, c)), cache)
        case Success(p) =>
          var up := GetRootEntity(cm, cache, p);
          match up.result
          case Failure(e) => Answer(Failure(Caught(e, c)), up.cache)
          case Success(_) => up
      else Answer(Success(Null), cache)
  }

  /**
   * EntityUtil.getParentEntity: through the map of the object's class, the
   * value of its parent field, else of its root field, else null.
   */
  function GetParentEntity(cm: Classes, cache: MapCache, obj: Value): (r: Answer<Value>)
    ensures obj == Null ==> r == Answer(Failure(NullPointer), cache)
    ensures Extends(cache, r.cache)
    ensures r.result.Failure? ==> r.result.error != IllegalArgument && r.result.error != IllegalAccess
  {
    if obj == Null then Answer(Failure(NullPointer), cache)
    else
      var c := RuntimeClass(obj).value;
      match GetMap(cm, cache, c, {})
      case Failure(e) => Answer(Failure(e), cache)
      case Success((m, cache1)) => Answer(ParentThroughMap(cm, obj, m), cache1)
  }

  /** DomainEntityMap.getParentEntity: the parent entity of a non-null object, given the map of its class. */
  function ParentThroughMap(cm: Classes, obj: Value, m: EntityMap): (r: Result<Value>)
    requires obj != Null
    ensures m.parentField.None? && m.rootField.None? ==> r == Success(Null)
    ensures r.Failure? ==> r.error == UtilityError(RuntimeClass(obj).value)
  {
    var f := if m.parentField.Some? then m.parentField else m.rootField;
    if f.Some? then
      match ReadField(cm, obj, f.value)
      case Failure(e) => Failure(Caught(e, RuntimeClass(obj).value))
      case Success(v) => Success(v)
    else Success(Null)
  }

  // ------------------------------------------------------------ the cache holds only maps the constructor builds

  /**
   * `m` is the map the constructor builds for `d`, given the maps in
   * `cache`: a root entity's own map, else the fields it finds, with the
   * root type of a parent-only map taken from the cached map of the parent
   * type.
   */
  predicate EntryRule(cm: Classes, cache: MapCache, d: ClassName, m: EntityMap) {
    match IsRootEntity(cm, d)
    case Failure(_) => false
    case Success(true) => m == RootMap(d)
    case Success(false) =>
      var own := OwnMap(cm, d);
      if ParentOnly(own) then
        m == own.(rootType := m.rootType)
        && own.parentField.value.ftype in cache
        && cache[own.parentField.value.ftype].rootType == m.rootType
      else m == own
  }

  /** Every cached map is one the constructor builds. */
  predicate MapsConsistent(cm: Classes, cache: MapCache) {
    forall d :: d in cache ==> EntryRule(cm, cache, d, cache[d])
  }

  /** A map built against a cache is still one built against any extension of it. */
  lemma EntryRuleExtends(cm: Classes, a: MapCache, b: MapCache, d: ClassName, m: EntityMap)
    requires EntryRule(cm, a, d, m) && Extends(a, b)
    ensures EntryRule(cm, b, d, m)
  {
    if IsRootEntity(cm, d) == Success(false) && ParentOnly(OwnMap(cm, d)) {
      assert OwnMap(cm, d).parentField.value.ftype in a;
    }
  }

  /** Putting a map built by the rule for a class not yet cached keeps the cache consistent. */
  lemma PutKeepsConsistent(cm: Classes, cache: MapCache, c: ClassName, m: EntityMap)
    requires MapsConsistent(cm, cache) && EntryRule(cm, cache, c, m) && c !in cache
    ensures MapsConsistent(cm, cache[c := m])
  {
    var cache2 := cache[c := m];
    assert Extends(cache, cache2);
    forall d | d in cache2
      ensures EntryRule(cm, cache2, d, cache2[d])
    {
      EntryRuleExtends(cm, cache, cache2, d, if d == c then m else cache[d]);
    }
  }

  /** Looking a map up keeps the cache consistent and hands back a map the constructor builds. */
  lemma {:induction false} GetMapConsistent(cm: Classes, cache: MapCache, c: ClassName, pending: set<ClassName>)
    requires MapsConsistent(cm, cache)
    ensures var r := GetMap(cm, cache, c, pending);
            r.Success? ==> MapsConsistent(cm, r.value.1) && EntryRule(cm, r.value.1, c, r.value.0)
    decreases cm.Keys - pending, 1
  {
    if c !in cache {
      NewMapConsistent(cm, cache, c, pending);
      var n := NewMap(cm, cache, c, pending);
      if n.Success? {
        PutKeepsConsistent(cm, n.value.1, c, n.value.0);
      }
    }
  }

  /** Constructing a map keeps the cache consistent and builds the map by the rule. */
  lemma {:induction false} NewMapConsistent(cm: Classes, cache: MapCache, c: ClassName, pending: set<ClassName>)
    requires MapsConsistent(cm, cache)
    ensures var r := NewMap(cm, cache, c, pending);
            r.Success? ==> MapsConsistent(cm, r.value.1) && EntryRule(cm, r.value.1, c, r.value.0)
    decreases cm.Keys - pending, 0
  {
    if c !in pending && IsRootEntity(cm, c) == Success(false) {
      NotRootMeansDeclared(cm, c);
      var own := OwnMap(cm, c);
      if ParentOnly(own) {
        GetMapConsistent(cm, cache, own.parentField.value.ftype, pending + {c});
      }
    }
  }

  /** The empty cache EntityUtil starts with is consistent. */
  lemma EmptyCacheConsistent(cm: Classes)
    ensures MapsConsistent(cm, map[])
  {
  }

  // ------------------------------------------------------------ what the lookups answer

  /**
   * The root type of a class: itself for a root entity, the type of its
   * last @RootEntity field, else the root type of its parent type (whose
   * map the lookup leaves cached), else none.
   */
  lemma RootTypeMeaning(cm: Classes, cache: MapCache, c: ClassName)
    requires MapsConsistent(cm, cache)
    ensures var r := GetRootEntityType(cm, cache, c); var own := OwnMap(cm, c);
            r.result.Success? ==>
              MapsConsistent(cm, r.cache)
              && (IsRootEntity(cm, c) == Success(true) ==> r.result.value == Some(c))
              && (IsRootEntity(cm, c) == Success(false) && own.rootField.Some? ==>
                    r.result.value == Some(own.rootField.value.ftype))
              && (IsRootEntity(cm, c) == Success(false) && ParentOnly(own) ==>
                    GetRootEntityType(cm, r.cache, own.parentField.value.ftype) == Answer(r.result, r.cache))
              && (IsRootEntity(cm, c) == Success(false) && own.rootField.None? && own.parentField.None? ==>
                    r.result.value.None?)
    ensures GetRootEntityType(cm, cache, c).result.Success? ==> IsRootEntity(cm, c).Success?
  {
    GetMapConsistent(cm, cache, c, {});
  }

  /** A class that is not a root entity and is its own parent type, with no map cached, recurses for ever. */
  lemma SelfParentOverflows(cm: Classes, cache: MapCache, c: ClassName)
    requires c !in cache && IsRootEntity(cm, c) == Success(false)
    requires ParentOnly(OwnMap(cm, c)) && OwnMap(cm, c).parentField.value.ftype == c
    ensures GetRootEntityType(cm, cache, c) == Answer(Failure(StackOverflow), cache)
  {
    assert GetMap(cm, cache, c, {c}) == Failure(StackOverflow);
    assert NewMap(cm, cache, c, {}) == Failure(StackOverflow);
  }

  /**
   * With a consistent cache, the map a lookup finds for a class is the one
   * the constructor builds: a root entity's own map, else a map holding the
   * class's last @RootEntity and @ParentEntity fields.
   */
  lemma MapFollowsRule(cm: Classes, cache: MapCache, c: ClassName)
    requires MapsConsistent(cm, cache)
    ensures var g := GetMap(cm, cache, c, {});
            g.Success? ==> MapsConsistent(cm, g.value.1) && IsRootEntity(cm, c).Success?
    ensures var g := GetMap(cm, cache, c, {});
            g.Success? && IsRootEntity(cm, c) == Success(true) ==> g.value.0 == RootMap(c)
    ensures var g := GetMap(cm, cache, c, {});
            g.Success? && IsRootEntity(cm, c) == Success(false) ==>
              g.value.0.rootField == OwnMap(cm, c).rootField && g.value.0.parentField == OwnMap(cm, c).parentField
  {
    GetMapConsistent(cm, cache, c, {});
  }

  /** The field getParentEntity reads for a class that is not a root entity: the parent field, else the root field. */
  function ParentSource(cm: Classes, c: ClassName): (r: Option<Field>)
    ensures r.None? <==> OwnMap(cm, c).parentField.None? && OwnMap(cm, c).rootField.None?
    ensures OwnMap(cm, c).parentField.Some? ==> r == OwnMap(cm, c).parentField
  {
    var own := OwnMap(cm, c);
    if own.parentField.Some? then own.parentField else own.rootField
  }

  /**
   * The parent entity of an object: null for a root entity; otherwise the
   * value of its last @ParentEntity field, else of its last @RootEntity
   * field, else null; a field that cannot be read is a UtilityError naming
   * the object's class.  The cache stays consistent.
   */
  lemma ParentEntityMeaning(cm: Classes, cache: MapCache, obj: Value)
    requires MapsConsistent(cm, cache) && obj.Obj?
    ensures var r := GetParentEntity(cm, cache, obj);
            r.result.Success? || r.result.error == UtilityError(obj.cls) ==> MapsConsistent(cm, r.cache)
    ensures var r := GetParentEntity(cm, cache, obj);
            r.result.Success? && IsRootEntity(cm, obj.cls) == Success(true) ==> r.result.value == Null
    ensures var r := GetParentEntity(cm, cache, obj); var f := ParentSource(cm, obj.cls);
            (r.result.Success? || r.result.error == UtilityError(obj.cls)) && IsRootEntity(cm, obj.cls) == Success(false) ==>
              r.result == if f.None? then Success(Null)
                          else if ReadField(cm, obj, f.value).Success? then ReadField(cm, obj, f.value)
                          else Failure(UtilityError(obj.cls))
  {
    MapFollowsRule(cm, cache, obj.cls);
    var g := GetMap(cm, cache, obj.cls, {});
    assert RuntimeClass(obj).value == obj.cls;
    if g.Success? {
      assert GetParentEntity(cm, cache, obj) == Answer(ParentThroughMap(cm, obj, g.value.0), g.value.1);
    } else {
      assert GetParentEntity(cm, cache, obj) == Answer(Failure(g.error), cache);
    }
  }

  /**
   * The root entity of an object: the object itself for a root entity;
   * otherwise the value of its last @RootEntity field, else (with no
   * parent field either) null.
   */
  lemma RootEntityMeaning(cm: Classes, cache: MapCache, obj: Value)
    requires MapsConsistent(cm, cache) && obj.Obj?
    ensures var r := GetRootEntity(cm, cache, obj);
            r.result.Success? && IsRootEntity(cm, obj.cls) == Success(true) ==> r.result.value == obj
    ensures var r := GetRootEntity(cm, cache, obj); var own := OwnMap(cm, obj.cls);
            r.result.Success? && IsRootEntity(cm, obj.cls) == Success(false) && own.rootField.Some? ==>
              ReadField(cm, obj, own.rootField.value) == r.result
    ensures var r := GetRootEntity(cm, cache, obj); var own := OwnMap(cm, obj.cls);
            r.result.Success? && IsRootEntity(cm, obj.cls) == Success(false) && own.rootField.None? && own.parentField.None? ==>
              r.result.value == Null
  {
    MapFollowsRule(cm, cache, obj.cls);
    assert RuntimeClass(obj).value == obj.cls;
    var g := GetMap(cm, cache, obj.cls, {});
    if g.Success? {
      assert GetRootEntity(cm, cache, obj) == RootThroughMap(cm, g.value.1, obj, g.value.0);
    }
  }

  /**
   * `a` leads to its root through `b`: its class is not a root entity and
   * has a parent field but no root field, and that field holds `b`.
   */
  predicate ParentLink(cm: Classes, a: Value, b: Value) {
    a.Obj? && IsRootEntity(cm, a.cls) == Success(false) && ParentOnly(OwnMap(cm, a.cls))
    && ReadField(cm, a, OwnMap(cm, a.cls).parentField.value) == Success(b)
  }

  /** A map with only a parent field hands getRootEntity on to the parent. */
  lemma ThroughParentField(cm: Classes, cache: MapCache, a: Value, m: EntityMap, b: Value)
    requires a != Null && IsRootEntity(cm, RuntimeClass(a).value) == Success(false) && ParentOnly(m)
    requires ReadField(cm, a, m.parentField.value) == Success(b)
    ensures RootThroughMap(cm, cache, a, m).result.Success? ==>
              RootThroughMap(cm, cache, a, m) == GetRootEntity(cm, cache, b)
  {
  }

  /** Along a parent link, the root entity of an object is the root entity of its parent, found with a consistent cache. */
  lemma RootStep(cm: Classes, cache: MapCache, a: Value, b: Value) returns (cache1: MapCache)
    requires MapsConsistent(cm, cache) && ParentLink(cm, a, b)
    ensures MapsConsistent(cm, cache1)
    ensures GetRootEntity(cm, cache, a).result.Success? ==>
              GetRootEntity(cm, cache1, b).result == GetRootEntity(cm, cache, a).result
  {
    MapFollowsRule(cm, cache, a.cls);
    assert RuntimeClass(a).value == a.cls;
    var g := GetMap(cm, cache, a.cls, {});
    if g.Success? {
      var m;
      m, cache1 := g.value.0, g.value.1;
      assert GetRootEntity(cm, cache, a) == RootThroughMap(cm, cache1, a, m);
      ThroughParentField(cm, cache1, a, m, b);
    } else {
      cache1 := cache;
    }
  }

  /**
   * Following parent fields: when each object of `objs` links to the next
   * through its parent field and the last object's class is a root entity,
   * then whatever getRootEntity returns for the first object is the last
   * one.
   */
  lemma {:induction false} RootAlongParents(cm: Classes, cache: MapCache, objs: seq<Value>)
    requires MapsConsistent(cm, cache) && |objs| >= 1
    requires forall i :: 0 <= i < |objs| - 1 ==> ParentLink(cm, objs[i], objs[i + 1])
    requires objs[|objs| - 1].Obj? && IsRootEntity(cm, objs[|objs| - 1].cls) == Success(true)
    ensures GetRootEntity(cm, cache, objs[0]).result.Success? ==>
              GetRootEntity(cm, cache, objs[0]).result.value == objs[|objs| - 1]
    decreases |objs|
  {
    if |objs| == 1 {
      RootEntityMeaning(cm, cache, objs[0]);
    } else {
      var cache1 := RootStep(cm, cache, objs[0], objs[1]);
      var rest := objs[1..];
      forall i | 0 <= i < |rest| - 1
        ensures ParentLink(cm, rest[i], rest[i + 1])
      {
        assert rest[i] == objs[i + 1] && rest[i + 1] == objs[i + 2];
      }
      RootAlongParents(cm, cache1, rest);
    }
  }
}

=== FILE: entity_cache.dfy ===
/**
 * EntityCache and the entity lookups of EntityUtil.  EntityUtil keeps one
 * EntityCache per entity class in a static map; a cache is put in the map
 * as soon as it is constructed and only then populated, so that links
 * between entities (and links of an entity to itself) find the cache of a
 * class that is still being populated instead of recursing for ever.
 *
 * Populating a cache records, over all fields of the class, every @Column
 * field by column name and by field name, then every @ManyToOne field as a
 * link by field name.  Building a link looks columns up in the caches of
 * both ends, which may create and populate the cache of the class linked
 * to, and, for a @JoinColumn without a referenced column, finds the key
 * fields of that class (KeyUtil.getKeyFields).
 *
 * The static maps are the explicit state `EntityState`: every operation
 * takes one and hands back the state it leaves, also when it throws, since
 * whatever the Java code had put in its maps before the exception stays
 * there.
 */
module EntityCaches {
  import opened Wrappers
  import opened ClassModel
  import opened EntityFields
  import Members
  import Seqs
  import StringUtil
  import ClassUtil
  import KeyUtil

  /** One EntityCache: the names of the entity and the fields it records. */
  datatype EntityCacheVal = EntityCacheVal(
    entityClass: ClassName,
    entityName: string,
    tableName: string,
    columnsByName: map<string, EntityField>,
    fieldsByAlias: map<string, Registered>,
    linksByAlias: map<string, EntityLink>)

  /**
   * The static state the entity code reads and writes: EntityUtil's map of
   * entity caches, ClassUtil's getter cache and KeyUtil's key class cache.
   */
  datatype EntityState = EntityState(
    entities: map<ClassName, EntityCacheVal>,
    getters: ClassUtil.GetterCache,
    keyClasses: KeyUtil.KeyClassCache)

  /** The outcome of an operation on the static state: a value or an exception, and the state left behind. */
  datatype Step<T> = Step(result: Result<T>, st: EntityState)

  // ------------------------------------------------------------ invariants of the state

  /** `b` keeps every entity cache of `a` as it was and may add more. */
  predicate Extends(a: EntityState, b: EntityState) {
    a.entities.Keys <= b.entities.Keys && forall d :: d in a.entities ==> b.entities[d] == a.entities[d]
  }

  /** `b` keeps every entity cache of `a` but the one of `c` as it was and may add more. */
  predicate ExtendsBeside(a: EntityState, b: EntityState, c: ClassName) {
    a.entities.Keys <= b.entities.Keys && forall d :: d in a.entities && d != c ==> b.entities[d] == a.entities[d]
  }

  /** A column recorded under `n` in the cache of `d`: a field of `d` whose @Column names `n`. */
  predicate ColumnEntry(d: ClassName, n: string, ef: EntityField) {
    ef.onClass == d && ef.columnName == Some(n) && ColumnNameOf(ef.field) == Some(n)
  }

  /**
   * What every cache in the map satisfies, populated or not: it is the cache
   * of its class, each column is recorded under its own column name, and
   * the links are exactly the fields recorded as links under their alias.
   */
  predicate EntrySound(d: ClassName, e: EntityCacheVal) {
    e.entityClass == d
    && (forall n :: n in e.columnsByName ==> ColumnEntry(d, n, e.columnsByName[n]))
    && (forall a :: a in e.linksByAlias ==> a in e.fieldsByAlias && e.fieldsByAlias[a] == Linked(e.linksByAlias[a]))
    && (forall a :: a in e.fieldsByAlias && e.fieldsByAlias[a].Linked? ==> a in e.linksByAlias)
  }

  /** The number of elements of a set, counted one by one. */
  ghost function Size(s: set<ClassName>): nat {
    if s == {} then 0 else var x :| x in s; 1 + Size(s - {x})
  }

  lemma {:induction false} SizeIsCardinality(s: set<ClassName>)
    ensures Size(s) == |s|
  {
    if s != {} {
      var x :| x in s && Size(s) == 1 + Size(s - {x});
      SizeIsCardinality(s - {x});
    }
  }

  /** How many classes of the model have no entity cache yet: what the mutual recursion below uses up. */
  ghost function Pending(cm: Classes, st: EntityState): nat {
    Size(cm.Keys - st.entities.Keys)
  }

  /** Putting the cache of a class of the model that had none leaves fewer classes pending. */
  lemma PendingShrinks(cm: Classes, st: EntityState, c: ClassName, e: EntityCacheVal)
    requires c in cm && c !in st.entities
    ensures Pending(cm, st.(entities := st.entities[c := e])) < Pending(cm, st)
  {
    var before := cm.Keys - st.entities.Keys;
    var after := cm.Keys - st.entities[c := e].Keys;
    assert after == before - {c};
    SizeIsCardinality(before);
    SizeIsCardinality(after);
  }

  /** Replacing the cache of a class already cached leaves as many classes pending. */
  lemma PendingReplace(cm: Classes, st: EntityState, c: ClassName, e: EntityCacheVal)
    requires c in st.entities
    ensures Pending(cm, st.(entities := st.entities[c := e])) == Pending(cm, st)
  {
    assert st.entities[c := e].Keys == st.entities.Keys;
  }

  predicate StateSound(st: EntityState) {
    forall d :: d in st.entities ==> EntrySound(d, st.entities[d])
  }

  /** A state that keeps all but the cache just put for a class that had none keeps every earlier cache. */
  lemma ExtendsAfterPut(st: EntityState, c: ClassName, e: EntityCacheVal, st2: EntityState)
    requires c !in st.entities
    ensures ExtendsBeside(st.(entities := st.entities[c := e]), st2, c) ==> Extends(st, st2)
  {
  }

  /** Keeping every cache, then replacing the cache of `c`, then keeping all but that one, keeps all but that one. */
  lemma ExtendsBesideChain(st: EntityState, st1: EntityState, c: ClassName, e: EntityCacheVal, st2: EntityState)
    requires c in st1.entities
    ensures Extends(st, st1) && ExtendsBeside(st1.(entities := st1.entities[c := e]), st2, c) ==> ExtendsBeside(st, st2, c)
  {
  }

  /** Putting a sound cache in a sound state keeps it sound. */
  lemma SoundAfterPut(st: EntityState, c: ClassName, e: EntityCacheVal)
    ensures StateSound(st) && EntrySound(c, e) ==> StateSound(st.(entities := st.entities[c := e]))
  {
  }

  // ------------------------------------------------------------ the constructor

  /** The entity name: the @Entity name unless it is empty, then the class's simple name. */
  function EntityNameOf(c: ClassName, named: string): (r: string)
    ensures named != "" ==> r == named
    ensures named == "" ==> r == SimpleName(c)
  {
    if named == "" then SimpleName(c) else named
  }

  /**
   * The EntityCache constructor: a class without @Entity is refused; the
   * entity name is the annotation's name unless that is empty, then the
   * class's simple name; the table name is the @Table name if there is a
   * @Table (even an empty one), else the entity name.  Only the class's own
   * annotations count.
   */
  function NewEntityCache(cm: Classes, c: ClassName): (r: Result<EntityCacheVal>)
    ensures r.Success? <==> HasTag(Decl(cm, c).tags, EntityKind)
    ensures r.Failure? ==> r.error == UtilityError(c)
    ensures r.Success? ==> c in cm && EntrySound(c, r.value)
    ensures r.Success? ==>
              r.value.entityName == EntityNameOf(c, TagOf(Decl(cm, c).tags, EntityKind).value.entityName)
    ensures r.Success? ==>
              (HasTag(Decl(cm, c).tags, TableKind) ==> r.value.tableName == TagOf(Decl(cm, c).tags, TableKind).value.tableName)
              && (!HasTag(Decl(cm, c).tags, TableKind) ==> r.value.tableName == r.value.entityName)
    ensures r.Success? ==> r.value.columnsByName == map[] && r.value.fieldsByAlias == map[] && r.value.linksByAlias == map[]
  {
    var tags := Decl(cm, c).tags;
    match TagOf(tags, EntityKind)
    case None => Failure(UtilityError(c))
    case Some(e) =>
      var entityName := EntityNameOf(c, e.entityName);
      var tableName := match TagOf(tags, TableKind) case Some(t) => t.tableName case None => entityName;
      Success(EntityCacheVal(c, entityName, tableName, map[], map[], map[]))
  }

  // ------------------------------------------------------------ the column loop

  /** The outcome of the column loop on one cache: an exception or not, the cache and the getter cache. */
  datatype Filled = Filled(result: Result<()>, entry: EntityCacheVal, getters: ClassUtil.GetterCache)

  predicate IsColumnField(f: Field) {
    HasTag(f.tags, ColumnKind)
  }

  /** Records the EntityField `ef` of the @Column field `f` under its column name and under its field name. */
  function RecordColumn(e: EntityCacheVal, f: Field, ef: EntityField): (r: EntityCacheVal)
    requires IsColumnField(f)
  {
    e.(columnsByName := e.columnsByName[ColumnNameOf(f).value := ef], fieldsByAlias := e.fieldsByAlias[f.name := Plain(ef)])
  }

  /** Recording a column of the class keeps a cache without links sound. */
  lemma RecordColumnSound(c: ClassName, e: EntityCacheVal, f: Field, ef: EntityField)
    requires IsColumnField(f) && ef.onClass == c && ef.field == f && ef.columnName == ColumnNameOf(f)
    ensures EntrySound(c, e) && e.linksByAlias == map[] ==> EntrySound(c, RecordColumn(e, f, ef))
  {
  }

  /**
   * The first loop of populateFields over the fields `fs`: each @Column
   * field becomes an EntityField recorded under its column name and under
   * its field name, a later field replacing an earlier one under the same
   * name.  An EntityField whose getter cannot be built ends the loop.
   */
  function PopulateColumns(cm: Classes, getters: ClassUtil.GetterCache, c: ClassName, e: EntityCacheVal, fs: seq<Field>)
    : (r: Filled)
    ensures r.entry.entityClass == e.entityClass && r.entry.entityName == e.entityName
            && r.entry.tableName == e.tableName && r.entry.linksByAlias == e.linksByAlias
    ensures EntrySound(c, e) && e.linksByAlias == map[] ==> EntrySound(c, r.entry)
    decreases |fs|
  {
    if fs == [] then Filled(Success(()), e, getters)
    else if !IsColumnField(fs[0]) then PopulateColumns(cm, getters, c, e, fs[1..])
    else
      match NewEntityField(cm, getters, c, fs[0].ftype, fs[0])
      case Failure(err) => Filled(Failure(err), e, getters)
      case Success((ef, getters')) =>
        RecordColumnSound(c, e, fs[0], ef);
        PopulateColumns(cm, getters', c, RecordColumn(e, fs[0], ef), fs[1..])
  }

  // ------------------------------------------------------------ default join target

  /**
   * The referenced column a @JoinColumn without one defaults to, given the
   * key fields of the class linked to: a compound key is refused, an empty
   * key list fails on its first element, a key field without @Column fails
   * on the missing annotation, and otherwise the target is the @Column name,
   * or the field name when that is empty.
   */
  function DefaultTarget(linkTo: ClassName, keys: seq<Field>): (r: Result<string>)
    ensures |keys| > 1 ==> r == Failure(UtilityError(linkTo))
    ensures keys == [] ==> r == Failure(IndexOutOfBounds)
    ensures |keys| == 1 && !IsColumnField(keys[0]) ==> r == Failure(NullPointer)
    ensures r.Success? <==> |keys| == 1 && IsColumnField(keys[0])
    ensures r.Success? ==>
              var cn := ColumnNameOf(keys[0]).value;
              (cn == "" ==> r.value == keys[0].name) && (cn != "" ==> r.value == cn)
  {
    if |keys| > 1 then Failure(UtilityError(linkTo))
    else if keys == [] then Failure(IndexOutOfBounds)
    else
      match ColumnNameOf(keys[0])
      case None => Failure(NullPointer)
      case Some(cn) => Success(if cn == "" then keys[0].name else cn)
  }

  /** The column name a key class field stands for: its @Column name when set, else its field name. */
  function KeyColumnName(kf: Field): (r: string)
    requires IsColumnField(kf)
    ensures StringUtil.IsSet(ColumnNameOf(kf).value) ==> r == ColumnNameOf(kf).value
    ensures !StringUtil.IsSet(ColumnNameOf(kf).value) ==> r == kf.name
  {
    var cn := ColumnNameOf(kf).value;
    if StringUtil.IsSet(cn) then cn else kf.name
  }

  /** The key field KeyUtil.getKeyFields finds first: a field annotated @Id or @EmbeddedId. */
  function FirstKeyField(cm: Classes, c: ClassName): (r: Option<Field>)
    ensures r.Some? ==> r.value in Members.AllFields(cm, c) && KeyUtil.IsKeyField(r.value)
    ensures r.None? <==> forall i :: 0 <= i < |Members.AllFields(cm, c)| ==> !KeyUtil.IsKeyField(Members.AllFields(cm, c)[i])
  {
    Seqs.First(Members.AllFields(cm, c), KeyUtil.IsKeyField)
  }

  /** A join between the column `src` of `from` and the column `tgt` of `to`. */
  predicate JoinMatches(j: EntityJoin, from: ClassName, src: string, to: ClassName, tgt: string) {
    j.fromField.onClass == from && j.fromField.columnName == Some(src)
    && j.toField.onClass == to && j.toField.columnName == Some(tgt)
  }

  /** The joins `js` follow the join specifications `specs` one for one, each referenced column taken as written. */
  predicate JoinsMatch(js: seq<EntityJoin>, from: ClassName, to: ClassName, specs: seq<JoinSpec>)
    decreases |specs|
  {
    |js| == |specs|
    && (specs != [] ==>
          JoinMatches(js[0], from, specs[0].name, to, specs[0].referencedColumnName)
          && JoinsMatch(js[1..], from, to, specs[1..]))
  }

  lemma JoinsMatchCons(j: EntityJoin, js: seq<EntityJoin>, from: ClassName, to: ClassName, specs: seq<JoinSpec>)
    requires specs != []
    ensures JoinMatches(j, from, specs[0].name, to, specs[0].referencedColumnName) && JoinsMatch(js, from, to, specs[1..])
            ==> JoinsMatch([j] + js, from, to, specs)
  {
    assert ([j] + js)[1..] == js;
  }

  /** JoinsMatch, position by position. */
  lemma {:induction false} JoinsMatchAt(js: seq<EntityJoin>, from: ClassName, to: ClassName, specs: seq<JoinSpec>, i: nat)
    requires JoinsMatch(js, from, to, specs) && i < |specs|
    ensures JoinMatches(js[i], from, specs[i].name, to, specs[i].referencedColumnName)
    decreases i
  {
    if i > 0 {
      JoinsMatchAt(js[1..], from, to, specs[1..], i - 1);
    }
  }

  /** Every field of `fs` carries @Column. */
  predicate AllColumnFields(fs: seq<Field>) {
    forall i :: 0 <= i < |fs| ==> IsColumnField(fs[i])
  }

  lemma AllColumnFieldsCons(f: Field, fs: seq<Field>)
    ensures IsColumnField(f) && AllColumnFields(fs) ==> AllColumnFields([f] + fs)
  {
  }

  // ------------------------------------------------------------ the mutually recursive core

  /**
   * EntityUtil.getEntityCache(c): the cache in the map if there is one;
   * otherwise construct it (nothing is put if that throws), put it, and
   * populate it.  If population throws, the partly populated cache stays in
   * the map.
   */
  function GetEntityCache(cm: Classes, st: EntityState, c: ClassName): (r: Step<EntityCacheVal>)
    ensures c in st.entities ==> r == Step(Success(st.entities[c]), st)
    ensures c !in st.entities && NewEntityCache(cm, c).Failure? ==> r == Step(Failure(UtilityError(c)), st)
    ensures c !in st.entities && NewEntityCache(cm, c).Success? ==> c in r.st.entities
    ensures r.result.Success? ==> c in r.st.entities && r.result.value == r.st.entities[c]
    ensures Extends(st, r.st)
    ensures StateSound(st) ==> StateSound(r.st)
    ensures Pending(cm, r.st) <= Pending(cm, st)
    decreases Pending(cm, st), 0, 0
  {
    if c in st.entities then Step(Success(st.entities[c]), st)
    else
      match NewEntityCache(cm, c)
      case Failure(err) => Step(Failure(err), st)
      case Success(ec) =>
        var st1 := st.(entities := st.entities[c := ec]);
        PendingShrinks(cm, st, c, ec);
        SoundAfterPut(st, c, ec);
        var p := Populate(cm, st1, c);
        ExtendsAfterPut(st, c, ec, p.st);
        if p.result.Failure? then Step(Failure(p.result.error), p.st)
        else Step(Success(p.st.entities[c]), p.st)
  }

  /**
   * EntityUtil.getEntityFieldByName(c, name): the EntityField recorded under
   * the column name `name` in the cache of `c`; a name not recorded is a
   * UtilityError naming it.
   */
  function FieldByName(cm: Classes, st: EntityState, c: ClassName, name: string): (r: Step<EntityField>)
    ensures c in st.entities ==> r.st == st
    ensures c in st.entities ==> (r.result.Success? <==> name in st.entities[c].columnsByName)
    ensures r.result.Success? ==>
              c in r.st.entities && name in r.st.entities[c].columnsByName
              && r.result.value == r.st.entities[c].columnsByName[name]
    ensures GetEntityCache(cm, st, c).result.Success? && r.result.Failure? ==> r.result.error == UtilityError(name)
    ensures Extends(st, r.st)
    ensures StateSound(st) ==> StateSound(r.st)
    ensures Pending(cm, r.st) <= Pending(cm, st)
    decreases Pending(cm, st), 1, 0
  {
    var g := GetEntityCache(cm, st, c);
    match g.result
    case Failure(err) => Step(Failure(err), g.st)
    case Success(ec) =>
      if name in ec.columnsByName then Step(Success(ec.columnsByName[name]), g.st)
      else Step(Failure(UtilityError(name)), g.st)
  }

  /**
   * The loop of getKeyFields over the declared fields of an embedded key
   * class: each @Column field stands for the column of the entity `c` named
   * by its @Column name when set, else by its field name.
   */
  function KeyColumns(cm: Classes, st: EntityState, c: ClassName, kfs: seq<Field>): (r: Step<seq<Field>>)
    ensures r.result.Success? ==> |r.result.value| == Seqs.Count(kfs, IsColumnField)
    ensures StateSound(st) && r.result.Success? ==> AllColumnFields(r.result.value)
    ensures Extends(st, r.st)
    ensures StateSound(st) ==> StateSound(r.st)
    ensures Pending(cm, r.st) <= Pending(cm, st)
    decreases Pending(cm, st), 2, |kfs|
  {
    if kfs == [] then Step(Success([]), st)
    else if !IsColumnField(kfs[0]) then KeyColumns(cm, st, c, kfs[1..])
    else
      var col := FieldByName(cm, st, c, KeyColumnName(kfs[0]));
      match col.result
      case Failure(err) => Step(Failure(err), col.st)
      case Success(ef) =>
        var rest := KeyColumns(cm, col.st, c, kfs[1..]);
        match rest.result
        case Failure(err) => Step(Failure(err), rest.st)
        case Success(fs) =>
          AllColumnFieldsCons(ef.field, fs);
          Step(Success([ef.field] + fs), rest.st)
  }

  /**
   * KeyUtil.getKeyFields(c): the first field of the class annotated @Id or
   * @EmbeddedId decides.  An @Id field is the key on its own.  An embedded
   * key stands for the columns of the entity its key class's @Column fields
   * name.  A class with neither is a UtilityError naming it.
   */
  function GetKeyFields(cm: Classes, st: EntityState, c: ClassName): (r: Step<seq<Field>>)
    ensures FirstKeyField(cm, c).None? ==> r == Step(Failure(UtilityError(c)), st)
    ensures FirstKeyField(cm, c).Some? && HasTag(FirstKeyField(cm, c).value.tags, IdKind) ==>
              r == Step(Success([FirstKeyField(cm, c).value]), st)
    ensures FirstKeyField(cm, c).Some? && !HasTag(FirstKeyField(cm, c).value.tags, IdKind) && StateSound(st) && r.result.Success? ==>
              AllColumnFields(r.result.value)
    ensures Extends(st, r.st)
    ensures StateSound(st) ==> StateSound(r.st)
    ensures Pending(cm, r.st) <= Pending(cm, st)
    decreases Pending(cm, st), 3, 0
  {
    match FirstKeyField(cm, c)
    case None => Step(Failure(UtilityError(c)), st)
    case Some(f) =>
      if HasTag(f.tags, IdKind) then Step(Success([f]), st)
      else
        match KeyUtil.GetKeyClass(cm, st.keyClasses, c)
        case Failure(err) => Step(Failure(err), st)
        case Success((k, keyClasses)) =>
          KeyColumns(cm, st.(keyClasses := keyClasses), c, Members.DeclaredFields(cm, k))
  }

  /** One EntityJoin: the column `src` of `from` joined to the column `tgt` of `to`, each found by name. */
  function MakeJoin(cm: Classes, st: EntityState, from: ClassName, src: string, to: ClassName, tgt: string)
    : (r: Step<EntityJoin>)
    ensures StateSound(st) && r.result.Success? ==> JoinMatches(r.result.value, from, src, to, tgt)
    ensures Extends(st, r.st)
    ensures StateSound(st) ==> StateSound(r.st)
    ensures Pending(cm, r.st) <= Pending(cm, st)
    decreases Pending(cm, st), 2, 0
  {
    var a := FieldByName(cm, st, from, src);
    match a.result
    case Failure(err) => Step(Failure(err), a.st)
    case Success(fromField) =>
      var b := FieldByName(cm, a.st, to, tgt);
      match b.result
      case Failure(err) => Step(Failure(err), b.st)
      case Success(toField) => Step(Success(EntityJoin(fromField, toField)), b.st)
  }

  /** The @JoinColumns loop: one join per entry, each referenced column taken as written. */
  function Joins(cm: Classes, st: EntityState, from: ClassName, to: ClassName, specs: seq<JoinSpec>): (r: Step<seq<EntityJoin>>)
    ensures r.result.Success? ==> |r.result.value| == |specs|
    ensures StateSound(st) && r.result.Success? ==> JoinsMatch(r.result.value, from, to, specs)
    ensures Extends(st, r.st)
    ensures StateSound(st) ==> StateSound(r.st)
    ensures Pending(cm, r.st) <= Pending(cm, st)
    decreases Pending(cm, st), 3, |specs|
  {
    if specs == [] then Step(Success([]), st)
    else
      var j := MakeJoin(cm, st, from, specs[0].name, to, specs[0].referencedColumnName);
      match j.result
      case Failure(err) => Step(Failure(err), j.st)
      case Success(join) =>
        var rest := Joins(cm, j.st, from, to, specs[1..]);
        match rest.result
        case Failure(err) => Step(Failure(err), rest.st)
        case Success(js) =>
          JoinsMatchCons(join, js, from, to, specs);
          Step(Success([join] + js), rest.st)
  }

  /**
   * The column a @JoinColumn refers to in the class `to`: its referenced
   * column as written, or when that is empty the column the key of `to`
   * defaults to.
   */
  function JoinTarget(cm: Classes, st: EntityState, to: ClassName, jc: JoinSpec): (r: Step<string>)
    ensures jc.referencedColumnName != "" ==> r == Step(Success(jc.referencedColumnName), st)
    ensures jc.referencedColumnName == "" ==> r.st == GetKeyFields(cm, st, to).st
    ensures jc.referencedColumnName == "" && GetKeyFields(cm, st, to).result.Failure? ==>
              r.result == Failure(GetKeyFields(cm, st, to).result.error)
    ensures jc.referencedColumnName == "" && GetKeyFields(cm, st, to).result.Success? ==>
              r.result == DefaultTarget(to, GetKeyFields(cm, st, to).result.value)
    ensures Extends(st, r.st)
    ensures StateSound(st) ==> StateSound(r.st)
    ensures Pending(cm, r.st) <= Pending(cm, st)
    decreases Pending(cm, st), 4, 0
  {
    if jc.referencedColumnName != "" then Step(Success(jc.referencedColumnName), st)
    else
      var keys := GetKeyFields(cm, st, to);
      match keys.result
      case Failure(err) => Step(Failure(err), keys.st)
      case Success(ks) => Step(DefaultTarget(to, ks), keys.st)
  }

  /** The @JoinColumn of the field `f`, if any, as a list of at most one join. */
  function SingleJoin(cm: Classes, st: EntityState, from: ClassName, to: ClassName, f: Field): (r: Step<seq<EntityJoin>>)
    ensures JoinColumnOf(f).None? ==> r == Step(Success([]), st)
    ensures r.result.Success? && JoinColumnOf(f).Some? ==>
              |r.result.value| == 1 && JoinTarget(cm, st, to, JoinColumnOf(f).value).result.Success?
    ensures StateSound(st) && r.result.Success? && JoinColumnOf(f).Some? ==>
              JoinMatches(r.result.value[0], from, JoinColumnOf(f).value.name, to,
                          JoinTarget(cm, st, to, JoinColumnOf(f).value).result.value)
    ensures Extends(st, r.st)
    ensures StateSound(st) ==> StateSound(r.st)
    ensures Pending(cm, r.st) <= Pending(cm, st)
    decreases Pending(cm, st), 5, 0
  {
    match JoinColumnOf(f)
    case None => Step(Success([]), st)
    case Some(jc) =>
      var t := JoinTarget(cm, st, to, jc);
      match t.result
      case Failure(err) => Step(Failure(err), t.st)
      case Success(tgt) =>
        var j := MakeJoin(cm, t.st, from, jc.name, to, tgt);
        match j.result
        case Failure(err) => Step(Failure(err), j.st)
        case Success(join) => Step(Success([join]), j.st)
  }

  /** The joins of a link made from the field `f` of `from`: the @JoinColumn join, if any, then the @JoinColumns joins. */
  function LinkJoins(cm: Classes, st: EntityState, from: ClassName, f: Field): (r: Step<seq<EntityJoin>>)
    ensures r.result.Success? ==>
              var single := if JoinColumnOf(f).Some? then 1 else 0;
              |r.result.value| == single + |JoinColumnsOf(f)|
              && (StateSound(st) ==> JoinsMatch(r.result.value[single..], from, f.ftype, JoinColumnsOf(f)))
    ensures StateSound(st) && r.result.Success? && JoinColumnOf(f).Some? ==>
              JoinTarget(cm, st, f.ftype, JoinColumnOf(f).value).result.Success?
              && JoinMatches(r.result.value[0], from, JoinColumnOf(f).value.name, f.ftype,
                             JoinTarget(cm, st, f.ftype, JoinColumnOf(f).value).result.value)
    ensures Extends(st, r.st)
    ensures StateSound(st) ==> StateSound(r.st)
    ensures Pending(cm, r.st) <= Pending(cm, st)
    decreases Pending(cm, st), 6, 0
  {
    var one := SingleJoin(cm, st, from, f.ftype, f);
    match one.result
    case Failure(err) => Step(Failure(err), one.st)
    case Success(first) =>
      var many := Joins(cm, one.st, from, f.ftype, JoinColumnsOf(f));
      match many.result
      case Failure(err) => Step(Failure(err), many.st)
      case Success(rest) =>
        AfterPrefix(first, rest);
        Step(Success(first + rest), many.st)
  }

  /**
   * The EntityLink constructor for the field `f` of `c`, linking to the
   * field's type: first the EntityField part; then a field without
   * @ManyToOne is refused; then the joins.
   */
  function NewLink(cm: Classes, st: EntityState, c: ClassName, f: Field): (r: Step<EntityLink>)
    ensures r.result.Success? ==>
              var l := r.result.value;
              l.base.field == f && l.base.onClass == c && l.base.ftype == f.ftype && l.base.alias == f.name
              && ManyToOneOf(f) == Some((l.fetch, l.cascade))
    ensures NewEntityField(cm, st.getters, c, f.ftype, f).Success? && ManyToOneOf(f).Some? ==>
              var st1 := st.(getters := NewEntityField(cm, st.getters, c, f.ftype, f).value.1);
              r.st == LinkJoins(cm, st1, c, f).st
              && (r.result.Success? <==> LinkJoins(cm, st1, c, f).result.Success?)
              && (r.result.Success? ==> r.result.value.joins == LinkJoins(cm, st1, c, f).result.value)
    ensures ManyToOneOf(f).None? ==> r.result.Failure?
    ensures Extends(st, r.st)
    ensures StateSound(st) ==> StateSound(r.st)
    ensures Pending(cm, r.st) <= Pending(cm, st)
    decreases Pending(cm, st), 7, 0
  {
    match NewEntityField(cm, st.getters, c, f.ftype, f)
    case Failure(err) => Step(Failure(err), st)
    case Success((base, getters)) =>
      var st1 := st.(getters := getters);
      match ManyToOneOf(f)
      case None => Step(Failure(UtilityError(f.name)), st1)
      case Some((fetch, cascade)) =>
        var js := LinkJoins(cm, st1, c, f);
        match js.result
        case Failure(err) => Step(Failure(err), js.st)
        case Success(joins) => Step(Success(EntityLink(base, fetch, cascade, joins)), js.st)
  }

  lemma AfterPrefix<T>(a: seq<T>, b: seq<T>)
    ensures (a + b)[|a|..] == b
  {
  }

  predicate IsLinkField(f: Field) {
    HasTag(f.tags, ManyToOneKind)
  }

  /** Records the link `l` made from the field `f` under the field's name, as a link and as a field. */
  function RecordLink(e: EntityCacheVal, f: Field, l: EntityLink): (r: EntityCacheVal) {
    e.(linksByAlias := e.linksByAlias[f.name := l], fieldsByAlias := e.fieldsByAlias[f.name := Linked(l)])
  }

  /** Recording a link keeps a cache sound. */
  lemma RecordLinkSound(c: ClassName, e: EntityCacheVal, f: Field, l: EntityLink)
    ensures EntrySound(c, e) ==> EntrySound(c, RecordLink(e, f, l))
  {
  }

  /**
   * The second loop of populateFields over the fields `fs`: each
   * @ManyToOne field becomes an EntityLink recorded under its field name as
   * a link and as a field, replacing a column field of the same name.
   */
  function PopulateLinks(cm: Classes, st: EntityState, c: ClassName, fs: seq<Field>): (r: Step<()>)
    requires c in st.entities
    ensures c in r.st.entities
    ensures r.st.entities[c].entityClass == st.entities[c].entityClass
    ensures st.entities[c].linksByAlias.Keys <= r.st.entities[c].linksByAlias.Keys
    ensures r.st.entities[c].columnsByName == st.entities[c].columnsByName
    ensures ExtendsBeside(st, r.st, c)
    ensures StateSound(st) ==> StateSound(r.st)
    ensures Pending(cm, r.st) <= Pending(cm, st)
    decreases Pending(cm, st), 8, |fs|
  {
    if fs == [] then Step(Success(()), st)
    else if !IsLinkField(fs[0]) then PopulateLinks(cm, st, c, fs[1..])
    else
      var f := fs[0];
      var made := NewLink(cm, st, c, f);
      match made.result
      case Failure(err) => Step(Failure(err), made.st)
      case Success(link) =>
        var e' := RecordLink(made.st.entities[c], f, link);
        PendingReplace(cm, made.st, c, e');
        RecordLinkSound(c, made.st.entities[c], f, link);
        SoundAfterPut(made.st, c, e');
        var rest := PopulateLinks(cm, made.st.(entities := made.st.entities[c := e']), c, fs[1..]);
        ExtendsBesideChain(st, made.st, c, e', rest.st);
        rest
  }

  /** populateFields on the cache of `c`, already in the map: the column loop, then the link loop. */
  function Populate(cm: Classes, st: EntityState, c: ClassName): (r: Step<()>)
    requires c in st.entities
    ensures c in r.st.entities
    ensures ExtendsBeside(st, r.st, c)
    ensures StateSound(st) && st.entities[c].linksByAlias == map[] ==> StateSound(r.st)
    ensures Pending(cm, r.st) <= Pending(cm, st)
    decreases Pending(cm, st), 9, 0
  {
    var fs := Members.AllFields(cm, c);
    var filled := PopulateColumns(cm, st.getters, c, st.entities[c], fs);
    var st1 := st.(entities := st.entities[c := filled.entry], getters := filled.getters);
    PendingReplace(cm, st, c, filled.entry);
    SoundAfterPut(st, c, filled.entry);
    match filled.result
    case Failure(err) => Step(Failure(err), st1)
    case Success(_) => PopulateLinks(cm, st1, c, fs)
  }

  // ------------------------------------------------------------ lookups

  /** EntityUtil.getColumnByName(c, name): the field of the column named `name`. */
  function ColumnByName(cm: Classes, st: EntityState, c: ClassName, name: string): (r: Step<Field>)
    ensures r.st == FieldByName(cm, st, c, name).st
    ensures r.result.Success? <==> FieldByName(cm, st, c, name).result.Success?
    ensures StateSound(st) && r.result.Success? ==> ColumnNameOf(r.result.value) == Some(name)
    ensures r.result.Failure? ==> r.result.error == FieldByName(cm, st, c, name).result.error
  {
    var ef := FieldByName(cm, st, c, name);
    match ef.result
    case Failure(err) => Step(Failure(err), ef.st)
    case Success(v) => Step(Success(v.field), ef.st)
  }

  /** EntityUtil.getEnityFieldByAlias(c, alias): the field or link recorded under a field name. */
  function FieldByAlias(cm: Classes, st: EntityState, c: ClassName, alias: string): (r: Step<Registered>)
    ensures r.st == GetEntityCache(cm, st, c).st
    ensures GetEntityCache(cm, st, c).result.Success? ==>
              var e := GetEntityCache(cm, st, c).result.value;
              (r.result.Success? <==> alias in e.fieldsByAlias)
              && (r.result.Success? ==> r.result.value == e.fieldsByAlias[alias])
              && (r.result.Failure? ==> r.result.error == UtilityError(alias))
    ensures GetEntityCache(cm, st, c).result.Failure? ==> r.result == GetEntityCache(cm, st, c).result.PropagateFailure()
  {
    var g := GetEntityCache(cm, st, c);
    match g.result
    case Failure(err) => Step(Failure(err), g.st)
    case Success(e) =>
      if alias in e.fieldsByAlias then Step(Success(e.fieldsByAlias[alias]), g.st)
      else Step(Failure(UtilityError(alias)), g.st)
  }

  /**
   * EntityUtil.getColumnByAlias(c, alias): the field recorded under a field
   * name, provided it maps to a column; a missing alias and a field without
   * a column name (a link without @Column) are both a UtilityError.
   */
  function ColumnByAlias(cm: Classes, st: EntityState, c: ClassName, alias: string): (r: Step<Field>)
    ensures r.st == GetEntityCache(cm, st, c).st
    ensures FieldByAlias(cm, st, c, alias).result.Success? ==>
              var ef := FieldByAlias(cm, st, c, alias).result.value.Field();
              (r.result.Success? <==> ef.columnName.Some?)
              && (r.result.Success? ==> r.result.value == ef.field)
    ensures GetEntityCache(cm, st, c).result.Success? && r.result.Failure? ==> r.result.error == UtilityError(alias)
  {
    var g := FieldByAlias(cm, st, c, alias);
    match g.result
    case Failure(err) => Step(Failure(err), g.st)
    case Success(reg) =>
      if reg.Field().columnName.None? then Step(Failure(UtilityError(alias)), g.st)
      else Step(Success(reg.Field().field), g.st)
  }

  /**
   * EntityUtil.getEnityLinkByAlias(c, alias): the link recorded under a
   * field name; a plain column field fails the cast to EntityLink.
   */
  function LinkByAlias(cm: Classes, st: EntityState, c: ClassName, alias: string): (r: Step<EntityLink>)
    ensures r.st == GetEntityCache(cm, st, c).st
    ensures FieldByAlias(cm, st, c, alias).result.Success? ==>
              (r.result.Success? <==> FieldByAlias(cm, st, c, alias).result.value.Linked?)
              && (r.result.Failure? ==> r.result.error == ClassCast)
    ensures FieldByAlias(cm, st, c, alias).result.Failure? ==> r.result.Failure?
    ensures StateSound(st) && r.result.Success? ==>
              alias in r.st.entities[c].linksByAlias && r.result.value == r.st.entities[c].linksByAlias[alias]
  {
    var g := FieldByAlias(cm, st, c, alias);
    match g.result
    case Failure(err) => Step(Failure(err), g.st)
    case Success(Plain(_)) => Step(Failure(ClassCast), g.st)
    case Success(Linked(l)) => Step(Success(l), g.st)
  }

  /**
   * EntityUtil.getLazyLoadLinks(c): the links of the entity fetched lazily.
   * The Java list follows the hash map's order; the model gives the set.
   */
  function LazyLinks(cm: Classes, st: EntityState, c: ClassName): (r: Step<set<EntityLink>>)
    ensures r.st == GetEntityCache(cm, st, c).st
    ensures r.result.Success? <==> GetEntityCache(cm, st, c).result.Success?
    ensures StateSound(st) && r.result.Success? ==>
              var e := r.st.entities[c];
              forall l :: l in r.result.value <==>
                IsLazyFetch(l) && exists a :: a in e.fieldsByAlias && e.fieldsByAlias[a] == Linked(l)
  {
    var g := GetEntityCache(cm, st, c);
    match g.result
    case Failure(err) => Step(Failure(err), g.st)
    case Success(e) =>
      var lazy := set a | a in e.linksByAlias && IsLazyFetch(e.linksByAlias[a]) :: e.linksByAlias[a];
      Step(Success(lazy), g.st)
  }

  // ------------------------------------------------------------ what population records

  /** The field carries a @Column naming `n`. */
  function ColumnNamed(n: string): Field -> bool {
    f => ColumnNameOf(f) == Some(n)
  }

  /** The field carries a @Column and is named `a`. */
  function ColumnAliased(a: string): Field -> bool {
    f => IsColumnField(f) && f.name == a
  }

  /**
   * `r` holds under column name `n` what recording the fields `fs` in order
   * over `e` leaves there: the last of them carrying that column name, or
   * what `e` had when none does.
   */
  predicate ColumnsLastWin(e: EntityCacheVal, r: EntityCacheVal, fs: seq<Field>, n: string) {
    var j := Seqs.LastIndex(fs, ColumnNamed(n));
    (j >= 0 ==> n in r.columnsByName && r.columnsByName[n].field == fs[j])
    && (j < 0 ==> (n in r.columnsByName <==> n in e.columnsByName)
                  && (n in e.columnsByName ==> r.columnsByName[n] == e.columnsByName[n]))
  }

  /** Likewise under field name `a`: the last @Column field named `a`, recorded as a plain field. */
  predicate AliasesLastWin(e: EntityCacheVal, r: EntityCacheVal, fs: seq<Field>, a: string) {
    var j := Seqs.LastIndex(fs, ColumnAliased(a));
    (j >= 0 ==> a in r.fieldsByAlias && r.fieldsByAlias[a].Plain? && r.fieldsByAlias[a].ef.field == fs[j])
    && (j < 0 ==> (a in r.fieldsByAlias <==> a in e.fieldsByAlias)
                  && (a in e.fieldsByAlias ==> r.fieldsByAlias[a] == e.fieldsByAlias[a]))
  }

  /** What one step of the column loop hands on: `f` recorded when it is a @Column field, else nothing. */
  ghost predicate StepRecords(e: EntityCacheVal, e': EntityCacheVal, f: Field) {
    if IsColumnField(f) then exists ef: EntityField :: ef.field == f && e' == RecordColumn(e, f, ef) else e' == e
  }

  /** What recording one column does to the entry under a column name and under a field name. */
  lemma RecordColumnAt(e: EntityCacheVal, f: Field, ef: EntityField, n: string, a: string)
    requires IsColumnField(f) && ef.field == f
    ensures var r := RecordColumn(e, f, ef);
            (ColumnNamed(n)(f) ==> n in r.columnsByName && r.columnsByName[n].field == f)
            && (!ColumnNamed(n)(f) ==>
                  (n in r.columnsByName <==> n in e.columnsByName)
                  && (n in e.columnsByName ==> r.columnsByName[n] == e.columnsByName[n]))
            && (ColumnAliased(a)(f) ==> a in r.fieldsByAlias && r.fieldsByAlias[a] == Plain(ef))
            && (!ColumnAliased(a)(f) ==>
                  (a in r.fieldsByAlias <==> a in e.fieldsByAlias)
                  && (a in e.fieldsByAlias ==> r.fieldsByAlias[a] == e.fieldsByAlias[a]))
  {
  }

  /** The column-name fact extends from the rest of the list to the list with `f` in front. */
  lemma ColumnsLastWinCons(e: EntityCacheVal, e': EntityCacheVal, r: EntityCacheVal, f: Field, rest: seq<Field>, n: string)
    requires StepRecords(e, e', f) && ColumnsLastWin(e', r, rest, n)
    ensures ColumnsLastWin(e, r, [f] + rest, n)
  {
    Seqs.LastIndexCons(f, rest, ColumnNamed(n));
    var j := Seqs.LastIndex(rest, ColumnNamed(n));
    if j >= 0 {
      assert ([f] + rest)[j + 1] == rest[j];
    } else if IsColumnField(f) {
      var ef: EntityField :| ef.field == f && e' == RecordColumn(e, f, ef);
      RecordColumnAt(e, f, ef, n, "");
    }
  }

  /** The field-name fact extends from the rest of the list to the list with `f` in front. */
  lemma AliasesLastWinCons(e: EntityCacheVal, e': EntityCacheVal, r: EntityCacheVal, f: Field, rest: seq<Field>, a: string)
    requires StepRecords(e, e', f) && AliasesLastWin(e', r, rest, a)
    ensures AliasesLastWin(e, r, [f] + rest, a)
  {
    Seqs.LastIndexCons(f, rest, ColumnAliased(a));
    var j := Seqs.LastIndex(rest, ColumnAliased(a));
    if j >= 0 {
      assert ([f] + rest)[j + 1] == rest[j];
    } else if IsColumnField(f) {
      var ef: EntityField :| ef.field == f && e' == RecordColumn(e, f, ef);
      RecordColumnAt(e, f, ef, "", a);
    }
  }

  /** The step the column loop takes on the first field of a non-empty list. */
  lemma PopulateColumnsStep(cm: Classes, g: ClassUtil.GetterCache, c: ClassName, e: EntityCacheVal, fs: seq<Field>)
    requires fs != [] && PopulateColumns(cm, g, c, e, fs).result.Success?
    ensures IsColumnField(fs[0]) ==> NewEntityField(cm, g, c, fs[0].ftype, fs[0]).Success?
    ensures var next := if IsColumnField(fs[0]) then NewEntityField(cm, g, c, fs[0].ftype, fs[0]).value.1 else g;
            var e' := if IsColumnField(fs[0]) then RecordColumn(e, fs[0], NewEntityField(cm, g, c, fs[0].ftype, fs[0]).value.0)
                      else e;
            StepRecords(e, e', fs[0])
            && PopulateColumns(cm, g, c, e, fs) == PopulateColumns(cm, next, c, e', fs[1..])
  {
    if IsColumnField(fs[0]) {
      var ef := NewEntityField(cm, g, c, fs[0].ftype, fs[0]).value.0;
      assert ef.field == fs[0];
    }
  }

  /**
   * The column loop records under a column name the LAST field of the list
   * carrying that column name, and under a field name the last @Column
   * field with that name; a name no field carries keeps what the cache had.
   */
  lemma {:induction false} PopulateColumnsLastWins(cm: Classes, g: ClassUtil.GetterCache, c: ClassName, e: EntityCacheVal,
                                                   fs: seq<Field>, n: string, a: string)
    requires PopulateColumns(cm, g, c, e, fs).result.Success?
    ensures ColumnsLastWin(e, PopulateColumns(cm, g, c, e, fs).entry, fs, n)
    ensures AliasesLastWin(e, PopulateColumns(cm, g, c, e, fs).entry, fs, a)
    decreases |fs|
  {
    if fs != [] {
      PopulateColumnsStep(cm, g, c, e, fs);
      var next := if IsColumnField(fs[0]) then NewEntityField(cm, g, c, fs[0].ftype, fs[0]).value.1 else g;
      var e' := if IsColumnField(fs[0]) then RecordColumn(e, fs[0], NewEntityField(cm, g, c, fs[0].ftype, fs[0]).value.0)
                else e;
      PopulateColumnsLastWins(cm, next, c, e', fs[1..], n, a);
      ColumnsLastWinCons(e, e', PopulateColumns(cm, g, c, e, fs).entry, fs[0], fs[1..], n);
      AliasesLastWinCons(e, e', PopulateColumns(cm, g, c, e, fs).entry, fs[0], fs[1..], a);
      assert fs == [fs[0]] + fs[1..];
    }
  }

  /** The field carries a @ManyToOne and is named `a`. */
  function LinkAliased(a: string): Field -> bool {
    f => IsLinkField(f) && f.name == a
  }

  /**
   * `r` holds under field name `a` what recording the links of `fs` in
   * order over `e` leaves there: a link made from the last @ManyToOne field
   * named `a`, in both maps, or what `e` had when no such field exists.
   */
  predicate LinksLastWin(e: EntityCacheVal, r: EntityCacheVal, fs: seq<Field>, a: string) {
    var j := Seqs.LastIndex(fs, LinkAliased(a));
    (j >= 0 ==> a in r.linksByAlias && r.linksByAlias[a].base.field == fs[j]
                && a in r.fieldsByAlias && r.fieldsByAlias[a] == Linked(r.linksByAlias[a]))
    && (j < 0 ==>
          (a in r.linksByAlias <==> a in e.linksByAlias)
          && (a in e.linksByAlias ==> r.linksByAlias[a] == e.linksByAlias[a])
          && (a in r.fieldsByAlias <==> a in e.fieldsByAlias)
          && (a in e.fieldsByAlias ==> r.fieldsByAlias[a] == e.fieldsByAlias[a]))
  }

  /** What one step of the link loop hands on: a link made from `f` recorded when `f` is a @ManyToOne field. */
  ghost predicate LinkStepRecords(e: EntityCacheVal, e': EntityCacheVal, f: Field) {
    if IsLinkField(f) then exists l: EntityLink :: l.base.field == f && e' == RecordLink(e, f, l) else e' == e
  }

  /** The link fact extends from the rest of the list to the list with `f` in front. */
  lemma LinksLastWinCons(e: EntityCacheVal, e': EntityCacheVal, r: EntityCacheVal, f: Field, rest: seq<Field>, a: string)
    requires LinkStepRecords(e, e', f) && LinksLastWin(e', r, rest, a)
    ensures LinksLastWin(e, r, [f] + rest, a)
  {
    Seqs.LastIndexCons(f, rest, LinkAliased(a));
    var j := Seqs.LastIndex(rest, LinkAliased(a));
    if j >= 0 {
      assert ([f] + rest)[j + 1] == rest[j];
    } else if IsLinkField(f) {
      var l: EntityLink :| l.base.field == f && e' == RecordLink(e, f, l);
    }
  }

  /** The step the link loop takes on the first field of a non-empty list, and the state it goes on with. */
  lemma PopulateLinksStep(cm: Classes, st: EntityState, c: ClassName, fs: seq<Field>) returns (st': EntityState)
    requires c in st.entities && fs != [] && PopulateLinks(cm, st, c, fs).result.Success?
    ensures c in st'.entities && LinkStepRecords(st.entities[c], st'.entities[c], fs[0])
    ensures PopulateLinks(cm, st, c, fs) == PopulateLinks(cm, st', c, fs[1..])
  {
    if !IsLinkField(fs[0]) {
      st' := st;
    } else {
      var made := NewLink(cm, st, c, fs[0]);
      var link := made.result.value;
      assert made.st.entities[c] == st.entities[c];
      st' := made.st.(entities := made.st.entities[c := RecordLink(made.st.entities[c], fs[0], link)]);
      assert link.base.field == fs[0];
    }
  }

  /**
   * The link loop records under a field name a link made from the LAST
   * @ManyToOne field with that name, in the links and in the fields, so a
   * link replaces a column field of the same name; a name no such field
   * carries keeps what the cache had.
   */
  lemma {:induction false} PopulateLinksLastWins(cm: Classes, st: EntityState, c: ClassName, fs: seq<Field>, a: string)
    requires c in st.entities && PopulateLinks(cm, st, c, fs).result.Success?
    ensures LinksLastWin(st.entities[c], PopulateLinks(cm, st, c, fs).st.entities[c], fs, a)
    decreases |fs|
  {
    if fs != [] {
      var st' := PopulateLinksStep(cm, st, c, fs);
      PopulateLinksLastWins(cm, st', c, fs[1..], a);
      LinksLastWinCons(st.entities[c], st'.entities[c], PopulateLinks(cm, st, c, fs).st.entities[c], fs[0], fs[1..], a);
      assert fs == [fs[0]] + fs[1..];
    }
  }

  /**
   * `r` holds under field name `a` what both loops over `fs` leave there,
   * starting from `e`: a link from the last @ManyToOne field named `a`;
   * without one, the plain field of the last @Column field named `a`; with
   * neither, what `e` had.
   */
  predicate FieldsLastWin(e: EntityCacheVal, r: EntityCacheVal, fs: seq<Field>, a: string) {
    var jl := Seqs.LastIndex(fs, LinkAliased(a));
    var jc := Seqs.LastIndex(fs, ColumnAliased(a));
    (jl >= 0 ==> a in r.linksByAlias && r.linksByAlias[a].base.field == fs[jl]
                 && a in r.fieldsByAlias && r.fieldsByAlias[a] == Linked(r.linksByAlias[a]))
    && (jl < 0 ==>
          (a in r.linksByAlias <==> a in e.linksByAlias)
          && (a in e.linksByAlias ==> r.linksByAlias[a] == e.linksByAlias[a])
          && (jc >= 0 ==> a in r.fieldsByAlias && r.fieldsByAlias[a].Plain? && r.fieldsByAlias[a].ef.field == fs[jc])
          && (jc < 0 ==>
                (a in r.fieldsByAlias <==> a in e.fieldsByAlias)
                && (a in e.fieldsByAlias ==> r.fieldsByAlias[a] == e.fieldsByAlias[a])))
  }

  /** The column loop's field-name fact followed by the link loop's gives the combined one. */
  lemma FieldsLastWinCompose(e: EntityCacheVal, mid: EntityCacheVal, r: EntityCacheVal, fs: seq<Field>, a: string)
    requires mid.linksByAlias == e.linksByAlias && AliasesLastWin(e, mid, fs, a) && LinksLastWin(mid, r, fs, a)
    ensures FieldsLastWin(e, r, fs, a)
  {
  }

  /**
   * After a complete populateFields on the cache of `c`, the column map
   * and the field and link maps follow the fields of `c` and its
   * superclasses in AllFields order, the last declaration of a name winning.
   */
  lemma PopulateContents(cm: Classes, st: EntityState, c: ClassName, n: string, a: string)
    requires c in st.entities && Populate(cm, st, c).result.Success?
    ensures var fs := Members.AllFields(cm, c);
            ColumnsLastWin(st.entities[c], Populate(cm, st, c).st.entities[c], fs, n)
            && FieldsLastWin(st.entities[c], Populate(cm, st, c).st.entities[c], fs, a)
  {
    var fs := Members.AllFields(cm, c);
    var filled := PopulateColumns(cm, st.getters, c, st.entities[c], fs);
    var st1 := st.(entities := st.entities[c := filled.entry], getters := filled.getters);
    assert Populate(cm, st, c) == PopulateLinks(cm, st1, c, fs);
    PopulateColumnsLastWins(cm, st.getters, c, st.entities[c], fs, n, a);
    PopulateLinksLastWins(cm, st1, c, fs, a);
    FieldsLastWinCompose(st.entities[c], filled.entry, Populate(cm, st, c).st.entities[c], fs, a);
  }

  /**
   * getEntityCache on a class not cached yet: when it succeeds, a column
   * name is served by the last @Column field of the class and its
   * superclasses carrying it and by nothing else; a field name by a link
   * from the last @ManyToOne field with that name, else by the last @Column
   * field with that name, else by nothing.
   */
  lemma ColdEntityCacheContents(cm: Classes, st: EntityState, c: ClassName, n: string, a: string)
    requires c !in st.entities && GetEntityCache(cm, st, c).result.Success?
    ensures var fs := Members.AllFields(cm, c);
            var e := GetEntityCache(cm, st, c).result.value;
            var empty := NewEntityCache(cm, c).value;
            NewEntityCache(cm, c).Success? && ColumnsLastWin(empty, e, fs, n) && FieldsLastWin(empty, e, fs, a)
  {
    var ec := NewEntityCache(cm, c).value;
    var st1 := st.(entities := st.entities[c := ec]);
    assert GetEntityCache(cm, st, c).result.value == Populate(cm, st1, c).st.entities[c];
    PopulateContents(cm, st1, c, n, a);
  }

  /**
   * The NullPointerException of a defaulted join target comes only from a
   * linked class whose key is a single @Id field without @Column: the
   * fields of an embedded key are always looked up by their column names.
   */
  lemma DefaultTargetNullOnlyForBareId(cm: Classes, st: EntityState, to: ClassName, jc: JoinSpec)
    requires StateSound(st) && jc.referencedColumnName == "" && GetKeyFields(cm, st, to).result.Success?
    ensures JoinTarget(cm, st, to, jc).result == Failure(NullPointer) <==>
              FirstKeyField(cm, to).Some? && HasTag(FirstKeyField(cm, to).value.tags, IdKind)
              && !IsColumnField(FirstKeyField(cm, to).value)
  {
    var keys := GetKeyFields(cm, st, to).result.value;
    if FirstKeyField(cm, to).Some? && !HasTag(FirstKeyField(cm, to).value.tags, IdKind) && |keys| == 1 {
      assert IsColumnField(keys[0]);
    }
  }

  /**
   * The lookups of EntityUtil on a class not cached yet whose cache can be
   * built: a column name is found exactly when some @Column field of the
   * class or its superclasses carries it, and then it is the last such
   * field; a field name is found exactly when some @Column or @ManyToOne
   * field has it, and is a link exactly when a @ManyToOne field has it.
   */
  lemma ColdLookups(cm: Classes, st: EntityState, c: ClassName, n: string, a: string)
    requires c !in st.entities && GetEntityCache(cm, st, c).result.Success?
    ensures var fs := Members.AllFields(cm, c);
            var j := Seqs.LastIndex(fs, ColumnNamed(n));
            (FieldByName(cm, st, c, n).result.Success? <==> j >= 0)
            && (j >= 0 ==> FieldByName(cm, st, c, n).result.value.field == fs[j])
    ensures var fs := Members.AllFields(cm, c);
            (FieldByAlias(cm, st, c, a).result.Success? <==>
               Seqs.LastIndex(fs, LinkAliased(a)) >= 0 || Seqs.LastIndex(fs, ColumnAliased(a)) >= 0)
            && (LinkByAlias(cm, st, c, a).result.Success? <==> Seqs.LastIndex(fs, LinkAliased(a)) >= 0)
  {
    ColdEntityCacheContents(cm, st, c, n, a);
    var e := GetEntityCache(cm, st, c).result.value;
    assert FieldByName(cm, st, c, n).result.Success? <==> n in e.columnsByName;
  }
}

=== FILE: entity_fields.dfy ===
/**
 * EntityField, EntityJoin and EntityLink: what EntityCache records about one
 * persistent field of an entity class.  A field knows its getter and setter
 * methods, its getter and its column name; a link is a field annotated
 * @ManyToOne that also knows how it is fetched and the column joins it
 * follows to the entity it refers to.
 */
module EntityFields {
  import opened Wrappers
  import opened ClassModel
  import Getters
  import ClassUtil

  /** An EntityField: the members and names the cache keeps for one field of `onClass`. */
  datatype EntityField = EntityField(
    onClass: ClassName,
    ftype: ClassName,
    field: Field,
    getterMethod: Option<Method>,
    setterMethod: Option<Method>,
    getter: Option<Getters.Getter>,
    alias: string,
    columnName: Option<string>)

  /** One join of a link: the column of the linking entity and the column of the entity linked to. */
  datatype EntityJoin = EntityJoin(fromField: EntityField, toField: EntityField)

  /** An EntityLink: the field part, the @ManyToOne attributes and the joins in order. */
  datatype EntityLink = EntityLink(base: EntityField, fetch: FetchType, cascade: seq<string>, joins: seq<EntityJoin>)

  /** What fieldsByAlias holds: a plain column field or a link. */
  datatype Registered = Plain(ef: EntityField) | Linked(link: EntityLink) {
    function Field(): EntityField {
      match this
      case Plain(ef) => ef
      case Linked(l) => l.base
    }
  }

  /** The @Column name of a field: the annotation's (possibly empty) name, or None without the annotation. */
  function ColumnNameOf(f: Field): (r: Option<string>)
    ensures r.Some? <==> HasTag(f.tags, ColumnKind)
    ensures r.Some? ==> ColumnTag(r.value) in f.tags
  {
    match TagOf(f.tags, ColumnKind)
    case Some(t) => Some(t.columnName)
    case None => None
  }

  /** The attributes of a field's @ManyToOne: how it is fetched and what it cascades. */
  function ManyToOneOf(f: Field): (r: Option<(FetchType, seq<string>)>)
    ensures r.Some? <==> HasTag(f.tags, ManyToOneKind)
    ensures r.Some? ==> TagOf(f.tags, ManyToOneKind) == Some(ManyToOneTag(r.value.0, r.value.1))
  {
    match TagOf(f.tags, ManyToOneKind)
    case Some(ManyToOneTag(fetch, cascade)) => Some((fetch, cascade))
    case _ => None
  }

  /** A field's @JoinColumn, if it has one. */
  function JoinColumnOf(f: Field): (r: Option<JoinSpec>)
    ensures r.Some? <==> HasTag(f.tags, JoinColumnKind)
    ensures r.Some? ==> TagOf(f.tags, JoinColumnKind) == Some(JoinColumnTag(r.value))
  {
    match TagOf(f.tags, JoinColumnKind)
    case Some(JoinColumnTag(jc)) => Some(jc)
    case _ => None
  }

  /** The entries of a field's @JoinColumns, none without the annotation. */
  function JoinColumnsOf(f: Field): (r: seq<JoinSpec>)
    ensures HasTag(f.tags, JoinColumnsKind) ==> TagOf(f.tags, JoinColumnsKind) == Some(JoinColumnsTag(r))
    ensures !HasTag(f.tags, JoinColumnsKind) ==> r == []
  {
    match TagOf(f.tags, JoinColumnsKind)
    case Some(JoinColumnsTag(jcs)) => jcs
    case _ => []
  }

  /** The method behind a member, when the member is a method. */
  function MethodOf(m: Option<Member>): (r: Option<Method>)
    ensures r.Some? <==> m.Some? && m.value.MethodMember?
    ensures r.Some? ==> m == Some(MethodMember(r.value))
  {
    match m
    case Some(MethodMember(meth)) => Some(meth)
    case _ => None
  }

  /**
   * The EntityField constructor: getter and setter methods are the getter
   * and setter members when those are methods; the getter comes from
   * ClassUtil.getGetter, whose cache it consults and may extend, and whose
   * failure aborts the construction.
   */
  function NewEntityField(cm: Classes, getters: ClassUtil.GetterCache, entityClass: ClassName, fieldType: ClassName, f: Field)
    : (r: Result<(EntityField, ClassUtil.GetterCache)>)
    ensures r.Success? <==> ClassUtil.GetGetter(cm, getters, entityClass, fieldType, f.name).Success?
    ensures r.Success? ==>
              var ef := r.value.0;
              var gm := ClassUtil.GetterMember(cm, entityClass, f.ftype, f.name);
              var sm := ClassUtil.SetterMember(cm, entityClass, f.ftype, f.name);
              ef.onClass == entityClass && ef.ftype == fieldType && ef.field == f && ef.alias == f.name
              && ef.columnName == ColumnNameOf(f)
              && (ef.getterMethod.Some? <==> gm.Some? && gm.value.MethodMember?)
              && (ef.getterMethod.Some? ==> gm == Some(MethodMember(ef.getterMethod.value)))
              && (ef.setterMethod.Some? <==> sm.Some? && sm.value.MethodMember?)
              && (ef.setterMethod.Some? ==> sm == Some(MethodMember(ef.setterMethod.value)))
              && ef.getter == ClassUtil.GetGetter(cm, getters, entityClass, fieldType, f.name).value.getter
              && r.value.1 == ClassUtil.GetGetter(cm, getters, entityClass, fieldType, f.name).value.cache
    ensures r.Failure? ==> r.error == ClassUtil.GetGetter(cm, getters, entityClass, fieldType, f.name).error
  {
    var getterMethod := MethodOf(ClassUtil.GetterMember(cm, entityClass, f.ftype, f.name));
    var setterMethod := MethodOf(ClassUtil.SetterMember(cm, entityClass, f.ftype, f.name));
    match ClassUtil.GetGetter(cm, getters, entityClass, fieldType, f.name)
    case Failure(e) => Failure(e)
    case Success(l) =>
      Success((EntityField(entityClass, fieldType, f, getterMethod, setterMethod, l.getter, f.name, ColumnNameOf(f)), l.cache))
  }

  // ------------------------------------------------------------ link accessors

  /** isLazyFetch: the link is fetched lazily. */
  predicate IsLazyFetch(l: EntityLink) {
    l.fetch == Lazy
  }

  /** getLinkFromFields: the field of each join's from-side, in join order. */
  function LinkFromFields(l: EntityLink): (r: seq<Field>)
    ensures |r| == |l.joins|
    ensures forall i :: 0 <= i < |r| ==> r[i] == l.joins[i].fromField.field
  {
    seq(|l.joins|, i requires 0 <= i < |l.joins| => l.joins[i].fromField.field)
  }

  /**
   * getLinkToFields as written: it reads each join's from-side, so it
   * returns the from-fields again.
   */
  function LinkToFieldsAsWritten(l: EntityLink): (r: seq<Field>)
    ensures |r| == |l.joins|
  {
    seq(|l.joins|, i requires 0 <= i < |l.joins| => l.joins[i].fromField.field)
  }

  /** getLinkToFields as intended: the field of each join's to-side, in join order. */
  function LinkToFields(l: EntityLink): (r: seq<Field>)
    ensures |r| == |l.joins|
    ensures forall i :: 0 <= i < |r| ==> r[i] == l.joins[i].toField.field
  {
    seq(|l.joins|, i requires 0 <= i < |l.joins| => l.joins[i].toField.field)
  }

  /** The written getLinkToFields always agrees with getLinkFromFields. */
  lemma LinkToFieldsAsWrittenIsFrom(l: EntityLink)
    ensures LinkToFieldsAsWritten(l) == LinkFromFields(l)
  {
  }

  /**
   * A link with one join between differently named columns shows the
   * written getLinkToFields returning the wrong field, where the intended
   * one returns the referenced column.
   */
  lemma LinkToFieldsAsWrittenWrong(from: EntityField, to: EntityField, fetch: FetchType)
    requires from.field != to.field
    ensures var l := EntityLink(from, fetch, [], [EntityJoin(from, to)]);
            LinkToFieldsAsWritten(l) == [from.field] && LinkToFields(l) == [to.field]
            && LinkToFieldsAsWritten(l) != LinkToFields(l)
  {
    var l := EntityLink(from, fetch, [], [EntityJoin(from, to)]);
    assert LinkToFieldsAsWritten(l)[0] == from.field;
    assert LinkToFields(l)[0] == to.field;
  }
}

=== FILE: entity_keys.dfy ===
/**
 * How an entity's key is found: EntityToKey.forClass chooses one of three
 * extractors (a key built from an @IdClass, the value of an id field, the
 * result of an id method), each extractor's getKey, KeyConstructor's
 * choice between a String-setter and a String constructor, and the caches
 * EntityUtil keeps of both (getId, getKeyClass, toKey).
 */
module EntityKeys {
  import opened Wrappers
  import opened ClassModel
  import opened Values
  import opened Hierarchy
  import Members
  import Seqs
  import IdMembers
  import KeyUtil

  // ------------------------------------------------------------ "exactly one"

  /**
   * The one element of `s`, when `s` holds exactly one distinct element: the
   * annotated members are gathered into a HashSet, and forClass asks for an
   * array of length one.
   */
  function SingleOf<T(==)>(s: seq<T>): (r: Option<T>)
    ensures r.Some? ==> r.value in s && forall x :: x in s ==> x == r.value
    ensures r.None? ==> s == [] || exists j :: 0 <= j < |s| && s[j] != s[0]
  {
    if s != [] && forall j :: 0 <= j < |s| ==> s[j] == s[0] then Some(s[0]) else None
  }

  /** SingleOf finds an element exactly when the set of elements has size one. */
  lemma SingleOfIsSingletonSet<T>(s: seq<T>)
    ensures SingleOf(s).Some? <==> |set x | x in s| == 1
  {
    var e := set x | x in s;
    if SingleOf(s).Some? {
      assert e == {s[0]};
    }
    if |e| == 1 {
      var a :| a in e;
      assert e - {a} == {} by {
        assert |e - {a}| == 0;
      }
      forall j | 0 <= j < |s|
        ensures s[j] == a
      {
        assert s[j] in e;
      }
      assert a in s;
    }
  }

  /** A field carrying an annotation of kind `k`, as a test. */
  function FieldTagged(k: TagKind): Field -> bool {
    (f: Field) => HasTag(f.tags, k)
  }

  /** A method carrying an annotation of kind `k`, as a test. */
  function MethodTagged(k: TagKind): Method -> bool {
    (m: Method) => HasTag(m.tags, k)
  }

  /** ClassUtil.getAllAnnotatedFields(cls, k), in getAllFields order. */
  function AnnotatedFields(cm: Classes, c: ClassName, k: TagKind): (r: seq<Field>)
    ensures forall f :: f in r <==> f in Members.AllFields(cm, c) && HasTag(f.tags, k)
  {
    Seqs.Filter(Members.AllFields(cm, c), FieldTagged(k))
  }

  /** ClassUtil.getAllAnnotatedMethods(cls, k), in getAllMethods order. */
  function AnnotatedMethods(cm: Classes, c: ClassName, k: TagKind): (r: seq<Method>)
    ensures forall m :: m in r <==> m in Members.AllMethods(cm, c) && HasTag(m.tags, k)
  {
    Seqs.Filter(Members.AllMethods(cm, c), MethodTagged(k))
  }

  // ------------------------------------------------------------ the three extractors

  /**
   * The extractor state: the id class with each entity @Id field paired
   * with the same-named field of the id class; the id field; the id method.
   */
  datatype Extractor =
    | IdClassKey(idClass: ClassName, pairs: seq<(Field, Field)>)
    | FieldKey(idField: Field)
    | MethodKey(idMethod: Method)

  /**
   * An EntityToKey.  None of the three constructors assigns `entityClass`,
   * so getEntityClass is null for every one of them.
   */
  datatype EntityToKey = EntityToKey(entityClass: Option<ClassName>, extractor: Extractor)

  /** getKeyClass: the id class, the id field's type, or the id method's return type. */
  function KeyClass(etk: EntityToKey): ClassName {
    match etk.extractor
    case IdClassKey(idc, _) => idc
    case FieldKey(f) => f.ftype
    case MethodKey(m) => m.ret
  }

  /** A pair as the EntityIdClassToKey constructor makes it: the id field and the id class's field of that name. */
  predicate PairedWith(cm: Classes, idClass: ClassName, idField: Field, p: (Field, Field)) {
    p.0 == idField && Members.GetField(cm, idClass, idField.name, true) == Success(Some(p.1))
  }

  /**
   * The EntityIdClassToKey constructor's pairing: each entity id field with
   * the id class's field of the same name (ClassUtil.getField, strict), in
   * the order the id fields are given.
   */
  function PairKeyFields(cm: Classes, idClass: ClassName, idFields: seq<Field>): (r: Result<seq<(Field, Field)>>)
    ensures r.Success? ==> |r.value| == |idFields| && forall i :: 0 <= i < |idFields| ==> PairedWith(cm, idClass, idFields[i], r.value[i])
    ensures r.Failure? <==> exists i :: 0 <= i < |idFields| && Members.GetField(cm, idClass, idFields[i].name, true).Failure?
    ensures r.Failure? ==> exists i :: 0 <= i < |idFields| && r.error == UtilityError(idFields[i].name)
  {
    if idFields == [] then Success([])
    else
      match Members.GetField(cm, idClass, idFields[0].name, true)
      case Failure(e) => Failure(e)
      case Success(found) =>
        match PairKeyFields(cm, idClass, idFields[1..])
        case Failure(e) =>
          assert forall i :: 0 <= i < |idFields| - 1 ==> idFields[1..][i] == idFields[i + 1];
          Failure(e)
        case Success(rest) =>
          assert forall i :: 0 < i < |idFields| ==> idFields[i] == idFields[1..][i - 1];
          Success([(idFields[0], found.value)] + rest)
  }

  /**
   * Pairing needs every id field to have a same-named field in the id class
   * (inherited ones included); each pair's key field is such a field.
   */
  lemma PairKeyFieldsMeaning(cm: Classes, idClass: ClassName, idFields: seq<Field>)
    ensures PairKeyFields(cm, idClass, idFields).Success? <==>
              forall i :: 0 <= i < |idFields| ==> exists f :: f in Members.AllFields(cm, idClass) && f.name == idFields[i].name
    ensures PairKeyFields(cm, idClass, idFields).Success? ==>
              forall i :: 0 <= i < |idFields| ==>
                var kf := PairKeyFields(cm, idClass, idFields).value[i].1;
                kf in Members.AllFields(cm, idClass) && kf.name == idFields[i].name
  {
  }

  /** The id-class field written from an entity id field, for every pair. */
  predicate DistinctTargets(ps: seq<(Field, Field)>) {
    forall i, j :: 0 <= i < j < |ps| ==> SlotOf(ps[i].1) != SlotOf(ps[j].1)
  }

  /** No two fields of `fs` share a name. */
  predicate DistinctNames(fs: seq<Field>) {
    forall i, j :: 0 <= i < j < |fs| ==> fs[i].name != fs[j].name
  }

  /** One pair can be copied into a key of class `cls`: the entity field reads, and the key field takes the value. */
  predicate PairCopies(cm: Classes, cls: ClassName, entity: Value, p: (Field, Field)) {
    ReadField(cm, entity, p.0).Success?
    && IsAssignableFrom(cm, p.1.declaring, cls)
    && Fits(cm, p.1.ftype, ReadField(cm, entity, p.0).value)
  }

  /** The value a pair stores in the key: the entity field's value, widened to the key field's type. */
  function Copied(cm: Classes, entity: Value, p: (Field, Field)): Value
    requires ReadField(cm, entity, p.0).Success?
  {
    Widen(p.1.ftype, ReadField(cm, entity, p.0).value)
  }

  /**
   * The loop of EntityIdClassToKey.getKey: keyFields[i].set(key,
   * idFields[i].get(entity)) for each pair in turn.  A null entity is a
   * NullPointerException; any other read or write failure is a UtilityError
   * naming the id field.
   */
  function CopyIdFields(cm: Classes, key: Value, entity: Value, ps: seq<(Field, Field)>): (r: Result<Value>)
    requires key.Obj?
    ensures r.Success? ==> r.value.Obj? && r.value.cls == key.cls
    ensures r.Failure? ==> (r.error == NullPointer <==> entity == Null)
    ensures r.Failure? && entity != Null ==> exists i :: 0 <= i < |ps| && r.error == UtilityError(ps[i].0.name)
    decreases |ps|
  {
    if ps == [] then Success(key)
    else
      match ReadField(cm, entity, ps[0].0)
      case Failure(e) => if e == NullPointer then Failure(NullPointer) else Failure(UtilityError(ps[0].0.name))
      case Success(v) =>
        match WriteField(cm, key, ps[0].1, v)
        case Failure(_) => Failure(UtilityError(ps[0].0.name))
        case Success(key') =>
          var r := CopyIdFields(cm, key', entity, ps[1..]);
          assert r.Failure? && entity != Null ==> exists i :: 0 < i < |ps| && r.error == UtilityError(ps[i].0.name) by {
            if r.Failure? && entity != Null {
              var i :| 0 <= i < |ps[1..]| && r.error == UtilityError(ps[1..][i].0.name);
              assert ps[i + 1] == ps[1..][i];
            }
          }
          r
  }

  /** The key is built exactly when every pair copies. */
  lemma {:induction false} CopyIdFieldsSucceeds(cm: Classes, key: Value, entity: Value, ps: seq<(Field, Field)>)
    requires key.Obj?
    ensures CopyIdFields(cm, key, entity, ps).Success? <==> forall i :: 0 <= i < |ps| ==> PairCopies(cm, key.cls, entity, ps[i])
    decreases |ps|
  {
    if ps != [] {
      var rd := ReadField(cm, entity, ps[0].0);
      if rd.Success? && WriteField(cm, key, ps[0].1, rd.value).Success? {
        var key' := WriteField(cm, key, ps[0].1, rd.value).value;
        CopyIdFieldsSucceeds(cm, key', entity, ps[1..]);
        assert forall i :: 0 < i < |ps| ==> ps[i] == ps[1..][i - 1];
      }
    }
  }

  /** A built key holds, in each slot some pair writes, the value its last such pair copied. */
  lemma {:induction false} CopyIdFieldsWrites(cm: Classes, key: Value, entity: Value, ps: seq<(Field, Field)>, i: nat)
    requires key.Obj? && CopyIdFields(cm, key, entity, ps).Success?
    requires i < |ps| && forall j :: i < j < |ps| ==> SlotOf(ps[j].1) != SlotOf(ps[i].1)
    ensures ReadField(cm, entity, ps[i].0).Success?
    ensures var out := CopyIdFields(cm, key, entity, ps).value.slots;
            SlotOf(ps[i].1) in out && out[SlotOf(ps[i].1)] == Copied(cm, entity, ps[i])
    decreases |ps|
  {
    var v := ReadField(cm, entity, ps[0].0).value;
    var key' := WriteField(cm, key, ps[0].1, v).value;
    CopyIdFieldsSucceeds(cm, key', entity, ps[1..]);
    if i == 0 {
      CopyIdFieldsKeeps(cm, key', entity, ps[1..], SlotOf(ps[0].1));
    } else {
      CopyIdFieldsWrites(cm, key', entity, ps[1..], i - 1);
    }
  }

  /** A slot no pair writes is left as it was, present or absent. */
  lemma {:induction false} CopyIdFieldsKeeps(cm: Classes, key: Value, entity: Value, ps: seq<(Field, Field)>, s: Slot)
    requires key.Obj? && CopyIdFields(cm, key, entity, ps).Success?
    requires forall j :: 0 <= j < |ps| ==> SlotOf(ps[j].1) != s
    ensures var out := CopyIdFields(cm, key, entity, ps).value.slots;
            (s in out <==> s in key.slots) && (s in key.slots ==> out[s] == key.slots[s])
    decreases |ps|
  {
    if ps != [] {
      var v := ReadField(cm, entity, ps[0].0).value;
      var key' := WriteField(cm, key, ps[0].1, v).value;
      assert SlotOf(ps[0].1) != s;
      CopyIdFieldsKeeps(cm, key', entity, ps[1..], s);
    }
  }

  /** The slot a built key holds for `s`: the same in both keys. */
  lemma CopyIdFieldsSlotAgrees(cm: Classes, key: Value, entity: Value, ps: seq<(Field, Field)>, qs: seq<(Field, Field)>, s: Slot)
    requires key.Obj? && CopyIdFields(cm, key, entity, ps).Success? && CopyIdFields(cm, key, entity, qs).Success?
    requires forall p :: p in ps <==> p in qs
    requires DistinctTargets(ps) && DistinctTargets(qs)
    ensures var a := CopyIdFields(cm, key, entity, ps).value.slots;
            var b := CopyIdFields(cm, key, entity, qs).value.slots;
            (s in a <==> s in b) && (s in a ==> a[s] == b[s])
  {
    if i :| 0 <= i < |ps| && SlotOf(ps[i].1) == s {
      assert ps[i] in qs;
      var k :| 0 <= k < |qs| && qs[k] == ps[i];
      CopyIdFieldsWrites(cm, key, entity, ps, i);
      CopyIdFieldsWrites(cm, key, entity, qs, k);
    } else {
      forall k | 0 <= k < |qs|
        ensures SlotOf(qs[k].1) != s
      {
        assert qs[k] in ps;
      }
      CopyIdFieldsKeeps(cm, key, entity, ps, s);
      CopyIdFieldsKeeps(cm, key, entity, qs, s);
    }
  }

  /**
   * The order of the id fields does not matter: two arrangements of the
   * same pairs, writing distinct key fields, both build a key or both fail,
   * and build the same key.  getAllAnnotatedFields gathers the id fields
   * into a HashSet, so the order the source sees is unspecified.
   */
  lemma IdClassKeyOrderFree(cm: Classes, key: Value, entity: Value, ps: seq<(Field, Field)>, qs: seq<(Field, Field)>)
    requires key.Obj?
    requires forall p :: p in ps <==> p in qs
    requires DistinctTargets(ps) && DistinctTargets(qs)
    ensures CopyIdFields(cm, key, entity, ps).Success? <==> CopyIdFields(cm, key, entity, qs).Success?
    ensures CopyIdFields(cm, key, entity, ps).Success? ==> CopyIdFields(cm, key, entity, ps) == CopyIdFields(cm, key, entity, qs)
  {
    CopyIdFieldsSucceeds(cm, key, entity, ps);
    CopyIdFieldsSucceeds(cm, key, entity, qs);
    forall i | 0 <= i < |qs| && CopyIdFields(cm, key, entity, ps).Success?
      ensures PairCopies(cm, key.cls, entity, qs[i])
    {
      assert qs[i] in ps;
      var k :| 0 <= k < |ps| && ps[k] == qs[i];
    }
    forall i | 0 <= i < |ps| && CopyIdFields(cm, key, entity, qs).Success?
      ensures PairCopies(cm, key.cls, entity, ps[i])
    {
      assert ps[i] in qs;
      var k :| 0 <= k < |qs| && qs[k] == ps[i];
    }
    if CopyIdFields(cm, key, entity, ps).Success? {
      var a := CopyIdFields(cm, key, entity, ps).value;
      var b := CopyIdFields(cm, key, entity, qs).value;
      forall s | true
        ensures (s in a.slots <==> s in b.slots) && (s in a.slots ==> a.slots[s] == b.slots[s])
      {
        CopyIdFieldsSlotAgrees(cm, key, entity, ps, qs, s);
      }
      assert a.slots == b.slots;
      assert a == b;
    }
  }

  /** Distinct id-field names pair with distinct key fields. */
  lemma PairKeyFieldsDistinct(cm: Classes, idClass: ClassName, idFields: seq<Field>)
    requires DistinctNames(idFields) && PairKeyFields(cm, idClass, idFields).Success?
    ensures DistinctTargets(PairKeyFields(cm, idClass, idFields).value)
  {
  }

  /** Pairing respects membership: the same id fields give the same pairs, whatever their order. */
  lemma PairKeyFieldsOrderFree(cm: Classes, idClass: ClassName, a: seq<Field>, b: seq<Field>)
    requires forall f :: f in a <==> f in b
    ensures PairKeyFields(cm, idClass, a).Success? <==> PairKeyFields(cm, idClass, b).Success?
    ensures PairKeyFields(cm, idClass, a).Success? ==>
              forall p :: p in PairKeyFields(cm, idClass, a).value <==> p in PairKeyFields(cm, idClass, b).value
  {
    PairFailureCarries(cm, idClass, a, b);
    PairFailureCarries(cm, idClass, b, a);
    if PairKeyFields(cm, idClass, a).Success? && PairKeyFields(cm, idClass, b).Success? {
      PairsIncluded(cm, idClass, a, b);
      PairsIncluded(cm, idClass, b, a);
    }
  }

  /** An id field whose key field is missing makes pairing fail for every list holding it. */
  lemma PairFailureCarries(cm: Classes, idClass: ClassName, a: seq<Field>, b: seq<Field>)
    requires forall f :: f in a ==> f in b
    ensures PairKeyFields(cm, idClass, a).Failure? ==> PairKeyFields(cm, idClass, b).Failure?
  {
    if PairKeyFields(cm, idClass, a).Failure? {
      var i :| 0 <= i < |a| && Members.GetField(cm, idClass, a[i].name, true).Failure?;
      assert a[i] in b;
    }
  }

  /** Every pair made from a list is made from any list holding all its id fields. */
  lemma PairsIncluded(cm: Classes, idClass: ClassName, a: seq<Field>, b: seq<Field>)
    requires forall f :: f in a ==> f in b
    requires PairKeyFields(cm, idClass, a).Success? && PairKeyFields(cm, idClass, b).Success?
    ensures forall p :: p in PairKeyFields(cm, idClass, a).value ==> p in PairKeyFields(cm, idClass, b).value
  {
    PairListsIncluded(cm, idClass, a, b, PairKeyFields(cm, idClass, a).value, PairKeyFields(cm, idClass, b).value);
  }

  /** Lists of pairs for id-field lists, one included in the other, are included likewise. */
  lemma PairListsIncluded(cm: Classes, idClass: ClassName, a: seq<Field>, b: seq<Field>, ra: seq<(Field, Field)>, rb: seq<(Field, Field)>)
    requires forall f :: f in a ==> f in b
    requires |ra| == |a| && forall i :: 0 <= i < |a| ==> PairedWith(cm, idClass, a[i], ra[i])
    requires |rb| == |b| && forall i :: 0 <= i < |b| ==> PairedWith(cm, idClass, b[i], rb[i])
    ensures forall p :: p in ra ==> p in rb
  {
    forall p | p in ra
      ensures p in rb
    {
      var i :| 0 <= i < |ra| && ra[i] == p;
      assert a[i] in b;
      var k :| 0 <= k < |b| && b[k] == a[i];
      SamePair(cm, idClass, a[i], ra[i], rb[k]);
      assert rb[k] in rb;
    }
  }

  /** An id field has only one pair. */
  lemma SamePair(cm: Classes, idClass: ClassName, f: Field, p: (Field, Field), q: (Field, Field))
    requires PairedWith(cm, idClass, f, p) && PairedWith(cm, idClass, f, q)
    ensures p == q
  {
  }

  /**
   * EntityIdClassToKey.getKey: a fresh key from the id class's zero-argument
   * constructor, then each pair copied into it.  The two checked exceptions
   * of newInstance become a UtilityError naming the id class; an exception
   * of the constructor body escapes as it is.
   */
  function IdClassGetKey(cm: Classes, host: Host, idClass: ClassName, ps: seq<(Field, Field)>, entity: Value): (r: Result<Value>)
    ensures !Instantiable(cm, idClass) ==> r == Failure(UtilityError(idClass))
    ensures Instantiable(cm, idClass) && host.initialise(idClass).Failure? ==>
              var e := host.initialise(idClass).error;
              r == Failure(if NewInstanceChecked(e) then UtilityError(idClass) else e)
    ensures r.Success? ==> r.value.Obj? && r.value.cls == idClass
    ensures NewInstance(cm, host, idClass).Success? && r.Failure? ==>
              (r.error == NullPointer <==> entity == Null)
              && (entity != Null ==> exists i :: 0 <= i < |ps| && r.error == UtilityError(ps[i].0.name))
  {
    match NewInstance(cm, host, idClass)
    case Failure(e) => Failure(if NewInstanceChecked(e) then UtilityError(idClass) else e)
    case Success(key) => CopyIdFields(cm, key, entity, ps)
  }

  /**
   * The key built from an entity holds the entity's ids: reading each key
   * field gives the value of its id field (widened to the key field's type),
   * and the key is built exactly when the id class can be instantiated and
   * every pair copies.
   */
  lemma IdClassKeyHoldsIds(cm: Classes, host: Host, idClass: ClassName, ps: seq<(Field, Field)>, entity: Value)
    requires DistinctTargets(ps)
    ensures IdClassGetKey(cm, host, idClass, ps, entity).Success? <==>
              NewInstance(cm, host, idClass).Success? && forall i :: 0 <= i < |ps| ==> PairCopies(cm, idClass, entity, ps[i])
    ensures IdClassGetKey(cm, host, idClass, ps, entity).Success? ==>
              forall i :: 0 <= i < |ps| ==>
                ReadField(cm, entity, ps[i].0).Success?
                && ReadField(cm, IdClassGetKey(cm, host, idClass, ps, entity).value, ps[i].1) == Success(Copied(cm, entity, ps[i]))
  {
    if NewInstance(cm, host, idClass).Success? {
      var key := NewInstance(cm, host, idClass).value;
      CopyIdFieldsSucceeds(cm, key, entity, ps);
    }
    if IdClassGetKey(cm, host, idClass, ps, entity).Success? {
      var key := NewInstance(cm, host, idClass).value;
      var out := IdClassGetKey(cm, host, idClass, ps, entity).value;
      forall i | 0 <= i < |ps|
        ensures ReadField(cm, entity, ps[i].0).Success?
        ensures ReadField(cm, out, ps[i].1) == Success(Copied(cm, entity, ps[i]))
      {
        CopyIdFieldsWrites(cm, key, entity, ps, i);
        assert PairCopies(cm, idClass, entity, ps[i]);
        assert IsInstance(cm, out, ps[i].1.declaring);
      }
    }
  }

  /**
   * getKey of each extractor.  A field or method extractor's error path
   * builds its message from the never-assigned entity class, so every
   * failure there surfaces as a NullPointerException.  An annotated id
   * field came through ClassUtil, which opened it; a field found only by
   * its name "id" came from Class.getDeclaredFields and is read under the
   * access check.
   */
  function GetKey(cm: Classes, host: Host, etk: EntityToKey, entity: Value): (r: Result<Value>)
    ensures etk.extractor.IdClassKey? ==> r == IdClassGetKey(cm, host, etk.extractor.idClass, etk.extractor.pairs, entity)
    ensures !etk.extractor.IdClassKey? && r.Failure? ==> r.error == NullPointer
    ensures etk.extractor.FieldKey? ==>
              var f := etk.extractor.idField;
              (r.Success? <==> entity.Obj? && IsInstance(cm, entity, f.declaring) && (KeyUtil.IdTagged(f.tags) || f.isPublic))
              && (r.Success? ==> r == ReadField(cm, entity, f))
    ensures etk.extractor.MethodKey? ==>
              var m := etk.extractor.idMethod;
              (r.Success? <==> entity != Null && IsInstance(cm, entity, m.declaring) && m.params == [] && host.invoke(m, entity, []).Success?)
              && (r.Success? ==> r == host.invoke(m, entity, []))
  {
    match etk.extractor
    case IdClassKey(idc, ps) => IdClassGetKey(cm, host, idc, ps, entity)
    case FieldKey(f) =>
      (match (if KeyUtil.IdTagged(f.tags) then ReadField(cm, entity, f) else CheckedRead(cm, entity, f))
       case Success(v) => Success(v)
       case Failure(_) => Failure(NullPointer))
    case MethodKey(m) =>
      (match Invoke(cm, host, m, entity, [])
       case Success(v) => Success(v)
       case Failure(_) => Failure(NullPointer))
  }

  // ------------------------------------------------------------ forClass

  /** The id class an @IdClass annotation on the class or an ancestor below Object names. */
  function IdClassOf(cm: Classes, c: ClassName): (r: Result<Option<ClassName>>)
    ensures r.Success? <==> TaggedAlong(cm, c, IdClassKind).Success?
    ensures r.Success? ==> (r.value.Some? <==> TaggedAlong(cm, c, IdClassKind).value.Some?)
    ensures r.Success? && r.value.Some? ==> IdClassTag(r.value.value) in Decl(cm, TaggedAlong(cm, c, IdClassKind).value.value).tags
  {
    match GetAnnotation(cm, c, IdClassKind)
    case Failure(e) => Failure(e)
    case Success(None) => Success(None)
    case Success(Some(t)) => Success(Some(t.idClass))
  }

  /** A resolved extractor and the id-member cache after resolving it. */
  type KeySource = Result<(EntityToKey, MemberCache)>

  /** An extractor with no entity class, which is how every constructor leaves it. */
  function Extract(x: Extractor): EntityToKey {
    EntityToKey(None, x)
  }

  /** The member an extractor reads the key through, if it reads a single one. */
  function ReadsMember(x: Extractor): Option<Member> {
    match x
    case IdClassKey(_, _) => None
    case FieldKey(f) => Some(FieldMember(f))
    case MethodKey(m) => Some(MethodMember(m))
  }

  /**
   * The extractor for the member getIdMember found: a field-read for a
   * field, a method-invoke for a method; no member is a UtilityError naming
   * the entity class.
   */
  function KeyOfMember(c: ClassName, found: MemberLookup): (r: KeySource)
    ensures r.Success? <==> found.Success? && found.value.0.Some?
    ensures found.Success? && found.value.0.None? ==> r == Failure(UtilityError(c))
    ensures r.Success? ==> r.value.1 == found.value.1 && ReadsMember(r.value.0.extractor) == found.value.0
    ensures r.Success? ==> r.value.0.entityClass.None?
  {
    match found
    case Failure(e) => Failure(e)
    case Success(res) =>
      match res.0
      case None => Failure(UtilityError(c))
      case Some(FieldMember(f)) => Success((Extract(FieldKey(f)), res.1))
      case Some(MethodMember(m)) => Success((Extract(MethodKey(m)), res.1))
  }

  /** The last rule of forClass: the member getIdMember finds decides the extractor. */
  function FallbackKey(cm: Classes, cache: MemberCache, c: ClassName): KeySource {
    KeyOfMember(c, IdMembers.GetIdMember(cm, cache, c))
  }

  /**
   * The "exactly one" rules of forClass, in order: one @EmbeddedId field,
   * one @EmbeddedId method, one @Id field, one @Id method (inherited members
   * included).
   */
  function CountedExtractor(cm: Classes, c: ClassName): (r: Option<Extractor>)
    ensures r.Some? ==> !r.value.IdClassKey?
  {
    match SingleOf(AnnotatedFields(cm, c, EmbeddedIdKind))
    case Some(f) => Some(FieldKey(f))
    case None =>
      match SingleOf(AnnotatedMethods(cm, c, EmbeddedIdKind))
      case Some(m) => Some(MethodKey(m))
      case None =>
        match SingleOf(AnnotatedFields(cm, c, IdKind))
        case Some(f) => Some(FieldKey(f))
        case None =>
          match SingleOf(AnnotatedMethods(cm, c, IdKind))
          case Some(m) => Some(MethodKey(m))
          case None => None
  }

  /**
   * The rules of forClass that do not consult getIdMember: an @IdClass
   * along the chain, then the counted rules.  None leaves the choice to the
   * fallback.
   */
  function Decide(cm: Classes, c: ClassName): (r: Result<Option<Extractor>>)
    ensures IdClassOf(cm, c).Failure? ==> r == Failure(IdClassOf(cm, c).error)
    ensures IdClassOf(cm, c) == Success(None) ==> r == Success(CountedExtractor(cm, c))
    ensures r.Success? && r.value.Some? && r.value.value.IdClassKey? ==> IdClassOf(cm, c) == Success(Some(r.value.value.idClass))
  {
    match IdClassOf(cm, c)
    case Failure(e) => Failure(e)
    case Success(Some(idc)) =>
      (match PairKeyFields(cm, idc, AnnotatedFields(cm, c, IdKind))
       case Failure(e) => Failure(e)
       case Success(ps) => Success(Some(IdClassKey(idc, ps))))
    case Success(None) => Success(CountedExtractor(cm, c))
  }

  /**
   * EntityToKey.forClass(entityClass), with the id-member cache the fallback
   * consults threaded through.
   */
  function ForClass(cm: Classes, cache: MemberCache, c: ClassName): (r: KeySource)
    ensures Decide(cm, c).Failure? ==> r.Failure?
    ensures Decide(cm, c).Success? && Decide(cm, c).value.Some? ==> r.Success? && r.value.1 == cache
  {
    match Decide(cm, c)
    case Failure(e) => Failure(e)
    case Success(Some(x)) => Success((Extract(x), cache))
    case Success(None) => FallbackKey(cm, cache, c)
  }

  // ------------------------------------------------------------ forClass properties

  /** The distinct members of a list: the HashSet forClass counts. */
  function Elements<T>(s: seq<T>): set<T> {
    set x | x in s
  }

  /**
   * The decision list of forClass without an @IdClass: the first kind with
   * exactly one distinct member picks it, in the order @EmbeddedId field,
   * @EmbeddedId method, @Id field, @Id method; when none has exactly one the
   * getIdMember fallback decides.  None of the counted rules touches the
   * id-member cache.
   */
  lemma ForClassOrder(cm: Classes, cache: MemberCache, c: ClassName)
    requires IdClassOf(cm, c) == Success(None)
    ensures var ef := Elements(AnnotatedFields(cm, c, EmbeddedIdKind));
            |ef| == 1 ==>
              var r := ForClass(cm, cache, c);
              r.Success? && r.value.1 == cache && r.value.0.extractor.FieldKey? && r.value.0.extractor.idField in ef
    ensures var ef := Elements(AnnotatedFields(cm, c, EmbeddedIdKind));
            var em := Elements(AnnotatedMethods(cm, c, EmbeddedIdKind));
            |ef| != 1 && |em| == 1 ==>
              var r := ForClass(cm, cache, c);
              r.Success? && r.value.1 == cache && r.value.0.extractor.MethodKey? && r.value.0.extractor.idMethod in em
    ensures var ef := Elements(AnnotatedFields(cm, c, EmbeddedIdKind));
            var em := Elements(AnnotatedMethods(cm, c, EmbeddedIdKind));
            var idf := Elements(AnnotatedFields(cm, c, IdKind));
            |ef| != 1 && |em| != 1 && |idf| == 1 ==>
              var r := ForClass(cm, cache, c);
              r.Success? && r.value.1 == cache && r.value.0.extractor.FieldKey? && r.value.0.extractor.idField in idf
    ensures var ef := Elements(AnnotatedFields(cm, c, EmbeddedIdKind));
            var em := Elements(AnnotatedMethods(cm, c, EmbeddedIdKind));
            var idf := Elements(AnnotatedFields(cm, c, IdKind));
            var idm := Elements(AnnotatedMethods(cm, c, IdKind));
            |ef| != 1 && |em| != 1 && |idf| != 1 && |idm| == 1 ==>
              var r := ForClass(cm, cache, c);
              r.Success? && r.value.1 == cache && r.value.0.extractor.MethodKey? && r.value.0.extractor.idMethod in idm
    ensures var ef := Elements(AnnotatedFields(cm, c, EmbeddedIdKind));
            var em := Elements(AnnotatedMethods(cm, c, EmbeddedIdKind));
            var idf := Elements(AnnotatedFields(cm, c, IdKind));
            var idm := Elements(AnnotatedMethods(cm, c, IdKind));
            |ef| != 1 && |em| != 1 && |idf| != 1 && |idm| != 1 ==>
              ForClass(cm, cache, c) == FallbackKey(cm, cache, c)
  {
    SingleOfIsSingletonSet(AnnotatedFields(cm, c, EmbeddedIdKind));
    SingleOfIsSingletonSet(AnnotatedMethods(cm, c, EmbeddedIdKind));
    SingleOfIsSingletonSet(AnnotatedFields(cm, c, IdKind));
    SingleOfIsSingletonSet(AnnotatedMethods(cm, c, IdKind));
  }

  /**
   * An @IdClass on the class or any ancestor below Object selects the paired
   * key whatever @Id and @EmbeddedId members there are: forClass then
   * builds an id-class extractor or fails pairing the id fields.
   */
  lemma IdClassAnywhereWins(cm: Classes, cache: MemberCache, c: ClassName, d: ClassName)
    requires c != OBJECT && Root(cm, c) == OBJECT
    requires d in Supertypes(cm, c) && d != OBJECT && ClassTagged(cm, d, IdClassKind)
    ensures IdClassOf(cm, c).Success? && IdClassOf(cm, c).value.Some?
    ensures var idc := IdClassOf(cm, c).value.value;
            var pairs := PairKeyFields(cm, idc, AnnotatedFields(cm, c, IdKind));
            (ForClass(cm, cache, c).Success? <==> pairs.Success?)
            && (pairs.Success? ==> ForClass(cm, cache, c) == Success((Extract(IdClassKey(idc, pairs.value)), cache)))
            && (pairs.Failure? ==> ForClass(cm, cache, c) == Failure(pairs.error))
  {
    TaggedAlongBelowObject(cm, c, IdClassKind);
  }

  /** A list holding two different members does not hold exactly one distinct member. */
  lemma TwoNotSingle<T>(s: seq<T>, a: T, b: T)
    requires a != b && a in s && b in s
    ensures |Elements(s)| != 1
  {
    assert Elements(s) == {a} + (Elements(s) - {a});
    assert b in Elements(s) - {a};
  }

  /**
   * When some class of the chain declares an @Id or @EmbeddedId field, the
   * fallback over a sound cache extracts through an annotated member.
   */
  lemma FallbackFindsAnnotated(cm: Classes, cache: MemberCache, c: ClassName, f: Field)
    requires Acyclic(cm) && CacheSound(cm, IdMembers.IdRules(cm), cache)
    requires f in Members.AllFields(cm, c) && KeyUtil.IsKeyField(f)
    ensures FallbackKey(cm, cache, c).Success? ==>
              var x := FallbackKey(cm, cache, c).value.0.extractor;
              (x.FieldKey? && KeyUtil.IsKeyField(x.idField)) || (x.MethodKey? && KeyUtil.IsKeyMethod(x.idMethod))
  {
    Members.AllFieldsMember(cm, c, f);
    var d :| d in Supertypes(cm, c) && f in Members.DeclaredFields(cm, d);
    IdMembers.AnnotatedBeatsIdNamed(cm, c, d, f);
    IdMembers.GetIdMemberSound(cm, cache, c);
  }

  /**
   * Two distinct @Id fields and no @IdClass raise nothing: with no
   * @EmbeddedId member and no @Id method, forClass falls through to the
   * getIdMember fallback, and on an acyclic hierarchy with a sound cache
   * that fallback extracts through an annotated member.
   */
  lemma TwoIdFieldsFallThrough(cm: Classes, cache: MemberCache, c: ClassName, f: Field, g: Field)
    requires IdClassOf(cm, c) == Success(None)
    requires AnnotatedFields(cm, c, EmbeddedIdKind) == [] && AnnotatedMethods(cm, c, EmbeddedIdKind) == []
    requires AnnotatedMethods(cm, c, IdKind) == []
    requires f != g && f in AnnotatedFields(cm, c, IdKind) && g in AnnotatedFields(cm, c, IdKind)
    ensures ForClass(cm, cache, c) == FallbackKey(cm, cache, c)
    ensures Acyclic(cm) && CacheSound(cm, IdMembers.IdRules(cm), cache) && ForClass(cm, cache, c).Success? ==>
              var x := ForClass(cm, cache, c).value.0.extractor;
              (x.FieldKey? && KeyUtil.IsKeyField(x.idField)) || (x.MethodKey? && KeyUtil.IsKeyMethod(x.idMethod))
  {
    ForClassOrder(cm, cache, c);
    TwoNotSingle(AnnotatedFields(cm, c, IdKind), f, g);
    assert Elements(AnnotatedFields(cm, c, EmbeddedIdKind)) == {};
    assert Elements(AnnotatedMethods(cm, c, EmbeddedIdKind)) == {};
    assert Elements(AnnotatedMethods(cm, c, IdKind)) == {};
    if Acyclic(cm) && CacheSound(cm, IdMembers.IdRules(cm), cache) {
      FallbackFindsAnnotated(cm, cache, c, f);
    }
  }

  /**
   * No candidate anywhere is an error naming the entity class: with no
   * @IdClass, no @Id or @EmbeddedId member declared along the chain and no
   * field named "id", forClass throws.
   */
  lemma NoKeySourceIsError(cm: Classes, c: ClassName)
    requires Acyclic(cm) && IdClassOf(cm, c) == Success(None)
    requires forall d :: d in Supertypes(cm, c) ==> DeclaresNoKeyMember(cm, d) && IdMembers.IdNamedField(cm, d).None?
    requires forall m :: m in Members.InterfaceMethods(cm, c) ==> !KeyUtil.IsKeyMethod(m)
    ensures ForClass(cm, map[], c) == Failure(UtilityError(c))
  {
    NoKeyMembersCounted(cm, c);
    forall d | d in Supertypes(cm, c)
      ensures IdMembers.DeclaredIdMember(cm, d) == Success(None)
    {
      NoDeclaredIdMember(cm, d);
    }
    assert Decide(cm, c) == Success(None);
    FallbackWithoutIdIsError(cm, c);
  }

  /** A class declaring no annotated member has no own id member. */
  lemma NoDeclaredIdMember(cm: Classes, d: ClassName)
    requires DeclaresNoKeyMember(cm, d)
    ensures IdMembers.DeclaredIdMember(cm, d) == Success(None)
  {
  }

  /** A fallback that finds no member along the chain is an error naming the class. */
  lemma FallbackWithoutIdIsError(cm: Classes, c: ClassName)
    requires Acyclic(cm)
    requires forall d :: d in Supertypes(cm, c) ==> IdMembers.DeclaredIdMember(cm, d) == Success(None) && IdMembers.IdNamedField(cm, d).None?
    ensures FallbackKey(cm, map[], c) == Failure(UtilityError(c))
  {
    IdMembers.AncestorIdFieldWins(cm, c);
    IdMembers.GetIdMemberSound(cm, map[], c);
  }

  /** The class declares no @Id or @EmbeddedId field or method. */
  predicate DeclaresNoKeyMember(cm: Classes, d: ClassName) {
    (forall f :: f in Members.DeclaredFields(cm, d) ==> !KeyUtil.IsKeyField(f))
    && (forall m :: m in Members.DeclaredMethods(cm, d) ==> !KeyUtil.IsKeyMethod(m))
  }

  /** A list is empty exactly when nothing is in it. */
  lemma EmptyWhenNothingIn<T>(s: seq<T>)
    ensures (forall x :: x !in s) <==> s == []
  {
    if s != [] {
      assert s[0] in s;
    }
  }

  /** With no @Id or @EmbeddedId member declared along the chain, no counted rule applies. */
  lemma NoKeyMembersCounted(cm: Classes, c: ClassName)
    requires forall d :: d in Supertypes(cm, c) ==> DeclaresNoKeyMember(cm, d)
    requires forall m :: m in Members.InterfaceMethods(cm, c) ==> !KeyUtil.IsKeyMethod(m)
    ensures CountedExtractor(cm, c).None?
  {
    var h := Supertypes(cm, c);
    forall f | f in Members.AllFields(cm, c)
      ensures !KeyUtil.IsKeyField(f)
    {
      Members.AllFieldsMember(cm, c, f);
      var d :| d in h && f in Members.DeclaredFields(cm, d);
      assert DeclaresNoKeyMember(cm, d);
    }
    forall m | m in Members.AllMethods(cm, c)
      ensures !KeyUtil.IsKeyMethod(m)
    {
      Members.AllMethodsSound(cm, c, m);
      if m !in Members.InterfaceMethods(cm, c) {
        Members.MethodsAlongSound(cm, h, m);
        var i :| 0 <= i < |h| && h[i] != OBJECT && m in Members.DeclaredMethods(cm, h[i]);
        assert DeclaresNoKeyMember(cm, h[i]);
      }
    }
    NothingAnnotatedCounted(cm, c);
  }

  /** With no annotated field or method at all, every counted list is empty. */
  lemma NothingAnnotatedCounted(cm: Classes, c: ClassName)
    requires forall f :: f in Members.AllFields(cm, c) ==> !KeyUtil.IsKeyField(f)
    requires forall m :: m in Members.AllMethods(cm, c) ==> !KeyUtil.IsKeyMethod(m)
    ensures CountedExtractor(cm, c).None?
  {
    EmptyWhenNothingIn(AnnotatedFields(cm, c, EmbeddedIdKind));
    EmptyWhenNothingIn(AnnotatedMethods(cm, c, EmbeddedIdKind));
    EmptyWhenNothingIn(AnnotatedFields(cm, c, IdKind));
    EmptyWhenNothingIn(AnnotatedMethods(cm, c, IdKind));
  }


  /** The key class of a fallback extractor is getIdFieldType's answer. */
  lemma FallbackKeyClassIsIdFieldType(cm: Classes, cache: MemberCache, c: ClassName)
    ensures FallbackKey(cm, cache, c).Success? ==>
              IdMembers.GetIdFieldType(cm, cache, c) == Success((Some(KeyClass(FallbackKey(cm, cache, c).value.0)), FallbackKey(cm, cache, c).value.1))
    ensures FallbackKey(cm, cache, c).Failure? ==>
              IdMembers.GetIdFieldType(cm, cache, c).Failure? || IdMembers.GetIdFieldType(cm, cache, c).value.0.None?
  {
  }

  /**
   * The id-member cache changes nothing forClass decides: over a cache
   * holding only cold resolutions it builds the extractor it would build
   * from an empty cache, and leaves such a cache behind.
   */
  lemma ForClassSound(cm: Classes, cache: MemberCache, c: ClassName)
    requires Acyclic(cm) && CacheSound(cm, IdMembers.IdRules(cm), cache)
    ensures ForClass(cm, cache, c).Success? <==> ForClass(cm, map[], c).Success?
    ensures ForClass(cm, cache, c).Success? ==>
              ForClass(cm, cache, c).value.0 == ForClass(cm, map[], c).value.0
              && CacheSound(cm, IdMembers.IdRules(cm), ForClass(cm, cache, c).value.1)
    ensures ForClass(cm, cache, c).Failure? ==> ForClass(cm, map[], c).error == ForClass(cm, cache, c).error
  {
    match Decide(cm, c)
    case Failure(_) =>
    case Success(Some(_)) =>
    case Success(None) => FallbackKeySound(cm, cache, c);
  }

  /** No extractor forClass builds has its entity class set. */
  lemma ForClassNoEntityClass(cm: Classes, cache: MemberCache, c: ClassName)
    ensures ForClass(cm, cache, c).Success? ==> ForClass(cm, cache, c).value.0.entityClass.None?
  {
    match Decide(cm, c)
    case Failure(_) =>
    case Success(Some(_)) =>
    case Success(None) =>
  }

  /** The fallback over a sound cache agrees with the fallback over an empty one. */
  lemma FallbackKeySound(cm: Classes, cache: MemberCache, c: ClassName)
    requires Acyclic(cm) && CacheSound(cm, IdMembers.IdRules(cm), cache)
    ensures FallbackKey(cm, cache, c).Success? <==> FallbackKey(cm, map[], c).Success?
    ensures FallbackKey(cm, cache, c).Success? ==>
              FallbackKey(cm, cache, c).value.0 == FallbackKey(cm, map[], c).value.0
              && CacheSound(cm, IdMembers.IdRules(cm), FallbackKey(cm, cache, c).value.1)
    ensures FallbackKey(cm, cache, c).Failure? ==> FallbackKey(cm, map[], c).error == FallbackKey(cm, cache, c).error
  {
    var warm := IdMembers.GetIdMember(cm, cache, c);
    var cold := IdMembers.GetIdMember(cm, map[], c);
    IdMembers.GetIdMemberSound(cm, cache, c);
    IdMembers.GetIdMemberSound(cm, map[], c);
    KeyOfMemberAgrees(c, warm, cold);
  }

  /** Two lookups that agree on the member give the same extractor. */
  lemma KeyOfMemberAgrees(c: ClassName, x: MemberLookup, y: MemberLookup)
    requires x.Success? <==> y.Success?
    requires x.Success? ==> x.value.0 == y.value.0
    requires x.Failure? ==> y.error == x.error
    ensures KeyOfMember(c, x).Success? <==> KeyOfMember(c, y).Success?
    ensures KeyOfMember(c, x).Success? ==> KeyOfMember(c, x).value.0 == KeyOfMember(c, y).value.0
    ensures KeyOfMember(c, x).Failure? ==> KeyOfMember(c, y).error == KeyOfMember(c, x).error
  {
  }


  // ------------------------------------------------------------ key constructors

  /** How a key is made from its text: a @KeySetter method on a fresh instance, or a (String) constructor. */
  datatype KeyConstructor = KeyByMethod(cls: ClassName, setter: Method) | KeyByConstructor(cls: ClassName)

  /** A @KeySetter method taking exactly one String. */
  predicate IsKeySetter(m: Method) {
    HasTag(m.tags, KeySetterKind) && |m.params| == 1 && m.params[0] == STRING
  }

  /**
   * KeyConstructor.keyConstructor(cls): the first method the class itself
   * declares that is a key setter, else the public (String) constructor,
   * else a UtilityError naming the class.
   */
  function ChooseKeyConstructor(cm: Classes, cls: ClassName): (r: Result<KeyConstructor>)
    ensures r.Success? && r.value.KeyByMethod? ==>
              r.value.cls == cls && IsKeySetter(r.value.setter)
              && exists j :: 0 <= j < |Decl(cm, cls).methods| && Decl(cm, cls).methods[j] == r.value.setter
                             && forall l :: 0 <= l < j ==> !IsKeySetter(Decl(cm, cls).methods[l])
    ensures r.Success? && r.value.KeyByConstructor? ==>
              r.value.cls == cls && HasCtor(cm, cls, [STRING])
              && forall m :: m in Decl(cm, cls).methods ==> !IsKeySetter(m)
    ensures r.Failure? <==> (forall m :: m in Decl(cm, cls).methods ==> !IsKeySetter(m)) && !HasCtor(cm, cls, [STRING])
    ensures r.Failure? ==> r.error == UtilityError(cls)
  {
    match Seqs.FirstIndex(Decl(cm, cls).methods, IsKeySetter)
    case Some(j) => Success(KeyByMethod(cls, Decl(cm, cls).methods[j]))
    case None =>
      if HasCtor(cm, cls, [STRING]) then Success(KeyByConstructor(cls)) else Failure(UtilityError(cls))
  }

  /**
   * Only the class's own methods are scanned: a key setter inherited from a
   * superclass does not make a method-based constructor.
   */
  lemma InheritedKeySetterIgnored(cm: Classes, cls: ClassName, m: Method)
    requires SuperOf(cm, cls).Some? && m in Decl(cm, SuperOf(cm, cls).value).methods && IsKeySetter(m)
    requires forall own :: own in Decl(cm, cls).methods ==> !IsKeySetter(own)
    ensures ChooseKeyConstructor(cm, cls) == (if HasCtor(cm, cls, [STRING]) then Success(KeyByConstructor(cls)) else Failure(UtilityError(cls)))
  {
  }

  /**
   * getKey of a key constructor.  The key setter's effect and the String
   * constructor's body are code the model cannot see, so they are the
   * parameters `setKey` and `construct`.  Every failure is a UtilityError
   * naming the key class, except an exception the zero-argument constructor
   * body of a method key throws that the catch does not list: that escapes.
   */
  function MakeKey(cm: Classes, host: Host, kc: KeyConstructor, keyStr: string,
                   setKey: (Method, Value, string) -> Result<Value>,
                   construct: (ClassName, string) -> Result<Value>): (r: Result<Value>)
    ensures r.Failure? && !Escapes(cm, host, kc) ==> r.error == UtilityError(kc.cls)
    ensures Escapes(cm, host, kc) ==> r == Failure(host.initialise(kc.cls).error)
    ensures kc.KeyByMethod? ==>
              (r.Success? <==> NewInstance(cm, host, kc.cls).Success?
                               && setKey(kc.setter, NewInstance(cm, host, kc.cls).value, keyStr).Success?)
    ensures kc.KeyByMethod? && r.Success? ==> r == setKey(kc.setter, Obj(kc.cls, host.initialise(kc.cls).value), keyStr)
    ensures kc.KeyByConstructor? ==> (r.Success? <==> construct(kc.cls, keyStr).Success?)
    ensures kc.KeyByConstructor? && r.Success? ==> r == construct(kc.cls, keyStr)
  {
    match kc
    case KeyByMethod(cls, setter) =>
      (match NewInstance(cm, host, cls)
       case Failure(e) => Failure(if MethodKeyCatches(e) then UtilityError(cls) else e)
       case Success(key) =>
         match setKey(setter, key, keyStr)
         case Failure(_) => Failure(UtilityError(cls))
         case Success(k) => Success(k))
    case KeyByConstructor(cls) =>
      match construct(cls, keyStr)
      case Failure(_) => Failure(UtilityError(cls))
      case Success(k) => Success(k)
  }

  /** The exceptions KeyByMethod.getKey catches around newInstance and the setter call. */
  predicate MethodKeyCatches(e: Error) {
    NewInstanceChecked(e) || e == IllegalArgument
  }

  /** A method key whose class's constructor body throws what KeyByMethod.getKey does not catch. */
  predicate Escapes(cm: Classes, host: Host, kc: KeyConstructor) {
    kc.KeyByMethod? && Instantiable(cm, kc.cls) && host.initialise(kc.cls).Failure?
    && !MethodKeyCatches(host.initialise(kc.cls).error)
  }

  /** The key-constructor cache holds, for each class, the constructor chosen for it. */
  predicate ConstructorsSound(cm: Classes, kcs: map<ClassName, KeyConstructor>) {
    forall c :: c in kcs ==> ChooseKeyConstructor(cm, c) == Success(kcs[c])
  }

  /** The result of toKey and the key-constructor cache after it. */
  datatype ToKeyOutcome = ToKeyOutcome(result: Result<Value>, constructors: map<ClassName, KeyConstructor>)

  /**
   * EntityUtil.toKey(keyCls, keyStr): the cached constructor, else the one
   * chosen and cached (before it is used, so it stays cached when making the
   * key fails; a failed choice caches nothing).
   */
  function ToKey(cm: Classes, host: Host, kcs: map<ClassName, KeyConstructor>, keyCls: ClassName, keyStr: string,
                 setKey: (Method, Value, string) -> Result<Value>,
                 construct: (ClassName, string) -> Result<Value>): (r: ToKeyOutcome)
    ensures keyCls in kcs ==> r.constructors == kcs
    ensures keyCls !in kcs && ChooseKeyConstructor(cm, keyCls).Failure? ==>
              r == ToKeyOutcome(Failure(UtilityError(keyCls)), kcs)
    ensures keyCls !in kcs && ChooseKeyConstructor(cm, keyCls).Success? ==>
              r.constructors == kcs[keyCls := ChooseKeyConstructor(cm, keyCls).value]
  {
    if keyCls in kcs then ToKeyOutcome(MakeKey(cm, host, kcs[keyCls], keyStr, setKey, construct), kcs)
    else
      match ChooseKeyConstructor(cm, keyCls)
      case Failure(e) => ToKeyOutcome(Failure(e), kcs)
      case Success(kc) => ToKeyOutcome(MakeKey(cm, host, kc, keyStr, setKey, construct), kcs[keyCls := kc])
  }

  /**
   * The key-constructor cache changes nothing but the work done: over a
   * sound cache toKey gives what it gives with an empty one, and leaves a
   * sound cache behind.
   */
  lemma ToKeySound(cm: Classes, host: Host, kcs: map<ClassName, KeyConstructor>, keyCls: ClassName, keyStr: string,
                   setKey: (Method, Value, string) -> Result<Value>,
                   construct: (ClassName, string) -> Result<Value>)
    requires ConstructorsSound(cm, kcs)
    ensures var warm := ToKey(cm, host, kcs, keyCls, keyStr, setKey, construct);
            warm.result == ToKey(cm, host, map[], keyCls, keyStr, setKey, construct).result
            && ConstructorsSound(cm, warm.constructors)
  {
  }

  // ------------------------------------------------------------ getId and getKeyClass

  /** The interface whose instances report their own id. */
  const ID_INTERFACE: ClassName := "com.k2.Util.Identity.Id"

  /** EntityUtil's caches for keys: keyGenerators and idMembersMap. */
  datatype KeyState = KeyState(generators: map<ClassName, EntityToKey>, idMembers: MemberCache)

  /** The generator forClass builds for `c` from nothing. */
  predicate IsColdGenerator(cm: Classes, c: ClassName, etk: EntityToKey) {
    ForClass(cm, map[], c).Success? && etk == ForClass(cm, map[], c).value.0
  }

  /** Every cached generator is what forClass builds from nothing. */
  predicate GeneratorsSound(cm: Classes, gens: map<ClassName, EntityToKey>) {
    forall c :: c in gens ==> IsColdGenerator(cm, c, gens[c])
  }

  /** Both caches hold only what cold resolutions find. */
  predicate KeyStateSound(cm: Classes, st: KeyState) {
    CacheSound(cm, IdMembers.IdRules(cm), st.idMembers) && GeneratorsSound(cm, st.generators)
  }

  /** The generator for class `c`: the cached one, else forClass's, cached once it is built. */
  function GeneratorFor(cm: Classes, st: KeyState, c: ClassName): (r: Result<(EntityToKey, KeyState)>)
    ensures c in st.generators ==> r == Success((st.generators[c], st))
    ensures c !in st.generators ==> (r.Success? <==> ForClass(cm, st.idMembers, c).Success?)
    ensures c !in st.generators && r.Success? ==>
              var built := ForClass(cm, st.idMembers, c).value;
              r.value == (built.0, KeyState(st.generators[c := built.0], built.1))
  {
    if c in st.generators then Success((st.generators[c], st))
    else
      match ForClass(cm, st.idMembers, c)
      case Failure(e) => Failure(e)
      case Success(built) => Success((built.0, KeyState(st.generators[c := built.0], built.1)))
  }

  /** A sound state gives the generator forClass builds from nothing, and stays sound. */
  lemma GeneratorForSound(cm: Classes, st: KeyState, c: ClassName)
    requires Acyclic(cm) && KeyStateSound(cm, st)
    ensures GeneratorFor(cm, st, c).Success? <==> ForClass(cm, map[], c).Success?
    ensures GeneratorFor(cm, st, c).Success? ==>
              GeneratorFor(cm, st, c).value.0 == ForClass(cm, map[], c).value.0
              && KeyStateSound(cm, GeneratorFor(cm, st, c).value.1)
    ensures GeneratorFor(cm, st, c).Failure? ==> ForClass(cm, map[], c).error == GeneratorFor(cm, st, c).error
  {
    if c !in st.generators {
      ForClassSound(cm, st.idMembers, c);
      if ForClass(cm, st.idMembers, c).Success? {
        var built := ForClass(cm, st.idMembers, c).value;
        assert IsColdGenerator(cm, c, built.0);
        GeneratorsExtend(cm, st.generators, c, built.0);
      }
    } else {
      assert IsColdGenerator(cm, c, st.generators[c]);
    }
  }

  /** Caching a cold generator keeps the generator cache sound. */
  lemma GeneratorsExtend(cm: Classes, gens: map<ClassName, EntityToKey>, c: ClassName, etk: EntityToKey)
    requires GeneratorsSound(cm, gens) && IsColdGenerator(cm, c, etk)
    ensures GeneratorsSound(cm, gens[c := etk])
  {
  }

  /** The outcome of getId: the id (or the failure) and the caches after it. */
  datatype IdOutcome = IdOutcome(result: Result<Value>, state: KeyState)

  /** The `(Serializable)` cast getId applies to a key. */
  function AsSerializable(cm: Classes, v: Value): (r: Result<Value>)
    ensures r.Success? <==> v == Null || IdMembers.IsSerializable(cm, RuntimeClass(v).value)
    ensures r.Success? ==> r.value == v
    ensures r.Failure? ==> r.error == ClassCast
  {
    if v == Null || IdMembers.IsSerializable(cm, RuntimeClass(v).value) then Success(v) else Failure(ClassCast)
  }

  /**
   * EntityUtil.getId(obj): null for null; the object's own getId() (the
   * parameter `ownId`) when its class implements Id; otherwise the key its
   * class's generator extracts, cast to Serializable.  The generator stays
   * cached even when extracting fails.
   */
  function GetId(cm: Classes, host: Host, st: KeyState, obj: Value, ownId: Value -> Result<Value>): (r: IdOutcome)
    ensures obj == Null ==> r == IdOutcome(Success(Null), st)
    ensures obj != Null && IsAssignableFrom(cm, ID_INTERFACE, RuntimeClass(obj).value) ==> r == IdOutcome(ownId(obj), st)
    ensures obj != Null && !IsAssignableFrom(cm, ID_INTERFACE, RuntimeClass(obj).value) ==>
              var g := GeneratorFor(cm, st, RuntimeClass(obj).value);
              (g.Failure? ==> r == IdOutcome(Failure(g.error), st))
              && (g.Success? ==> r.state == g.value.1)
    ensures r.result.Success? && !(obj != Null && IsAssignableFrom(cm, ID_INTERFACE, RuntimeClass(obj).value)) ==>
              r.result.value == Null || IdMembers.IsSerializable(cm, RuntimeClass(r.result.value).value)
  {
    if obj == Null then IdOutcome(Success(Null), st)
    else
      var c := RuntimeClass(obj).value;
      if IsAssignableFrom(cm, ID_INTERFACE, c) then IdOutcome(ownId(obj), st)
      else
        match GeneratorFor(cm, st, c)
        case Failure(e) => IdOutcome(Failure(e), st)
        case Success(g) => IdOutcome(ExtractId(cm, host, g.0, obj), g.1)
  }

  /** The generator's key for the object, cast to Serializable. */
  function ExtractId(cm: Classes, host: Host, etk: EntityToKey, obj: Value): (r: Result<Value>)
    ensures r.Success? ==> r.value == Null || IdMembers.IsSerializable(cm, RuntimeClass(r.value).value)
  {
    match GetKey(cm, host, etk, obj)
    case Failure(e) => Failure(e)
    case Success(key) => AsSerializable(cm, key)
  }

  /**
   * The key generators and id members EntityUtil caches change nothing but
   * the work done: over sound caches getId answers as it would with empty
   * ones, and leaves sound caches behind.
   */
  lemma GetIdSound(cm: Classes, host: Host, st: KeyState, obj: Value, ownId: Value -> Result<Value>)
    requires Acyclic(cm) && KeyStateSound(cm, st)
    ensures GetId(cm, host, st, obj, ownId).result == GetId(cm, host, KeyState(map[], map[]), obj, ownId).result
    ensures KeyStateSound(cm, GetId(cm, host, st, obj, ownId).state)
  {
    if obj != Null && !IsAssignableFrom(cm, ID_INTERFACE, RuntimeClass(obj).value) {
      GetIdSoundByGenerator(cm, host, st, obj, ownId);
    }
  }

  /** GetIdSound for an object whose id comes from its class's generator. */
  lemma GetIdSoundByGenerator(cm: Classes, host: Host, st: KeyState, obj: Value, ownId: Value -> Result<Value>)
    requires Acyclic(cm) && KeyStateSound(cm, st)
    requires obj != Null && !IsAssignableFrom(cm, ID_INTERFACE, RuntimeClass(obj).value)
    ensures GetId(cm, host, st, obj, ownId).result == GetId(cm, host, KeyState(map[], map[]), obj, ownId).result
    ensures KeyStateSound(cm, GetId(cm, host, st, obj, ownId).state)
  {
    var c := RuntimeClass(obj).value;
    var empty := KeyState(map[], map[]);
    GeneratorForSound(cm, st, c);
    GeneratorForSound(cm, empty, c);
    GetIdByGenerator(cm, host, st, obj, ownId);
    GetIdByGenerator(cm, host, empty, obj, ownId);
    if GeneratorFor(cm, st, c).Success? {
      assert GeneratorFor(cm, st, c).value.0 == GeneratorFor(cm, empty, c).value.0;
    } else {
      assert GeneratorFor(cm, empty, c).error == GeneratorFor(cm, st, c).error;
    }
  }

  /** getId of an object that is not an Id: its generator's extraction. */
  lemma GetIdByGenerator(cm: Classes, host: Host, st: KeyState, obj: Value, ownId: Value -> Result<Value>)
    requires obj != Null && !IsAssignableFrom(cm, ID_INTERFACE, RuntimeClass(obj).value)
    ensures var g := GeneratorFor(cm, st, RuntimeClass(obj).value);
            var r := GetId(cm, host, st, obj, ownId);
            (g.Failure? ==> r.result == Failure(g.error) && r.state == st)
            && (g.Success? ==> r.result == ExtractId(cm, host, g.value.0, obj) && r.state == g.value.1)
  {
  }


  /**
   * EntityUtil.getKeyClass(entityClass): the key class of the class's
   * generator, built and cached when missing.
   */
  function GetEntityKeyClass(cm: Classes, st: KeyState, c: ClassName): (r: Result<(ClassName, KeyState)>)
    ensures r.Success? <==> GeneratorFor(cm, st, c).Success?
    ensures r.Success? ==> r.value == (KeyClass(GeneratorFor(cm, st, c).value.0), GeneratorFor(cm, st, c).value.1)
  {
    match GeneratorFor(cm, st, c)
    case Failure(e) => Failure(e)
    case Success(g) => Success((KeyClass(g.0), g.1))
  }

  /**
   * Without @IdClass and counted members, the key class of an entity is the
   * type getIdFieldType reports, over the same id-member cache.
   */
  lemma EntityKeyClassIsIdFieldType(cm: Classes, st: KeyState, c: ClassName)
    requires c !in st.generators && Decide(cm, c) == Success(None)
    ensures GetEntityKeyClass(cm, st, c).Success? ==>
              IdMembers.GetIdFieldType(cm, st.idMembers, c)
                == Success((Some(GetEntityKeyClass(cm, st, c).value.0), GetEntityKeyClass(cm, st, c).value.1.idMembers))
  {
    FallbackKeyClassIsIdFieldType(cm, st.idMembers, c);
  }
}

=== FILE: form_codec.dfy ===
/**
 * application/x-www-form-urlencoded text as java.net.URLEncoder and
 * URLDecoder produce and read it with the UTF-8 charset: letters, digits and
 * `.-*_` stand for themselves, a space becomes `+`, and every other
 * character becomes the `%XY` escapes of its UTF-8 bytes (upper-case hex).
 */
module FormCodec {
  import opened Wrappers

  type Byte = b: int | 0 <= b < 256

  // ---------------------------------------------------------------- UTF-8

  /** The UTF-8 encoding of one Unicode scalar value. */
  function Utf8Char(c: char): (r: seq<Byte>)
    ensures 1 <= |r| <= 4
    ensures (c as int < 0x80) <==> |r| == 1
  {
    var v: int := c as int;
    if v < 0x80 then [v]
    else if v < 0x800 then [0xC0 + v / 64, 0x80 + v % 64]
    else if v < 0x1_0000 then [0xE0 + v / 4096, 0x80 + (v / 64) % 64, 0x80 + v % 64]
    else [0xF0 + v / 262144, 0x80 + (v / 4096) % 64, 0x80 + (v / 64) % 64, 0x80 + v % 64]
  }

  function Utf8Encode(s: string): (r: seq<Byte>)
    ensures s == [] <==> r == []
  {
    if s == [] then [] else Utf8Char(s[0]) + Utf8Encode(s[1..])
  }

  predicate IsCont(b: Byte) {
    0x80 <= b < 0xC0
  }

  predicate IsScalar(v: int) {
    (0 <= v < 0xD800) || (0xE000 <= v < 0x11_0000)
  }

  /**
   * Reads one well-formed UTF-8 sequence from the front of `bs`: the character
   * and the number of bytes it took.  Overlong forms, surrogates, stray
   * continuation bytes and truncated sequences give None.
   */
  function Utf8First(bs: seq<Byte>): (r: Option<(char, nat)>)
    requires bs != []
    ensures r.Some? ==> 1 <= r.value.1 <= |bs|
  {
    var b0: int := bs[0];
    if b0 < 0x80 then Some((b0 as char, 1))
    else if 0xC0 <= b0 < 0xE0 then
      if |bs| < 2 || !IsCont(bs[1]) then None
      else
        var v: int := (b0 - 0xC0) * 64 + (bs[1] as int - 0x80);
        if v < 0x80 then None else Some((v as char, 2))
    else if 0xE0 <= b0 < 0xF0 then
      if |bs| < 3 || !IsCont(bs[1]) || !IsCont(bs[2]) then None
      else
        var v: int := (b0 - 0xE0) * 4096 + (bs[1] as int - 0x80) * 64 + (bs[2] as int - 0x80);
        if v < 0x800 || !IsScalar(v) then None else Some((v as char, 3))
    else if 0xF0 <= b0 < 0xF8 then
      if |bs| < 4 || !IsCont(bs[1]) || !IsCont(bs[2]) || !IsCont(bs[3]) then None
      else
        var v: int := (b0 - 0xF0) * 262144 + (bs[1] as int - 0x80) * 4096 + (bs[2] as int - 0x80) * 64 + (bs[3] as int - 0x80);
        if v < 0x1_0000 || !IsScalar(v) then None else Some((v as char, 4))
    else None
  }

  function Utf8Decode(bs: seq<Byte>): (r: Option<string>)
    decreases |bs|
  {
    if bs == [] then Some([])
    else match Utf8First(bs)
      case None => None
      case Some((c, n)) =>
        match Utf8Decode(bs[n..])
        case None => None
        case Some(rest) => Some([c] + rest)
  }

  lemma Utf8FirstOfChar(c: char, tail: seq<Byte>)
    ensures Utf8First(Utf8Char(c) + tail) == Some((c, |Utf8Char(c)|))
  {
    var v: int := c as int;
    if v < 0x80 {
      assert (Utf8Char(c) + tail)[0] as int == v;
    } else if v < 0x800 {
      Utf8FirstTwo(c, Utf8Char(c) + tail);
    } else if v < 0x1_0000 {
      Utf8FirstThree(c, Utf8Char(c) + tail);
    } else {
      Utf8FirstFour(c, Utf8Char(c) + tail);
    }
  }

  lemma Utf8FirstTwo(c: char, bs: seq<Byte>)
    requires 0x80 <= c as int < 0x800
    requires |bs| >= 2 && bs[..2] == Utf8Char(c)
    ensures Utf8First(bs) == Some((c, 2))
  {
    var v: int := c as int;
    var b0: int, b1: int := bs[0], bs[1];
    assert b0 == 0xC0 + v / 64 && b1 == 0x80 + v % 64 by {
      assert bs[0] == bs[..2][0] && bs[1] == bs[..2][1];
    }
    assert (b0 - 0xC0) * 64 + (b1 - 0x80) == v;
  }

  lemma Utf8FirstThree(c: char, bs: seq<Byte>)
    requires 0x800 <= c as int < 0x1_0000
    requires |bs| >= 3 && bs[..3] == Utf8Char(c)
    ensures Utf8First(bs) == Some((c, 3))
  {
    var v: int := c as int;
    var b0: int, b1: int, b2: int := bs[0], bs[1], bs[2];
    assert b0 == 0xE0 + v / 4096 && b1 == 0x80 + (v / 64) % 64 && b2 == 0x80 + v % 64 by {
      assert bs[0] == bs[..3][0] && bs[1] == bs[..3][1] && bs[2] == bs[..3][2];
    }
    assert (v / 64) == (v / 4096) * 64 + (v / 64) % 64;
    assert (b0 - 0xE0) * 4096 + (b1 - 0x80) * 64 + (b2 - 0x80) == v;
  }

  lemma Utf8FirstFour(c: char, bs: seq<Byte>)
    requires 0x1_0000 <= c as int
    requires |bs| >= 4 && bs[..4] == Utf8Char(c)
    ensures Utf8First(bs) == Some((c, 4))
  {
    var v: int := c as int;
    var b0: int, b1: int, b2: int, b3: int := bs[0], bs[1], bs[2], bs[3];
    assert b0 == 0xF0 + v / 262144 && b1 == 0x80 + (v / 4096) % 64
        && b2 == 0x80 + (v / 64) % 64 && b3 == 0x80 + v % 64 by {
      assert bs[0] == bs[..4][0] && bs[1] == bs[..4][1] && bs[2] == bs[..4][2] && bs[3] == bs[..4][3];
    }
    assert (v / 4096) == (v / 262144) * 64 + (v / 4096) % 64;
    assert (v / 64) == (v / 4096) * 64 + (v / 64) % 64;
    assert (b0 - 0xF0) * 262144 + (b1 - 0x80) * 4096 + (b2 - 0x80) * 64 + (b3 - 0x80) == v;
  }

  lemma Utf8EncodeAppend(a: string, b: string)
    ensures Utf8Encode(a + b) == Utf8Encode(a) + Utf8Encode(b)
  {
    if a != [] {
      assert (a + b)[0] == a[0];
      assert (a + b)[1..] == a[1..] + b;
      Utf8EncodeAppend(a[1..], b);
    } else {
      assert a + b == b;
    }
  }

  /** UTF-8 decoding inverts UTF-8 encoding. */
  lemma {:induction false} Utf8RoundTrip(s: string)
    ensures Utf8Decode(Utf8Encode(s)) == Some(s)
  {
    if s != [] {
      var e := Utf8Char(s[0]);
      var bs := Utf8Encode(s);
      assert bs == e + Utf8Encode(s[1..]);
      Utf8FirstOfChar(s[0], Utf8Encode(s[1..]));
      assert bs[|e|..] == Utf8Encode(s[1..]);
      Utf8RoundTrip(s[1..]);
      assert [s[0]] + s[1..] == s;
    }
  }

  // ---------------------------------------------------------------- escapes

  /** The characters URLEncoder leaves as they are (a space is handled apart). */
  predicate Unreserved(c: char) {
    'a' <= c <= 'z' || 'A' <= c <= 'Z' || '0' <= c <= '9' || c == '.' || c == '-' || c == '*' || c == '_'
  }

  function HexDigit(d: int): (r: char)
    requires 0 <= d < 16
    ensures '0' <= r <= '9' || 'A' <= r <= 'F'
  {
    if d < 10 then ('0' as int + d) as char else ('A' as int + d - 10) as char
  }

  /** The value of a hexadecimal digit of either case. */
  function HexValue(c: char): (r: Option<int>)
    ensures r.Some? ==> 0 <= r.value < 16
  {
    if '0' <= c <= '9' then Some(c as int - '0' as int)
    else if 'A' <= c <= 'F' then Some(c as int - 'A' as int + 10)
    else if 'a' <= c <= 'f' then Some(c as int - 'a' as int + 10)
    else None
  }

  lemma HexValueOfDigit(d: int)
    requires 0 <= d < 16
    ensures HexValue(HexDigit(d)) == Some(d)
  {
  }

  function Escape(b: Byte): (r: string)
    ensures |r| == 3 && r[0] == '%'
  {
    ['%', HexDigit(b / 16), HexDigit(b % 16)]
  }

  function EscapeAll(bs: seq<Byte>): (r: string)
    ensures |r| == 3 * |bs|
  {
    if bs == [] then [] else Escape(bs[0]) + EscapeAll(bs[1..])
  }

  /** URLEncoder.encode(s, "UTF-8"). */
  function Encode(s: string): (r: string)
    ensures s == [] <==> r == []
    ensures |r| >= |s|
  {
    if s == [] then []
    else
      var c := s[0];
      var head := if Unreserved(c) then [c] else if c == ' ' then "+" else EscapeAll(Utf8Char(c));
      head + Encode(s[1..])
  }

  /** Every character of an encoding is unreserved, `+`, `%` or a hex digit. */
  predicate EncodedAlphabet(c: char) {
    Unreserved(c) || c == '+' || c == '%'
  }

  lemma {:induction false} EncodeAlphabet(s: string)
    ensures forall i :: 0 <= i < |Encode(s)| ==> EncodedAlphabet(Encode(s)[i])
  {
    if s != [] {
      EscapeAllAlphabet(Utf8Char(s[0]));
      EncodeAlphabet(s[1..]);
    }
  }

  lemma {:induction false} EscapeAllAlphabet(bs: seq<Byte>)
    ensures forall i :: 0 <= i < |EscapeAll(bs)| ==> EncodedAlphabet(EscapeAll(bs)[i])
  {
    if bs != [] {
      EscapeAllAlphabet(bs[1..]);
    }
  }

  /** In particular an encoding never holds a colon, the key-part separator. */
  lemma EncodeHasNoColon(s: string)
    ensures ':' !in Encode(s)
  {
    EncodeAlphabet(s);
  }

  // ---------------------------------------------------------------- decoding

  /**
   * URLDecoder.decode(t, "UTF-8"), with `pending` the bytes of the run of
   * `%XY` escapes read so far; the run is turned into characters when it
   * ends.  A `%` without two hex digits after it is an
   * IllegalArgumentException.
   */
  function DecodeFrom(t: string, pending: seq<Byte>): (r: Result<string>)
    decreases |t|
  {
    if t == [] then Flush(pending)
    else if t[0] == '%' then
      if |t| < 3 then Failure(IllegalArgument)
      else match (HexValue(t[1]), HexValue(t[2]))
        case (Some(hi), Some(lo)) => DecodeFrom(t[3..], pending + [hi * 16 + lo])
        case _ => Failure(IllegalArgument)
    else
      match Flush(pending)
      case Failure(e) => Failure(e)
      case Success(prefix) =>
        match DecodeFrom(t[1..], [])
        case Failure(e) => Failure(e)
        case Success(rest) => Success(prefix + [if t[0] == '+' then ' ' else t[0]] + rest)
  }

  function Flush(pending: seq<Byte>): (r: Result<string>)
    ensures pending == [] ==> r == Success([])
  {
    match Utf8Decode(pending)
    case None => Failure(IllegalArgument)
    case Some(s) => Success(s)
  }

  function Decode(t: string): (r: Result<string>)
  {
    DecodeFrom(t, [])
  }

  lemma {:induction false} DecodeEscapes(bs: seq<Byte>, t: string, pending: seq<Byte>)
    ensures DecodeFrom(EscapeAll(bs) + t, pending) == DecodeFrom(t, pending + bs)
  {
    if bs == [] {
      assert EscapeAll(bs) + t == t;
      assert pending + bs == pending;
    } else {
      var b := bs[0];
      assert EscapeAll(bs) + t == Escape(b) + (EscapeAll(bs[1..]) + t);
      DecodeEscape(b, EscapeAll(bs[1..]) + t, pending);
      DecodeEscapes(bs[1..], t, pending + [b]);
      assert pending + [b] + bs[1..] == pending + bs;
    }
  }

  /** One escape adds its byte to the pending run. */
  lemma DecodeEscape(b: Byte, rest: string, pending: seq<Byte>)
    ensures DecodeFrom(Escape(b) + rest, pending) == DecodeFrom(rest, pending + [b])
  {
    var u := Escape(b) + rest;
    assert u[0] == '%' && u[1] == HexDigit(b / 16) && u[2] == HexDigit(b % 16);
    HexValueOfDigit(b / 16);
    HexValueOfDigit(b % 16);
    assert (b / 16) * 16 + b % 16 == b;
    assert u[3..] == rest;
  }

  lemma {:induction false} DecodeEncodeFrom(s: string, p: string)
    ensures DecodeFrom(Encode(s), Utf8Encode(p)) == Success(p + s)
  {
    Utf8RoundTrip(p);
    if s == [] {
      assert p + s == p;
    } else {
      var c := s[0];
      if Unreserved(c) || c == ' ' {
        var h := if c == ' ' then '+' else c;
        assert Encode(s) == [h] + Encode(s[1..]);
        DecodeEncodeFrom(s[1..], []);
        assert Utf8Encode([]) == [];
        assert [] + s[1..] == s[1..];
        DecodePlain(h, Encode(s[1..]), Utf8Encode(p));
        AppendHead(p, s);
      } else {
        assert Encode(s) == EscapeAll(Utf8Char(c)) + Encode(s[1..]);
        DecodeEscapes(Utf8Char(c), Encode(s[1..]), Utf8Encode(p));
        Utf8EncodeAppend(p, [c]);
        assert Utf8Encode([c]) == Utf8Char(c) by {
          assert [c][1..] == [];
        }
        DecodeEncodeFrom(s[1..], p + [c]);
        AppendHead(p, s);
      }
    }
  }

  lemma AppendHead(p: string, s: string)
    requires s != []
    ensures p + [s[0]] + s[1..] == p + s
  {
    assert [s[0]] + s[1..] == s;
  }

  /** A character other than '%' flushes the pending bytes and stands for itself ('+' for a space). */
  lemma DecodePlain(h: char, rest: string, pending: seq<Byte>)
    requires h != '%'
    ensures DecodeFrom([h] + rest, pending) ==
      match Flush(pending)
      case Failure(e) => Failure(e)
      case Success(prefix) =>
        match DecodeFrom(rest, [])
        case Failure(e) => Failure(e)
        case Success(q) => Success(prefix + [if h == '+' then ' ' else h] + q)
  {
    assert ([h] + rest)[0] == h;
    assert ([h] + rest)[1..] == rest;
  }

  /** Decoding inverts encoding, for every string. */
  lemma DecodeEncode(s: string)
    ensures Decode(Encode(s)) == Success(s)
  {
    DecodeEncodeFrom(s, []);
    assert Utf8Encode([]) == [];
    assert [] + s == s;
  }

  /** A string of letters, digits and `.-*_` encodes to itself. */
  lemma {:induction false} EncodeUnreserved(s: string)
    requires forall i :: 0 <= i < |s| ==> Unreserved(s[i])
    ensures Encode(s) == s
  {
    if s != [] {
      EncodeUnreserved(s[1..]);
    }
  }
}

=== FILE: getters.dfy ===
/**
 * MethodGetter and FieldGetter: a getter reads one value from objects of a
 * given class, either by calling a no-argument method or by reading a field.
 * Their constructors check assignability in the opposite direction from the
 * lookup ClassUtil.getGetterMember performs.
 */
module Getters {
  import opened Wrappers
  import opened Text
  import opened ClassModel
  import opened Values
  import StringUtil

  /** Getter.Type. */
  datatype GetterKind = MethodKind | FieldKind

  /** A getter and the class of the objects it is used through (its `objectClass`). */
  datatype Getter =
    | MethodGetter(meth: Method, objectClass: ClassName)
    | FieldGetter(fld: Field, objectClass: ClassName)
  {
    /** getJavaType: the method's return type or the field's type. */
    function JavaType(): ClassName {
      match this
      case MethodGetter(m, _) => m.ret
      case FieldGetter(f, _) => f.ftype
    }

    /** getType. */
    function Kind(): (r: GetterKind)
      ensures r == MethodKind <==> MethodGetter?
    {
      if MethodGetter? then MethodKind else FieldKind
    }

    /** getDeclaringClass: the class that declares the underlying member. */
    function DeclaringClass(): ClassName {
      match this
      case MethodGetter(m, _) => m.declaring
      case FieldGetter(f, _) => f.declaring
    }
  }

  /**
   * new MethodGetter(objectClass, returnType, method): the method's return
   * type must be assignable FROM the requested type, and the declaring class
   * from the object class; either failure is a UtilityError.
   */
  function NewMethodGetter(cm: Classes, objectClass: ClassName, returnType: ClassName, m: Method): (r: Result<Getter>)
    ensures r.Success? <==> IsAssignableFrom(cm, m.ret, returnType) && IsAssignableFrom(cm, m.declaring, objectClass)
    ensures r.Success? ==> r.value.MethodGetter? && r.value.meth == m && r.value.objectClass == objectClass
    ensures r.Failure? ==> r.error == UtilityError(m.declaring)
  {
    if !IsAssignableFrom(cm, m.ret, returnType) then Failure(UtilityError(m.declaring))
    else if !IsAssignableFrom(cm, m.declaring, objectClass) then Failure(UtilityError(m.declaring))
    else Success(MethodGetter(m, objectClass))
  }

  /**
   * new FieldGetter(objectClass, fieldClass, field): the field's type must be
   * assignable FROM the requested class, and its declaring class from the
   * object class; either failure is a UtilityError.
   */
  function NewFieldGetter(cm: Classes, objectClass: ClassName, fieldClass: ClassName, f: Field): (r: Result<Getter>)
    ensures r.Success? <==> IsAssignableFrom(cm, f.ftype, fieldClass) && IsAssignableFrom(cm, f.declaring, objectClass)
    ensures r.Success? ==> r.value.FieldGetter? && r.value.fld == f && r.value.objectClass == objectClass
    ensures r.Failure? ==> r.error == UtilityError(f.declaring)
  {
    if !IsAssignableFrom(cm, f.ftype, fieldClass) then Failure(UtilityError(f.declaring))
    else if !IsAssignableFrom(cm, f.declaring, objectClass) then Failure(UtilityError(f.declaring))
    else Success(FieldGetter(f, objectClass))
  }

  /** A constructed getter supplies exactly what was asked for, through a subclass of the declaring class. */
  lemma ConstructedGetterFits(cm: Classes, objectClass: ClassName, t: ClassName, g: Getter)
    requires (g.MethodGetter? && NewMethodGetter(cm, objectClass, t, g.meth) == Success(g))
          || (g.FieldGetter? && NewFieldGetter(cm, objectClass, t, g.fld) == Success(g))
    ensures IsAssignableFrom(cm, g.JavaType(), t)
    ensures IsAssignableFrom(cm, g.DeclaringClass(), objectClass)
    ensures g.objectClass == objectClass
  {
  }

  /**
   * getAlias: the field name, or the method name minus its first three
   * characters with the initial lower-cased, whatever those characters were
   * (substring(3) of a shorter name is an IndexOutOfBounds).
   */
  function Alias(g: Getter): (r: Result<string>)
    ensures g.FieldGetter? ==> r == Success(g.fld.name)
    ensures g.MethodGetter? && |g.meth.name| < 3 ==> r == Failure(IndexOutOfBounds)
    ensures g.MethodGetter? && |g.meth.name| >= 3 ==> r.Success? && |r.value| == |g.meth.name| - 3
    ensures g.MethodGetter? && |g.meth.name| > 3 ==> r.Success? && r.value[0] == Lower(g.meth.name[3]) && r.value[1..] == g.meth.name[4..]
  {
    match g
    case FieldGetter(f, _) => Success(f.name)
    case MethodGetter(m, _) =>
      if |m.name| < 3 then Failure(IndexOutOfBounds)
      else Success(StringUtil.InitialLowerCase(m.name[3..]))
  }

  /**
   * A method getter for `"get" + initialUpperCase(alias)` reports
   * initialLowerCase(alias): the alias it was found under only when that
   * alias does not start with an upper-case letter.
   */
  lemma MethodGetterAlias(m: Method, through: ClassName, alias: string)
    requires m.name == "get" + StringUtil.InitialUpperCase(alias)
    ensures Alias(MethodGetter(m, through)) == Success(StringUtil.InitialLowerCase(alias))
  {
    assert m.name[3..] == StringUtil.InitialUpperCase(alias);
    StringUtil.InitialCaseAbsorbs(alias);
  }

  /**
   * equals: both getters of the same kind, over the same method or field,
   * used through classes of the same name.
   */
  predicate Equal(a: Getter, b: Getter) {
    match (a, b)
    case (MethodGetter(m1, c1), MethodGetter(m2, c2)) => m1 == m2 && c1 == c2
    case (FieldGetter(f1, c1), FieldGetter(f2, c2)) => f1 == f2 && c1 == c2
    case _ => false
  }

  /** Getter equality is equality of the (member, object class) pair: it is reflexive, symmetric and transitive. */
  lemma EqualIsIdentity(a: Getter, b: Getter)
    ensures Equal(a, b) <==> a == b
  {
  }

  /**
   * get(object): reads the field or calls the method with no arguments.  A
   * null object is a NullPointerException, which the getter does not catch;
   * every other failure, including one raised by the method body, becomes a
   * UtilityError naming the declaring class.
   */
  function Get(cm: Classes, host: Host, g: Getter, target: Value): (r: Result<Value>)
    ensures target == Null ==> r == Failure(NullPointer)
    ensures target != Null && r.Failure? ==> r.error == UtilityError(g.DeclaringClass())
    ensures g.FieldGetter? && target != Null ==> (r.Success? <==> ReadField(cm, target, g.fld).Success?)
    ensures g.FieldGetter? && r.Success? ==> Success(r.value) == ReadField(cm, target, g.fld)
    ensures g.MethodGetter? && target != Null ==> (r.Success? <==> Invoke(cm, host, g.meth, target, []).Success?)
    ensures g.MethodGetter? && r.Success? ==> Success(r.value) == host.invoke(g.meth, target, [])
  {
    if target == Null then Failure(NullPointer)
    else
      match g
      case FieldGetter(f, _) =>
        (match ReadField(cm, target, f)
         case Success(v) => Success(v)
         case Failure(_) => Failure(UtilityError(f.declaring)))
      case MethodGetter(m, _) =>
        (match Invoke(cm, host, m, target, [])
         case Success(v) => Success(v)
         case Failure(_) => Failure(UtilityError(m.declaring)))
  }

  /** A field getter used on an instance of the field's declaring class reads the field's slot or its default. */
  lemma FieldGetterReads(cm: Classes, host: Host, f: Field, through: ClassName, target: Value)
    requires target.Obj? && IsInstance(cm, target, f.declaring)
    ensures SlotOf(f) in target.slots ==> Get(cm, host, FieldGetter(f, through), target) == Success(target.slots[SlotOf(f)])
    ensures SlotOf(f) !in target.slots ==> Get(cm, host, FieldGetter(f, through), target) == Success(DefaultValue(f.ftype))
  {
  }
}

=== FILE: hierarchy.dfy ===
/**
 * The superclass chain as the library walks it: ClassUtil.getAnnotation,
 * which looks for an annotation on a class or an ancestor below Object, and
 * the cached member walk that EntityUtil.getIdMember and
 * IdentityUtil.getIdentityMember share: a cached member; else the class's
 * own member; else the superclass's answer; else the class's fallback
 * member.  Found members are cached for the class, except those the
 * superclass supplies.
 *
 * A class with no superclass in the model (Object, an interface, or a class
 * the model does not declare) hands null to the next step of a walk that
 * expects one; a cyclic chain, which Java cannot build, recurses for ever.
 */
module Hierarchy {
  import opened Wrappers
  import opened ClassModel
  import Seqs

  /** `h` lists a class and its superclasses in order, as getSupertypes does. */
  predicate IsChain(cm: Classes, h: seq<ClassName>) {
    |h| >= 1
    && (forall j :: 0 <= j < |h| - 1 ==> SuperOf(cm, h[j]) == Some(h[j + 1]))
    && (SuperOf(cm, h[|h| - 1]).None? || SuperOf(cm, h[|h| - 1]).value in h)
  }

  lemma SupertypesIsChain(cm: Classes, c: ClassName)
    ensures IsChain(cm, Supertypes(cm, c))
  {
  }

  // ------------------------------------------------------------ annotations along the chain

  /** The class carries an annotation of kind `k`. */
  predicate ClassTagged(cm: Classes, c: ClassName, k: TagKind) {
    HasTag(Decl(cm, c).tags, k)
  }

  /**
   * The walk from position `i` of the chain: a class carrying the annotation
   * ends it; otherwise it moves to the superclass unless that is Object.
   * Running off a class with no superclass is a NullPointerException (the
   * recursive call receives null); running off the end of a cyclic chain
   * never ends.
   */
  function TaggedFrom(cm: Classes, h: seq<ClassName>, k: TagKind, i: nat): (r: Result<Option<ClassName>>)
    requires IsChain(cm, h) && i < |h|
    ensures r.Success? && r.value.Some? ==>
              exists j :: i <= j < |h| && h[j] == r.value.value && ClassTagged(cm, h[j], k)
                          && forall l :: i <= l < j ==> !ClassTagged(cm, h[l], k) && SuperOf(cm, h[l]) != Some(OBJECT)
    ensures r == Success(None) ==>
              exists j :: i <= j < |h| && SuperOf(cm, h[j]) == Some(OBJECT)
                          && forall l :: i <= l <= j ==> !ClassTagged(cm, h[l], k)
    ensures r.Failure? <==> forall l :: i <= l < |h| ==> !ClassTagged(cm, h[l], k) && SuperOf(cm, h[l]) != Some(OBJECT)
    ensures r.Failure? ==> r.error == NullPointer || r.error == StackOverflow
    decreases |h| - i
  {
    if ClassTagged(cm, h[i], k) then Success(Some(h[i]))
    else
      match SuperOf(cm, h[i])
      case None =>
        ChainEndsWithoutSuper(cm, h, i);
        Failure(NullPointer)
      case Some(s) =>
        if s == OBJECT then Success(None)
        else if i + 1 < |h| then TaggedFrom(cm, h, k, i + 1)
        else Failure(StackOverflow)
  }

  /** Only the last class of a chain may lack a superclass. */
  lemma ChainEndsWithoutSuper(cm: Classes, h: seq<ClassName>, i: nat)
    requires IsChain(cm, h) && i < |h|
    ensures SuperOf(cm, h[i]).None? ==> i == |h| - 1
  {
    if i < |h| - 1 {
      assert SuperOf(cm, h[i]) == Some(h[i + 1]);
    }
  }

  /** The class of the chain from `c` whose annotation of kind `k` the walk finds, if any. */
  function TaggedAlong(cm: Classes, c: ClassName, k: TagKind): (r: Result<Option<ClassName>>)
    ensures r.Success? && r.value.Some? ==> r.value.value in Supertypes(cm, c) && ClassTagged(cm, r.value.value, k)
  {
    SupertypesIsChain(cm, c);
    TaggedFrom(cm, Supertypes(cm, c), k, 0)
  }

  /**
   * ClassUtil.getAnnotation(cls, type): the annotation on the class, else on
   * its superclass, stopping below Object.
   */
  function GetAnnotation(cm: Classes, c: ClassName, k: TagKind): (r: Result<Option<Tag>>)
    ensures r.Success? <==> TaggedAlong(cm, c, k).Success?
    ensures r.Success? ==> (r.value.Some? <==> TaggedAlong(cm, c, k).value.Some?)
    ensures r.Success? && r.value.Some? ==>
              r.value.value.Kind() == k && r.value.value in Decl(cm, TaggedAlong(cm, c, k).value.value).tags
  {
    match TaggedAlong(cm, c, k)
    case Failure(e) => Failure(e)
    case Success(None) => Success(None)
    case Success(Some(d)) => Success(TagOf(Decl(cm, d).tags, k))
  }

  /**
   * On a chain that ends at Object, the walk from a position below Object
   * finishes, and finds an annotation exactly when a class from there up to
   * (not including) Object carries one.
   */
  lemma {:induction false} TaggedFromBelowObject(cm: Classes, h: seq<ClassName>, k: TagKind, i: nat)
    requires IsChain(cm, h) && |h| >= 2 && h[|h| - 1] == OBJECT && i < |h| - 1
    requires forall j :: 0 <= j < |h| - 1 ==> h[j] != OBJECT
    ensures TaggedFrom(cm, h, k, i).Success?
    ensures TaggedFrom(cm, h, k, i).value.Some? <==> exists l :: i <= l < |h| - 1 && ClassTagged(cm, h[l], k)
    decreases |h| - i
  {
    if ClassTagged(cm, h[i], k) {
      assert TaggedFrom(cm, h, k, i) == Success(Some(h[i]));
    } else {
      assert SuperOf(cm, h[i]) == Some(h[i + 1]);
      if i + 1 < |h| - 1 {
        assert h[i + 1] != OBJECT;
        assert TaggedFrom(cm, h, k, i) == TaggedFrom(cm, h, k, i + 1);
        TaggedFromBelowObject(cm, h, k, i + 1);
        assert forall l :: i <= l < |h| - 1 && ClassTagged(cm, h[l], k) ==> i + 1 <= l;
      } else {
        assert TaggedFrom(cm, h, k, i) == Success(None);
        assert i == |h| - 2;
      }
    }
  }

  /**
   * In a hierarchy that ends at Object, the walk from a class other than
   * Object always finishes, and finds an annotation exactly when some class
   * of the chain below Object carries one.
   */
  lemma TaggedAlongBelowObject(cm: Classes, c: ClassName, k: TagKind)
    requires c != OBJECT && Root(cm, c) == OBJECT
    ensures TaggedAlong(cm, c, k).Success?
    ensures TaggedAlong(cm, c, k).value.Some? <==>
              exists d :: d in Supertypes(cm, c) && d != OBJECT && ClassTagged(cm, d, k)
  {
    var h := Supertypes(cm, c);
    var n := |h|;
    SupertypesIsChain(cm, c);
    assert h[n - 1] == OBJECT;
    assert n >= 2;
    TaggedFromBelowObject(cm, h, k, 0);
    assert TaggedAlong(cm, c, k) == TaggedFrom(cm, h, k, 0);
    forall d | d in h && d != OBJECT && ClassTagged(cm, d, k)
      ensures exists l :: 0 <= l < n - 1 && ClassTagged(cm, h[l], k)
    {
      var l :| 0 <= l < n && h[l] == d;
      assert ClassTagged(cm, h[l], k);
    }
    forall l | 0 <= l < n - 1 && ClassTagged(cm, h[l], k)
      ensures h[l] in h && h[l] != OBJECT
    {
    }
  }

  // ------------------------------------------------------------ chain facts

  /** Raising the `seen` set of a chain walk by classes the walk never meets changes nothing. */
  lemma {:induction false} ChainSeenIrrelevant(cm: Classes, s: ClassName, a: set<ClassName>, b: set<ClassName>)
    requires a <= b
    requires forall x :: x in b && x !in a ==> x !in Chain(cm, s, a)
    ensures Chain(cm, s, b) == Chain(cm, s, a)
    decreases cm.Keys - a
  {
    if s !in a {
      assert Chain(cm, s, a)[0] == s;
      match SuperOf(cm, s)
      case None =>
      case Some(t) =>
        assert s in cm;
        var ra := Chain(cm, t, a + {s});
        assert Chain(cm, s, a) == [s] + ra;
        forall x | x in b + {s} && x !in a + {s}
          ensures x !in ra
        {
          assert x !in Chain(cm, s, a);
        }
        ChainSeenIrrelevant(cm, t, a + {s}, b + {s});
    }
  }

  /** In an acyclic hierarchy a class never occurs in its superclass's chain. */
  lemma ClassNotInSuperChain(cm: Classes, c: ClassName)
    requires Acyclic(cm) && SuperOf(cm, c).Some?
    ensures c !in Chain(cm, SuperOf(cm, c).value, {})
  {
    var s := SuperOf(cm, c).value;
    var r := Supertypes(cm, s);
    forall p | 0 <= p < |r|
      ensures r[p] != c
    {
      if p < |r| - 1 {
        assert SuperOf(cm, r[p]) == Some(r[p + 1]);
        assert r[p + 1] != r[0];
      } else if s in cm {
        assert SuperOf(cm, Root(cm, s)).None?;
      } else {
        assert SuperOf(cm, s).None?;
      }
    }
  }

  /** In an acyclic hierarchy a class's chain is the class followed by its superclass's chain. */
  lemma SupertypesStep(cm: Classes, c: ClassName)
    requires Acyclic(cm) && SuperOf(cm, c).Some?
    ensures Supertypes(cm, c) == [c] + Supertypes(cm, SuperOf(cm, c).value)
  {
    var s := SuperOf(cm, c).value;
    assert c in cm;
    ClassNotInSuperChain(cm, c);
    var seen: set<ClassName> := {};
    ChainSeenIrrelevant(cm, s, seen, seen + {c});
  }

  /** A class strictly above `c` on its chain lies on the chain of `c`'s superclass, which is shorter. */
  lemma SuperOnChain(cm: Classes, c: ClassName, d: ClassName) returns (s: ClassName)
    requires Acyclic(cm) && d in Supertypes(cm, c) && d != c
    ensures SuperOf(cm, c) == Some(s)
    ensures d in Supertypes(cm, s) && |Supertypes(cm, s)| < |Supertypes(cm, c)|
  {
    var h := Supertypes(cm, c);
    var i :| 0 <= i < |h| && h[i] == d;
    assert i > 0 && SuperOf(cm, h[0]) == Some(h[1]);
    s := h[1];
    SupertypesStep(cm, c);
  }

  // ------------------------------------------------------------ the cached member walk

  /** A static cache: class to the member found for it. */
  type MemberCache = map<ClassName, Member>

  /** What a resolution returns (null is None) with the cache it leaves. */
  type MemberLookup = Result<(Option<Member>, MemberCache)>

  /**
   * The two class-specific rules of a walk: the class's own member (which
   * may throw), consulted before the superclass, and the fallback member,
   * consulted after it.
   */
  datatype WalkRules = WalkRules(own: ClassName -> Result<Option<Member>>, fallback: ClassName -> Option<Member>)

  /**
   * The last rules of a walk, given the superclass's result `up`: a member
   * found there is returned (and not cached for this class); otherwise the
   * class's fallback member, cached; otherwise null.
   */
  function AfterSuper(rules: WalkRules, c: ClassName, up: MemberLookup): (r: MemberLookup)
    ensures r.Success? <==> up.Success?
    ensures r.Success? && up.value.0.Some? ==> r == up
    ensures r.Success? && up.value.0.None? && rules.fallback(c).None? ==> r == up
    ensures r.Success? && up.value.0.None? && rules.fallback(c).Some? ==>
              r.value == (rules.fallback(c), up.value.1[c := rules.fallback(c).value])
  {
    match up
    case Failure(e) => Failure(e)
    case Success(found) =>
      if found.0.Some? then up
      else
        match rules.fallback(c)
        case Some(m) => Success((Some(m), found.1[c := m]))
        case None => up
  }

  /**
   * The walk at position `i` of the chain: a cached member; else the
   * class's own member (cached); else the superclass's result, or null for
   * a null superclass, completed by AfterSuper.
   */
  function MemberFrom(cm: Classes, rules: WalkRules, cache: MemberCache, h: seq<ClassName>, i: nat): (r: MemberLookup)
    requires IsChain(cm, h) && i < |h|
    ensures r.Success? ==> cache.Keys <= r.value.1.Keys
    ensures r.Success? ==> forall d :: d in cache ==> r.value.1[d] == cache[d]
    ensures r.Success? ==> forall d :: d in r.value.1 && d !in cache ==> d in h[i..]
    ensures r.Success? && r.value.0.None? ==> r.value.1 == cache
    decreases |h| - i
  {
    var c := h[i];
    if c in cache then Success((Some(cache[c]), cache))
    else
      match rules.own(c)
      case Failure(e) => Failure(e)
      case Success(Some(m)) => Success((Some(m), cache[c := m]))
      case Success(None) =>
        var up :=
          match SuperOf(cm, c)
          case None => Success((None, cache))
          case Some(_) => if i + 1 < |h| then MemberFrom(cm, rules, cache, h, i + 1) else Failure(StackOverflow);
        AfterSuper(rules, c, up)
  }

  /** The walk from class `c`. */
  function GetMember(cm: Classes, rules: WalkRules, cache: MemberCache, c: ClassName): (r: MemberLookup)
    ensures c in cache ==> r == Success((Some(cache[c]), cache))
    ensures r.Success? ==> cache.Keys <= r.value.1.Keys && forall d :: d in cache ==> r.value.1[d] == cache[d]
    ensures r.Success? ==> forall d :: d in r.value.1 && d !in cache ==> d in Supertypes(cm, c)
    ensures r.Success? && r.value.0.None? ==> r.value.1 == cache
  {
    SupertypesIsChain(cm, c);
    var r := MemberFrom(cm, rules, cache, Supertypes(cm, c), 0);
    assert Supertypes(cm, c)[0..] == Supertypes(cm, c);
    r
  }

  /** The member the walk finds for `c` with nothing cached yet. */
  function ColdMember(cm: Classes, rules: WalkRules, c: ClassName): Result<Option<Member>> {
    match GetMember(cm, rules, map[], c)
    case Failure(e) => Failure(e)
    case Success(found) => Success(found.0)
  }

  /** Every cached member is what a cold walk from its class finds. */
  predicate CacheSound(cm: Classes, rules: WalkRules, cache: MemberCache) {
    forall d :: d in cache ==> ColdMember(cm, rules, d) == Success(Some(cache[d]))
  }

  /** The walk from position i of `h` depends only on the classes from position i on. */
  lemma {:induction false} MemberFromAt(cm: Classes, rules: WalkRules, cache: MemberCache, h: seq<ClassName>, i: nat, g: seq<ClassName>, j: nat)
    requires IsChain(cm, h) && i < |h| && IsChain(cm, g) && j < |g|
    requires h[i..] == g[j..]
    ensures MemberFrom(cm, rules, cache, h, i) == MemberFrom(cm, rules, cache, g, j)
    decreases |h| - i
  {
    assert h[i] == h[i..][0] == g[j..][0] == g[j];
    assert |h| - i == |g| - j by { assert |h[i..]| == |g[j..]|; }
    if i + 1 < |h| {
      assert h[i + 1..] == h[i..][1..] == g[j..][1..] == g[j + 1..];
      MemberFromAt(cm, rules, cache, h, i + 1, g, j + 1);
    }
  }

  /**
   * One step of the walk for a class the cache does not hold and that has
   * no own member: the superclass's walk (null for no superclass),
   * completed by AfterSuper.
   */
  lemma GetMemberStep(cm: Classes, rules: WalkRules, cache: MemberCache, c: ClassName)
    requires Acyclic(cm) && c !in cache && rules.own(c) == Success(None)
    ensures SuperOf(cm, c).None? ==> GetMember(cm, rules, cache, c) == AfterSuper(rules, c, Success((None, cache)))
    ensures SuperOf(cm, c).Some? ==>
              GetMember(cm, rules, cache, c) == AfterSuper(rules, c, GetMember(cm, rules, cache, SuperOf(cm, c).value))
              && |Supertypes(cm, SuperOf(cm, c).value)| < |Supertypes(cm, c)|
  {
    var h := Supertypes(cm, c);
    SupertypesIsChain(cm, c);
    if SuperOf(cm, c).Some? {
      var s := SuperOf(cm, c).value;
      SupertypesStep(cm, c);
      SupertypesIsChain(cm, s);
      assert h[1..] == Supertypes(cm, s)[0..];
      MemberFromAt(cm, rules, cache, h, 1, Supertypes(cm, s), 0);
    }
  }

  /** A class with an own member (or whose own rule throws) decides at once. */
  lemma GetMemberOwn(cm: Classes, rules: WalkRules, cache: MemberCache, c: ClassName)
    requires c !in cache && rules.own(c) != Success(None)
    ensures rules.own(c).Failure? ==> GetMember(cm, rules, cache, c) == Failure(rules.own(c).error)
    ensures rules.own(c).Success? ==>
              var m := rules.own(c).value.value;
              GetMember(cm, rules, cache, c) == Success((Some(m), cache[c := m]))
  {
    SupertypesIsChain(cm, c);
  }

  /**
   * A sound cache changes nothing but the work done: the walk gives the
   * result of a cold walk, and the cache it leaves is sound.
   */
  lemma {:induction false} GetMemberSound(cm: Classes, rules: WalkRules, cache: MemberCache, c: ClassName)
    requires Acyclic(cm)
    requires CacheSound(cm, rules, cache)
    ensures var warm := GetMember(cm, rules, cache, c);
            var cold := ColdMember(cm, rules, c);
            (warm.Success? <==> cold.Success?)
            && (warm.Success? ==> warm.value.0 == cold.value && CacheSound(cm, rules, warm.value.1))
            && (warm.Failure? ==> cold.error == warm.error)
    decreases |Supertypes(cm, c)|
  {
    if c !in cache {
      if rules.own(c) != Success(None) {
        GetMemberOwn(cm, rules, cache, c);
        GetMemberOwn(cm, rules, map[], c);
        if rules.own(c).Success? {
          CacheSoundExtend(cm, rules, cache, c, rules.own(c).value.value);
        }
      } else {
        GetMemberStep(cm, rules, cache, c);
        GetMemberStep(cm, rules, map[], c);
        if SuperOf(cm, c).Some? {
          GetMemberSound(cm, rules, cache, SuperOf(cm, c).value);
        }
        AfterSuperSound(cm, rules, c, GetMember(cm, rules, cache, c), GetMember(cm, rules, map[], c),
                        if SuperOf(cm, c).None? then Success((None, cache)) else GetMember(cm, rules, cache, SuperOf(cm, c).value),
                        if SuperOf(cm, c).None? then Success((None, map[])) else GetMember(cm, rules, map[], SuperOf(cm, c).value));
      }
    }
  }

  /** The class's own rule never throws. */
  ghost predicate OwnRuleTotal(rules: WalkRules) {
    forall d :: rules.own(d).Success?
  }

  /**
   * When the class's own rule never throws, the only way a walk fails is
   * running off the end of a cyclic chain.
   */
  lemma {:induction false} MemberFromFailure(cm: Classes, rules: WalkRules, cache: MemberCache, h: seq<ClassName>, i: nat)
    requires IsChain(cm, h) && i < |h| && OwnRuleTotal(rules)
    ensures MemberFrom(cm, rules, cache, h, i).Failure? ==> MemberFrom(cm, rules, cache, h, i).error == StackOverflow
    decreases |h| - i
  {
    assert rules.own(h[i]).Success?;
    if i + 1 < |h| {
      MemberFromFailure(cm, rules, cache, h, i + 1);
    }
  }

  /** GetMember fails only on a cyclic chain when the own rule never throws. */
  lemma GetMemberFailure(cm: Classes, rules: WalkRules, cache: MemberCache, c: ClassName)
    requires OwnRuleTotal(rules)
    ensures GetMember(cm, rules, cache, c).Failure? ==> GetMember(cm, rules, cache, c).error == StackOverflow
  {
    SupertypesIsChain(cm, c);
    MemberFromFailure(cm, rules, cache, Supertypes(cm, c), 0);
  }

  /** Adding the member a cold walk finds keeps a cache sound. */
  lemma CacheSoundExtend(cm: Classes, rules: WalkRules, cache: MemberCache, c: ClassName, m: Member)
    requires CacheSound(cm, rules, cache) && ColdMember(cm, rules, c) == Success(Some(m))
    ensures CacheSound(cm, rules, cache[c := m])
  {
  }

  /**
   * AfterSuper applied to a warm and a cold superclass result that agree
   * gives results that agree, and keeps the warm cache sound.
   */
  lemma AfterSuperSound(cm: Classes, rules: WalkRules, c: ClassName, warm: MemberLookup, cold: MemberLookup, upWarm: MemberLookup, upCold: MemberLookup)
    requires warm == AfterSuper(rules, c, upWarm) && cold == AfterSuper(rules, c, upCold)
    requires upWarm.Success? <==> upCold.Success?
    requires upWarm.Success? ==> upWarm.value.0 == upCold.value.0 && CacheSound(cm, rules, upWarm.value.1)
    requires upWarm.Failure? ==> upCold.error == upWarm.error
    requires cold.Success? ==> ColdMember(cm, rules, c) == Success(cold.value.0)
    requires cold.Failure? ==> ColdMember(cm, rules, c) == Failure(cold.error)
    ensures warm.Success? <==> ColdMember(cm, rules, c).Success?
    ensures warm.Success? ==> warm.value.0 == ColdMember(cm, rules, c).value && CacheSound(cm, rules, warm.value.1)
    ensures warm.Failure? ==> ColdMember(cm, rules, c).error == warm.error
  {
    if upWarm.Success? && upWarm.value.0.None? && rules.fallback(c).Some? {
      CacheSoundExtend(cm, rules, upWarm.value.1, c, rules.fallback(c).value);
    }
  }

  /** No class of the chain has an own member. */
  predicate NoOwnMember(cm: Classes, rules: WalkRules, c: ClassName) {
    forall d :: d in Supertypes(cm, c) ==> rules.own(d) == Success(None)
  }

  /** The classes that have a fallback member, as a test. */
  function HasFallback(rules: WalkRules): ClassName -> bool {
    d => rules.fallback(d).Some?
  }

  /**
   * Without own members the fallbacks decide, and the most ancestral class
   * with a fallback member wins: the superclass's result is consulted
   * before the class's own fallback.
   */
  lemma {:induction false} AncestorFallbackWins(cm: Classes, rules: WalkRules, c: ClassName)
    requires Acyclic(cm) && NoOwnMember(cm, rules, c)
    ensures ColdMember(cm, rules, c).Success?
    ensures var h := Supertypes(cm, c);
            var j := Seqs.LastIndex(h, HasFallback(rules));
            ColdMember(cm, rules, c).value == if j < 0 then None else rules.fallback(h[j])
    decreases |Supertypes(cm, c)|
  {
    var h := Supertypes(cm, c);
    assert rules.own(c) == Success(None);
    GetMemberStep(cm, rules, map[], c);
    if SuperOf(cm, c).None? {
      assert h == [c];
      Seqs.LastIndexCons(c, [], HasFallback(rules));
      assert [c] + [] == [c];
    } else {
      var s := SuperOf(cm, c).value;
      SupertypesStep(cm, c);
      var hs := Supertypes(cm, s);
      assert NoOwnMember(cm, rules, s) by {
        assert forall d :: d in hs ==> d in h;
      }
      AncestorFallbackWins(cm, rules, s);
      Seqs.LastIndexCons(c, hs, HasFallback(rules));
      assert h == [c] + hs;
      var j := Seqs.LastIndex(hs, HasFallback(rules));
      if j >= 0 {
        assert h[j + 1] == hs[j];
      }
    }
  }
}

=== FILE: id_members.dfy ===
/**
 * EntityUtil.getIdMember, which finds the member holding an entity's id
 * and caches it per class, and getIdFieldType, the type of that member.
 * The walk itself is the cached member walk of Hierarchy; this module
 * supplies its two rules.
 */
module IdMembers {
  import opened Wrappers
  import opened ClassModel
  import opened Hierarchy
  import Members
  import Seqs
  import KeyUtil

  /** A field or method annotated @Id or @EmbeddedId. */
  predicate IsIdTaggedMember(m: Member) {
    KeyUtil.IdTagged(m.Tags())
  }

  /**
   * The classes whose instances the JDK declares Serializable and that the
   * model leaves undeclared: String, the boxed scalars and Date.
   */
  const JDK_SERIALIZABLE: set<ClassName> :=
    {STRING, BOOLEAN, CHARACTER, DATE, "java.lang.Byte", "java.lang.Short", "java.lang.Integer",
     "java.lang.Long", "java.lang.Float", "java.lang.Double"}

  /** Serializable.class.isAssignableFrom(t). */
  predicate IsSerializable(cm: Classes, t: ClassName) {
    IsAssignableFrom(cm, SERIALIZABLE, t) || t in JDK_SERIALIZABLE
  }

  /**
   * name.equalsIgnoreCase("id"): Java compares the characters after upper-
   * and lower-casing them, so the dotless and the dotted capital I of
   * Turkish also match the 'i'.
   */
  predicate IsIdName(name: string) {
    |name| == 2 && name[0] in {'i', 'I', 'ı', 'İ'} && name[1] in {'d', 'D'}
  }

  /** The fallback id field: named "id" in any case, with a Serializable type. */
  predicate IsIdNamedField(cm: Classes, f: Field) {
    IsSerializable(cm, f.ftype) && IsIdName(f.name)
  }

  predicate IsIdField(f: Field) {
    KeyUtil.IsKeyField(f)
  }

  predicate IsIdMethod(m: Method) {
    KeyUtil.IsKeyMethod(m)
  }

  /**
   * The first two rules of getIdMember for one class: its first declared
   * @Id/@EmbeddedId field, else its first declared annotated method, which
   * must take no arguments.  (Its "not Serializable" errors cannot be
   * raised: they test the Class object, which always is.)
   */
  function DeclaredIdMember(cm: Classes, c: ClassName): (r: Result<Option<Member>>)
    ensures r.Success? && r.value.Some? ==> IsIdTaggedMember(r.value.value)
    ensures r.Success? && r.value.Some? && r.value.value.FieldMember? ==> r.value.value.f in Members.DeclaredFields(cm, c)
    ensures r.Success? && r.value.Some? && r.value.value.MethodMember? ==>
              r.value.value.m in Members.DeclaredMethods(cm, c) && r.value.value.m.params == []
              && forall f :: f in Members.DeclaredFields(cm, c) ==> !IsIdField(f)
    ensures r == Success(None) <==>
              (forall f :: f in Members.DeclaredFields(cm, c) ==> !IsIdField(f))
              && (forall m :: m in Members.DeclaredMethods(cm, c) ==> !IsIdMethod(m))
    ensures r.Failure? ==> r.error == UtilityError(c)
  {
    var fs := Members.DeclaredFields(cm, c);
    match Seqs.First(fs, IsIdField)
    case Some(f) => Success(Some(FieldMember(f)))
    case None =>
      var ms := Members.DeclaredMethods(cm, c);
      match Seqs.First(ms, IsIdMethod)
      case Some(m) => if m.params == [] then Success(Some(MethodMember(m))) else Failure(UtilityError(c))
      case None => Success(None)
  }

  /** The class's first raw declared field named "id" with a Serializable type. */
  function IdNamedField(cm: Classes, c: ClassName): (r: Option<Field>)
    ensures r.Some? ==> r.value in Decl(cm, c).fields && IsIdNamedField(cm, r.value)
    ensures r.None? <==> forall f :: f in Decl(cm, c).fields ==> !IsIdNamedField(cm, f)
  {
    Seqs.First(Decl(cm, c).fields, f => IsIdNamedField(cm, f))
  }

  /** The fallback rule as a member: the class's "id" field, if any. */
  function IdNamedMember(cm: Classes, c: ClassName): (r: Option<Member>)
    ensures r.Some? <==> IdNamedField(cm, c).Some?
    ensures r.Some? ==> r == Some(FieldMember(IdNamedField(cm, c).value))
  {
    match IdNamedField(cm, c)
    case Some(f) => Some(FieldMember(f))
    case None => None
  }

  /** The rules of getIdMember: annotated members first, the "id" field last. */
  function IdRules(cm: Classes): WalkRules {
    WalkRules(c => DeclaredIdMember(cm, c), c => IdNamedMember(cm, c))
  }

  /**
   * EntityUtil.getIdMember(cls), over the static idMembersMap: a cached
   * member; else the class's first declared annotated field or method;
   * else the superclass's member; else the class's own "id" field.
   */
  function GetIdMember(cm: Classes, cache: MemberCache, c: ClassName): (r: MemberLookup)
    ensures c in cache ==> r == Success((Some(cache[c]), cache))
    ensures c !in cache && DeclaredIdMember(cm, c).Failure? ==> r == Failure(UtilityError(c))
    ensures c !in cache && DeclaredIdMember(cm, c).Success? && DeclaredIdMember(cm, c).value.Some? ==>
              r == Success((DeclaredIdMember(cm, c).value, cache[c := DeclaredIdMember(cm, c).value.value]))
    ensures r.Success? ==> cache.Keys <= r.value.1.Keys && forall d :: d in cache ==> r.value.1[d] == cache[d]
    ensures r.Success? ==> forall d :: d in r.value.1 && d !in cache ==> d in Supertypes(cm, c)
  {
    if c !in cache && DeclaredIdMember(cm, c) != Success(None) then
      GetMemberOwn(cm, IdRules(cm), cache, c);
      GetMember(cm, IdRules(cm), cache, c)
    else
      GetMember(cm, IdRules(cm), cache, c)
  }

  /** The member getIdMember finds for `c` with nothing cached yet. */
  function ColdIdMember(cm: Classes, c: ClassName): Result<Option<Member>> {
    ColdMember(cm, IdRules(cm), c)
  }

  /** The type of the value a member holds: the field type or the return type. */
  function MemberType(m: Member): ClassName {
    match m
    case FieldMember(f) => f.ftype
    case MethodMember(meth) => meth.ret
  }

  /**
   * EntityUtil.getIdFieldType(cls): the type of the id member, or null when
   * there is none.
   */
  function GetIdFieldType(cm: Classes, cache: MemberCache, c: ClassName): (r: Result<(Option<ClassName>, MemberCache)>)
    ensures r.Success? <==> GetIdMember(cm, cache, c).Success?
    ensures r.Success? ==> r.value.1 == GetIdMember(cm, cache, c).value.1
    ensures r.Success? ==> (r.value.0.Some? <==> GetIdMember(cm, cache, c).value.0.Some?)
    ensures r.Success? && r.value.0.Some? ==> r.value.0.value == MemberType(GetIdMember(cm, cache, c).value.0.value)
  {
    match GetIdMember(cm, cache, c)
    case Failure(e) => Failure(e)
    case Success(found) =>
      if found.0.None? then Success((None, found.1)) else Success((Some(MemberType(found.0.value)), found.1))
  }

  // ------------------------------------------------------------ getIdMember properties

  /**
   * The idMembersMap changes nothing but the work done: over a cache
   * holding only what cold resolutions find, getIdMember answers as a cold
   * resolution would and leaves such a cache behind.
   */
  lemma GetIdMemberSound(cm: Classes, cache: MemberCache, c: ClassName)
    requires Acyclic(cm) && CacheSound(cm, IdRules(cm), cache)
    ensures GetIdMember(cm, cache, c).Success? <==> ColdIdMember(cm, c).Success?
    ensures GetIdMember(cm, cache, c).Success? ==>
              GetIdMember(cm, cache, c).value.0 == ColdIdMember(cm, c).value
              && CacheSound(cm, IdRules(cm), GetIdMember(cm, cache, c).value.1)
    ensures GetIdMember(cm, cache, c).Failure? ==> ColdIdMember(cm, c).error == GetIdMember(cm, cache, c).error
  {
    GetMemberSound(cm, IdRules(cm), cache, c);
  }

  /**
   * An @Id or @EmbeddedId field anywhere up the chain beats every field
   * merely named "id": the member found is an annotated one (or the
   * resolution fails first on a bad annotated method).
   */
  lemma {:induction false} AnnotatedBeatsIdNamed(cm: Classes, c: ClassName, d: ClassName, f: Field)
    requires Acyclic(cm)
    requires d in Supertypes(cm, c) && f in Members.DeclaredFields(cm, d) && IsIdField(f)
    ensures ColdIdMember(cm, c).Success? ==>
              ColdIdMember(cm, c).value.Some? && IsIdTaggedMember(ColdIdMember(cm, c).value.value)
    decreases |Supertypes(cm, c)|
  {
    if DeclaredIdMember(cm, c) != Success(None) {
      GetMemberOwn(cm, IdRules(cm), map[], c);
    } else {
      assert d != c;
      var s := SuperOnChain(cm, c, d);
      AnnotatedBeatsIdNamed(cm, s, d, f);
      InheritedIdDecides(cm, c, s);
    }
  }

  /** A class without an own annotated member hands on whatever annotated member its superclass finds, or its failure. */
  lemma InheritedIdDecides(cm: Classes, c: ClassName, s: ClassName)
    requires Acyclic(cm) && DeclaredIdMember(cm, c) == Success(None) && SuperOf(cm, c) == Some(s)
    ensures ColdIdMember(cm, s).Failure? ==> ColdIdMember(cm, c).Failure?
    ensures ColdIdMember(cm, s).Success? && ColdIdMember(cm, s).value.Some? ==> ColdIdMember(cm, c) == ColdIdMember(cm, s)
  {
    GetMemberStep(cm, IdRules(cm), map[], c);
  }

  /**
   * Without annotations the fallback decides, and the most ancestral class
   * with an "id" field wins: the superclass's result is consulted before the
   * class's own field.
   */
  lemma AncestorIdFieldWins(cm: Classes, c: ClassName)
    requires Acyclic(cm)
    requires forall d :: d in Supertypes(cm, c) ==> DeclaredIdMember(cm, d) == Success(None)
    ensures ColdIdMember(cm, c).Success?
    ensures var h := Supertypes(cm, c);
            var j := Seqs.LastIndex(h, HasFallback(IdRules(cm)));
            (j < 0 ==> forall d :: d in h ==> IdNamedField(cm, d).None?)
            && (j >= 0 ==> ColdIdMember(cm, c).value == Some(FieldMember(IdNamedField(cm, h[j]).value))
                           && forall l :: j < l < |h| ==> IdNamedField(cm, h[l]).None?)
    ensures ColdIdMember(cm, c).value.None? <==> forall d :: d in Supertypes(cm, c) ==> IdNamedField(cm, d).None?
  {
    var rules := IdRules(cm);
    var h := Supertypes(cm, c);
    var j := Seqs.LastIndex(h, HasFallback(rules));
    assert NoOwnMember(cm, rules, c);
    AncestorFallbackWins(cm, rules, c);
    IdNamedAbove(cm, h, j);
  }

  /** Read over the chain, the last class with a fallback member is the last one with an "id" field. */
  lemma IdNamedAbove(cm: Classes, h: seq<ClassName>, j: int)
    requires Seqs.IsLastIndex(h, HasFallback(IdRules(cm)), j)
    ensures forall l :: j < l < |h| ==> IdNamedField(cm, h[l]).None?
    ensures j >= 0 ==> IdRules(cm).fallback(h[j]) == Some(FieldMember(IdNamedField(cm, h[j]).value))
    ensures j < 0 ==> forall d :: d in h ==> IdNamedField(cm, d).None?
  {
    forall l | j < l < |h|
      ensures IdNamedField(cm, h[l]).None?
    {
      IdFallback(cm, h[l]);
    }
    if j >= 0 {
      IdFallback(cm, h[j]);
    } else {
      forall d | d in h
        ensures IdNamedField(cm, d).None?
      {
        var l :| 0 <= l < |h| && h[l] == d;
        IdFallback(cm, h[l]);
      }
    }
  }

  /** The fallback of getIdMember's walk is the class's "id" field. */
  lemma IdFallback(cm: Classes, d: ClassName)
    ensures HasFallback(IdRules(cm))(d) <==> IdNamedField(cm, d).Some?
    ensures IdRules(cm).fallback(d) == IdNamedMember(cm, d)
  {
  }
}

=== FILE: identity_util.dfy ===
/**
 * IdentityUtil: the identity of an object, a String naming it for people.
 * The member holding it is found by the cached member walk of Hierarchy
 * (an @Identity method, else an @Identity field, else the superclass's
 * member, else a String getter for one of the identity aliases); an object
 * without one falls back to the text of its id, and to a default when even
 * that fails.
 */
module IdentityUtil {
  import opened Wrappers
  import opened ClassModel
  import opened Values
  import opened Hierarchy
  import Seqs
  import ClassUtil
  import EntityKeys

  /** The interface whose instances name themselves. */
  const IDENTIFIED: ClassName := "com.k2.Util.Identity.Identified"

  /** The aliases of the identity getter, in the order they are tried. */
  const IDENTITY_ALIASES: seq<string> := ["identity", "alias", "name", "title"]

  predicate IsIdentityMethod(m: Method) {
    HasTag(m.tags, IdentityKind)
  }

  predicate IsIdentityField(f: Field) {
    HasTag(f.tags, IdentityKind)
  }

  /**
   * The class's own identity member: its first declared @Identity method,
   * else its first declared @Identity field.  Looking it up never throws.
   */
  function OwnIdentity(cm: Classes, c: ClassName): (r: Result<Option<Member>>)
    ensures r.Success?
    ensures r.value.Some? ==> HasTag(r.value.value.Tags(), IdentityKind)
  {
    match Seqs.First(Decl(cm, c).methods, IsIdentityMethod)
    case Some(m) => Success(Some(MethodMember(m)))
    case None =>
      match Seqs.First(Decl(cm, c).fields, IsIdentityField)
      case Some(f) => Success(Some(FieldMember(f)))
      case None => Success(None)
  }

  /**
   * A declared @Identity method comes before any @Identity field, and a
   * class without either has no own member.
   */
  lemma OwnIdentityOrder(cm: Classes, c: ClassName)
    ensures var r := OwnIdentity(cm, c).value;
            (r.Some? && r.value.MethodMember? ==> r.value.m in Decl(cm, c).methods)
            && (r.Some? && r.value.FieldMember? ==>
                  r.value.f in Decl(cm, c).fields && forall m :: m in Decl(cm, c).methods ==> !IsIdentityMethod(m))
            && (r.None? <==>
                  (forall m :: m in Decl(cm, c).methods ==> !IsIdentityMethod(m))
                  && (forall f :: f in Decl(cm, c).fields ==> !IsIdentityField(f)))
  {
  }

  /** The aliases that have a String getter member in class `c`. */
  function HasStringGetter(cm: Classes, c: ClassName): string -> bool {
    alias => ClassUtil.GetterMember(cm, c, STRING, alias).Some?
  }

  /**
   * The alias rule: the String getter member for the first of "identity",
   * "alias", "name" and "title" that has one.
   */
  function AliasMember(cm: Classes, c: ClassName): Option<Member> {
    match Seqs.FirstIndex(IDENTITY_ALIASES, HasStringGetter(cm, c))
    case Some(i) => ClassUtil.GetterMember(cm, c, STRING, IDENTITY_ALIASES[i])
    case None => None
  }

  /** The alias member is the getter of the earliest alias that has one, and none when no alias has one. */
  lemma AliasMemberMeaning(cm: Classes, c: ClassName)
    ensures AliasMember(cm, c).None? <==>
              forall i :: 0 <= i < |IDENTITY_ALIASES| ==> ClassUtil.GetterMember(cm, c, STRING, IDENTITY_ALIASES[i]).None?
    ensures AliasMember(cm, c).Some? ==>
              exists i :: 0 <= i < |IDENTITY_ALIASES| && ClassUtil.GetterMember(cm, c, STRING, IDENTITY_ALIASES[i]) == AliasMember(cm, c)
                          && forall j :: 0 <= j < i ==> ClassUtil.GetterMember(cm, c, STRING, IDENTITY_ALIASES[j]).None?
  {
    var p := HasStringGetter(cm, c);
    match Seqs.FirstIndex(IDENTITY_ALIASES, p)
    case Some(i) =>
      assert AliasMember(cm, c) == ClassUtil.GetterMember(cm, c, STRING, IDENTITY_ALIASES[i]);
      assert forall j :: 0 <= j < i ==> !p(IDENTITY_ALIASES[j]);
    case None =>
      assert AliasMember(cm, c) == None;
      assert forall j :: 0 <= j < |IDENTITY_ALIASES| ==> !p(IDENTITY_ALIASES[j]);
  }

  /** The rules of getIdentityMember: annotated members first, the aliases last. */
  function IdentityRules(cm: Classes): WalkRules {
    WalkRules(c => OwnIdentity(cm, c), c => AliasMember(cm, c))
  }

  /**
   * IdentityUtil.getIdentityMember(cls), over the static identityMembersMap:
   * a cached member; else the class's own @Identity method or field; else
   * the superclass's member; else the class's alias getter.  A miss leaves
   * the cache as it was.
   */
  function GetIdentityMember(cm: Classes, cache: MemberCache, c: ClassName): (r: MemberLookup)
    ensures c in cache ==> r == Success((Some(cache[c]), cache))
    ensures c !in cache && OwnIdentity(cm, c).value.Some? ==>
              r == Success((OwnIdentity(cm, c).value, cache[c := OwnIdentity(cm, c).value.value]))
    ensures r.Success? && r.value.0.None? ==> r.value.1 == cache
    ensures r.Success? ==> cache.Keys <= r.value.1.Keys && forall d :: d in cache ==> r.value.1[d] == cache[d]
    ensures r.Failure? ==> r.error == StackOverflow
  {
    OwnIdentityNeverThrows(cm);
    GetMemberFailure(cm, IdentityRules(cm), cache, c);
    if c !in cache && OwnIdentity(cm, c).value.Some? then
      GetMemberOwn(cm, IdentityRules(cm), cache, c);
      GetMember(cm, IdentityRules(cm), cache, c)
    else
      GetMember(cm, IdentityRules(cm), cache, c)
  }

  /** Looking up a class's own identity member never throws. */
  lemma OwnIdentityNeverThrows(cm: Classes)
    ensures OwnRuleTotal(IdentityRules(cm))
  {
  }

  /** The member getIdentityMember finds for `c` with nothing cached yet. */
  function ColdIdentityMember(cm: Classes, c: ClassName): Result<Option<Member>> {
    ColdMember(cm, IdentityRules(cm), c)
  }

  // ------------------------------------------------------------ getIdentityMember properties

  /** In a hierarchy Java can build, the identity walk never throws. */
  lemma {:induction false} GetIdentityMemberTotal(cm: Classes, cache: MemberCache, c: ClassName)
    requires Acyclic(cm)
    ensures GetIdentityMember(cm, cache, c).Success?
    decreases |Supertypes(cm, c)|
  {
    var rules := IdentityRules(cm);
    if c !in cache && OwnIdentity(cm, c).value.None? {
      GetMemberStep(cm, rules, cache, c);
      if SuperOf(cm, c).Some? {
        GetIdentityMemberTotal(cm, cache, SuperOf(cm, c).value);
      }
    }
  }

  /**
   * The identityMembersMap changes nothing but the work done: over a cache
   * holding only what cold resolutions find, getIdentityMember answers as a
   * cold resolution would and leaves such a cache behind.
   */
  lemma GetIdentityMemberSound(cm: Classes, cache: MemberCache, c: ClassName)
    requires Acyclic(cm) && CacheSound(cm, IdentityRules(cm), cache)
    ensures GetIdentityMember(cm, cache, c).Success? && ColdIdentityMember(cm, c).Success?
    ensures GetIdentityMember(cm, cache, c).value.0 == ColdIdentityMember(cm, c).value
    ensures CacheSound(cm, IdentityRules(cm), GetIdentityMember(cm, cache, c).value.1)
  {
    GetIdentityMemberTotal(cm, cache, c);
    GetMemberSound(cm, IdentityRules(cm), cache, c);
  }

  /**
   * An @Identity method or field anywhere up the chain beats every alias
   * getter: the member found is an annotated one.
   */
  lemma {:induction false} AnnotatedBeatsAlias(cm: Classes, c: ClassName, d: ClassName)
    requires Acyclic(cm)
    requires d in Supertypes(cm, c) && OwnIdentity(cm, d) != Success(None)
    ensures ColdIdentityMember(cm, c).Success?
    ensures ColdIdentityMember(cm, c).value.Some? && HasTag(ColdIdentityMember(cm, c).value.value.Tags(), IdentityKind)
    decreases |Supertypes(cm, c)|
  {
    if OwnIdentity(cm, c) != Success(None) {
      OwnIdentityDecides(cm, c);
    } else {
      var s := SuperOnChain(cm, c, d);
      AnnotatedBeatsAlias(cm, s, d);
      InheritedIdentityDecides(cm, c, s);
    }
  }

  /** A class with an own @Identity member finds it. */
  lemma OwnIdentityDecides(cm: Classes, c: ClassName)
    requires OwnIdentity(cm, c) != Success(None)
    ensures ColdIdentityMember(cm, c) == OwnIdentity(cm, c)
  {
    GetMemberOwn(cm, IdentityRules(cm), map[], c);
  }

  /** A class without an own @Identity member hands on an annotated member its superclass finds. */
  lemma InheritedIdentityDecides(cm: Classes, c: ClassName, s: ClassName)
    requires Acyclic(cm) && OwnIdentity(cm, c) == Success(None) && SuperOf(cm, c) == Some(s)
    requires ColdIdentityMember(cm, s).Success? && ColdIdentityMember(cm, s).value.Some?
    ensures ColdIdentityMember(cm, c) == ColdIdentityMember(cm, s)
  {
    GetMemberStep(cm, IdentityRules(cm), map[], c);
  }

  /**
   * Without annotations the aliases decide, and the most ancestral class
   * with an alias getter wins: the superclass's result is consulted before
   * the class's own aliases.
   */
  lemma AncestorAliasWins(cm: Classes, c: ClassName)
    requires Acyclic(cm)
    requires NoOwnMember(cm, IdentityRules(cm), c)
    ensures ColdIdentityMember(cm, c).Success?
    ensures var h := Supertypes(cm, c);
            var j := Seqs.LastIndex(h, HasFallback(IdentityRules(cm)));
            (j < 0 ==> ColdIdentityMember(cm, c).value.None?)
            && (j >= 0 ==> ColdIdentityMember(cm, c).value == AliasMember(cm, h[j]) && AliasMember(cm, h[j]).Some?)
  {
    var rules := IdentityRules(cm);
    AncestorFallbackWins(cm, rules, c);
    var h := Supertypes(cm, c);
    var j := Seqs.LastIndex(h, HasFallback(rules));
    if j >= 0 {
      assert HasFallback(rules)(h[j]);
    }
  }

  /** No class above the one whose alias wins has an alias getter. */
  lemma NoAliasAboveWinner(cm: Classes, c: ClassName)
    ensures var h := Supertypes(cm, c);
            var j := Seqs.LastIndex(h, HasFallback(IdentityRules(cm)));
            forall l :: j < l < |h| ==> AliasMember(cm, h[l]).None?
  {
    var rules := IdentityRules(cm);
    var h := Supertypes(cm, c);
    var j := Seqs.LastIndex(h, HasFallback(rules));
    forall l | j < l < |h|
      ensures AliasMember(cm, h[l]).None?
    {
      assert !HasFallback(rules)(h[l]);
    }
  }

  // ------------------------------------------------------------ getIdentity

  /** IdentityUtil's caches: identityMembersMap and the key caches getId consults. */
  datatype IdentityState = IdentityState(members: MemberCache, keys: EntityKeys.KeyState)

  /** Both caches hold only what cold resolutions find. */
  predicate IdentityStateSound(cm: Classes, st: IdentityState) {
    CacheSound(cm, IdentityRules(cm), st.members) && EntityKeys.KeyStateSound(cm, st.keys)
  }

  /** The identity (None for null) or the exception, with the caches after it. */
  datatype IdentityOutcome = IdentityOutcome(result: Result<Option<string>>, state: IdentityState)

  /** Whether the member itself is declared public (the class's own modifiers are not modelled). */
  predicate IsPublicMember(m: Member) {
    match m
    case FieldMember(f) => f.isPublic
    case MethodMember(meth) => meth.isPublic
  }

  /**
   * The value a member holds: Field.get or a no-argument Method.invoke.
   * getIdentityMember takes an @Identity member straight from the class's
   * own getDeclaredMethods or getDeclaredFields and never opens it, so the
   * access check applies; an alias getter comes through ClassUtil, which
   * opened it.
   */
  function MemberValue(cm: Classes, host: Host, m: Member, obj: Value): (r: Result<Value>)
    ensures m.FieldMember? && r.Success? ==> r == ReadField(cm, obj, m.f)
    ensures m.MethodMember? && r.Success? ==> r == Invoke(cm, host, m.m, obj, [])
    ensures HasTag(m.Tags(), IdentityKind) && !IsPublicMember(m) ==> r == Failure(IllegalAccess)
    ensures !HasTag(m.Tags(), IdentityKind) || IsPublicMember(m) ==>
              if m.FieldMember? then r == ReadField(cm, obj, m.f) else r == Invoke(cm, host, m.m, obj, [])
  {
    match m
    case FieldMember(f) => if IsIdentityField(f) then CheckedRead(cm, obj, f) else ReadField(cm, obj, f)
    case MethodMember(meth) => if IsIdentityMethod(meth) then CheckedInvoke(cm, host, meth, obj, []) else Invoke(cm, host, meth, obj, [])
  }

  /** The `(String)` cast: a String or null passes, anything else is a ClassCastException. */
  function AsString(v: Value): (r: Result<Option<string>>)
    ensures r.Success? <==> v.Str? || v.Null?
    ensures v.Str? ==> r == Success(Some(v.s))
    ensures v.Null? ==> r == Success(None)
    ensures r.Failure? ==> r.error == ClassCast
  {
    match v
    case Str(s) => Success(Some(s))
    case Null => Success(None)
    case _ => Failure(ClassCast)
  }

  /**
   * The last resort of getIdentity: getId(obj).toString(), or the default
   * when getId throws or returns null (whose toString throws).  The key
   * caches keep whatever getId left in them.
   */
  function IdText(cm: Classes, host: Host, keys: EntityKeys.KeyState, obj: Value, defaultVal: Option<string>,
                  ownId: Value -> Result<Value>): (r: (Option<string>, EntityKeys.KeyState))
    ensures var id := EntityKeys.GetId(cm, host, keys, obj, ownId);
            r.1 == id.state
            && (id.result.Success? && id.result.value != Null ==> r.0 == Some(ToText(host, id.result.value)))
            && (id.result.Failure? || id.result.value == Null ==> r.0 == defaultVal)
  {
    var id := EntityKeys.GetId(cm, host, keys, obj, ownId);
    if id.result.Success? && id.result.value != Null then (Some(ToText(host, id.result.value)), id.state)
    else (defaultVal, id.state)
  }

  /**
   * IdentityUtil.getIdentity(obj, defaultVal): null for null; an Identified
   * object's own getIdentity() (the parameter `ownIdentity`); the value of
   * its identity member cast to String when the member can be read;
   * otherwise the text of its id, or `defaultVal`.  Failing to read the
   * member is caught; a member value that is not a String is not.
   */
  function GetIdentity(cm: Classes, host: Host, st: IdentityState, obj: Value, defaultVal: Option<string>,
                       ownIdentity: Value -> Result<Option<string>>, ownId: Value -> Result<Value>): (r: IdentityOutcome)
    ensures obj == Null ==> r == IdentityOutcome(Success(None), st)
    ensures obj != Null && IsAssignableFrom(cm, IDENTIFIED, RuntimeClass(obj).value) ==> r == IdentityOutcome(ownIdentity(obj), st)
    ensures r.result.Failure? && !(obj != Null && IsAssignableFrom(cm, IDENTIFIED, RuntimeClass(obj).value)) ==>
              r.result.error == ClassCast || r.result.error == StackOverflow
  {
    if obj == Null then IdentityOutcome(Success(None), st)
    else
      var c := RuntimeClass(obj).value;
      if IsAssignableFrom(cm, IDENTIFIED, c) then IdentityOutcome(ownIdentity(obj), st)
      else
        match GetIdentityMember(cm, st.members, c)
        case Failure(e) => IdentityOutcome(Failure(e), st)
        case Success(found) => ByMember(cm, host, st, obj, defaultVal, ownId, found)
  }

  /** getIdentity once the identity member (or null) and the cache after its lookup are known. */
  function ByMember(cm: Classes, host: Host, st: IdentityState, obj: Value, defaultVal: Option<string>,
                    ownId: Value -> Result<Value>, found: (Option<Member>, MemberCache)): (r: IdentityOutcome)
    ensures r.state.members == found.1
    ensures found.0.Some? && MemberValue(cm, host, found.0.value, obj).Success? ==>
              r == IdentityOutcome(AsString(MemberValue(cm, host, found.0.value, obj).value), st.(members := found.1))
    ensures found.0.None? || MemberValue(cm, host, found.0.value, obj).Failure? ==> r.result.Success?
    ensures r.result.Failure? ==> r.result.error == ClassCast
  {
    var st1 := st.(members := found.1);
    if found.0.Some? && MemberValue(cm, host, found.0.value, obj).Success? then
      IdentityOutcome(AsString(MemberValue(cm, host, found.0.value, obj).value), st1)
    else
      var t := IdText(cm, host, st.keys, obj, defaultVal, ownId);
      IdentityOutcome(Success(t.0), st1.(keys := t.1))
  }

  /**
   * IdentityUtil.getIdentity(obj): the simple name of the object's class is
   * the default; a null object is a NullPointerException (getClass on null).
   */
  function GetIdentityOf(cm: Classes, host: Host, st: IdentityState, obj: Value,
                         ownIdentity: Value -> Result<Option<string>>, ownId: Value -> Result<Value>): (r: IdentityOutcome)
    ensures obj == Null ==> r == IdentityOutcome(Failure(NullPointer), st)
    ensures obj != Null ==> r == GetIdentity(cm, host, st, obj, Some(SimpleName(RuntimeClass(obj).value)), ownIdentity, ownId)
  {
    if obj == Null then IdentityOutcome(Failure(NullPointer), st)
    else GetIdentity(cm, host, st, obj, Some(SimpleName(RuntimeClass(obj).value)), ownIdentity, ownId)
  }

  // ------------------------------------------------------------ getIdentity properties

  /**
   * The caches change nothing but the work done: over sound caches
   * getIdentity answers as it would with empty ones, and leaves sound
   * caches behind.
   */
  lemma GetIdentitySound(cm: Classes, host: Host, st: IdentityState, obj: Value, defaultVal: Option<string>,
                         ownIdentity: Value -> Result<Option<string>>, ownId: Value -> Result<Value>)
    requires Acyclic(cm) && IdentityStateSound(cm, st)
    ensures var empty := IdentityState(map[], EntityKeys.KeyState(map[], map[]));
            GetIdentity(cm, host, st, obj, defaultVal, ownIdentity, ownId).result
              == GetIdentity(cm, host, empty, obj, defaultVal, ownIdentity, ownId).result
    ensures IdentityStateSound(cm, GetIdentity(cm, host, st, obj, defaultVal, ownIdentity, ownId).state)
  {
    if obj != Null && !IsAssignableFrom(cm, IDENTIFIED, RuntimeClass(obj).value) {
      GetIdentitySoundByMember(cm, host, st, obj, defaultVal, ownIdentity, ownId);
    }
  }

  /** GetIdentitySound for an object that is not Identified. */
  lemma GetIdentitySoundByMember(cm: Classes, host: Host, st: IdentityState, obj: Value, defaultVal: Option<string>,
                                 ownIdentity: Value -> Result<Option<string>>, ownId: Value -> Result<Value>)
    requires Acyclic(cm) && IdentityStateSound(cm, st)
    requires obj != Null && !IsAssignableFrom(cm, IDENTIFIED, RuntimeClass(obj).value)
    ensures var empty := IdentityState(map[], EntityKeys.KeyState(map[], map[]));
            GetIdentity(cm, host, st, obj, defaultVal, ownIdentity, ownId).result
              == GetIdentity(cm, host, empty, obj, defaultVal, ownIdentity, ownId).result
    ensures IdentityStateSound(cm, GetIdentity(cm, host, st, obj, defaultVal, ownIdentity, ownId).state)
  {
    {
      var c := RuntimeClass(obj).value;
      var empty := IdentityState(map[], EntityKeys.KeyState(map[], map[]));
      GetIdentityMemberSound(cm, st.members, c);
      GetIdentityMemberSound(cm, map[], c);
      var warm := GetIdentityMember(cm, st.members, c).value;
      var cold := GetIdentityMember(cm, map[], c).value;
      GetIdentityByMember(cm, host, st, obj, defaultVal, ownIdentity, ownId);
      GetIdentityByMember(cm, host, empty, obj, defaultVal, ownIdentity, ownId);
      ByMemberSound(cm, host, st, empty, obj, defaultVal, ownId, warm, cold);
    }
  }

  /** getIdentity of an object that is not Identified, once its identity member is looked up. */
  lemma GetIdentityByMember(cm: Classes, host: Host, st: IdentityState, obj: Value, defaultVal: Option<string>,
                            ownIdentity: Value -> Result<Option<string>>, ownId: Value -> Result<Value>)
    requires obj != Null && !IsAssignableFrom(cm, IDENTIFIED, RuntimeClass(obj).value)
    requires GetIdentityMember(cm, st.members, RuntimeClass(obj).value).Success?
    ensures GetIdentity(cm, host, st, obj, defaultVal, ownIdentity, ownId)
              == ByMember(cm, host, st, obj, defaultVal, ownId, GetIdentityMember(cm, st.members, RuntimeClass(obj).value).value)
  {
  }

  /** ByMember over two states whose lookups found the same member agrees on the result. */
  lemma ByMemberSound(cm: Classes, host: Host, st: IdentityState, empty: IdentityState, obj: Value, defaultVal: Option<string>,
                      ownId: Value -> Result<Value>, warm: (Option<Member>, MemberCache), cold: (Option<Member>, MemberCache))
    requires Acyclic(cm) && EntityKeys.KeyStateSound(cm, st.keys) && CacheSound(cm, IdentityRules(cm), warm.1)
    requires empty.keys == EntityKeys.KeyState(map[], map[]) && warm.0 == cold.0
    ensures ByMember(cm, host, st, obj, defaultVal, ownId, warm).result == ByMember(cm, host, empty, obj, defaultVal, ownId, cold).result
    ensures IdentityStateSound(cm, ByMember(cm, host, st, obj, defaultVal, ownId, warm).state)
  {
    IdTextSound(cm, host, st.keys, obj, defaultVal, ownId);
  }

  /** The last resort over sound key caches gives what it gives over empty ones, and keeps them sound. */
  lemma IdTextSound(cm: Classes, host: Host, keys: EntityKeys.KeyState, obj: Value, defaultVal: Option<string>,
                    ownId: Value -> Result<Value>)
    requires Acyclic(cm) && EntityKeys.KeyStateSound(cm, keys)
    ensures IdText(cm, host, keys, obj, defaultVal, ownId).0 == IdText(cm, host, EntityKeys.KeyState(map[], map[]), obj, defaultVal, ownId).0
    ensures EntityKeys.KeyStateSound(cm, IdText(cm, host, keys, obj, defaultVal, ownId).1)
  {
    EntityKeys.GetIdSound(cm, host, keys, obj, ownId);
  }

  /**
   * Without an identity member anywhere up the chain, and when getId
   * throws or gives null, the identity is the default.
   */
  lemma NoIdentityIsDefault(cm: Classes, host: Host, st: IdentityState, obj: Value, defaultVal: Option<string>,
                            ownIdentity: Value -> Result<Option<string>>, ownId: Value -> Result<Value>)
    requires obj != Null && !IsAssignableFrom(cm, IDENTIFIED, RuntimeClass(obj).value)
    requires GetIdentityMember(cm, st.members, RuntimeClass(obj).value) == Success((None, st.members))
    requires var id := EntityKeys.GetId(cm, host, st.keys, obj, ownId).result; id.Failure? || id.value == Null
    ensures GetIdentity(cm, host, st, obj, defaultVal, ownIdentity, ownId).result == Success(defaultVal)
  {
  }

  /**
   * Without an identity member, the identity is the text of the object's
   * id when getId gives one.
   */
  lemma NoIdentityIsIdText(cm: Classes, host: Host, st: IdentityState, obj: Value, defaultVal: Option<string>,
                           ownIdentity: Value -> Result<Option<string>>, ownId: Value -> Result<Value>)
    requires obj != Null && !IsAssignableFrom(cm, IDENTIFIED, RuntimeClass(obj).value)
    requires GetIdentityMember(cm, st.members, RuntimeClass(obj).value) == Success((None, st.members))
    requires var id := EntityKeys.GetId(cm, host, st.keys, obj, ownId).result; id.Success? && id.value != Null
    ensures GetIdentity(cm, host, st, obj, defaultVal, ownIdentity, ownId).result
              == Success(Some(ToText(host, EntityKeys.GetId(cm, host, st.keys, obj, ownId).result.value)))
  {
  }

  /** An identity field holding a String gives that String, whatever the default. */
  lemma IdentityFieldGivesValue(cm: Classes, host: Host, st: IdentityState, obj: Value, defaultVal: Option<string>,
                                ownIdentity: Value -> Result<Option<string>>, ownId: Value -> Result<Value>, f: Field, s: string)
    requires obj != Null && !IsAssignableFrom(cm, IDENTIFIED, RuntimeClass(obj).value)
    requires GetIdentityMember(cm, st.members, RuntimeClass(obj).value).Success?
    requires GetIdentityMember(cm, st.members, RuntimeClass(obj).value).value.0 == Some(FieldMember(f))
    requires f.isPublic || !IsIdentityField(f)
    requires ReadField(cm, obj, f) == Success(Str(s))
    ensures GetIdentity(cm, host, st, obj, defaultVal, ownIdentity, ownId).result == Success(Some(s))
  {
  }

  /**
   * A non-public @Identity field or method cannot be read without being
   * opened: the IllegalAccessException is caught, and the identity is the
   * text of the object's id, or the default.
   */
  lemma HiddenIdentityFallsBack(cm: Classes, host: Host, st: IdentityState, obj: Value, defaultVal: Option<string>,
                                ownIdentity: Value -> Result<Option<string>>, ownId: Value -> Result<Value>, m: Member)
    requires obj != Null && !IsAssignableFrom(cm, IDENTIFIED, RuntimeClass(obj).value)
    requires GetIdentityMember(cm, st.members, RuntimeClass(obj).value).Success?
    requires GetIdentityMember(cm, st.members, RuntimeClass(obj).value).value.0 == Some(m)
    requires HasTag(m.Tags(), IdentityKind) && !IsPublicMember(m)
    ensures GetIdentity(cm, host, st, obj, defaultVal, ownIdentity, ownId).result
              == Success(IdText(cm, host, st.keys, obj, defaultVal, ownId).0)
  {
  }
}

=== FILE: java_int.dfy ===
/**
 * Java's fixed-width integers: wrap-around arithmetic and the decimal text
 * forms used by Integer.toString / Integer.valueOf and their Byte, Short and
 * Long counterparts.
 */
module JavaInt {
  import opened Wrappers

  const TWO_32: int := 0x1_0000_0000
  const INT_MIN: int := -0x8000_0000
  const INT_MAX: int := 0x7fff_ffff

  /** The boxed integral types, each with its own range. */
  datatype IntKind = ByteKind | ShortKind | IntegerKind | LongKind {
    function Min(): int {
      match this
      case ByteKind => -128
      case ShortKind => -32768
      case IntegerKind => INT_MIN
      case LongKind => -0x8000_0000_0000_0000
    }
    function Max(): int {
      match this
      case ByteKind => 127
      case ShortKind => 32767
      case IntegerKind => INT_MAX
      case LongKind => 0x7fff_ffff_ffff_ffff
    }
    predicate InRange(v: int) {
      Min() <= v <= Max()
    }
  }

  predicate IsInt(x: int) {
    INT_MIN <= x <= INT_MAX
  }

  /** Two's-complement 32-bit wrap-around of an exact result. */
  function Wrap32(x: int): (r: int)
    ensures IsInt(r)
    ensures (r - x) % TWO_32 == 0
    ensures IsInt(x) ==> r == x
  {
    (x - INT_MIN) % TWO_32 + INT_MIN
  }

  /** Java `int` addition. */
  function Add32(a: int, b: int): (r: int)
    ensures IsInt(r)
    ensures IsInt(a + b) ==> r == a + b
    ensures a == INT_MAX && b == 1 ==> r == INT_MIN
  {
    Wrap32(a + b)
  }

  /** Java `int` multiplication. */
  function Mul32(a: int, b: int): (r: int)
    ensures IsInt(r)
    ensures IsInt(a * b) ==> r == a * b
  {
    Wrap32(a * b)
  }

  function DigitChar(d: int): (r: char)
    requires 0 <= d < 10
    ensures '0' <= r <= '9'
  {
    ('0' as int + d) as char
  }

  function DigitValue(c: char): (r: int)
    requires '0' <= c <= '9'
    ensures 0 <= r < 10 && DigitChar(r) == c
  {
    c as int - '0' as int
  }

  predicate AllDigits(s: string) {
    forall i :: 0 <= i < |s| ==> '0' <= s[i] <= '9'
  }

  /** The decimal digits of `n` with no leading zero. */
  function NatDigits(n: nat): (r: string)
    ensures |r| >= 1 && AllDigits(r)
    ensures n >= 10 ==> r[0] != '0'
    ensures n == 0 <==> r == "0"
  {
    if n < 10 then [DigitChar(n)] else NatDigits(n / 10) + [DigitChar(n % 10)]
  }

  /** The value of a string of decimal digits, read most significant first. */
  function DigitsValue(s: string): (r: nat)
    requires AllDigits(s)
  {
    if s == [] then 0 else 10 * DigitsValue(s[..|s| - 1]) + DigitValue(s[|s| - 1])
  }

  lemma {:induction false} DigitsValueOfNatDigits(n: nat)
    ensures DigitsValue(NatDigits(n)) == n
    decreases n
  {
    if n >= 10 {
      var s := NatDigits(n / 10) + [DigitChar(n % 10)];
      assert s[..|s| - 1] == NatDigits(n / 10);
      DigitsValueOfNatDigits(n / 10);
    }
  }

  /** Integer.toString / Long.toString / String.valueOf of an integral value. */
  function ShowInt(v: int): (r: string)
    ensures |r| >= 1
    ensures v >= 0 ==> AllDigits(r)
    ensures v < 0 ==> r[0] == '-' && AllDigits(r[1..])
  {
    if v < 0 then "-" + NatDigits(-v) else NatDigits(v)
  }

  /**
   * Integer.parseInt and friends (what valueOf and the String constructors
   * use): an optional sign, at least one decimal digit, and a value inside
   * the kind's range; anything else is a NumberFormatException, here None.
   */
  function ParseInt(s: string, kind: IntKind): (r: Option<int>)
    ensures r.Some? ==> kind.InRange(r.value)
    ensures r.Some? ==> |s| >= 1
  {
    if s == [] then None
    else
      var neg := s[0] == '-';
      var body := if s[0] == '-' || s[0] == '+' then s[1..] else s;
      if body == [] || !AllDigits(body) then None
      else
        var mag: int := DigitsValue(body);
        var v := if neg then -mag else mag;
        if kind.InRange(v) then Some(v) else None
  }

  /** Parsing the decimal text of any in-range value gives the value back. */
  lemma ParseShowInt(v: int, kind: IntKind)
    requires kind.InRange(v)
    ensures ParseInt(ShowInt(v), kind) == Some(v)
  {
    var s := ShowInt(v);
    if v < 0 {
      assert s[0] == '-';
      assert s[1..] == NatDigits(-v);
      DigitsValueOfNatDigits(-v);
    } else {
      assert s == NatDigits(v);
      assert s[0] != '-' && s[0] != '+';
      DigitsValueOfNatDigits(v);
    }
  }

  /** The decimal text never contains anything but a leading minus and digits. */
  lemma ShowIntAlphabet(v: int, c: char)
    requires c in ShowInt(v)
    ensures c == '-' || '0' <= c <= '9'
  {
    var i :| 0 <= i < |ShowInt(v)| && ShowInt(v)[i] == c;
    if v < 0 && i > 0 {
      assert ShowInt(v)[1..][i - 1] == c;
    }
  }
}

=== FILE: java_source.dfy ===
/**
 * JavaUtil.toJavaSource: the Java source text of a literal value, for
 * strings, characters, the integral types, booleans and their boxed forms.
 * Each form is paired with a reader for the Java literal syntax it targets.
 */
module JavaSource {
  import opened Wrappers
  import JavaInt

  // ------------------------------------------------------------ characters and strings

  /** charToString: the eight characters with a two-character escape, everything else as itself. */
  function CharEscape(c: char): (r: string)
    ensures 1 <= |r| <= 2
    ensures |r| == 2 ==> r[0] == '\\'
    ensures |r| == 1 ==> r == [c] && c != '\\' && c != '"' && c != '\'' && c != '\n' && c != '\r'
  {
    match c
    case '\n' => "\\n"
    case '\t' => "\\t"
    case '\U{0008}' => "\\b"
    case '\U{000C}' => "\\f"
    case '\r' => "\\r"
    case '"' => "\\\""
    case '\'' => "\\'"
    case '\\' => "\\\\"
    case _ => [c]
  }

  /** The escaped characters of `s`, in order. */
  function EscapeBody(s: string): string {
    if s == [] then [] else CharEscape(s[0]) + EscapeBody(s[1..])
  }

  /** toJavaSource(String): the string between double quotes with every character escaped. */
  function StringSource(s: string): (r: string)
    ensures |r| >= 2 && r[0] == '"' && r[|r| - 1] == '"'
  {
    "\"" + EscapeBody(s) + "\""
  }

  /** toJavaSource(char): the escaped character between single quotes. */
  function CharSource(c: char): (r: string)
    ensures 3 <= |r| <= 4 && r[0] == '\'' && r[|r| - 1] == '\''
  {
    "'" + CharEscape(c) + "'"
  }

  /** toJavaSource(Character): a null Character fails when it is unboxed. */
  function CharacterSource(c: Option<char>): (r: Result<string>)
    ensures c.None? <==> r == Failure(NullPointer)
  {
    match c
    case None => Failure(NullPointer)
    case Some(x) => Success("Character.valueOf(" + CharSource(x) + ")")
  }

  /** toJavaSource(Object): the string literal of the value's toString text (None when the value is null). */
  function ObjectSource(text: Option<string>): (r: Result<string>)
    ensures text.None? <==> r == Failure(NullPointer)
  {
    match text
    case None => Failure(NullPointer)
    case Some(t) => Success(StringSource(t))
  }

  // ------------------------------------------------------------ reading literals back

  /** The character a Java escape sequence `\x` stands for, for the escapes above. */
  function EscapedChar(x: char): Option<char> {
    match x
    case 'n' => Some('\n')
    case 't' => Some('\t')
    case 'b' => Some('\U{0008}')
    case 'f' => Some('\U{000C}')
    case 'r' => Some('\r')
    case '"' => Some('"')
    case '\'' => Some('\'')
    case '\\' => Some('\\')
    case _ => None
  }

  /**
   * The characters a literal body stands for, where `quote` closes the
   * literal: a raw quote, a raw line break, a dangling backslash or an
   * unknown escape make the body ill-formed.
   */
  function ReadBody(b: string, quote: char): Option<string> {
    if b == [] then Some([])
    else if b[0] == '\\' then
      if |b| < 2 || EscapedChar(b[1]).None? then None
      else match ReadBody(b[2..], quote)
        case None => None
        case Some(rest) => Some([EscapedChar(b[1]).value] + rest)
    else if b[0] == quote || b[0] == '\n' || b[0] == '\r' then None
    else match ReadBody(b[1..], quote)
      case None => None
      case Some(rest) => Some([b[0]] + rest)
  }

  /** A Java string literal read back: `"` body `"`. */
  function ReadStringLiteral(t: string): Option<string> {
    if |t| >= 2 && t[0] == '"' && t[|t| - 1] == '"' then ReadBody(t[1..|t| - 1], '"') else None
  }

  /** A Java character literal read back: `'` one character or escape `'`. */
  function ReadCharLiteral(t: string): Option<char> {
    if |t| >= 3 && t[0] == '\'' && t[|t| - 1] == '\'' then
      match ReadBody(t[1..|t| - 1], '\'')
      case Some(s) => if |s| == 1 then Some(s[0]) else None
      case None => None
    else None
  }

  lemma EscapeOne(c: char, rest: string, quote: char)
    requires quote == '"' || quote == '\''
    ensures ReadBody(CharEscape(c) + rest, quote) ==
      (match ReadBody(rest, quote) case None => None case Some(r) => Some([c] + r))
  {
    var e := CharEscape(c);
    var t := e + rest;
    if |e| == 2 {
      assert t[0] == '\\' && t[1] == e[1];
      assert t[2..] == rest;
    } else {
      assert t[0] == c;
      assert t[1..] == rest;
    }
  }

  /** Reading an escaped body gives the original characters back. */
  lemma {:induction false} ReadEscapeBody(s: string, quote: char)
    requires quote == '"' || quote == '\''
    ensures ReadBody(EscapeBody(s), quote) == Some(s)
  {
    if s == [] {
    } else {
      EscapeOne(s[0], EscapeBody(s[1..]), quote);
      ReadEscapeBody(s[1..], quote);
      assert [s[0]] + s[1..] == s;
    }
  }

  /** Every string's source form is a well-formed string literal standing for that string. */
  lemma ReadStringSource(s: string)
    ensures ReadStringLiteral(StringSource(s)) == Some(s)
  {
    var t := StringSource(s);
    assert t[1..|t| - 1] == EscapeBody(s);
    ReadEscapeBody(s, '"');
  }

  /** Every character's source form is a well-formed character literal standing for that character. */
  lemma ReadCharSource(c: char)
    ensures ReadCharLiteral(CharSource(c)) == Some(c)
  {
    var t := CharSource(c);
    assert t[1..|t| - 1] == CharEscape(c);
    assert EscapeBody([c]) == CharEscape(c) + EscapeBody([]);
    assert CharEscape(c) + [] == CharEscape(c);
    ReadEscapeBody([c], '\'');
  }

  /** The source form is injective: different strings give different literals. */
  lemma StringSourceInjective(a: string, b: string)
    requires StringSource(a) == StringSource(b)
    ensures a == b
  {
    ReadStringSource(a);
    ReadStringSource(b);
  }

  // ------------------------------------------------------------ integral values

  /** toJavaSource(int): the decimal text, which Integer.parseInt reads back as the value. */
  function IntSource(v: int): (r: string)
    ensures JavaInt.IntKind.IntegerKind.InRange(v) ==> JavaInt.ParseInt(r, JavaInt.IntKind.IntegerKind) == Some(v)
    ensures v >= 0 ==> JavaInt.AllDigits(r)
    ensures v < 0 ==> |r| >= 1 && r[0] == '-' && JavaInt.AllDigits(r[1..])
  {
    var r := JavaInt.ShowInt(v);
    assert JavaInt.IntKind.IntegerKind.InRange(v) ==> JavaInt.ParseInt(r, JavaInt.IntKind.IntegerKind) == Some(v) by {
      if JavaInt.IntKind.IntegerKind.InRange(v) {
        JavaInt.ParseShowInt(v, JavaInt.IntKind.IntegerKind);
      }
    }
    r
  }

  /** The decimal text inside a boxed form; Java's string concatenation shows null as `null`. */
  function BoxedText(v: Option<int>): string {
    match v
    case None => "null"
    case Some(x) => JavaInt.ShowInt(x)
  }

  /** toJavaSource(Integer). */
  function IntegerSource(v: Option<int>): string {
    "Integer.valueOf(" + BoxedText(v) + ")"
  }

  /** toJavaSource(long): the decimal text with the `L` suffix. */
  function LongSource(v: int): string {
    JavaInt.ShowInt(v) + "L"
  }

  /** toJavaSource(Long), as the library writes it: no `L` on the argument. */
  function BoxedLongSource(v: Option<int>): string {
    "Long.valueOf(" + BoxedText(v) + ")"
  }

  /** toJavaSource(Long) with the argument written as a long literal. */
  function BoxedLongSourceFixed(v: Option<int>): string {
    match v
    case None => "Long.valueOf(null)"
    case Some(x) => "Long.valueOf(" + LongSource(x) + ")"
  }

  /** toJavaSource(short). */
  function ShortSource(v: int): string {
    "(short)" + JavaInt.ShowInt(v)
  }

  /** toJavaSource(Short). */
  function BoxedShortSource(v: Option<int>): string {
    "Short.valueOf((short)" + BoxedText(v) + ")"
  }

  /** toJavaSource(byte). */
  function ByteSource(v: int): string {
    "(byte)" + JavaInt.ShowInt(v)
  }

  /** toJavaSource(Byte). */
  function BoxedByteSource(v: Option<int>): string {
    "Byte.valueOf((byte)" + BoxedText(v) + ")"
  }

  /** toJavaSource(boolean). */
  function BoolSource(b: bool): string {
    if b then "true" else "false"
  }

  /** toJavaSource(Boolean). */
  function BooleanSource(b: Option<bool>): string {
    match b
    case None => "Boolean.valueOf(null)"
    case Some(x) => "Boolean.valueOf(" + BoolSource(x) + ")"
  }

  /**
   * A signed decimal integer literal as javac reads it (section 3.10.1 of
   * the Java Language Specification): with an `L` suffix it is a long and
   * must fit a long; without one it is an int and its magnitude may be at
   * most 2^31, and exactly 2^31 only when negated.
   */
  function ReadDecimalLiteral(t: string): Option<int> {
    if t == [] then None
    else if t[|t| - 1] == 'L' then ReadSigned(t[..|t| - 1], 0x8000_0000_0000_0000)
    else ReadSigned(t, 0x8000_0000)
  }

  /** An optional minus and decimal digits whose value lies in [-limit, limit). */
  function ReadSigned(body: string, limit: nat): Option<int> {
    var neg := body != [] && body[0] == '-';
    var digits := if neg then body[1..] else body;
    if digits == [] || !JavaInt.AllDigits(digits) then None
    else
      var mag: int := JavaInt.DigitsValue(digits);
      if mag > limit || (mag == limit && !neg) then None
      else Some(if neg then -mag else mag)
  }

  /** Reading decimal text back gives the value exactly when it lies in [-limit, limit). */
  lemma ReadSignedShown(v: int, limit: nat)
    ensures ReadSigned(JavaInt.ShowInt(v), limit) == if -(limit as int) <= v < limit then Some(v) else None
  {
    if v < 0 {
      ReadSignedNegative(v, limit);
    } else {
      ReadSignedNonNegative(v, limit);
    }
  }

  lemma ReadSignedNegative(v: int, limit: nat)
    requires v < 0
    ensures ReadSigned(JavaInt.ShowInt(v), limit) == if -v <= limit then Some(v) else None
  {
    var s := JavaInt.ShowInt(v);
    var d := JavaInt.NatDigits(-v);
    assert s[0] == '-' && s[1..] == d by {
      assert s == "-" + d;
    }
    assert d != [] && JavaInt.AllDigits(d);
    assert JavaInt.DigitsValue(d) == -v by {
      JavaInt.DigitsValueOfNatDigits(-v);
    }
  }

  lemma ReadSignedNonNegative(v: int, limit: nat)
    requires v >= 0
    ensures ReadSigned(JavaInt.ShowInt(v), limit) == if v < limit then Some(v) else None
  {
    var s := JavaInt.ShowInt(v);
    assert s == JavaInt.NatDigits(v);
    assert s[0] != '-';
    JavaInt.DigitsValueOfNatDigits(v);
  }

  lemma ShowIntLastNotL(v: int)
    ensures JavaInt.ShowInt(v)[|JavaInt.ShowInt(v)| - 1] != 'L'
  {
    var s := JavaInt.ShowInt(v);
    JavaInt.ShowIntAlphabet(v, s[|s| - 1]);
  }

  /** The argument text between `prefix(` and `)`, if `t` has that shape. */
  function CallArgument(t: string, prefix: string): Option<string> {
    if |t| >= |prefix| + 2 && t[..|prefix|] == prefix && t[|prefix|] == '(' && t[|t| - 1] == ')'
    then Some(t[|prefix| + 1..|t| - 1])
    else None
  }

  /** The value a `Long.valueOf(...)` source text denotes, if its argument is a valid literal. */
  function ReadBoxedLong(t: string): Option<int> {
    match CallArgument(t, "Long.valueOf")
    case None => None
    case Some(a) => ReadDecimalLiteral(a)
  }

  /** The int source form reads back as the value it shows. */
  lemma ReadIntSource(v: int)
    requires JavaInt.IntKind.IntegerKind.InRange(v)
    ensures ReadDecimalLiteral(IntSource(v)) == Some(v)
  {
    ShowIntLastNotL(v);
    ReadSignedShown(v, 0x8000_0000);
  }

  /** The long source form reads back as the value it shows. */
  lemma ReadLongSource(v: int)
    requires JavaInt.IntKind.LongKind.InRange(v)
    ensures ReadDecimalLiteral(LongSource(v)) == Some(v)
  {
    var t := LongSource(v);
    assert t[..|t| - 1] == JavaInt.ShowInt(v);
    ReadSignedShown(v, 0x8000_0000_0000_0000);
  }

  /** The argument of a `Long.valueOf(` ... `)` text is what stands between the parentheses. */
  lemma LongCallArgument(a: string)
    ensures CallArgument("Long.valueOf(" + a + ")", "Long.valueOf") == Some(a)
  {
    var t := "Long.valueOf(" + a + ")";
    assert t[..12] == "Long.valueOf";
    assert t[13..|t| - 1] == a;
  }

  /** The library's boxed long form is not valid source for any long beyond the int range. */
  lemma BoxedLongOutOfIntRange(v: int)
    requires JavaInt.IntKind.LongKind.InRange(v) && !JavaInt.IntKind.IntegerKind.InRange(v)
    ensures ReadBoxedLong(BoxedLongSource(Some(v))) == None
  {
    LongCallArgument(JavaInt.ShowInt(v));
    ShowIntLastNotL(v);
    ReadSignedShown(v, 0x8000_0000);
  }

  /** For instance three billion, a valid long. */
  lemma BoxedLongThreeBillion()
    ensures JavaInt.IntKind.LongKind.InRange(3000000000)
    ensures ReadBoxedLong(BoxedLongSource(Some(3000000000))) == None
  {
    BoxedLongOutOfIntRange(3000000000);
  }

  /** With the suffix, every long's boxed form reads back as that long. */
  lemma ReadBoxedLongFixed(v: int)
    requires JavaInt.IntKind.LongKind.InRange(v)
    ensures ReadBoxedLong(BoxedLongSourceFixed(Some(v))) == Some(v)
  {
    LongCallArgument(LongSource(v));
    ReadLongSource(v);
  }

  /** The two boolean forms differ, so the value can be read off the text. */
  lemma BoolSourceMeans(b: bool)
    ensures BoolSource(b) == "true" <==> b
    ensures BooleanSource(Some(b)) == "Boolean.valueOf(true)" <==> b
  {
    if !b {
      assert BoolSource(b)[0] == 'f';
      assert BooleanSource(Some(b))[16] == 'f';
    }
  }
}

=== FILE: key_util.dfy ===
/**
 * KeyUtil: the text form of entity keys and the resolution of an entity's
 * key class.  A key whose class is a JDK class (or sits in the default
 * package) is written as one scalar; any other key is written as its
 * declared fields, each encoded on its own, joined by ':'.
 */
module KeyUtil {
  import opened Wrappers
  import opened Text
  import opened ClassModel
  import opened Values
  import JavaInt
  import FormCodec
  import Members
  import Seqs
  import StringUtil

  /** The boxed Long class, whose constructor a Date key class would need. */
  const LONG_CLASS: ClassName := BoxedName(JavaInt.IntKind.LongKind)

  /** A key class written as a single scalar: a java.* class or one without a package. */
  predicate IsScalarKeyClass(c: ClassName) {
    StartsWith(c, "java.") || '.' !in c
  }

  /** The JDK value classes the codec singles out, which a class model leaves to the JDK. */
  predicate JdkValueClassesUndeclared(cm: Classes) {
    STRING !in cm && BOOLEAN !in cm && DATE !in cm && CHARACTER !in cm
    && forall k: JavaInt.IntKind :: BoxedName(k) !in cm
  }

  // ------------------------------------------------------------ writing

  /**
   * serializeFieldValue(val): a String is form-encoded, a Date is its
   * milliseconds, a Boolean is "1" or "0", anything else its toString (a
   * Character included, unescaped).  The source's branch for primitive
   * classes is never taken, getClass() of a value being a boxed class.
   */
  function SerializeFieldValue(host: Host, v: Value): (r: Result<string>)
    ensures r.Failure? <==> v == Null
    ensures r.Failure? ==> r.error == NullPointer
    ensures v.Str? ==> FormCodec.Decode(r.value) == Success(v.s) && ':' !in r.value
    ensures v.Bool? ==> r.value == (if v.b then "1" else "0")
    ensures v.Int? && v.kind.InRange(v.i) ==> JavaInt.ParseInt(r.value, v.kind) == Some(v.i) && ':' !in r.value
    ensures v.DateVal? ==> r.value == JavaInt.ShowInt(v.millis)
    ensures v.Chr? ==> r.value == [v.c]
    ensures v.Obj? ==> r.value == host.describe(v)
  {
    match v
    case Null => Failure(NullPointer)
    case Str(s) =>
      FormCodec.DecodeEncode(s);
      FormCodec.EncodeHasNoColon(s);
      Success(FormCodec.Encode(s))
    case DateVal(ms) => Success(JavaInt.ShowInt(ms))
    case Bool(b) => Success(if b then "1" else "0")
    case Int(k, i) =>
      (if k.InRange(i) then JavaInt.ParseShowInt(i, k); NoColonInShowInt(i); Success(JavaInt.ShowInt(i))
       else Success(JavaInt.ShowInt(i)))
    case Chr(c) => Success([c])
    case Obj(_, _) => Success(host.describe(v))
  }

  lemma NoColonInShowInt(x: int)
    ensures ':' !in JavaInt.ShowInt(x)
  {
    if ':' in JavaInt.ShowInt(x) {
      JavaInt.ShowIntAlphabet(x, ':');
    }
  }

  /**
   * The loop of serialize over the declared fields: each value is read,
   * must not be null, and is encoded; the first failure ends the loop.
   */
  function SerializeFields(cm: Classes, host: Host, key: Value, fs: seq<Field>): (r: Result<seq<string>>)
    ensures r.Success? ==> |r.value| == |fs|
    ensures r.Success? ==> forall i :: 0 <= i < |fs| ==>
              ReadField(cm, key, fs[i]).Success? && ReadField(cm, key, fs[i]).value != Null
              && SerializeFieldValue(host, ReadField(cm, key, fs[i]).value) == Success(r.value[i])
    ensures r.Failure? <==> exists i :: 0 <= i < |fs| && (ReadField(cm, key, fs[i]).Failure? || ReadField(cm, key, fs[i]).value == Null)
    ensures r.Failure? ==> r.error.UtilityError?
  {
    if fs == [] then Success([])
    else
      match ReadField(cm, key, fs[0])
      case Failure(_) => Failure(UtilityError(fs[0].name))
      case Success(v) =>
        if v == Null then Failure(UtilityError(fs[0].name))
        else
          match SerializeFields(cm, host, key, fs[1..])
          case Failure(e) => Failure(e)
          case Success(rest) => Success([SerializeFieldValue(host, v).value] + rest)
  }

  /**
   * serialize(key): a null key is refused; a scalar key class is encoded
   * whole; otherwise the declared fields' encodings are joined by ':'.
   */
  function Serialize(cm: Classes, host: Host, key: Value): (r: Result<string>)
    ensures key == Null ==> r == Failure(UtilityError("key"))
    ensures key != Null && IsScalarKeyClass(RuntimeClass(key).value) ==> r == SerializeFieldValue(host, key)
    ensures key != Null && !IsScalarKeyClass(RuntimeClass(key).value) ==>
              var parts := SerializeFields(cm, host, key, Members.DeclaredFields(cm, RuntimeClass(key).value));
              (r.Success? <==> parts.Success?) && (r.Success? ==> r.value == Join(parts.value, ":"))
  {
    if key == Null then Failure(UtilityError("key"))
    else
      var c := RuntimeClass(key).value;
      if IsScalarKeyClass(c) then SerializeFieldValue(host, key)
      else
        match SerializeFields(cm, host, key, Members.DeclaredFields(cm, c))
        case Failure(e) => Failure(e)
        case Success(parts) => Success(Join(parts, ":"))
  }

  // ------------------------------------------------------------ reading

  /** The boxed integral kind a class name stands for, if any. */
  function BoxedKind(c: ClassName): (r: Option<JavaInt.IntKind>)
    ensures r.Some? ==> BoxedName(r.value) == c
    ensures r.None? ==> forall k: JavaInt.IntKind :: BoxedName(k) != c
  {
    if c == "java.lang.Byte" then Some(JavaInt.IntKind.ByteKind)
    else if c == "java.lang.Short" then Some(JavaInt.IntKind.ShortKind)
    else if c == "java.lang.Integer" then Some(JavaInt.IntKind.IntegerKind)
    else if c == "java.lang.Long" then Some(JavaInt.IntKind.LongKind)
    else None
  }

  /** An integral value parsed for `cls`, or the UtilityError every failure of deserializeFieldValue becomes. */
  function ParseIntegral(cls: ClassName, k: JavaInt.IntKind, val: string): (r: Result<Value>)
    ensures r.Success? <==> JavaInt.ParseInt(val, k).Some?
    ensures r.Success? ==> r.value == Int(k, JavaInt.ParseInt(val, k).value)
    ensures r.Failure? ==> r.error == UtilityError(cls)
  {
    match JavaInt.ParseInt(val, k)
    case None => Failure(UtilityError(cls))
    case Some(i) => Success(Int(k, i))
  }

  /**
   * deserializeFieldValue(cls, val).  Primitives: boolean is val == "1",
   * the integral types parse, char is the first character of the decoded
   * text.  Then a String is form-decoded; a Date class needs a constructor
   * taking a Long, which java.util.Date does not have; a Boolean is
   * val == "1"; anything else goes through its (String) constructor.
   * `construct(cls, val)` is that constructor (and Float/Double.valueOf),
   * whose code the model cannot see.  Every failure is a UtilityError.
   */
  function DeserializeFieldValue(cm: Classes, construct: (ClassName, string) -> Result<Value>,
                                 cls: ClassName, val: string): (r: Result<Value>)
    ensures r.Failure? ==> r.error == UtilityError(cls)
    ensures cls == "boolean" ==> r == Success(Bool(val == "1"))
    ensures IntegralKind(cls).Some? ==> r == ParseIntegral(cls, IntegralKind(cls).value, val)
  {
    if IsPrimitive(cls) then
      if cls == "boolean" then Success(Bool(val == "1"))
      else if IntegralKind(cls).Some? then ParseIntegral(cls, IntegralKind(cls).value, val)
      else if cls == "char" then
        match FormCodec.Decode(val)
        case Failure(_) => Failure(UtilityError(cls))
        case Success(s) => if s == [] then Failure(UtilityError(cls)) else Success(Chr(s[0]))
      else if cls == "float" || cls == "double" then Constructed(construct, cls, val)
      else Failure(UtilityError(cls))
    else if IsAssignableFrom(cm, STRING, cls) then
      match FormCodec.Decode(val)
      case Failure(_) => Failure(UtilityError(cls))
      case Success(s) => Success(Str(s))
    else if IsAssignableFrom(cm, DATE, cls) then
      if !HasCtor(cm, cls, [LONG_CLASS]) then Failure(UtilityError(cls))
      else
        match JavaInt.ParseInt(val, JavaInt.IntKind.LongKind)
        case None => Failure(UtilityError(cls))
        case Some(ms) => Success(DateVal(ms))
    else if IsAssignableFrom(cm, BOOLEAN, cls) then Success(Bool(val == "1"))
    else if BoxedKind(cls).Some? then ParseIntegral(cls, BoxedKind(cls).value, val)
    else if HasCtor(cm, cls, [STRING]) then Constructed(construct, cls, val)
    else Failure(UtilityError(cls))
  }

  /** A constructor call whose failure becomes a UtilityError for `cls`. */
  function Constructed(construct: (ClassName, string) -> Result<Value>, cls: ClassName, val: string): (r: Result<Value>)
    ensures r.Success? <==> construct(cls, val).Success?
    ensures r.Success? ==> r.value == construct(cls, val).value
    ensures r.Failure? ==> r.error == UtilityError(cls)
  {
    match construct(cls, val)
    case Failure(_) => Failure(UtilityError(cls))
    case Success(v) => Success(v)
  }

  /**
   * The loop of deserialize from field `i` on: decode the i-th part for the
   * i-th field's type and set it on the key; the first failure ends it
   * (Field.set's own IllegalArgumentException passes through unchanged).
   */
  function SetFieldsFrom(cm: Classes, construct: (ClassName, string) -> Result<Value>,
                         key: Value, fs: seq<Field>, parts: seq<string>, i: nat): (r: Result<Value>)
    requires |fs| == |parts| && i <= |fs|
    ensures r.Success? && key.Obj? ==> r.value.Obj? && r.value.cls == key.cls
    decreases |fs| - i
  {
    if i == |fs| then Success(key)
    else
      match DeserializeFieldValue(cm, construct, fs[i].ftype, parts[i])
      case Failure(e) => Failure(e)
      case Success(v) =>
        match WriteField(cm, key, fs[i], v)
        case Failure(e) => Failure(e)
        case Success(key') => SetFieldsFrom(cm, construct, key', fs, parts, i + 1)
  }

  /**
   * deserialize(keyClass, ser): a scalar key class decodes the whole text;
   * otherwise the text is split on ':' as String.split does (trailing empty
   * parts dropped), the number of parts must equal the number of declared
   * fields, and a new key made with the no-argument constructor receives
   * the parts in field order.  The two checked exceptions of newInstance
   * become a UtilityError; an exception of the constructor body escapes.
   */
  function Deserialize(cm: Classes, host: Host, construct: (ClassName, string) -> Result<Value>,
                       keyClass: ClassName, ser: string): (r: Result<Value>)
    ensures IsScalarKeyClass(keyClass) ==> r == DeserializeFieldValue(cm, construct, keyClass, ser)
    ensures !IsScalarKeyClass(keyClass) && |JavaSplit(ser, ':')| != |Members.DeclaredFields(cm, keyClass)| ==>
              r == Failure(UtilityError(keyClass))
    ensures !IsScalarKeyClass(keyClass) && !Instantiable(cm, keyClass) ==> r == Failure(UtilityError(keyClass))
    ensures !IsScalarKeyClass(keyClass) && |JavaSplit(ser, ':')| == |Members.DeclaredFields(cm, keyClass)|
            && Instantiable(cm, keyClass) && host.initialise(keyClass).Failure? ==>
              var e := host.initialise(keyClass).error;
              r == Failure(if NewInstanceChecked(e) then UtilityError(keyClass) else e)
    ensures !IsScalarKeyClass(keyClass) && r.Success? ==> r.value.Obj? && r.value.cls == keyClass
  {
    if IsScalarKeyClass(keyClass) then DeserializeFieldValue(cm, construct, keyClass, ser)
    else
      var parts := JavaSplit(ser, ':');
      var fs := Members.DeclaredFields(cm, keyClass);
      if |parts| != |fs| then Failure(UtilityError(keyClass))
      else
        match NewInstance(cm, host, keyClass)
        case Failure(e) => Failure(if NewInstanceChecked(e) then UtilityError(keyClass) else e)
        case Success(k) => SetFieldsFrom(cm, construct, k, fs, parts, 0)
  }

  // ------------------------------------------------------------ round trip

  /**
   * A field type the codec carries both ways, with a value of it: a String,
   * a boolean or Boolean, or an in-range integral value in its primitive or
   * boxed type.
   */
  predicate Carried(t: ClassName, v: Value) {
    match v
    case Str(_) => t == STRING
    case Bool(_) => t == "boolean" || t == BOOLEAN
    case Int(k, i) => k.InRange(i) && (t == PrimitiveName(k) || t == BoxedName(k))
    case _ => false
  }

  /** A class the model does not declare is assignable only to itself and, unless primitive, to Object. */
  lemma UndeclaredAssignable(cm: Classes, to: ClassName, c: ClassName)
    requires c !in cm
    ensures IsAssignableFrom(cm, to, c) <==> to == c || (to == OBJECT && !IsPrimitive(c))
  {
    Undeclared(cm, c);
  }

  /** Each carried value comes back from its own encoding. */
  lemma FieldValueRoundTrip(cm: Classes, host: Host, construct: (ClassName, string) -> Result<Value>, t: ClassName, v: Value)
    requires JdkValueClassesUndeclared(cm) && Carried(t, v)
    ensures ':' !in SerializeFieldValue(host, v).value
    ensures DeserializeFieldValue(cm, construct, t, SerializeFieldValue(host, v).value) == Success(v)
    ensures Fits(cm, t, v) && Widen(t, v) == v
  {
    match v
    case Str(x) => StringRoundTrip(cm, host, construct, x);
    case Bool(b) => BoolRoundTrip(cm, host, construct, t, b);
    case Int(k, i) => IntRoundTrip(cm, host, construct, t, k, i);
  }

  lemma StringRoundTrip(cm: Classes, host: Host, construct: (ClassName, string) -> Result<Value>, x: string)
    requires STRING !in cm
    ensures ':' !in SerializeFieldValue(host, Str(x)).value
    ensures DeserializeFieldValue(cm, construct, STRING, SerializeFieldValue(host, Str(x)).value) == Success(Str(x))
    ensures Fits(cm, STRING, Str(x)) && Widen(STRING, Str(x)) == Str(x)
  {
    UndeclaredAssignable(cm, STRING, STRING);
  }

  lemma BoolRoundTrip(cm: Classes, host: Host, construct: (ClassName, string) -> Result<Value>, t: ClassName, b: bool)
    requires JdkValueClassesUndeclared(cm) && (t == "boolean" || t == BOOLEAN)
    ensures ':' !in SerializeFieldValue(host, Bool(b)).value
    ensures DeserializeFieldValue(cm, construct, t, SerializeFieldValue(host, Bool(b)).value) == Success(Bool(b))
    ensures Fits(cm, t, Bool(b)) && Widen(t, Bool(b)) == Bool(b)
  {
    var text := SerializeFieldValue(host, Bool(b)).value;
    assert text == (if b then "1" else "0");
    assert (text == "1") == b;
    if t == BOOLEAN {
      UndeclaredAssignable(cm, STRING, t);
      UndeclaredAssignable(cm, DATE, t);
      UndeclaredAssignable(cm, BOOLEAN, t);
    }
  }

  lemma IntRoundTrip(cm: Classes, host: Host, construct: (ClassName, string) -> Result<Value>,
                     t: ClassName, k: JavaInt.IntKind, i: int)
    requires JdkValueClassesUndeclared(cm) && k.InRange(i) && (t == PrimitiveName(k) || t == BoxedName(k))
    ensures ':' !in SerializeFieldValue(host, Int(k, i)).value
    ensures DeserializeFieldValue(cm, construct, t, SerializeFieldValue(host, Int(k, i)).value) == Success(Int(k, i))
    ensures Fits(cm, t, Int(k, i)) && Widen(t, Int(k, i)) == Int(k, i)
  {
    var text := SerializeFieldValue(host, Int(k, i)).value;
    assert JavaInt.ParseInt(text, k) == Some(i);
    if t == BoxedName(k) {
      BoxedDecodes(cm, construct, k, text);
      UndeclaredAssignable(cm, t, t);
    } else {
      assert IntegralKind(t) == Some(k);
    }
  }

  /** A boxed integral class decodes what parses for its kind. */
  lemma BoxedDecodes(cm: Classes, construct: (ClassName, string) -> Result<Value>, k: JavaInt.IntKind, text: string)
    requires JdkValueClassesUndeclared(cm) && JavaInt.ParseInt(text, k).Some?
    ensures DeserializeFieldValue(cm, construct, BoxedName(k), text) == Success(Int(k, JavaInt.ParseInt(text, k).value))
  {
    var t := BoxedName(k);
    UndeclaredAssignable(cm, STRING, t);
    UndeclaredAssignable(cm, DATE, t);
    UndeclaredAssignable(cm, BOOLEAN, t);
    assert BoxedKind(t) == Some(k);
  }

  /** Writing each decoded part in turn leaves every field holding its value. */
  lemma {:induction false} SetFieldsFromStores(cm: Classes, construct: (ClassName, string) -> Result<Value>,
                                               key: Value, fs: seq<Field>, parts: seq<string>, vals: seq<Value>, i: nat)
    requires key.Obj? && |fs| == |parts| == |vals| && i <= |fs|
    requires forall j, k :: 0 <= j < k < |fs| ==> SlotOf(fs[j]) != SlotOf(fs[k])
    requires forall j :: i <= j < |fs| ==>
               DeserializeFieldValue(cm, construct, fs[j].ftype, parts[j]) == Success(vals[j])
               && IsInstance(cm, key, fs[j].declaring) && Fits(cm, fs[j].ftype, vals[j]) && Widen(fs[j].ftype, vals[j]) == vals[j]
    requires forall j :: 0 <= j < i ==> SlotOf(fs[j]) in key.slots && key.slots[SlotOf(fs[j])] == vals[j]
    ensures SetFieldsFrom(cm, construct, key, fs, parts, i).Success?
    ensures var r := SetFieldsFrom(cm, construct, key, fs, parts, i).value;
            r.Obj? && r.cls == key.cls
            && forall j :: 0 <= j < |fs| ==> SlotOf(fs[j]) in r.slots && r.slots[SlotOf(fs[j])] == vals[j]
    decreases |fs| - i
  {
    if i < |fs| {
      var key' := WriteField(cm, key, fs[i], vals[i]).value;
      assert key'.slots == key.slots[SlotOf(fs[i]) := vals[i]];
      assert RuntimeClass(key') == RuntimeClass(key);
      SetFieldsFromStores(cm, construct, key', fs, parts, vals, i + 1);
    }
  }

  /** Splitting joined separator-free parts gives them back when the last one is not empty. */
  lemma SplitJoined(parts: seq<string>)
    requires parts != [] && forall i :: 0 <= i < |parts| ==> ':' !in parts[i]
    requires |parts| >= 2 ==> parts[|parts| - 1] != []
    ensures JavaSplit(Join(parts, ":"), ':') == parts
  {
    SplitJoinColon(parts);
    if |parts| >= 2 {
      var s := Join(parts, ":");
      assert s == parts[0] + ":" + Join(parts[1..], ":");
      assert s[|parts[0]|] == ':';
    }
  }

  lemma SplitJoinColon(parts: seq<string>)
    requires parts != [] && forall i :: 0 <= i < |parts| ==> ':' !in parts[i]
    ensures SplitAll(Join(parts, ":"), ':') == parts
  {
    assert ":" == [':'];
    StringUtil.SplitJoin(parts, ':');
  }

  /** The values of the fields `fs` of `key`, as read (the null value where a read fails). */
  function FieldValues(cm: Classes, key: Value, fs: seq<Field>): (r: seq<Value>)
    ensures |r| == |fs|
    ensures forall j :: 0 <= j < |fs| && ReadField(cm, key, fs[j]).Success? ==> r[j] == ReadField(cm, key, fs[j]).value
  {
    if fs == [] then []
    else
      var rest := FieldValues(cm, key, fs[1..]);
      assert forall j :: 1 <= j < |fs| ==> fs[j] == fs[1..][j - 1];
      [if ReadField(cm, key, fs[0]).Success? then ReadField(cm, key, fs[0]).value else Null] + rest
  }

  /** Every field of `fs` reads successfully on `key` and holds a carried value. */
  predicate AllCarried(cm: Classes, key: Value, fs: seq<Field>) {
    forall j :: 0 <= j < |fs| ==> ReadField(cm, key, fs[j]).Success? && Carried(fs[j].ftype, ReadField(cm, key, fs[j]).value)
  }

  /** The encodings of carried field values hold no separator, and each decodes back. */
  lemma PartsDecode(cm: Classes, host: Host, construct: (ClassName, string) -> Result<Value>,
                    key: Value, fs: seq<Field>)
    requires JdkValueClassesUndeclared(cm) && AllCarried(cm, key, fs)
    ensures SerializeFields(cm, host, key, fs).Success?
    ensures var parts := SerializeFields(cm, host, key, fs).value;
            var vals := FieldValues(cm, key, fs);
            forall j :: 0 <= j < |fs| ==>
              ':' !in parts[j]
              && DeserializeFieldValue(cm, construct, fs[j].ftype, parts[j]) == Success(vals[j])
              && Fits(cm, fs[j].ftype, vals[j]) && Widen(fs[j].ftype, vals[j]) == vals[j]
  {
    var vals := FieldValues(cm, key, fs);
    forall j | 0 <= j < |fs|
      ensures ReadField(cm, key, fs[j]).value != Null
    {
    }
    var parts := SerializeFields(cm, host, key, fs).value;
    forall j | 0 <= j < |fs|
      ensures ':' !in parts[j]
      ensures DeserializeFieldValue(cm, construct, fs[j].ftype, parts[j]) == Success(vals[j])
      ensures Fits(cm, fs[j].ftype, vals[j]) && Widen(fs[j].ftype, vals[j]) == vals[j]
    {
      FieldValueRoundTrip(cm, host, construct, fs[j].ftype, vals[j]);
    }
  }

  /** deserialize of a composite key whose text splits into as many parts as it has fields. */
  lemma DeserializeComposite(cm: Classes, host: Host, construct: (ClassName, string) -> Result<Value>, k: ClassName, ser: string)
    requires !IsScalarKeyClass(k) && NewInstance(cm, host, k).Success?
    requires |JavaSplit(ser, ':')| == |Members.DeclaredFields(cm, k)|
    ensures Deserialize(cm, host, construct, k, ser)
            == SetFieldsFrom(cm, construct, Obj(k, host.initialise(k).value), Members.DeclaredFields(cm, k), JavaSplit(ser, ':'), 0)
  {
  }

  /**
   * The round trip: a composite key whose declared fields are all carried
   * types with non-null values (and, with two or more fields, whose last
   * field does not encode to "") comes back from its text field for field,
   * whatever the zero-argument constructor leaves in the fresh key, so long
   * as it does not throw.
   */
  lemma RoundTrip(cm: Classes, host: Host, construct: (ClassName, string) -> Result<Value>, key: Value)
    requires JdkValueClassesUndeclared(cm)
    requires key.Obj? && !IsScalarKeyClass(key.cls) && Instantiable(cm, key.cls) && host.initialise(key.cls).Success?
    requires var fs := Members.DeclaredFields(cm, key.cls);
             fs != []
             && (forall j, k :: 0 <= j < k < |fs| ==> SlotOf(fs[j]) != SlotOf(fs[k]))
             && AllCarried(cm, key, fs)
             && (|fs| >= 2 ==> SerializeFieldValue(host, ReadField(cm, key, fs[|fs| - 1]).value).value != [])
    ensures Serialize(cm, host, key).Success?
    ensures var back := Deserialize(cm, host, construct, key.cls, Serialize(cm, host, key).value);
            back.Success? && back.value.Obj? && back.value.cls == key.cls
            && forall j :: 0 <= j < |Members.DeclaredFields(cm, key.cls)| ==>
                 ReadField(cm, back.value, Members.DeclaredFields(cm, key.cls)[j])
                 == ReadField(cm, key, Members.DeclaredFields(cm, key.cls)[j])
  {
    var fs := Members.DeclaredFields(cm, key.cls);
    var parts := SerializedParts(cm, host, construct, key);
    DeserializeComposite(cm, host, construct, key.cls, Join(parts, ":"));
    var back := ReadBack(cm, construct, key, Obj(key.cls, host.initialise(key.cls).value), fs, parts);
  }

  /**
   * The text of a composite key whose fields are all carried: its encoded
   * fields joined by ':', which split back into exactly those parts, each
   * decoding to the value its field holds.
   */
  lemma SerializedParts(cm: Classes, host: Host, construct: (ClassName, string) -> Result<Value>, key: Value)
    returns (parts: seq<string>)
    requires JdkValueClassesUndeclared(cm)
    requires key.Obj? && !IsScalarKeyClass(key.cls)
    requires var fs := Members.DeclaredFields(cm, key.cls);
             fs != [] && AllCarried(cm, key, fs)
             && (|fs| >= 2 ==> SerializeFieldValue(host, ReadField(cm, key, fs[|fs| - 1]).value).value != [])
    ensures Serialize(cm, host, key) == Success(Join(parts, ":"))
    ensures JavaSplit(Join(parts, ":"), ':') == parts
    ensures var fs := Members.DeclaredFields(cm, key.cls);
            var vals := FieldValues(cm, key, fs);
            |parts| == |fs|
            && forall j :: 0 <= j < |fs| ==>
                 DeserializeFieldValue(cm, construct, fs[j].ftype, parts[j]) == Success(vals[j])
                 && Fits(cm, fs[j].ftype, vals[j]) && Widen(fs[j].ftype, vals[j]) == vals[j]
  {
    var fs := Members.DeclaredFields(cm, key.cls);
    PartsDecode(cm, host, construct, key, fs);
    parts := SerializeFields(cm, host, key, fs).value;
    assert JavaSplit(Join(parts, ":"), ':') == parts by {
      assert |fs| >= 2 ==> parts[|parts| - 1] != [];
      SplitJoined(parts);
    }
  }

  /**
   * Decoding the parts into a fresh key of the same class and writing them
   * field by field leaves every field reading as it does on the original,
   * whatever the fresh key held before.
   */
  lemma ReadBack(cm: Classes, construct: (ClassName, string) -> Result<Value>,
                 key: Value, blank: Value, fs: seq<Field>, parts: seq<string>) returns (back: Value)
    requires key.Obj? && blank.Obj? && blank.cls == key.cls && |fs| == |parts|
    requires forall j, k :: 0 <= j < k < |fs| ==> SlotOf(fs[j]) != SlotOf(fs[k])
    requires forall j :: 0 <= j < |fs| ==> ReadField(cm, key, fs[j]).Success?
    requires var vals := FieldValues(cm, key, fs);
             forall j :: 0 <= j < |fs| ==>
               DeserializeFieldValue(cm, construct, fs[j].ftype, parts[j]) == Success(vals[j])
               && Fits(cm, fs[j].ftype, vals[j]) && Widen(fs[j].ftype, vals[j]) == vals[j]
    ensures SetFieldsFrom(cm, construct, blank, fs, parts, 0) == Success(back)
    ensures back.Obj? && back.cls == key.cls
    ensures forall j :: 0 <= j < |fs| ==> ReadField(cm, back, fs[j]) == ReadField(cm, key, fs[j])
  {
    var vals := FieldValues(cm, key, fs);
    assert forall j :: 0 <= j < |fs| ==> IsInstance(cm, blank, fs[j].declaring) by {
      assert RuntimeClass(blank) == RuntimeClass(key);
    }
    SetFieldsFromStores(cm, construct, blank, fs, parts, vals, 0);
    back := SetFieldsFrom(cm, construct, blank, fs, parts, 0).value;
    SlotsReadBack(cm, key, back, fs);
  }

  /** An object of the key's class whose slots hold the key's field values reads like the key. */
  lemma SlotsReadBack(cm: Classes, key: Value, back: Value, fs: seq<Field>)
    requires key.Obj? && back.Obj? && back.cls == key.cls
    requires forall j :: 0 <= j < |fs| ==> ReadField(cm, key, fs[j]).Success?
    requires var vals := FieldValues(cm, key, fs);
             forall j :: 0 <= j < |fs| ==> SlotOf(fs[j]) in back.slots && back.slots[SlotOf(fs[j])] == vals[j]
    ensures forall j :: 0 <= j < |fs| ==> ReadField(cm, back, fs[j]) == ReadField(cm, key, fs[j])
  {
    assert RuntimeClass(back) == RuntimeClass(key);
  }

  // ------------------------------------------------------------ where it fails

  /** serialize's loop over two readable, non-null fields. */
  lemma SerializeTwoFields(cm: Classes, host: Host, key: Value, fs: seq<Field>, a: Value, b: Value)
    requires |fs| == 2 && ReadField(cm, key, fs[0]) == Success(a) && ReadField(cm, key, fs[1]) == Success(b)
    requires a != Null && b != Null
    ensures SerializeFields(cm, host, key, fs) == Success([SerializeFieldValue(host, a).value, SerializeFieldValue(host, b).value])
  {
    var t := fs[1..];
    assert t[0] == fs[1] && t[1..] == [];
    var x := SerializeFieldValue(host, a).value;
    var y := SerializeFieldValue(host, b).value;
    assert SerializeFields(cm, host, key, t[1..]) == Success([]);
    assert [y] + [] == [y];
    assert SerializeFields(cm, host, key, t) == Success([y]);
    assert [x] + [y] == [x, y];
  }

  /**
   * String.split drops trailing empty parts: a key whose last String field
   * is empty serializes, but its text splits into one part too few.
   */
  lemma TrailingEmptyFieldLost(cm: Classes, host: Host, construct: (ClassName, string) -> Result<Value>,
                               key: Value, s: string)
    requires key.Obj? && !IsScalarKeyClass(key.cls)
    requires var fs := Members.DeclaredFields(cm, key.cls);
             |fs| == 2 && ReadField(cm, key, fs[0]) == Success(Str(s)) && ReadField(cm, key, fs[1]) == Success(Str(""))
    ensures Serialize(cm, host, key) == Success(FormCodec.Encode(s) + ":")
    ensures Deserialize(cm, host, construct, key.cls, FormCodec.Encode(s) + ":") == Failure(UtilityError(key.cls))
  {
    var parts := [FormCodec.Encode(s), ""];
    FormCodec.EncodeHasNoColon(s);
    SerializeTwoFields(cm, host, key, Members.DeclaredFields(cm, key.cls), Str(s), Str(""));
    assert Join(parts, ":") == FormCodec.Encode(s) + ":";
    SplitJoinColon(parts);
    assert ':' in Join(parts, ":") by {
      assert Join(parts, ":")[|FormCodec.Encode(s)|] == ':';
    }
    assert DropTrailingEmpty(parts) == DropTrailingEmpty([FormCodec.Encode(s)]);
  }

  /**
   * java.util.Date has no constructor taking a Long, so neither a Date key
   * nor a Date field ever decodes, though both encode.
   */
  lemma DatesNeverDecode(cm: Classes, host: Host, construct: (ClassName, string) -> Result<Value>, ms: int, ser: string)
    requires JdkValueClassesUndeclared(cm)
    ensures Serialize(cm, host, DateVal(ms)) == Success(JavaInt.ShowInt(ms))
    ensures DeserializeFieldValue(cm, construct, DATE, ser) == Failure(UtilityError(DATE))
    ensures Deserialize(cm, host, construct, DATE, ser) == Failure(UtilityError(DATE))
  {
    DateIsScalar();
    DateFieldNeverDecodes(cm, construct, ser);
    assert Serialize(cm, host, DateVal(ms)) == Success(JavaInt.ShowInt(ms));
  }

  /** java.util.Date is a java.* class, so a Date key is encoded and decoded whole. */
  lemma DateIsScalar()
    ensures IsScalarKeyClass(DATE)
  {
    assert DATE[..5] == "java.";
  }

  /** No text decodes as a Date field: Date is neither String, Boolean nor integral, and has no Long constructor. */
  lemma DateFieldNeverDecodes(cm: Classes, construct: (ClassName, string) -> Result<Value>, ser: string)
    requires JdkValueClassesUndeclared(cm)
    ensures DeserializeFieldValue(cm, construct, DATE, ser) == Failure(UtilityError(DATE))
  {
    Undeclared(cm, DATE);
  }

  /**
   * Character values are written by toString, unescaped: a char field
   * holding ':' adds a separator, and the key no longer splits into its
   * fields.  A Character-typed field cannot be read back at all, the class
   * having no (String) constructor.
   */
  lemma CharFieldsNotEscaped(cm: Classes, host: Host, construct: (ClassName, string) -> Result<Value>,
                             key: Value, s: string, ser: string)
    requires JdkValueClassesUndeclared(cm)
    requires key.Obj? && !IsScalarKeyClass(key.cls)
    requires var fs := Members.DeclaredFields(cm, key.cls);
             |fs| == 2 && ReadField(cm, key, fs[0]) == Success(Chr(':')) && ReadField(cm, key, fs[1]) == Success(Str(s))
    ensures Serialize(cm, host, key) == Success("::" + FormCodec.Encode(s))
    ensures Deserialize(cm, host, construct, key.cls, "::" + FormCodec.Encode(s)) == Failure(UtilityError(key.cls))
    ensures DeserializeFieldValue(cm, construct, CHARACTER, ser) == Failure(UtilityError(CHARACTER))
  {
    CharSeparatorSerialized(cm, host, key, s);
    CharSeparatorSplits(cm, host, construct, key.cls, s);
    CharacterNeverDecodes(cm, construct, ser);
  }

  /** A ':' char field followed by a String field: the char is written as it is. */
  lemma CharSeparatorSerialized(cm: Classes, host: Host, key: Value, s: string)
    requires key.Obj? && !IsScalarKeyClass(key.cls)
    requires var fs := Members.DeclaredFields(cm, key.cls);
             |fs| == 2 && ReadField(cm, key, fs[0]) == Success(Chr(':')) && ReadField(cm, key, fs[1]) == Success(Str(s))
    ensures Serialize(cm, host, key) == Success("::" + FormCodec.Encode(s))
  {
    var e := FormCodec.Encode(s);
    FormCodec.EncodeHasNoColon(s);
    SerializeTwoFields(cm, host, key, Members.DeclaredFields(cm, key.cls), Chr(':'), Str(s));
    assert Join([":", e], ":") == "::" + e;
  }

  /** Text with an extra leading separator never fits a class of two declared fields. */
  lemma CharSeparatorSplits(cm: Classes, host: Host, construct: (ClassName, string) -> Result<Value>, k: ClassName, s: string)
    requires !IsScalarKeyClass(k) && |Members.DeclaredFields(cm, k)| == 2
    ensures Deserialize(cm, host, construct, k, "::" + FormCodec.Encode(s)) == Failure(UtilityError(k))
  {
    FormCodec.EncodeHasNoColon(s);
    ExtraSeparatorSplit(FormCodec.Encode(s));
  }

  /** java.lang.Character has no (String) constructor: no text decodes to one. */
  lemma CharacterNeverDecodes(cm: Classes, construct: (ClassName, string) -> Result<Value>, ser: string)
    requires JdkValueClassesUndeclared(cm)
    ensures DeserializeFieldValue(cm, construct, CHARACTER, ser) == Failure(UtilityError(CHARACTER))
  {
    UndeclaredAssignable(cm, STRING, CHARACTER);
    UndeclaredAssignable(cm, DATE, CHARACTER);
    UndeclaredAssignable(cm, BOOLEAN, CHARACTER);
  }

  /** Text starting with two separators never splits into exactly two parts. */
  lemma ExtraSeparatorSplit(e: string)
    requires ':' !in e
    ensures |JavaSplit("::" + e, ':')| != 2
  {
    var pieces := ["", "", e];
    assert Join(pieces, ":") == "::" + e;
    SplitJoinColon(pieces);
    assert ("::" + e)[0] == ':';
    assert DropTrailingEmpty(pieces) == pieces || DropTrailingEmpty(pieces) == DropTrailingEmpty(["", ""]);
  }

  // ------------------------------------------------------------ getKeyClass

  /** A member marked @Id or @EmbeddedId. */
  predicate IdTagged(tags: seq<Tag>) {
    HasTag(tags, IdKind) || HasTag(tags, EmbeddedIdKind)
  }

  predicate IsKeyField(f: Field) {
    IdTagged(f.tags)
  }

  predicate IsKeyMethod(m: Method) {
    IdTagged(m.tags)
  }

  /**
   * The key class found among fields `fs` and methods `ms`: the type of the
   * first key field, else the return type of the first key method.
   */
  function KeyClassAmong(fs: seq<Field>, ms: seq<Method>): (r: Option<ClassName>)
    ensures forall k :: 0 <= k < |fs| && IsKeyField(fs[k]) && (forall j :: 0 <= j < k ==> !IsKeyField(fs[j])) ==>
              r == Some(fs[k].ftype)
    ensures (forall j :: 0 <= j < |fs| ==> !IsKeyField(fs[j])) ==>
              (r.None? <==> forall j :: 0 <= j < |ms| ==> !IsKeyMethod(ms[j]))
    ensures (forall j :: 0 <= j < |fs| ==> !IsKeyField(fs[j])) ==>
              forall k :: 0 <= k < |ms| && IsKeyMethod(ms[k]) && (forall j :: 0 <= j < k ==> !IsKeyMethod(ms[j])) ==>
                r == Some(ms[k].ret)
  {
    match Seqs.FirstIndex(fs, IsKeyField)
    case Some(k) => Some(fs[k].ftype)
    case None =>
      match Seqs.FirstIndex(ms, IsKeyMethod)
      case Some(k) => Some(ms[k].ret)
      case None => None
  }

  /** The key class of an entity class resolved afresh, over getAllFields and getAllMethods. */
  function KeyClassOf(cm: Classes, c: ClassName): Option<ClassName> {
    KeyClassAmong(Members.AllFields(cm, c), Members.AllMethods(cm, c))
  }

  /** The keyClasses cache: entity class to key class. */
  type KeyClassCache = map<ClassName, ClassName>

  /** Every cached key class is the one a fresh resolution would give. */
  predicate KeyCacheSound(cm: Classes, cache: KeyClassCache) {
    forall c :: c in cache ==> KeyClassOf(cm, c) == Some(cache[c])
  }

  /**
   * getKeyClass(entityClass): a cached answer if there is one; otherwise
   * resolve, cache and return, or throw a UtilityError naming the class.
   */
  function GetKeyClass(cm: Classes, cache: KeyClassCache, c: ClassName): (r: Result<(ClassName, KeyClassCache)>)
    ensures c in cache ==> r == Success((cache[c], cache))
    ensures c !in cache ==> (r.Failure? <==> KeyClassOf(cm, c).None?)
    ensures r.Failure? ==> r.error == UtilityError(c)
    ensures c !in cache && r.Success? ==> r.value.1 == cache[c := r.value.0]
  {
    if c in cache then Success((cache[c], cache))
    else
      match KeyClassOf(cm, c)
      case None => Failure(UtilityError(c))
      case Some(k) => Success((k, cache[c := k]))
  }

  /** Over a sound cache getKeyClass answers as a fresh resolution would, and the cache stays sound. */
  lemma GetKeyClassSound(cm: Classes, cache: KeyClassCache, c: ClassName)
    requires KeyCacheSound(cm, cache)
    ensures GetKeyClass(cm, cache, c).Success? <==> KeyClassOf(cm, c).Some?
    ensures GetKeyClass(cm, cache, c).Success? ==>
              GetKeyClass(cm, cache, c).value.0 == KeyClassOf(cm, c).value
              && KeyCacheSound(cm, GetKeyClass(cm, cache, c).value.1)
  {
    if c !in cache && KeyClassOf(cm, c).Some? {
      var k := KeyClassOf(cm, c).value;
      var cache' := cache[c := k];
      assert GetKeyClass(cm, cache, c) == Success((k, cache'));
      forall d | d in cache'
        ensures KeyClassOf(cm, d) == Some(cache'[d])
      {
        if d != c {
          assert cache'[d] == cache[d];
        }
      }
    }
  }
}

=== FILE: members.dfy ===
/**
 * The member enumeration half of ClassUtil: the fields and methods a class
 * declares, the ones it inherits along its superclass chain, and lookups of a
 * field by name or by type.  Each class's declared members are listed in
 * declaration order, which the model takes as given.
 */
module Members {
  import opened Wrappers
  import opened ClassModel
  import MethodSignatures
  import Seqs

  const SERIAL_VERSION_UID := "serialVersionUID"

  // ------------------------------------------------------------ fields

  /** getDeclaredFields keeps a field unless it is synthetic or serialVersionUID. */
  predicate KeptField(f: Field) {
    !f.synthetic && f.name != SERIAL_VERSION_UID
  }

  function KeepFields(fs: seq<Field>): (r: seq<Field>)
    ensures |r| <= |fs|
    ensures forall i :: 0 <= i < |r| ==> KeptField(r[i])
    ensures forall f :: f in r <==> f in fs && KeptField(f)
  {
    if fs == [] then []
    else if KeptField(fs[0]) then [fs[0]] + KeepFields(fs[1..])
    else KeepFields(fs[1..])
  }

  /** ClassUtil.getDeclaredFields: the class's own fields, in declaration order, minus synthetic ones and serialVersionUID. */
  function DeclaredFields(cm: Classes, c: ClassName): (r: seq<Field>)
    ensures forall f :: f in r <==> f in Decl(cm, c).fields && KeptField(f)
  {
    KeepFields(Decl(cm, c).fields)
  }

  /** The declared fields of each class of `chain`, concatenated in chain order. */
  function FieldsAlong(cm: Classes, chain: seq<ClassName>): (r: seq<Field>)
    ensures forall i :: 0 <= i < |r| ==> KeptField(r[i])
  {
    if chain == [] then [] else DeclaredFields(cm, chain[0]) + FieldsAlong(cm, chain[1..])
  }

  /** ClassUtil.getAllFields: declared fields of the class, then of its superclass, and so on; nothing is de-duplicated. */
  function AllFields(cm: Classes, c: ClassName): (r: seq<Field>)
    ensures forall i :: 0 <= i < |r| ==> KeptField(r[i])
    ensures DeclaredFields(cm, c) <= r
  {
    var h := Supertypes(cm, c);
    assert h == [c] + h[1..];
    FieldsAlong(cm, h)
  }

  /** A field is available through a chain exactly when some class of the chain declares it. */
  lemma {:induction false} FieldsAlongMember(cm: Classes, chain: seq<ClassName>, f: Field)
    ensures f in FieldsAlong(cm, chain) <==> exists i :: 0 <= i < |chain| && f in DeclaredFields(cm, chain[i])
  {
    if chain != [] {
      FieldsAlongMember(cm, chain[1..], f);
      if f in FieldsAlong(cm, chain[1..]) {
        var i :| 0 <= i < |chain[1..]| && f in DeclaredFields(cm, chain[1..][i]);
        assert chain[i + 1] == chain[1..][i];
      }
      if exists i :: 0 <= i < |chain| && f in DeclaredFields(cm, chain[i]) {
        var i :| 0 <= i < |chain| && f in DeclaredFields(cm, chain[i]);
        if i > 0 {
          assert chain[1..][i - 1] == chain[i];
        }
      }
    }
  }

  /** getAllFields holds exactly the kept fields declared somewhere along the superclass chain. */
  lemma AllFieldsMember(cm: Classes, c: ClassName, f: Field)
    ensures f in AllFields(cm, c) <==> exists k :: k in Supertypes(cm, c) && f in DeclaredFields(cm, k)
  {
    var h := Supertypes(cm, c);
    assert f in AllFields(cm, c) <==> exists i :: 0 <= i < |h| && f in DeclaredFields(cm, h[i]) by {
      assert AllFields(cm, c) == FieldsAlong(cm, h);
      FieldsAlongMember(cm, h, f);
    }
    DeclaredSomewhere(cm, h, f);
  }

  /** A field declared by a class of the chain is declared at some position of it. */
  lemma DeclaredSomewhere(cm: Classes, h: seq<ClassName>, f: Field)
    ensures (exists k :: k in h && f in DeclaredFields(cm, k)) <==> exists i :: 0 <= i < |h| && f in DeclaredFields(cm, h[i])
  {
    if exists k :: k in h && f in DeclaredFields(cm, k) {
      var k :| k in h && f in DeclaredFields(cm, k);
      var i :| 0 <= i < |h| && h[i] == k;
    }
  }

  /** The index of the first field named `name`. */
  function IndexOfName(fs: seq<Field>, name: string): (r: Option<nat>)
    ensures r.Some? ==> r.value < |fs| && fs[r.value].name == name
    ensures r.Some? ==> forall j :: 0 <= j < r.value ==> fs[j].name != name
    ensures r.None? <==> forall j :: 0 <= j < |fs| ==> fs[j].name != name
  {
    if fs == [] then None
    else if fs[0].name == name then Some(0)
    else
      match IndexOfName(fs[1..], name)
      case None => None
      case Some(k) => Some(k + 1)
  }

  /**
   * ClassUtil.getField(cls, alias, strict): the first field of getAllFields
   * with that name; a miss is a UtilityError when strict and null otherwise.
   */
  function GetField(cm: Classes, c: ClassName, alias: string, strict: bool): (r: Result<Option<Field>>)
    ensures r.Success? && r.value.Some? ==> r.value.value in AllFields(cm, c) && r.value.value.name == alias
    ensures r.Failure? <==> strict && forall f :: f in AllFields(cm, c) ==> f.name != alias
    ensures r.Failure? ==> r.error == UtilityError(alias)
    ensures r == Success(None) <==> !strict && forall f :: f in AllFields(cm, c) ==> f.name != alias
  {
    var fs := AllFields(cm, c);
    match IndexOfName(fs, alias)
    case Some(i) => Success(Some(fs[i]))
    case None => if strict then Failure(UtilityError(alias)) else Success(None)
  }

  /** The field getField returns is the earliest of that name: a subclass field hides an ancestor's. */
  lemma GetFieldIsFirst(cm: Classes, c: ClassName, alias: string, strict: bool)
    requires GetField(cm, c, alias, strict).Success? && GetField(cm, c, alias, strict).value.Some?
    ensures exists k :: 0 <= k < |AllFields(cm, c)| && AllFields(cm, c)[k] == GetField(cm, c, alias, strict).value.value
                        && forall i :: 0 <= i < k ==> AllFields(cm, c)[i].name != alias
  {
    var k := IndexOfName(AllFields(cm, c), alias).value;
    assert AllFields(cm, c)[k] == GetField(cm, c, alias, strict).value.value;
  }

  /** The index of the first field whose type is assignable from `t`. */
  function IndexOfTypeFor(cm: Classes, fs: seq<Field>, t: ClassName): (r: Option<nat>)
    ensures r.Some? ==> r.value < |fs| && IsAssignableFrom(cm, fs[r.value].ftype, t)
    ensures r.Some? ==> forall j :: 0 <= j < r.value ==> !IsAssignableFrom(cm, fs[j].ftype, t)
    ensures r.None? <==> forall j :: 0 <= j < |fs| ==> !IsAssignableFrom(cm, fs[j].ftype, t)
  {
    Seqs.FirstIndex(fs, (f: Field) => IsAssignableFrom(cm, f.ftype, t))
  }

  /** ClassUtil.getField(cls, type): the first field of getAllFields whose type accepts `t`, or null. */
  function GetFieldFor(cm: Classes, c: ClassName, t: ClassName): (r: Option<Field>)
    ensures r.Some? ==> r.value in AllFields(cm, c) && IsAssignableFrom(cm, r.value.ftype, t)
    ensures r.None? <==> forall f :: f in AllFields(cm, c) ==> !IsAssignableFrom(cm, f.ftype, t)
    ensures r.Some? ==> exists k :: 0 <= k < |AllFields(cm, c)| && AllFields(cm, c)[k] == r.value
                                   && forall j :: 0 <= j < k ==> !IsAssignableFrom(cm, AllFields(cm, c)[j].ftype, t)
  {
    var fs := AllFields(cm, c);
    match IndexOfTypeFor(cm, fs, t)
    case Some(i) => Some(fs[i])
    case None => None
  }

  // ------------------------------------------------------------ methods

  /** ClassUtil.getDeclaredMethods: the class's own methods minus synthetic ones. */
  function DeclaredMethods(cm: Classes, c: ClassName): (r: seq<Method>)
    ensures forall m :: m in r <==> m in Decl(cm, c).methods && !m.synthetic
  {
    KeepMethods(Decl(cm, c).methods)
  }

  function KeepMethods(ms: seq<Method>): (r: seq<Method>)
    ensures forall m :: m in r <==> m in ms && !m.synthetic
  {
    if ms == [] then []
    else if !ms[0].synthetic then [ms[0]] + KeepMethods(ms[1..])
    else KeepMethods(ms[1..])
  }

  /** Two methods have strictly equal signatures: the same name and the same parameter types. */
  predicate SameSignature(a: Method, b: Method) {
    a.name == b.name && a.params == b.params
  }

  /** SameSignature is MethodSignature's strict equality on the signatures of the two methods. */
  lemma SameSignatureIsStrictEquality(cm: Classes, a: Method, b: Method)
    ensures SameSignature(a, b) <==> MethodSignatures.Equals(cm, MethodSignatures.ForMethod(a), MethodSignatures.ForMethod(b), true)
  {
    MethodSignatures.StrictEqualsMeans(cm, MethodSignatures.ForMethod(a), MethodSignatures.ForMethod(b));
  }

  /** `signatures.contains(ms)`: some listed method has the signature of `m`. */
  predicate Listed(acc: seq<Method>, m: Method) {
    exists i :: 0 <= i < |acc| && SameSignature(acc[i], m)
  }

  predicate DistinctSignatures(ms: seq<Method>) {
    forall i, j :: 0 <= i < j < |ms| ==> !SameSignature(ms[i], ms[j])
  }

  /** Appends each method of `ms` whose signature is not yet listed, in order. */
  function AddNew(acc: seq<Method>, ms: seq<Method>): (r: seq<Method>)
    ensures |acc| <= |r| && r[..|acc|] == acc
    ensures forall i :: |acc| <= i < |r| ==> r[i] in ms
    decreases |ms|
  {
    if ms == [] then acc
    else if Listed(acc, ms[0]) then AddNew(acc, ms[1..])
    else
      var r := AddNew(acc + [ms[0]], ms[1..]);
      assert (acc + [ms[0]])[..|acc|] == acc;
      r
  }

  /** The declared methods of each class of `chain` other than Object, in chain order. */
  function MethodsAlong(cm: Classes, chain: seq<ClassName>): (r: seq<Method>)
    ensures forall i :: 0 <= i < |r| ==> !r[i].synthetic
  {
    if chain == [] then []
    else if chain[0] == OBJECT then MethodsAlong(cm, chain[1..])
    else DeclaredMethods(cm, chain[0]) + MethodsAlong(cm, chain[1..])
  }

  /** A method of the walk is declared by some class of the chain other than Object. */
  lemma {:induction false} MethodsAlongSound(cm: Classes, chain: seq<ClassName>, m: Method)
    requires m in MethodsAlong(cm, chain)
    ensures exists i :: 0 <= i < |chain| && chain[i] != OBJECT && m in DeclaredMethods(cm, chain[i])
  {
    if m !in DeclaredMethods(cm, chain[0]) || chain[0] == OBJECT {
      MethodsAlongSound(cm, chain[1..], m);
      var i :| 0 <= i < |chain[1..]| && chain[1..][i] != OBJECT && m in DeclaredMethods(cm, chain[1..][i]);
      assert chain[i + 1] == chain[1..][i];
    }
  }

  /**
   * ClassUtil.getAllMethods: for an interface, first the getAllMethods of
   * each direct superinterface in declaration order; then, walking the
   * chain from the class upwards and skipping Object, its declared methods.
   * Each method is kept unless a method with a strictly equal signature was
   * kept before it.
   */
  function AllMethods(cm: Classes, c: ClassName): (r: seq<Method>)
    ensures forall i :: 0 <= i < |r| ==> !r[i].synthetic
  {
    AllMethodsFrom(cm, c, {})
  }

  /**
   * getAllMethods while expanding the interfaces in `seen`: an interface
   * met again inside its own expansion (a cycle, which the Java class
   * loader rejects) adds nothing.
   */
  function AllMethodsFrom(cm: Classes, c: ClassName, seen: set<ClassName>): (r: seq<Method>)
    ensures forall i :: 0 <= i < |r| ==> !r[i].synthetic
    decreases cm.Keys - seen, 1, 0
  {
    var ms := InterfaceMethodsFrom(cm, c, seen) + MethodsAlong(cm, Supertypes(cm, c));
    var r := AddNew([], ms);
    assert forall i :: 0 <= i < |r| ==> r[i] in ms;
    r
  }

  /** The methods an interface gathers from its superinterfaces; a class gathers none. */
  function InterfaceMethodsFrom(cm: Classes, c: ClassName, seen: set<ClassName>): (r: seq<Method>)
    ensures forall i :: 0 <= i < |r| ==> !r[i].synthetic
    decreases cm.Keys - seen, 0, 0
  {
    if c in seen || c !in cm || !cm[c].isInterface then []
    else SuperinterfaceMethods(cm, cm[c].interfaces, seen + {c})
  }

  /** The getAllMethods of each interface of `ifaces`, concatenated in order. */
  function SuperinterfaceMethods(cm: Classes, ifaces: seq<ClassName>, seen: set<ClassName>): (r: seq<Method>)
    ensures forall i :: 0 <= i < |r| ==> !r[i].synthetic
    decreases cm.Keys - seen, 2, |ifaces|
  {
    if ifaces == [] then []
    else AllMethodsFrom(cm, ifaces[0], seen) + SuperinterfaceMethods(cm, ifaces[1..], seen)
  }

  /** The methods getAllMethods gathers from superinterfaces before walking the chain. */
  function InterfaceMethods(cm: Classes, c: ClassName): seq<Method> {
    InterfaceMethodsFrom(cm, c, {})
  }

  /** Adding to a list of distinct signatures keeps them distinct. */
  lemma {:induction false} AddNewDistinct(acc: seq<Method>, ms: seq<Method>)
    requires DistinctSignatures(acc)
    ensures DistinctSignatures(AddNew(acc, ms))
    decreases |ms|
  {
    if ms != [] && !Listed(acc, ms[0]) {
      var acc' := acc + [ms[0]];
      forall i, j | 0 <= i < j < |acc'|
        ensures !SameSignature(acc'[i], acc'[j])
      {
        if j == |acc| {
          assert acc'[i] == acc[i];
        } else {
          assert acc'[i] == acc[i] && acc'[j] == acc[j];
        }
      }
      AddNewDistinct(acc', ms[1..]);
    } else if ms != [] {
      AddNewDistinct(acc, ms[1..]);
    }
  }

  /** Every method offered gets its signature listed: nothing is lost, only shadowed. */
  lemma {:induction false} AddNewCovers(acc: seq<Method>, ms: seq<Method>, m: Method)
    requires m in ms || Listed(acc, m)
    ensures Listed(AddNew(acc, ms), m)
    decreases |ms|
  {
    var r := AddNew(acc, ms);
    if Listed(acc, m) {
      var i :| 0 <= i < |acc| && SameSignature(acc[i], m);
      assert r[i] == acc[i];
    } else if ms[0] == m {
      if !Listed(acc, ms[0]) {
        var acc' := acc + [ms[0]];
        assert SameSignature(acc'[|acc|], m);
        AddNewCovers(acc', ms[1..], m);
      }
    } else {
      assert m in ms[1..];
      if Listed(acc, ms[0]) {
        AddNewCovers(acc, ms[1..], m);
      } else {
        AddNewCovers(acc + [ms[0]], ms[1..], m);
      }
    }
  }

  /** The first method of a signature that is not yet listed is the one kept: earlier declarations shadow later ones. */
  lemma {:induction false} AddNewKeepsFirst(acc: seq<Method>, ms: seq<Method>, j: nat)
    requires j < |ms| && !Listed(acc, ms[j])
    requires forall k :: 0 <= k < j ==> !SameSignature(ms[k], ms[j])
    ensures ms[j] in AddNew(acc, ms)
    decreases |ms|
  {
    var r := AddNew(acc, ms);
    if j == 0 {
      var acc' := acc + [ms[0]];
      var r' := AddNew(acc', ms[1..]);
      assert r' == r;
      assert r'[..|acc'|] == acc';
      assert r[|acc|] == ms[0];
    } else {
      if Listed(acc, ms[0]) {
        AddNewKeepsFirst(acc, ms[1..], j - 1);
      } else {
        var acc' := acc + [ms[0]];
        AddNewKeepsFirst(acc', ms[1..], j - 1);
      }
    }
  }

  /** getAllMethods lists every signature at most once. */
  lemma AllMethodsDistinct(cm: Classes, c: ClassName)
    ensures DistinctSignatures(AllMethods(cm, c))
  {
    AddNewDistinct([], InterfaceMethods(cm, c) + MethodsAlong(cm, Supertypes(cm, c)));
  }

  /**
   * Every kept method is a non-synthetic method gathered from a
   * superinterface or declared along the chain; a class gathers nothing
   * from interfaces.
   */
  lemma AllMethodsSound(cm: Classes, c: ClassName, m: Method)
    requires m in AllMethods(cm, c)
    ensures m in InterfaceMethods(cm, c) || m in MethodsAlong(cm, Supertypes(cm, c))
    ensures !m.synthetic
    ensures !Decl(cm, c).isInterface ==> m in MethodsAlong(cm, Supertypes(cm, c))
  {
    var r := AllMethods(cm, c);
    var i :| 0 <= i < |r| && r[i] == m;
    assert m in InterfaceMethods(cm, c) + MethodsAlong(cm, Supertypes(cm, c));
  }

  /**
   * Every method gathered from a superinterface or declared along the
   * chain below Object has its signature in getAllMethods.
   */
  lemma AllMethodsComplete(cm: Classes, c: ClassName, m: Method)
    requires m in InterfaceMethods(cm, c) || m in MethodsAlong(cm, Supertypes(cm, c))
    ensures Listed(AllMethods(cm, c), m)
  {
    AddNewCovers([], InterfaceMethods(cm, c) + MethodsAlong(cm, Supertypes(cm, c)), m);
  }

  /**
   * An interface's getAllMethods carries the signature of every method of
   * each direct superinterface's own expansion.
   */
  lemma SuperinterfaceMethodsListed(cm: Classes, c: ClassName, k: nat, m: Method)
    requires c in cm && cm[c].isInterface && k < |cm[c].interfaces|
    requires m in AllMethodsFrom(cm, cm[c].interfaces[k], {c})
    ensures Listed(AllMethods(cm, c), m)
  {
    InSuperinterfaceMethods(cm, cm[c].interfaces, {c}, k, m);
    assert {} + {c} == {c};
    AllMethodsComplete(cm, c, m);
  }

  lemma {:induction false} InSuperinterfaceMethods(cm: Classes, ifaces: seq<ClassName>, seen: set<ClassName>, k: nat, m: Method)
    requires k < |ifaces| && m in AllMethodsFrom(cm, ifaces[k], seen)
    ensures m in SuperinterfaceMethods(cm, ifaces, seen)
    decreases k
  {
    if k > 0 {
      InSuperinterfaceMethods(cm, ifaces[1..], seen, k - 1, m);
    }
  }

  /**
   * A method declared by the class itself (not Object) survives unless the
   * class declares its signature earlier or, for an interface, a
   * superinterface brings it first.
   */
  lemma OwnMethodKept(cm: Classes, c: ClassName, j: nat)
    requires c != OBJECT
    requires j < |DeclaredMethods(cm, c)|
    requires forall k :: 0 <= k < j ==> !SameSignature(DeclaredMethods(cm, c)[k], DeclaredMethods(cm, c)[j])
    requires forall m :: m in InterfaceMethods(cm, c) ==> !SameSignature(m, DeclaredMethods(cm, c)[j])
    ensures DeclaredMethods(cm, c)[j] in AllMethods(cm, c)
  {
    var own := DeclaredMethods(cm, c);
    var ifs := InterfaceMethods(cm, c);
    var along := MethodsAlong(cm, Supertypes(cm, c));
    OwnMethodsFirst(cm, c);
    var ms := ifs + along;
    assert AllMethods(cm, c) == AddNew([], ms);
    assert ms[|ifs| + j] == own[j];
    forall k | 0 <= k < |ifs| + j
      ensures !SameSignature(ms[k], ms[|ifs| + j])
    {
      if k < |ifs| {
        assert ms[k] in ifs;
      } else {
        assert ms[k] == own[k - |ifs|];
      }
    }
    AddNewKeepsFirst([], ms, |ifs| + j);
  }

  /** Below Object, the walk over the superclass chain lists the class's own methods first. */
  lemma OwnMethodsFirst(cm: Classes, c: ClassName)
    requires c != OBJECT
    ensures |DeclaredMethods(cm, c)| <= |MethodsAlong(cm, Supertypes(cm, c))|
    ensures forall k :: 0 <= k < |DeclaredMethods(cm, c)| ==>
              MethodsAlong(cm, Supertypes(cm, c))[k] == DeclaredMethods(cm, c)[k]
  {
    var h := Supertypes(cm, c);
    assert h == [c] + h[1..];
    assert MethodsAlong(cm, h) == DeclaredMethods(cm, c) + MethodsAlong(cm, h[1..]);
  }
}

=== FILE: method_signature.dfy ===
/**
 * MethodSignature: a method name with its parameter types, optionally
 * carrying the method it was taken from.  ClassUtil.getAllMethods uses its
 * strict equality to let a subclass declaration hide the same signature
 * further up the chain.
 */
module MethodSignatures {
  import opened Wrappers
  import opened Text
  import opened ClassModel
  import opened JavaInt
  import opened Dependencies
  import StringUtil

  /** `meth` is None for a signature built from a name and types only. */
  datatype Signature = Signature(name: Option<string>, params: seq<ClassName>, meth: Option<Method>)

  function ForMethod(m: Method): (r: Signature)
    ensures r.name == Some(m.name) && r.params == m.params && r.meth == Some(m)
  {
    Signature(Some(m.name), m.params, Some(m))
  }

  function ForSignature(name: Option<string>, params: seq<ClassName>): (r: Signature)
    ensures r.meth.None?
  {
    Signature(name, params, None)
  }

  /**
   * equals(obj, strict): equal names (both null or the same text), the same
   * number of parameters, and each pair identical (strict) or each own type
   * assignable from the other's (non-strict).
   */
  predicate Equals(cm: Classes, a: Signature, b: Signature, strict: bool) {
    a.name == b.name
    && |a.params| == |b.params|
    && (forall i :: 0 <= i < |a.params| ==>
          if strict then a.params[i] == b.params[i] else IsAssignableFrom(cm, a.params[i], b.params[i]))
  }

  /** Strict equality is equality of name and parameter types; the method itself is ignored. */
  lemma StrictEqualsMeans(cm: Classes, a: Signature, b: Signature)
    ensures Equals(cm, a, b, true) <==> a.name == b.name && a.params == b.params
  {
    if Equals(cm, a, b, true) {
      assert a.params == b.params;
    }
  }

  /** Strictly equal signatures are equal in the non-strict sense too. */
  lemma StrictImpliesLoose(cm: Classes, a: Signature, b: Signature)
    requires Equals(cm, a, b, true)
    ensures Equals(cm, a, b, false)
  {
  }

  /** Non-strict equality is not symmetric: (Object) accepts (String) but not the reverse. */
  lemma LooseNotSymmetric(cm: Classes)
    requires STRING !in cm && OBJECT !in cm
    ensures Equals(cm, ForSignature(Some("f"), [OBJECT]), ForSignature(Some("f"), [STRING]), false)
    ensures !Equals(cm, ForSignature(Some("f"), [STRING]), ForSignature(Some("f"), [OBJECT]), false)
    ensures !Equals(cm, ForSignature(Some("f"), [OBJECT]), ForSignature(Some("f"), [STRING]), true)
  {
    Undeclared(cm, OBJECT);
    Undeclared(cm, STRING);
  }

  /** String.hashCode: h = 31 * h + c over the characters, in 32-bit arithmetic. */
  function StringHash(s: string): (r: int)
    ensures IsInt(r)
  {
    if s == [] then 0 else Add32(Mul32(31, StringHash(s[..|s| - 1])), s[|s| - 1] as int)
  }

  /**
   * Arrays.hashCode over the parameter types; a Class's own hash is an
   * identity hash, supplied as `classHash`.
   */
  function ArrayHash(params: seq<ClassName>, classHash: ClassName -> int): (r: int)
    ensures IsInt(r)
  {
    if params == [] then 1
    else Add32(Mul32(31, ArrayHash(params[..|params| - 1], classHash)), Wrap32(classHash(params[|params| - 1])))
  }

  /** hashCode: 31 * (31 * 1 + hash(name)) + Arrays.hashCode(parameterTypes). */
  function Hash(s: Signature, classHash: ClassName -> int): (r: int)
    ensures IsInt(r)
  {
    var nameHash := if s.name.None? then 0 else StringHash(s.name.value);
    Add32(Mul32(31, Add32(31, nameHash)), ArrayHash(s.params, classHash))
  }

  /** hashCode is consistent with (strict) equals. */
  lemma HashConsistent(cm: Classes, a: Signature, b: Signature, classHash: ClassName -> int)
    requires Equals(cm, a, b, true)
    ensures Hash(a, classHash) == Hash(b, classHash)
  {
    StrictEqualsMeans(cm, a, b);
  }

  /** hasParameters. */
  predicate HasParameters(s: Signature) {
    |s.params| > 0
  }

  /** returnsValue: only a signature taken from a method with a non-void return type. */
  predicate ReturnsValue(s: Signature) {
    s.meth.Some? && s.meth.value.ret != VOID
  }

  /** The simple names of `params`, in order. */
  function SimpleNames(params: seq<ClassName>): (r: seq<string>)
    ensures |r| == |params| && forall i :: 0 <= i < |params| ==> r[i] == SimpleName(params[i])
  {
    seq(|params|, i requires 0 <= i < |params| => SimpleName(params[i]))
  }

  /** The simple names of the types, separated by ", ". */
  function TypeList(params: seq<ClassName>): (r: string)
    ensures params == [] ==> r == []
    ensures |params| == 1 ==> r == SimpleName(params[0])
  {
    if params == [] then []
    else if |params| == 1 then SimpleName(params[0])
    else SimpleName(params[0]) + ", " + TypeList(params[1..])
  }

  /** The list is the simple names, in order, joined with ", ". */
  lemma {:induction false} TypeListIsJoin(params: seq<ClassName>)
    ensures TypeList(params) == Join(SimpleNames(params), ", ")
  {
    if |params| >= 2 {
      TypeListIsJoin(params[1..]);
      assert SimpleNames(params)[1..] == SimpleNames(params[1..]);
    }
  }

  /** One more type extends a non-empty list by ", " and its simple name: the shape the toString loop builds. */
  lemma TypeListSnoc(ps: seq<ClassName>, q: ClassName)
    requires ps != []
    ensures TypeList(ps + [q]) == TypeList(ps) + ", " + SimpleName(q)
  {
    TypeListIsJoin(ps);
    TypeListIsJoin(ps + [q]);
    assert SimpleNames(ps + [q]) == SimpleNames(ps) + [SimpleName(q)];
    JoinSnoc(SimpleNames(ps), SimpleName(q), ", ");
  }

  /** toString: the name (or "null"), then the simple parameter type names in parentheses. */
  function ToString(s: Signature): (r: string)
    ensures |r| >= 2 && r[|r| - 1] == ')'
    ensures r == (if s.name.None? then "null" else s.name.value) + "(" + Join(SimpleNames(s.params), ", ") + ")"
  {
    TypeListIsJoin(s.params);
    (if s.name.None? then "null" else s.name.value) + "(" + TypeList(s.params) + ")"
  }

  /**
   * The loop of toString: each name in turn, followed by ", " unless it is
   * the last.
   */
  method AppendNames(names: seq<string>) returns (r: string)
    ensures r == Join(names, ", ")
  {
    var n := |names|;
    r := "";
    var i := 0;
    while i < n
      invariant 0 <= i <= n
      invariant i == 0 ==> r == ""
      invariant 0 < i < n ==> r == Join(names[..i], ", ") + ", "
      invariant 0 < i == n ==> r == Join(names[..i], ", ")
    {
      assert names[..i + 1] == names[..i] + [names[i]];
      if i > 0 {
        JoinSnoc(names[..i], names[i], ", ");
      }
      r := r + names[i];
      if i < n - 1 {
        r := r + ", ";
      }
      i := i + 1;
    }
    assert names[..n] == names;
  }

  /** toString as the library builds it: the name and "(", the loop over the simple type names, then ")". */
  method BuildString(s: Signature) returns (r: string)
    ensures r == ToString(s)
  {
    var list := AppendNames(SimpleNames(s.params));
    r := (if s.name.None? then "null" else s.name.value) + "(" + list + ")";
  }

  /** The rendering of a two-parameter signature. */
  lemma ToStringExample()
    ensures ToString(ForSignature(Some("put"), [STRING, "int"])) == "put(String, int)"
  {
    ToStringOfPair("put", STRING, "int");
    SimpleNameOfString();
    SimpleNameOfInt();
    PutText();
  }

  lemma ToStringOfPair(name: string, a: ClassName, b: ClassName)
    ensures ToString(ForSignature(Some(name), [a, b])) == name + "(" + (SimpleName(a) + ", " + SimpleName(b)) + ")"
  {
    assert [a, b][1..] == [b];
  }

  lemma PutText()
    ensures "put" + "(" + ("String" + ", " + "int") + ")" == "put(String, int)"
  {
  }

  lemma SimpleNameOfString()
    ensures SimpleName(STRING) == "String"
  {
    SimpleNameOfQualified("java.lang", "String");
    StringText();
  }

  lemma StringText()
    ensures "java.lang" + "." + "String" == STRING
  {
  }

  lemma SimpleNameOfInt()
    ensures SimpleName("int") == "int"
  {
    SimpleNameOfPlain("int");
  }

  /** The set of classes among `types` that need an import. */
  function NeedingImport(types: seq<ClassName>): set<ClassName> {
    set i | 0 <= i < |types| && RequiresImport(types[i]) :: types[i]
  }

  /** The dependency of a class. */
  function DepOf(c: ClassName): Dependency {
    ForClass(Some(c))
  }

  /** The same dependency whatever the class. */
  function Always(d: Dependency): ClassName -> Dependency {
    _ => d
  }

  /** The return type's dependency, when it needs an import: where both versions start. */
  function ReturnBase(m: Method): (r: seq<Dependency>)
    ensures Sorted(r)
  {
    if RequiresImport(m.ret) then [DepOf(m.ret)] else []
  }

  /**
   * getDependencies as written: a name-only signature is an error; otherwise
   * the return type's dependency when it needs an import, and, for each
   * parameter type that needs one, the return type's dependency again.
   */
  function GetDependencies(s: Signature): (r: Result<seq<Dependency>>)
    ensures s.meth.None? <==> r.Failure?
    ensures r.Success? ==> Sorted(r.value)
  {
    match s.meth
    case None => Failure(UtilityError("MethodSignature"))
    case Some(m) =>
      Success(AddEach(ReturnBase(m), s.params, RequiresImport, Always(DepOf(m.ret)), ImportClause))
  }

  /** As written, the only dependency a method can have is its return type's. */
  lemma GetDependenciesOnlyReturnType(m: Method, x: string)
    requires x in Clauses(GetDependencies(ForMethod(m)).value)
    ensures x == ImportClause(DepOf(m.ret))
  {
    AddEachConstant(ReturnBase(m), m.params, RequiresImport, Always(DepOf(m.ret)), ImportClause, DepOf(m.ret));
  }

  /** As written, the return type's dependency is present exactly when some type of the signature needs an import. */
  lemma GetDependenciesHasReturnType(m: Method)
    ensures (RequiresImport(m.ret) || NeedingImport(m.params) != {}) <==> ImportClause(DepOf(m.ret)) in Clauses(GetDependencies(ForMethod(m)).value)
  {
    AddEachConstant(ReturnBase(m), m.params, RequiresImport, Always(DepOf(m.ret)), ImportClause, DepOf(m.ret));
    NeedingImportMeans(m.params);
  }

  lemma NeedingImportMeans(types: seq<ClassName>)
    ensures NeedingImport(types) == {} <==> forall i :: 0 <= i < |types| ==> !RequiresImport(types[i])
  {
    if exists i :: 0 <= i < |types| && RequiresImport(types[i]) {
      var i :| 0 <= i < |types| && RequiresImport(types[i]);
      assert types[i] in NeedingImport(types);
    }
  }

  /**
   * The parameter types are lost: a void method taking a Date depends, as
   * written, on "import void;" and not on java.util.Date.
   */
  lemma DependenciesLoseParameter()
    ensures Clauses(GetDependencies(ForMethod(Method("a.B", "f", [DATE], ["d"], VOID, false, true, []))).value) == {"import void;"}
  {
    LoseParameterClauses();
    ImportOfVoid();
  }

  lemma LoseParameterClauses()
    ensures Clauses(GetDependencies(ForMethod(Method("a.B", "f", [DATE], ["d"], VOID, false, true, []))).value) == {ImportClause(DepOf(VOID))}
  {
    DateNeedsImport();
    var m := Method("a.B", "f", [DATE], ["d"], VOID, false, true, []);
    forall x | x in Clauses(GetDependencies(ForMethod(m)).value)
      ensures x == ImportClause(DepOf(VOID))
    {
      GetDependenciesOnlyReturnType(m, x);
    }
    assert DATE in NeedingImport([DATE]) by {
      assert [DATE][0] == DATE;
    }
    GetDependenciesHasReturnType(m);
  }

  lemma DateNeedsImport()
    ensures RequiresImport(DATE)
  {
    assert DATE[5] != "java.lang."[5];
  }

  lemma ImportOfVoid()
    ensures ImportClause(DepOf(VOID)) == "import void;"
  {
    ImportOfVoidIsPlain();
    ImportVoidText();
  }

  lemma ImportOfVoidIsPlain()
    ensures ImportClause(DepOf(VOID)) == "import " + VOID + ";"
  {
    SimpleNameOfVoid();
    ImportOfPrimitive(VOID);
  }

  lemma ImportVoidText()
    ensures "import " + VOID + ";" == "import void;"
  {
  }

  /** A primitive's import clause names it without a package. */
  lemma ImportOfPrimitive(c: ClassName)
    requires IsPrimitive(c) && SimpleName(c) == c
    ensures ImportClause(DepOf(c)) == "import " + c + ";"
  {
    assert !StringUtil.IsSet([]) by {
      StringUtil.IsSetMeans([]);
    }
  }

  /** getDependencies as evidently intended: the return type and each parameter type that needs an import. */
  function GetDependenciesFixed(s: Signature): (r: Result<seq<Dependency>>)
    ensures s.meth.None? <==> r.Failure?
    ensures r.Success? ==> Sorted(r.value)
  {
    match s.meth
    case None => Failure(UtilityError("MethodSignature"))
    case Some(m) => Success(AddEach(ReturnBase(m), s.params, RequiresImport, DepOf, ImportClause))
  }

  /** Corrected, every type of the signature that needs an import is present. */
  lemma GetDependenciesFixedComplete(m: Method, c: ClassName)
    requires c == m.ret || c in m.params
    requires RequiresImport(c)
    ensures ImportClause(DepOf(c)) in Clauses(GetDependenciesFixed(ForMethod(m)).value)
  {
    if c == m.ret {
      assert ImportClause(DepOf(c)) in Clauses(ReturnBase(m)) by {
        assert ReturnBase(m)[0] == DepOf(c);
      }
      AddEachKeeps(ReturnBase(m), m.params, RequiresImport, DepOf, ImportClause, ImportClause(DepOf(c)));
    } else {
      var i :| 0 <= i < |m.params| && m.params[i] == c;
      AddEachAdds(ReturnBase(m), m.params, RequiresImport, DepOf, ImportClause, i);
    }
  }

  /** Corrected, nothing but those types is present. */
  lemma GetDependenciesFixedSound(m: Method, x: string)
    requires x in Clauses(GetDependenciesFixed(ForMethod(m)).value)
    ensures exists c :: (c == m.ret || c in m.params) && RequiresImport(c) && x == ImportClause(DepOf(c))
  {
    if x in Clauses(ReturnBase(m)) {
      assert RequiresImport(m.ret) && x == ImportClause(DepOf(m.ret));
    } else {
      AddEachSource(ReturnBase(m), m.params, RequiresImport, DepOf, ImportClause, x);
      var i :| 0 <= i < |m.params| && RequiresImport(m.params[i]) && x == ImportClause(DepOf(m.params[i]));
      assert m.params[i] in m.params;
    }
  }

  /** The corrected form keeps the parameter type: the same void method depends on java.util.Date. */
  lemma DependenciesKeepParameter()
    ensures ImportClause(DepOf(DATE)) in Clauses(GetDependenciesFixed(ForMethod(Method("a.B", "f", [DATE], ["d"], VOID, false, true, []))).value)
  {
    DateNeedsImport();
    GetDependenciesFixedComplete(Method("a.B", "f", [DATE], ["d"], VOID, false, true, []), DATE);
  }
}

=== FILE: null_registry.dfy ===
/**
 * Null: a registry of one "null object" per class, built with the class's
 * zero-argument constructor (whose body is the host's `initialise`).  The
 * static map is an explicit `Registry` threaded through every operation.  A missing registration type (Java's
 * null) only matters where the code switches on it, and there it is a
 * NullPointerException.
 */
module NullRegistry {
  import opened Wrappers
  import opened ClassModel
  import opened Values

  datatype RegisterType = Ignore | Warning | Fail

  type Registry = map<ClassName, Value>

  /** Every registered value is the instance newInstance makes for its class. */
  predicate WellFormed(cm: Classes, host: Host, reg: Registry) {
    forall c :: c in reg ==> NewInstance(cm, host, c) == Success(reg[c])
  }

  /** The outcome of a registration: the value returned (possibly null) and the registry after. */
  datatype Registration = Registration(value: Value, registry: Registry)

  /**
   * The catch block of registerClass, for the two checked exceptions of
   * newInstance: WARNING returns null, any other type throws (IGNORE
   * included), and a missing type fails the switch.
   */
  function Caught(reg: Registry, rType: Option<RegisterType>, c: ClassName): Result<Registration> {
    match rType
    case None => Failure(NullPointer)
    case Some(Warning) => Success(Registration(Null, reg))
    case Some(_) => Failure(UtilityError(c))
  }

  /**
   * newInstance throws something registerClass does not catch: the
   * constructor body's own exception.
   */
  predicate ConstructorThrows(cm: Classes, host: Host, c: ClassName) {
    Instantiable(cm, c) && host.initialise(c).Failure? && !NewInstanceChecked(host.initialise(c).error)
  }

  /**
   * registerClass(rType, cls).  An unregistered class is instantiated and
   * stored; an abstract class, an interface or one without a public
   * zero-argument constructor goes to the catch block, and an exception of
   * the constructor body escapes.  A registered class throws under FAIL and
   * otherwise returns the stored instance.
   */
  function RegisterClass(cm: Classes, host: Host, reg: Registry, rType: Option<RegisterType>, c: ClassName): (r: Result<Registration>)
    ensures c !in reg && Instantiable(cm, c) && host.initialise(c).Success? ==>
              var nll := Obj(c, host.initialise(c).value);
              r == Success(Registration(nll, reg[c := nll]))
    ensures c !in reg && !Instantiable(cm, c) ==> r == Caught(reg, rType, c)
    ensures c !in reg && Instantiable(cm, c) && host.initialise(c).Failure? ==>
              r == (if NewInstanceChecked(host.initialise(c).error) then Caught(reg, rType, c)
                    else Failure(host.initialise(c).error))
    ensures c in reg ==>
              r == (match rType
                    case None => Failure(NullPointer)
                    case Some(Fail) => Failure(UtilityError(c))
                    case Some(_) => Success(Registration(reg[c], reg)))
    ensures r.Success? ==> r.value.registry.Keys <= reg.Keys + {c}
  {
    if c !in reg then
      match NewInstance(cm, host, c)
      case Success(nll) => Success(Registration(nll, reg[c := nll]))
      case Failure(e) => if NewInstanceChecked(e) then Caught(reg, rType, c) else Failure(e)
    else
      match rType
      case None => Failure(NullPointer)
      case Some(Fail) => Failure(UtilityError(c))
      case Some(_) => Success(Registration(reg[c], reg))
  }

  /** Registration keeps the registry well formed, and what it returns is null or the stored instance. */
  lemma RegisterClassKeepsWellFormed(cm: Classes, host: Host, reg: Registry, rType: Option<RegisterType>, c: ClassName)
    requires WellFormed(cm, host, reg)
    requires RegisterClass(cm, host, reg, rType, c).Success?
    ensures WellFormed(cm, host, RegisterClass(cm, host, reg, rType, c).value.registry)
    ensures var g := RegisterClass(cm, host, reg, rType, c).value;
            g.value == Null || (c in g.registry && g.value == g.registry[c])
  {
  }

  /** registerClasses(rType, classes...): registerClass on each class in turn, stopping at the first throw. */
  function RegisterClasses(cm: Classes, host: Host, reg: Registry, rType: Option<RegisterType>, cs: seq<ClassName>): (r: Result<Registry>)
    ensures r.Success? ==> r.value.Keys <= reg.Keys + set c | c in cs
    decreases |cs|
  {
    if cs == [] then Success(reg)
    else
      match RegisterClass(cm, host, reg, rType, cs[0])
      case Failure(e) => Failure(e)
      case Success(g) =>
        match RegisterClasses(cm, host, g.registry, rType, cs[1..])
        case Failure(e) => Failure(e)
        case Success(reg') => Success(reg')
  }

  /**
   * With WARNING only a constructor body's own exception escapes: without
   * one the registration succeeds, and then every class newInstance can
   * make ends up registered and the registry stays well formed.
   */
  lemma {:induction false} WarningRegistersConstructible(cm: Classes, host: Host, reg: Registry, cs: seq<ClassName>)
    requires WellFormed(cm, host, reg)
    ensures (forall c :: c in cs ==> !ConstructorThrows(cm, host, c)) ==> RegisterClasses(cm, host, reg, Some(Warning), cs).Success?
    ensures var r := RegisterClasses(cm, host, reg, Some(Warning), cs);
            r.Failure? ==> exists c :: c in cs && ConstructorThrows(cm, host, c) && r.error == host.initialise(c).error
    ensures var r := RegisterClasses(cm, host, reg, Some(Warning), cs);
            r.Success? ==>
              WellFormed(cm, host, r.value)
              && (forall c :: c in cs && NewInstance(cm, host, c).Success? ==> c in r.value)
              && (forall c :: c in reg ==> c in r.value)
    decreases |cs|
  {
    if cs != [] {
      var g := RegisterClass(cm, host, reg, Some(Warning), cs[0]);
      assert forall c :: c in cs ==> c == cs[0] || c in cs[1..];
      if g.Success? {
        RegisterClassKeepsWellFormed(cm, host, reg, Some(Warning), cs[0]);
        WarningRegistersConstructible(cm, host, g.value.registry, cs[1..]);
      } else {
        assert ConstructorThrows(cm, host, cs[0]);
      }
    }
  }

  /**
   * registerClasses(classes...) passes a null type: registering the same
   * constructible class twice reaches the switch and throws.
   */
  lemma RegisterTwiceWithoutType(cm: Classes, host: Host, reg: Registry, c: ClassName)
    requires c !in reg && Instantiable(cm, c) && host.initialise(c).Success?
    ensures RegisterClasses(cm, host, reg, None, [c]).Success?
    ensures RegisterClasses(cm, host, reg, None, [c, c]) == Failure(NullPointer)
  {
    var reg1 := reg[c := Obj(c, host.initialise(c).value)];
    assert RegisterClass(cm, host, reg1, None, c) == Failure(NullPointer);
    assert [c, c][1..] == [c];
  }

  /** `abstract class Shape { public Shape() {} }`: a public zero-argument constructor on an abstract class. */
  const SHAPE: Classes := map["Shape" := ClassDecl(Some(OBJECT), false, true, [], [], [], [[]], [])]

  /** newInstance refuses an abstract class, so FAIL throws and WARNING returns null without registering. */
  lemma AbstractClassRefused(host: Host, reg: Registry)
    requires "Shape" !in reg
    ensures RegisterClass(SHAPE, host, reg, Some(Fail), "Shape") == Failure(UtilityError("Shape"))
    ensures RegisterClass(SHAPE, host, reg, Some(Warning), "Shape") == Success(Registration(Null, reg))
  {
    assert !Instantiable(SHAPE, "Shape");
  }

  /** A constructor that throws an unchecked exception escapes registerClass even under WARNING. */
  lemma ThrowingConstructorEscapes(cm: Classes, host: Host, reg: Registry, c: ClassName)
    requires c !in reg && Instantiable(cm, c)
    requires host.initialise(c) == Failure(Thrown("java.lang.IllegalStateException"))
    ensures RegisterClass(cm, host, reg, Some(Warning), c) == Failure(Thrown("java.lang.IllegalStateException"))
    ensures RegisterClasses(cm, host, reg, Some(Warning), [c]) == Failure(Thrown("java.lang.IllegalStateException"))
  {
  }

  /**
   * isNull(obj): true for null; an object of an unregistered class throws;
   * otherwise whether it equals (by `equals`) the registered instance.
   */
  function IsNull(reg: Registry, equals: (Value, Value) -> bool, v: Value): (r: Result<bool>)
    ensures v == Null ==> r == Success(true)
    ensures v != Null ==> (r.Failure? <==> RuntimeClass(v).value !in reg)
    ensures r.Failure? ==> r.error == UtilityError(RuntimeClass(v).value)
    ensures v != Null && r.Success? ==> r.value == equals(v, reg[RuntimeClass(v).value])
  {
    if v == Null then Success(true)
    else
      var c := RuntimeClass(v).value;
      if c !in reg then Failure(UtilityError(c))
      else Success(equals(v, reg[c]))
  }

  /**
   * getNull(cls): the registered instance; otherwise register with WARNING,
   * and throw if that still gives null.
   */
  function GetNull(cm: Classes, host: Host, reg: Registry, c: ClassName): (r: Result<Registration>)
    ensures WellFormed(cm, host, reg) && c in reg ==> r == Success(Registration(reg[c], reg))
    ensures c !in reg ==> (r.Success? <==> Instantiable(cm, c) && host.initialise(c).Success?)
    ensures c !in reg && r.Failure? ==>
              r.error == (if ConstructorThrows(cm, host, c) then host.initialise(c).error else UtilityError(c))
    ensures WellFormed(cm, host, reg) && r.Success? ==>
              host.initialise(c).Success? && r.value.value == Obj(c, host.initialise(c).value)
              && c in r.value.registry && r.value.registry[c] == r.value.value && WellFormed(cm, host, r.value.registry)
  {
    if c in reg && reg[c] != Null then Success(Registration(reg[c], reg))
    else
      match RegisterClass(cm, host, reg, Some(Warning), c)
      case Failure(e) => Failure(e)
      case Success(g) =>
        if g.value == Null then Failure(UtilityError(c)) else Success(g)
  }

  /** A second getNull returns the same instance and changes nothing. */
  lemma GetNullStable(cm: Classes, host: Host, reg: Registry, c: ClassName)
    requires WellFormed(cm, host, reg)
    requires GetNull(cm, host, reg, c).Success?
    ensures var g := GetNull(cm, host, reg, c).value;
            GetNull(cm, host, g.registry, c) == Success(g)
  {
  }

  /** The object getNull hands out is null by isNull, for any reflexive equals. */
  lemma GetNullIsNull(cm: Classes, host: Host, reg: Registry, c: ClassName, equals: (Value, Value) -> bool)
    requires WellFormed(cm, host, reg)
    requires GetNull(cm, host, reg, c).Success?
    requires forall v :: equals(v, v)
    ensures var g := GetNull(cm, host, reg, c).value;
            IsNull(g.registry, equals, g.value) == Success(true)
  {
  }
}

=== FILE: object_util.dfy ===
/**
 * ObjectUtil: the first element two lists share, and the field-by-field copy
 * of one object onto another.  The warning copy logs for a field it cannot
 * set is built from IdentityUtil.getId of both objects, so copy carries
 * EntityUtil's key caches and fails when either getId throws; the logging
 * itself is not modelled.
 */
module ObjectUtil {
  import opened Wrappers
  import opened ClassModel
  import opened Values
  import Members
  import EntityKeys
  import Hierarchy
  import IdMembers

  /**
   * findFirstMatch: the first element of `l1`, in `l1` order, equal to some
   * element of `l2`; null when the lists share nothing.
   */
  function FindFirstMatch<T(==)>(l1: seq<T>, l2: seq<T>): (r: Option<T>)
    ensures r.Some? ==> r.value in l1 && r.value in l2
    ensures r.None? <==> forall x :: x in l1 ==> x !in l2
    ensures r.Some? ==> exists k :: 0 <= k < |l1| && l1[k] == r.value && forall j :: 0 <= j < k ==> l1[j] !in l2
  {
    if l1 == [] then None
    else if l1[0] in l2 then Some(l1[0])
    else
      var r := FindFirstMatch(l1[1..], l2);
      assert forall x :: x in l1 ==> x == l1[0] || x in l1[1..];
      if r.Some? then
        var k :| 0 <= k < |l1[1..]| && l1[1..][k] == r.value && forall j :: 0 <= j < k ==> l1[1..][j] !in l2;
        assert l1[k + 1] == r.value;
        assert forall j :: 1 <= j < k + 1 ==> l1[j] == l1[1..][j - 1];
        r
      else r
  }

  /** The lists of the ObjectUtil test: [1..6] against [10, 7, 20, -1, 5, 6] gives 5. */
  lemma FindFirstMatchExample()
    ensures FindFirstMatch([1, 2, 3, 4, 5, 6], [10, 7, 20, -1, 5, 6]) == Some(5)
  {
    var l2 := [10, 7, 20, -1, 5, 6];
    assert 1 !in l2 && 2 !in l2 && 3 !in l2 && 4 !in l2;
    assert 5 == l2[4];
  }

  /** No two fields write the same slot (a class never declares two fields of one name). */
  predicate DistinctSlots(fs: seq<Field>) {
    forall i, j :: 0 <= i < j < |fs| ==> SlotOf(fs[i]) != SlotOf(fs[j])
  }

  /** What copy leaves: the target as written, or the exception that ends it, and EntityUtil's key caches after. */
  datatype CopyOutcome = CopyOutcome(result: Result<Value>, keys: EntityKeys.KeyState)

  /** Field `f` of the source can be set on the target: the read and the write both succeed. */
  predicate Copies(cm: Classes, src: Value, target: Value, f: Field) {
    ReadField(cm, src, f).Success? && WriteField(cm, target, f, ReadField(cm, src, f).value).Success?
  }

  /** Whether a field copies depends on the target's class, not on its slots. */
  lemma CopiesByClass(cm: Classes, src: Value, a: Value, b: Value, f: Field)
    requires a.Obj? && b.Obj? && a.cls == b.cls
    ensures Copies(cm, src, a, f) <==> Copies(cm, src, b, f)
  {
    assert RuntimeClass(a) == RuntimeClass(b);
  }

  /** IdentityUtil.getId, which is EntityUtil.getId, over the key caches it threads. */
  function IdentityGetId(cm: Classes, host: Host, ownId: Value -> Result<Value>): (EntityKeys.KeyState, Value) -> EntityKeys.IdOutcome {
    (st: EntityKeys.KeyState, v: Value) => EntityKeys.GetId(cm, host, st, v, ownId)
  }

  /**
   * The arguments of the warning in copy's catch block: getId of the
   * target, then of the source.  The first that throws ends the evaluation.
   */
  function LogArguments(getId: (EntityKeys.KeyState, Value) -> EntityKeys.IdOutcome, keys: EntityKeys.KeyState,
                        src: Value, target: Value): (r: EntityKeys.IdOutcome)
    ensures getId(keys, target).result.Failure? ==> r == getId(keys, target)
    ensures getId(keys, target).result.Success? ==> r == getId(getId(keys, target).state, src)
  {
    var toId := getId(keys, target);
    if toId.result.Failure? then toId else getId(toId.state, src)
  }

  /**
   * The loop of copy: each field's value on `src` is set on the target.  A
   * read or a write that fails goes to the catch block, whose warning
   * evaluates `getId` of both objects: if that throws, copy throws.
   */
  function CopyFields(cm: Classes, getId: (EntityKeys.KeyState, Value) -> EntityKeys.IdOutcome, keys: EntityKeys.KeyState,
                      fs: seq<Field>, src: Value, target: Value): (r: CopyOutcome)
    ensures r.result.Success? && target.Obj? ==> r.result.value.Obj? && r.result.value.cls == target.cls
    ensures r.result.Success? && !target.Obj? ==> r.result.value == target
    ensures (forall k :: 0 <= k < |fs| ==> Copies(cm, src, target, fs[k])) ==> r.result.Success? && r.keys == keys
    ensures r.result.Failure? ==> exists k :: 0 <= k < |fs| && !Copies(cm, src, target, fs[k])
    decreases |fs|
  {
    if fs == [] then CopyOutcome(Success(target), keys)
    else if Copies(cm, src, target, fs[0]) then
      var next := WriteField(cm, target, fs[0], ReadField(cm, src, fs[0]).value).value;
      var r := CopyFields(cm, getId, keys, fs[1..], src, next);
      assert forall k :: 1 <= k < |fs| ==> fs[1..][k - 1] == fs[k];
      assert forall k :: 1 <= k < |fs| ==> (Copies(cm, src, next, fs[k]) <==> Copies(cm, src, target, fs[k])) by {
        forall k | 1 <= k < |fs| {
          CopiesByClass(cm, src, next, target, fs[k]);
        }
      }
      r
    else
      var ids := LogArguments(getId, keys, src, target);
      if ids.result.Failure? then CopyOutcome(Failure(ids.result.error), ids.state)
      else CopyFields(cm, getId, ids.state, fs[1..], src, target)
  }

  /**
   * ObjectUtil.copy(fromObj, toObj): nothing when either is null; otherwise
   * every declared field of fromObj's class is set on toObj to fromObj's
   * value.  The source object is never written; copy throws only from the
   * catch block of a field it cannot set.
   */
  function Copy(cm: Classes, host: Host, ownId: Value -> Result<Value>, keys: EntityKeys.KeyState,
                src: Value, target: Value): (r: CopyOutcome)
    ensures src == Null || target == Null ==> r == CopyOutcome(Success(target), keys)
    ensures r.result.Success? && target.Obj? ==> r.result.value.Obj? && r.result.value.cls == target.cls
    ensures src != Null && (forall f :: f in Members.DeclaredFields(cm, RuntimeClass(src).value) ==> Copies(cm, src, target, f)) ==>
              r.result.Success? && r.keys == keys
    ensures r.result.Failure? ==>
              src != Null && target != Null
              && exists f :: f in Members.DeclaredFields(cm, RuntimeClass(src).value) && !Copies(cm, src, target, f)
  {
    if src == Null || target == Null then CopyOutcome(Success(target), keys)
    else
      var fs := Members.DeclaredFields(cm, RuntimeClass(src).value);
      assert forall k :: 0 <= k < |fs| ==> fs[k] in fs;
      CopyFields(cm, IdentityGetId(cm, host, ownId), keys, fs, src, target)
  }

  /** Slots the copied fields do not name keep their contents when copy returns. */
  lemma {:induction false} CopyFieldsLeavesOthers(cm: Classes, getId: (EntityKeys.KeyState, Value) -> EntityKeys.IdOutcome, keys: EntityKeys.KeyState,
                                                  fs: seq<Field>, src: Value, target: Value, s: Slot)
    requires target.Obj?
    requires forall i :: 0 <= i < |fs| ==> SlotOf(fs[i]) != s
    decreases |fs|
    ensures var r := CopyFields(cm, getId, keys, fs, src, target);
            r.result.Success? ==>
              (s in r.result.value.slots <==> s in target.slots)
              && (s in target.slots ==> r.result.value.slots[s] == target.slots[s])
  {
    if fs != [] {
      if Copies(cm, src, target, fs[0]) {
        var next := WriteField(cm, target, fs[0], ReadField(cm, src, fs[0]).value).value;
        CopyFieldsLeavesOthers(cm, getId, keys, fs[1..], src, next, s);
      } else {
        var ids := LogArguments(getId, keys, src, target);
        if ids.result.Success? {
          CopyFieldsLeavesOthers(cm, getId, ids.state, fs[1..], src, target, s);
        }
      }
    }
  }

  /** A field whose value fits is copied: when copy returns, the target holds the source's value, widened. */
  lemma {:induction false} CopyFieldsSets(cm: Classes, getId: (EntityKeys.KeyState, Value) -> EntityKeys.IdOutcome, keys: EntityKeys.KeyState,
                                          fs: seq<Field>, src: Value, target: Value, k: nat)
    requires DistinctSlots(fs) && k < |fs|
    requires target.Obj? && IsInstance(cm, target, fs[k].declaring)
    requires ReadField(cm, src, fs[k]).Success?
    requires Fits(cm, fs[k].ftype, ReadField(cm, src, fs[k]).value)
    decreases |fs|
    ensures var r := CopyFields(cm, getId, keys, fs, src, target);
            r.result.Success? ==>
              SlotOf(fs[k]) in r.result.value.slots
              && r.result.value.slots[SlotOf(fs[k])] == Widen(fs[k].ftype, ReadField(cm, src, fs[k]).value)
  {
    var ids := LogArguments(getId, keys, src, target);
    var next :=
      if Copies(cm, src, target, fs[0]) then WriteField(cm, target, fs[0], ReadField(cm, src, fs[0]).value).value
      else target;
    var keys' := if Copies(cm, src, target, fs[0]) then keys else ids.state;
    assert next.Obj? && next.cls == target.cls;
    if k == 0 {
      assert next.slots == target.slots[SlotOf(fs[0]) := Widen(fs[0].ftype, ReadField(cm, src, fs[0]).value)];
      forall i | 0 <= i < |fs[1..]|
        ensures SlotOf(fs[1..][i]) != SlotOf(fs[0])
      {
        assert fs[1..][i] == fs[i + 1];
      }
      CopyFieldsLeavesOthers(cm, getId, keys', fs[1..], src, next, SlotOf(fs[0]));
    } else {
      assert RuntimeClass(next) == RuntimeClass(target);
      assert fs[1..][k - 1] == fs[k];
      CopyFieldsSets(cm, getId, keys', fs[1..], src, next, k - 1);
    }
  }

  /**
   * When copy returns, each declared field of the source's class whose
   * value fits has been set on a target that has the field.
   */
  lemma CopySetsDeclaredField(cm: Classes, host: Host, ownId: Value -> Result<Value>, keys: EntityKeys.KeyState,
                              src: Value, target: Value, k: nat)
    requires src.Obj? && target.Obj?
    requires DistinctSlots(Members.DeclaredFields(cm, src.cls))
    requires k < |Members.DeclaredFields(cm, src.cls)|
    requires IsInstance(cm, target, Members.DeclaredFields(cm, src.cls)[k].declaring)
    requires ReadField(cm, src, Members.DeclaredFields(cm, src.cls)[k]).Success?
    requires Fits(cm, Members.DeclaredFields(cm, src.cls)[k].ftype, ReadField(cm, src, Members.DeclaredFields(cm, src.cls)[k]).value)
    ensures var r := Copy(cm, host, ownId, keys, src, target);
            var f := Members.DeclaredFields(cm, src.cls)[k];
            r.result.Success? ==>
              SlotOf(f) in r.result.value.slots && r.result.value.slots[SlotOf(f)] == Widen(f.ftype, ReadField(cm, src, f).value)
  {
    CopyFieldsSets(cm, IdentityGetId(cm, host, ownId), keys, Members.DeclaredFields(cm, src.cls), src, target, k);
  }

  /** When copy returns, every slot that no declared field of the source's class names is untouched. */
  lemma CopyLeavesOthers(cm: Classes, host: Host, ownId: Value -> Result<Value>, keys: EntityKeys.KeyState,
                         src: Value, target: Value, s: Slot)
    requires src.Obj? && target.Obj?
    requires forall f :: f in Members.DeclaredFields(cm, src.cls) ==> SlotOf(f) != s
    ensures var r := Copy(cm, host, ownId, keys, src, target);
            r.result.Success? ==>
              (s in r.result.value.slots <==> s in target.slots)
              && (s in target.slots ==> r.result.value.slots[s] == target.slots[s])
  {
    var fs := Members.DeclaredFields(cm, src.cls);
    assert forall i :: 0 <= i < |fs| ==> fs[i] in fs;
    CopyFieldsLeavesOthers(cm, IdentityGetId(cm, host, ownId), keys, fs, src, target, s);
  }

  // ------------------------------------------------------------ copy onto a superclass

  const BASE: ClassName := "Base"
  const SUB: ClassName := "Sub"

  /** `int x`, declared by Sub. */
  const X: Field := Field(SUB, "x", "int", false, false, [])

  /** `class Base {}` with no id member of any kind, and `class Sub extends Base { int x; }`. */
  const SUB_AND_BASE: Classes := map[
    BASE := ClassDecl(Some(OBJECT), false, false, [], [], [], [[]], []),
    SUB := ClassDecl(Some(BASE), false, false, [], [X], [], [[]], [])]

  /** Base's chain is Base, Object, and it implements no interface, so neither Sub nor Id is assignable from it. */
  lemma BaseChain()
    ensures Supertypes(SUB_AND_BASE, BASE) == [BASE, OBJECT]
    ensures !IsAssignableFrom(SUB_AND_BASE, SUB, BASE)
    ensures !IsAssignableFrom(SUB_AND_BASE, EntityKeys.ID_INTERFACE, BASE)
  {
    var cm := SUB_AND_BASE;
    assert Chain(cm, OBJECT, {BASE}) == [OBJECT];
    assert Chain(cm, BASE, {}) == [BASE] + Chain(cm, OBJECT, {BASE});
    NothingImplemented(cm, BASE);
  }

  /** Sub's only field x cannot be written into a Base. */
  lemma SubFieldMissesBase()
    ensures Members.DeclaredFields(SUB_AND_BASE, SUB) == [X]
    ensures !Copies(SUB_AND_BASE, Obj(SUB, map[]), Obj(BASE, map[]), X)
  {
    assert Members.KeepFields([X]) == [X];
    BaseChain();
  }

  /** Base carries no IdClass annotation: neither it nor Object is tagged. */
  lemma BaseHasNoIdClass()
    ensures EntityKeys.IdClassOf(SUB_AND_BASE, BASE) == Success(None)
  {
    BaseChain();
    assert Root(SUB_AND_BASE, BASE) == OBJECT;
    Hierarchy.TaggedAlongBelowObject(SUB_AND_BASE, BASE, IdClassKind);
  }

  /** Neither Base nor Object declares a key member, an id-named field or an interface method. */
  lemma BaseDeclaresNoKey()
    ensures forall d :: d in Supertypes(SUB_AND_BASE, BASE) ==>
              EntityKeys.DeclaresNoKeyMember(SUB_AND_BASE, d) && IdMembers.IdNamedField(SUB_AND_BASE, d).None?
    ensures Members.InterfaceMethods(SUB_AND_BASE, BASE) == []
  {
    var cm := SUB_AND_BASE;
    BaseChain();
    assert Members.DeclaredFields(cm, BASE) == [] && Members.DeclaredMethods(cm, BASE) == [];
    assert Members.DeclaredFields(cm, OBJECT) == [] && Members.DeclaredMethods(cm, OBJECT) == [];
  }

  /** EntityToKey.forClass finds no key source anywhere along Base's chain. */
  lemma BaseHasNoKeySource()
    ensures EntityKeys.ForClass(SUB_AND_BASE, map[], BASE) == Failure(UtilityError(BASE))
  {
    BaseHasNoIdClass();
    BaseDeclaresNoKey();
    SubAndBaseAcyclic();
    EntityKeys.NoKeySourceIsError(SUB_AND_BASE, BASE);
  }

  /** So getId of a Base throws that error. */
  lemma BaseHasNoId(host: Host, ownId: Value -> Result<Value>)
    ensures EntityKeys.GetId(SUB_AND_BASE, host, EntityKeys.KeyState(map[], map[]), Obj(BASE, map[]), ownId).result
            == Failure(UtilityError(BASE))
  {
    BaseChain();
    BaseHasNoGenerator();
    GetIdWithoutGenerator(SUB_AND_BASE, host, EntityKeys.KeyState(map[], map[]), Obj(BASE, map[]), ownId);
  }

  /** getId of an object that is not an Id throws whatever building its class's generator throws. */
  lemma GetIdWithoutGenerator(cm: Classes, host: Host, st: EntityKeys.KeyState, obj: Value, ownId: Value -> Result<Value>)
    requires obj.Obj? && !IsAssignableFrom(cm, EntityKeys.ID_INTERFACE, obj.cls)
    requires EntityKeys.GeneratorFor(cm, st, obj.cls).Failure?
    ensures EntityKeys.GetId(cm, host, st, obj, ownId).result == Failure(EntityKeys.GeneratorFor(cm, st, obj.cls).error)
  {
  }

  /** With empty caches, no generator can be built for Base. */
  lemma BaseHasNoGenerator()
    ensures EntityKeys.GeneratorFor(SUB_AND_BASE, EntityKeys.KeyState(map[], map[]), BASE) == Failure(UtilityError(BASE))
  {
    BaseHasNoKeySource();
  }

  /** Sub's chain is Sub, Base, Object. */
  lemma SubChain()
    ensures Supertypes(SUB_AND_BASE, SUB) == [SUB, BASE, OBJECT]
  {
    var cm := SUB_AND_BASE;
    assert SuperOf(cm, SUB) == Some(BASE) && SuperOf(cm, BASE) == Some(OBJECT) && SuperOf(cm, OBJECT).None?;
    assert {} + {SUB} == {SUB};
    assert Chain(cm, OBJECT, {SUB} + {BASE}) == [OBJECT];
    assert Chain(cm, BASE, {SUB}) == [BASE] + Chain(cm, OBJECT, {SUB} + {BASE});
    assert Chain(cm, SUB, {}) == [SUB] + Chain(cm, BASE, {SUB});
  }

  /** Both chains end at Object, which has no superclass. */
  lemma SubAndBaseAcyclic()
    ensures Acyclic(SUB_AND_BASE)
  {
    BaseChain();
    SubChain();
    assert SuperOf(SUB_AND_BASE, OBJECT).None?;
    assert Root(SUB_AND_BASE, BASE) == OBJECT && Root(SUB_AND_BASE, SUB) == OBJECT;
    assert SUB_AND_BASE.Keys == {BASE, SUB};
  }

  /**
   * copy(new Sub(), new Base()): Sub's field x cannot be set on a Base, and
   * the catch block's getId of the Base finds no key source, so copy throws
   * the UtilityError of EntityToKey.forClass.
   */
  lemma CopyOntoSuperclassThrows(host: Host, ownId: Value -> Result<Value>)
    ensures Copy(SUB_AND_BASE, host, ownId, EntityKeys.KeyState(map[], map[]), Obj(SUB, map[]), Obj(BASE, map[])).result
            == Failure(UtilityError(BASE))
  {
    SubFieldMissesBase();
    BaseHasNoId(host, ownId);
  }
}

=== FILE: seqs.dfy ===
/** Sequence helpers shared by the lookups: first match, filtering and flattening. */
module Seqs {
  import opened Wrappers

  /** The index of the first element of `s` satisfying `p`, if any. */
  function FirstIndex<T>(s: seq<T>, p: T -> bool): (r: Option<nat>)
    ensures r.Some? ==> r.value < |s| && p(s[r.value])
    ensures r.Some? ==> forall j :: 0 <= j < r.value ==> !p(s[j])
    ensures r.None? <==> forall j :: 0 <= j < |s| ==> !p(s[j])
  {
    if s == [] then None
    else if p(s[0]) then Some(0)
    else
      match FirstIndex(s[1..], p)
      case None => None
      case Some(k) => Some(k + 1)
  }

  /** The first element of `s` satisfying `p`, if any. */
  function First<T>(s: seq<T>, p: T -> bool): (r: Option<T>)
    ensures r.Some? ==> r.value in s && p(r.value)
    ensures r.None? <==> forall j :: 0 <= j < |s| ==> !p(s[j])
    ensures r.Some? ==> exists k :: 0 <= k < |s| && s[k] == r.value && forall j :: 0 <= j < k ==> !p(s[j])
  {
    match FirstIndex(s, p)
    case None => None
    case Some(k) => Some(s[k])
  }

  /** The elements of `s` satisfying `p`, in order. */
  function Filter<T>(s: seq<T>, p: T -> bool): (r: seq<T>)
    ensures |r| <= |s|
    ensures forall i :: 0 <= i < |r| ==> p(r[i]) && r[i] in s
    ensures forall i :: 0 <= i < |s| && p(s[i]) ==> s[i] in r
  {
    if s == [] then []
    else if p(s[0]) then [s[0]] + Filter(s[1..], p)
    else Filter(s[1..], p)
  }

  /** The number of elements of `s` satisfying `p`. */
  function Count<T>(s: seq<T>, p: T -> bool): (r: nat)
    ensures r <= |s|
    ensures r == 0 <==> forall j :: 0 <= j < |s| ==> !p(s[j])
  {
    if s == [] then 0 else (if p(s[0]) then 1 else 0) + Count(s[1..], p)
  }

  /** Exactly one element satisfies `p` precisely when the filter keeps exactly one. */
  lemma {:induction false} CountIsFilterLength<T>(s: seq<T>, p: T -> bool)
    ensures Count(s, p) == |Filter(s, p)|
  {
    if s != [] {
      CountIsFilterLength(s[1..], p);
    }
  }

  /** `r` is the index of the last element of `s` satisfying `p`, or -1 when none does. */
  predicate IsLastIndex<T>(s: seq<T>, p: T -> bool, r: int) {
    -1 <= r < |s| && (r >= 0 ==> p(s[r])) && forall l :: r < l < |s| ==> !p(s[l])
  }

  /** The index of the last element of `s` satisfying `p`, or -1. */
  function LastIndex<T>(s: seq<T>, p: T -> bool): (r: int)
    ensures IsLastIndex(s, p, r)
  {
    if s == [] then -1
    else if p(s[|s| - 1]) then |s| - 1
    else LastIndex(s[..|s| - 1], p)
  }

  /** At most one index is the last one. */
  lemma LastIndexUnique<T>(s: seq<T>, p: T -> bool, r1: int, r2: int)
    requires IsLastIndex(s, p, r1) && IsLastIndex(s, p, r2)
    ensures r1 == r2
  {
  }

  /** An element put in front counts only when nothing after it satisfies `p`. */
  lemma LastIndexCons<T>(c: T, s: seq<T>, p: T -> bool)
    ensures LastIndex([c] + s, p) ==
              if LastIndex(s, p) >= 0 then LastIndex(s, p) + 1 else if p(c) then 0 else -1
  {
    var t := [c] + s;
    var k := LastIndex(s, p);
    var r := if k >= 0 then k + 1 else if p(c) then 0 else -1;
    forall l | r < l < |t|
      ensures !p(t[l])
    {
      if l > 0 {
        assert t[l] == s[l - 1];
      }
    }
    assert r >= 0 ==> t[r] == (if k >= 0 then s[k] else c);
    LastIndexUnique(t, p, r, LastIndex(t, p));
  }

  /** The concatenation of the pieces, in order. */
  function Flatten<T>(ss: seq<seq<T>>): (r: seq<T>)
    ensures forall i, x :: 0 <= i < |ss| && x in ss[i] ==> x in r
    ensures forall x :: x in r ==> exists i :: 0 <= i < |ss| && x in ss[i]
  {
    if ss == [] then [] else ss[0] + Flatten(ss[1..])
  }
}

=== FILE: string_util.dfy ===
/**
 * StringUtil: initial-letter case, isSet, word splitting and the case
 * converters built on it, plural, the bijective base-26 index strings,
 * character trimming and the `{}` placeholder replacement.
 */
module StringUtil {
  import opened Wrappers
  import opened Text
  import JavaInt
  import FormCodec

  // ------------------------------------------------------------ basics

  /** Lower-cases the first character only. */
  function InitialLowerCase(s: string): (r: string)
    ensures |r| == |s|
    ensures s != [] ==> r[0] == Lower(s[0]) && r[1..] == s[1..]
    ensures s == [] ==> r == []
  {
    if s == [] then s else [Lower(s[0])] + s[1..]
  }

  /** Upper-cases the first character only. */
  function InitialUpperCase(s: string): (r: string)
    ensures |r| == |s|
    ensures s != [] ==> r[0] == Upper(s[0]) && r[1..] == s[1..]
    ensures s == [] ==> r == []
  {
    if s == [] then s else [Upper(s[0])] + s[1..]
  }

  /** Changing the case of the initial twice keeps only the last change. */
  lemma InitialCaseAbsorbs(s: string)
    ensures InitialLowerCase(InitialUpperCase(s)) == InitialLowerCase(s)
    ensures InitialUpperCase(InitialLowerCase(s)) == InitialUpperCase(s)
  {
  }

  /** isSet: some character is above U+0020 (a null string is never set). */
  predicate IsSet(s: string) {
    exists i :: 0 <= i < |s| && s[i] > ' '
  }

  /** isSet as the source phrases it: the string does not trim to "". */
  lemma IsSetMeans(s: string)
    ensures IsSet(s) <==> Trim(s) != []
  {
    TrimEmptyIff(s);
  }

  // ------------------------------------------------------------ words

  /** The characters the regular expression class `\s` matches. */
  predicate IsSpace(c: char) {
    c == ' ' || c == '\t' || c == '\n' || c == '\U{000B}' || c == '\U{000C}' || c == '\r'
  }

  predicate NoSpace(w: string) {
    forall k :: 0 <= k < |w| ==> !IsSpace(w[k])
  }

  function FirstSpace(s: string): (r: nat)
    requires !NoSpace(s)
    ensures r < |s| && IsSpace(s[r]) && NoSpace(s[..r])
  {
    if IsSpace(s[0]) then 0 else 1 + FirstSpace(s[1..])
  }

  /** The end of the run of white space that starts at `k`. */
  function RunEnd(s: string, k: nat): (r: nat)
    requires k <= |s|
    ensures k <= r <= |s|
    ensures forall j :: k <= j < r ==> IsSpace(s[j])
    ensures r == |s| || !IsSpace(s[r])
    decreases |s| - k
  {
    if k == |s| || !IsSpace(s[k]) then k else RunEnd(s, k + 1)
  }

  /** The pieces between maximal runs of white space (a leading or trailing run leaves an empty piece). */
  function SplitRuns(s: string): (r: seq<string>)
    ensures |r| >= 1
    ensures forall i :: 0 <= i < |r| ==> NoSpace(r[i])
    decreases |s|
  {
    if NoSpace(s) then [s]
    else
      var k := FirstSpace(s);
      var e := RunEnd(s, k + 1);
      [s[..k]] + SplitRuns(s[e..])
  }

  /** `value.split("\\s+")`: the whole value when it holds no white space, else the pieces without trailing empty ones. */
  function Words(v: string): (r: seq<string>)
    ensures forall i :: 0 <= i < |r| ==> NoSpace(r[i])
    ensures NoSpace(v) ==> r == [v]
  {
    if NoSpace(v) then [v] else DropTrailingEmpty(SplitRuns(v))
  }

  // ------------------------------------------------------------ safe words

  /** Letters and digits: the default SAFE_CHARS. */
  predicate IsSafe(c: char) {
    IsLetter(c) || IsDigit(c)
  }

  /** The random word the salt generator would supply; the model takes it as an argument. */
  type Salt = s: string | |s| >= 1 witness "a"

  function KeepSafe(w: string): (r: string)
    ensures |r| <= |w|
    ensures forall i :: 0 <= i < |r| ==> IsSafe(r[i])
    ensures (forall i :: 0 <= i < |w| ==> IsSafe(w[i])) ==> r == w
    ensures (exists i :: 0 <= i < |w| && IsSafe(w[i])) ==> r != []
  {
    if w == [] then []
    else (if IsSafe(w[0]) then [w[0]] else []) + KeepSafe(w[1..])
  }

  /** safeWord: the safe characters of `w`, or the salt when there are none. */
  function SafeWord(w: string, salt: Salt): (r: string)
    ensures r != []
    ensures (exists i :: 0 <= i < |w| && IsSafe(w[i])) ==> r == KeepSafe(w)
  {
    var k := KeepSafe(w);
    if k == [] then salt else k
  }

  function KeepLetters(w: string): (r: string)
    ensures |r| <= |w|
    ensures forall i :: 0 <= i < |r| ==> IsLetter(r[i])
    ensures (forall i :: 0 <= i < |w| ==> IsLetter(w[i])) ==> r == w
  {
    if w == [] then []
    else (if IsLetter(w[0]) then [w[0]] else []) + KeepLetters(w[1..])
  }

  /** A random word made of letters only. */
  type LetterSalt = s: string | |s| >= 1 && forall i :: 0 <= i < |s| ==> IsLetter(s[i]) witness "a"

  /** verySafeWord: the letters of `w`, or the (all-letter) salt when there are none. */
  function VerySafeWord(w: string, salt: LetterSalt): (r: string)
    ensures r != [] && forall i :: 0 <= i < |r| ==> IsLetter(r[i])
    ensures (forall i :: 0 <= i < |w| ==> IsLetter(w[i])) && w != [] ==> r == w
  {
    var k := KeepLetters(w);
    if k == [] then salt else k
  }

  // ------------------------------------------------------------ case converters

  function Cap(w: string): string {
    InitialUpperCase(ToLower(w))
  }

  function DigitMark(w: string): string {
    if w != [] && IsDigit(w[0]) then "_" else ""
  }

  /** The safe words of `v`; word `i` takes `salt(i)` when it has no safe character. */
  function SafeWords(ws: seq<string>, salt: nat -> Salt, from: nat): (r: seq<string>)
    ensures |r| == |ws|
    ensures forall i :: 0 <= i < |r| ==> r[i] == SafeWord(ws[i], salt(from + i))
  {
    if ws == [] then [] else [SafeWord(ws[0], salt(from))] + SafeWords(ws[1..], salt, from + 1)
  }

  function Concat(parts: seq<string>): string {
    if parts == [] then [] else parts[0] + Concat(parts[1..])
  }

  function ClassWord(w: string): string {
    DigitMark(w) + Cap(w)
  }

  function MapClassWord(ws: seq<string>): (r: seq<string>)
    ensures |r| == |ws| && forall i :: 0 <= i < |ws| ==> r[i] == ClassWord(ws[i])
  {
    if ws == [] then [] else [ClassWord(ws[0])] + MapClassWord(ws[1..])
  }

  function MapCap(ws: seq<string>): (r: seq<string>)
    ensures |r| == |ws| && forall i :: 0 <= i < |ws| ==> r[i] == Cap(ws[i])
  {
    if ws == [] then [] else [Cap(ws[0])] + MapCap(ws[1..])
  }

  function MapLower(ws: seq<string>): (r: seq<string>)
    ensures |r| == |ws| && forall i :: 0 <= i < |ws| ==> r[i] == ToLower(ws[i])
  {
    if ws == [] then [] else [ToLower(ws[0])] + MapLower(ws[1..])
  }

  function StaticWord(w: string): string {
    DigitMark(w) + ToUpper(w)
  }

  function MapStaticWord(ws: seq<string>): (r: seq<string>)
    ensures |r| == |ws| && forall i :: 0 <= i < |ws| ==> r[i] == StaticWord(ws[i])
  {
    if ws == [] then [] else [StaticWord(ws[0])] + MapStaticWord(ws[1..])
  }

  function AliasWords(ws: seq<string>): string {
    if ws == [] then []
    else DigitMark(ws[0]) + InitialLowerCase(ToLower(ws[0])) + Concat(MapCap(ws[1..]))
  }

  /** aliasCase: first safe word lower-cased (marked `_` before a digit), every later one capitalised, no separator. */
  function AliasCase(v: string, salt: nat -> Salt): (r: string)
  {
    AliasWords(SafeWords(Words(v), salt, 0))
  }

  /** classCase: every safe word capitalised and marked `_` before a digit, no separator. */
  function ClassCase(v: string, salt: nat -> Salt): (r: string)
  {
    Concat(MapClassWord(SafeWords(Words(v), salt, 0)))
  }

  /** staticCase: safe words upper-cased, marked `_` before a digit, joined by `_`. */
  function StaticCase(v: string, salt: nat -> Salt): (r: string)
  {
    Join(MapStaticWord(SafeWords(Words(v), salt, 0)), "_")
  }

  /** camelCase: every word capitalised and the words joined by one space. */
  function CamelCase(v: string): (r: string)
  {
    Join(MapCap(Words(v)), " ")
  }

  /** kebabCase: every word lower-cased and the words joined by `-`. */
  function KebabCase(v: string): (r: string)
  {
    Join(MapLower(Words(v)), "-")
  }

  lemma ConcatCons(a: string, rest: seq<string>)
    ensures Concat([a] + rest) == a + Concat(rest)
  {
    assert ([a] + rest)[1..] == rest;
  }

  lemma InitialLowerCaseAppend(a: string, b: string)
    requires a != []
    ensures InitialLowerCase(a + b) == InitialLowerCase(a) + b
  {
    assert (a + b)[1..] == a[1..] + b;
  }

  /** Upper- and lower-casing leave a digit alone. */
  lemma DigitLedCap(w: string)
    requires w != [] && IsDigit(w[0])
    ensures Cap(w) == InitialLowerCase(ToLower(w))
  {
  }

  /** The first word's contribution: lowering the initial of its class-case form. */
  lemma AliasHead(w: string, rest: string)
    requires w != []
    ensures DigitMark(w) + InitialLowerCase(ToLower(w)) + rest == InitialLowerCase(DigitMark(w) + Cap(w) + rest)
  {
    if IsDigit(w[0]) {
      AliasHeadDigit(w, rest);
    } else {
      AliasHeadLetter(w, rest);
    }
  }

  lemma AliasHeadDigit(w: string, rest: string)
    requires w != [] && IsDigit(w[0])
    ensures "_" + InitialLowerCase(ToLower(w)) + rest == InitialLowerCase("_" + Cap(w) + rest)
  {
    DigitLedCap(w);
    UnderscoreLeadIsLower(Cap(w) + rest);
    assert "_" + Cap(w) + rest == "_" + (Cap(w) + rest);
  }

  /** An underscore has no lower case, so lowering the initial of "_" + t changes nothing. */
  lemma UnderscoreLeadIsLower(t: string)
    ensures InitialLowerCase("_" + t) == "_" + t
  {
    assert ("_" + t)[1..] == t;
  }

  lemma AliasHeadLetter(w: string, rest: string)
    requires w != []
    ensures InitialLowerCase(ToLower(w)) + rest == InitialLowerCase(Cap(w) + rest)
  {
    InitialLowerCaseAppend(Cap(w), rest);
    InitialCaseAbsorbs(ToLower(w));
  }

  lemma ClassWordsCons(ws: seq<string>)
    requires ws != []
    ensures Concat(MapClassWord(ws)) == ClassWord(ws[0]) + Concat(MapClassWord(ws[1..]))
  {
    assert MapClassWord(ws) == [ClassWord(ws[0])] + MapClassWord(ws[1..]);
    ConcatCons(ClassWord(ws[0]), MapClassWord(ws[1..]));
  }

  lemma CapsCons(ws: seq<string>)
    requires ws != []
    ensures Concat(MapCap(ws)) == Cap(ws[0]) + Concat(MapCap(ws[1..]))
  {
    assert MapCap(ws) == [Cap(ws[0])] + MapCap(ws[1..]);
    ConcatCons(Cap(ws[0]), MapCap(ws[1..]));
  }

  lemma AliasWordsLowered(ws: seq<string>)
    requires forall i :: 0 <= i < |ws| ==> ws[i] != []
    requires forall i :: 1 <= i < |ws| ==> !IsDigit(ws[i][0])
    ensures AliasWords(ws) == InitialLowerCase(Concat(MapClassWord(ws)))
  {
    if ws != [] {
      var w := ws[0];
      var rest := Concat(MapCap(ws[1..]));
      ClassWordsCons(ws);
      ClassTailIsCapTail(ws[1..]);
      AliasHead(w, rest);
    }
  }

  /**
   * aliasCase is classCase with its initial lower-cased whenever no safe
   * word after the first starts with a digit.
   */
  lemma AliasIsLoweredClass(v: string, salt: nat -> Salt)
    requires forall i :: 1 <= i < |SafeWords(Words(v), salt, 0)| ==> !IsDigit(SafeWords(Words(v), salt, 0)[i][0])
    ensures AliasCase(v, salt) == InitialLowerCase(ClassCase(v, salt))
  {
    AliasWordsLowered(SafeWords(Words(v), salt, 0));
  }

  lemma {:induction false} ClassTailIsCapTail(ws: seq<string>)
    requires forall i :: 0 <= i < |ws| ==> ws[i] != [] && !IsDigit(ws[i][0])
    ensures Concat(MapClassWord(ws)) == Concat(MapCap(ws))
  {
    if ws != [] {
      ClassWordsCons(ws);
      CapsCons(ws);
      assert ClassWord(ws[0]) == Cap(ws[0]) by {
        assert DigitMark(ws[0]) == [];
      }
      ClassTailIsCapTail(ws[1..]);
    }
  }

  /** A later digit-led word is where the two converters part: "a 1" gives "a1" and "A_1", whatever the salt. */
  lemma AliasClassDifferOnLaterDigit(salt: nat -> Salt)
    ensures AliasCase("a 1", salt) == "a1"
    ensures ClassCase("a 1", salt) == "A_1"
  {
    WordsOfA1();
    SafeWordsOfA1(salt);
    AliasWordsOfA1();
    ClassWordsOfA1();
  }

  lemma WordsOfA1()
    ensures Words("a 1") == ["a", "1"]
  {
    var v := "a 1";
    assert v[1] == ' ' && !NoSpace(v);
    assert FirstSpace(v) == 1;
    assert RunEnd(v, 2) == 2;
    assert v[..1] == "a" && v[2..] == "1";
    assert SplitRuns("1") == ["1"];
    assert SplitRuns(v) == ["a", "1"];
  }

  lemma SafeWordsOfA1(salt: nat -> Salt)
    ensures SafeWords(["a", "1"], salt, 0) == ["a", "1"]
  {
    assert KeepSafe("a") == "a";
    assert KeepSafe("1") == "1";
  }

  lemma AliasWordsOfA1()
    ensures AliasWords(["a", "1"]) == "a1"
  {
    var ws := ["a", "1"];
    assert ws[1..] == ["1"];
    assert ToLower("1") == "1" && Cap("1") == "1";
    assert MapCap(ws[1..]) == ["1"];
    assert Concat(["1"]) == "1";
    assert ToLower("a") == "a";
    assert AliasWords(ws) == "" + "a" + "1";
  }

  lemma ClassWordsOfA1()
    ensures Concat(MapClassWord(["a", "1"])) == "A_1"
  {
    var ws := ["a", "1"];
    assert ToLower("a") == "a" && Cap("a") == "A" && ClassWord("a") == "A";
    assert ToLower("1") == "1" && Cap("1") == "1" && ClassWord("1") == "_1";
    assert MapClassWord(ws) == ["A", "_1"];
    assert Concat(["_1"]) == "_1";
  }

  // ------------------------------------------------------------ joins and splits

  /** Splitting a join on its separator gives the parts back when no part holds the separator. */
  lemma {:induction false} SplitJoin(parts: seq<string>, sep: char)
    requires parts != []
    requires forall i :: 0 <= i < |parts| ==> sep !in parts[i]
    ensures SplitAll(Join(parts, [sep]), sep) == parts
  {
    if |parts| == 1 {
    } else {
      var s := Join(parts, [sep]);
      var rest := Join(parts[1..], [sep]);
      assert s == parts[0] + [sep] + rest;
      assert sep in s by { assert s[|parts[0]|] == sep; }
      var k := FirstIndexOf(s, sep);
      FirstIndexAfterFree(parts[0], sep, rest);
      assert k == |parts[0]|;
      assert s[..k] == parts[0];
      assert s[k + 1..] == rest;
      SplitJoin(parts[1..], sep);
    }
  }

  lemma FirstIndexAfterFree(a: string, sep: char, b: string)
    requires sep !in a
    ensures FirstIndexOf(a + [sep] + b, sep) == |a|
  {
    if a != [] {
      assert (a + [sep] + b)[1..] == a[1..] + [sep] + b;
      FirstIndexAfterFree(a[1..], sep, b);
    }
  }

  lemma NoSpaceNoChar(w: string, c: char)
    requires NoSpace(w) && IsSpace(c)
    ensures c !in w
  {
  }

  lemma ToLowerKeepsChar(w: string, c: char)
    requires c !in w && !('A' <= c <= 'Z') && !('a' <= c <= 'z')
    ensures c !in ToLower(w)
  {
  }

  /** Splitting a kebab-case text on `-` gives back the lower-cased words, when no word holds a `-`. */
  lemma KebabSplits(v: string)
    requires Words(v) != []
    requires forall i :: 0 <= i < |Words(v)| ==> '-' !in Words(v)[i]
    ensures SplitAll(KebabCase(v), '-') == MapLower(Words(v))
  {
    var ws := Words(v);
    forall i | 0 <= i < |ws|
      ensures '-' !in MapLower(ws)[i]
    {
      ToLowerKeepsChar(ws[i], '-');
    }
    SplitJoin(MapLower(ws), '-');
  }

  /** Splitting a camel-case text on spaces gives back the capitalised words. */
  lemma CamelSplits(v: string)
    requires Words(v) != []
    ensures SplitAll(CamelCase(v), ' ') == MapCap(Words(v))
  {
    var ws := Words(v);
    forall i | 0 <= i < |ws|
      ensures ' ' !in MapCap(ws)[i]
    {
      NoSpaceNoChar(ws[i], ' ');
      ToLowerKeepsChar(ws[i], ' ');
    }
    SplitJoin(MapCap(ws), ' ');
  }

  predicate StaticAlphabet(c: char) {
    'A' <= c <= 'Z' || IsDigit(c) || c == '_'
  }

  predicate AllSafe(w: string) {
    forall k :: 0 <= k < |w| ==> IsSafe(w[k])
  }

  predicate StaticText(w: string) {
    forall k :: 0 <= k < |w| ==> StaticAlphabet(w[k])
  }

  lemma StaticWordText(w: string)
    requires AllSafe(w)
    ensures StaticText(StaticWord(w))
  {
    var u := ToUpper(w);
    assert StaticText(u);
    assert StaticWord(w) == DigitMark(w) + u;
  }

  lemma {:induction false} SafeWordsSafe(ws: seq<string>, salt: nat -> Salt, from: nat)
    requires forall n: nat :: AllSafe(salt(n))
    ensures forall i :: 0 <= i < |ws| ==> AllSafe(SafeWords(ws, salt, from)[i])
  {
    forall i | 0 <= i < |ws|
      ensures AllSafe(SafeWords(ws, salt, from)[i])
    {
      assert AllSafe(salt(from + i));
    }
  }

  /** staticCase output holds only upper-case letters, digits and underscores, given a salt of safe characters. */
  lemma StaticCaseAlphabet(v: string, salt: nat -> Salt)
    requires forall n: nat :: AllSafe(salt(n))
    ensures StaticText(StaticCase(v, salt))
  {
    var ws := SafeWords(Words(v), salt, 0);
    SafeWordsSafe(Words(v), salt, 0);
    StaticWordsText(ws);
    assert StaticText("_") by {
      assert "_"[0] == '_';
    }
    JoinAlphabet(MapStaticWord(ws), "_");
  }

  lemma StaticWordsText(ws: seq<string>)
    requires forall i :: 0 <= i < |ws| ==> AllSafe(ws[i])
    ensures forall i :: 0 <= i < |ws| ==> StaticText(MapStaticWord(ws)[i])
  {
    forall i | 0 <= i < |ws|
      ensures StaticText(MapStaticWord(ws)[i])
    {
      StaticWordText(ws[i]);
    }
  }

  lemma {:induction false} JoinAlphabet(parts: seq<string>, sep: string)
    requires StaticText(sep)
    requires forall i :: 0 <= i < |parts| ==> StaticText(parts[i])
    ensures StaticText(Join(parts, sep))
  {
    if |parts| > 1 {
      JoinAlphabet(parts[1..], sep);
      var j := Join(parts, sep);
      assert j == parts[0] + sep + Join(parts[1..], sep);
      assert StaticText(parts[0] + sep);
    }
  }

  // ------------------------------------------------------------ plural

  /** `s` ends with the character `c`. */
  predicate Ends1(s: string, c: char) {
    |s| >= 1 && s[|s| - 1] == c
  }

  /** `s` ends with the two characters `a`, `b`. */
  predicate Ends2(s: string, a: char, b: char) {
    |s| >= 2 && s[|s| - 2] == a && s[|s| - 1] == b
  }

  /** How plural rewrites a set word: drop this many final characters, then append `suffix`. */
  datatype PluralRule = PluralRule(drop: nat, suffix: string)

  /** plural's decision list on the ending of the singular. */
  function PluralRuleOf(s: string): (r: PluralRule)
    requires s != []
    ensures r.drop <= |s| && r.drop <= |r.suffix|
    ensures r.drop <= 2
    ensures r.suffix == [] ==> Ends1(s, 's') || Ends1(s, 'S')
    ensures r.suffix != [] ==> r.suffix[|r.suffix| - 1] in "sS'"
  {
    if Ends2(s, 'e', 's') || Ends2(s, 'E', 'S') then PluralRule(0, [])
    else if Ends2(s, '\'', 's') then PluralRule(2, "s'")
    else if Ends2(s, '\'', 'S') then PluralRule(2, "S'")
    else if Ends1(s, 's') then PluralRule(0, "es")
    else if Ends1(s, 'S') then PluralRule(0, "ES")
    else if Ends1(s, 'y') then PluralRule(1, "ies")
    else if Ends1(s, 'Y') then PluralRule(1, "IES")
    else if Upper(s[|s| - 1]) == s[|s| - 1] then PluralRule(0, "S")
    else PluralRule(0, "s")
  }

  /** plural: the empty string for a blank word, otherwise the word rewritten by its rule. */
  function Plural(s: string): string {
    if !IsSet(s) then []
    else
      SetIsNonEmpty(s);
      var rule := PluralRuleOf(s);
      s[..|s| - rule.drop] + rule.suffix
  }

  lemma SetIsNonEmpty(s: string)
    requires IsSet(s)
    ensures s != []
  {
    IsSetMeans(s);
  }

  /** A blank word has the empty plural. */
  lemma PluralBlank(s: string)
    ensures !IsSet(s) <==> Plural(s) == []
  {
    if IsSet(s) {
      PluralGrows(s);
    }
  }

  /** A plural is at least as long as its word and keeps all but at most the word's last two characters. */
  lemma PluralGrows(s: string)
    requires IsSet(s)
    ensures |Plural(s)| >= |s| >= 1
    ensures |s| >= 2 ==> Plural(s)[..|s| - 2] == s[..|s| - 2]
  {
    SetIsNonEmpty(s);
    var rule := PluralRuleOf(s);
    if |s| >= 2 {
      KeepsPrefix(s[..|s| - rule.drop], rule.suffix, |s| - 2);
    }
  }

  lemma KeepsPrefix(a: string, b: string, k: nat)
    requires k <= |a|
    ensures (a + b)[..k] == a[..k]
  {
  }

  /** Every plural of a set word ends in `s`, `S` or an apostrophe. */
  lemma PluralEnding(s: string)
    requires IsSet(s)
    ensures Ends1(Plural(s), 's') || Ends1(Plural(s), 'S') || Ends1(Plural(s), '\'')
  {
    SetIsNonEmpty(s);
    var rule := PluralRuleOf(s);
    var p := Plural(s);
    if rule.suffix == [] {
      assert p == s;
    } else {
      assert p[|p| - 1] == rule.suffix[|rule.suffix| - 1];
    }
  }

  /** Pluralising is idempotent on what the `s` rule produces: the result ends in `es`, which is left alone. */
  lemma PluralOfEsPlural(s: string)
    requires IsSet(s) && Ends1(s, 's') && !Ends2(s, 'e', 's') && !Ends2(s, '\'', 's')
    ensures Plural(Plural(s)) == Plural(s)
  {
    PluralOfS(s);
    PluralOfEs(s + "es");
  }

  /** The `s` rule appends "es". */
  lemma PluralOfS(s: string)
    requires IsSet(s) && Ends1(s, 's') && !Ends2(s, 'e', 's') && !Ends2(s, '\'', 's')
    ensures Plural(s) == s + "es"
  {
    SetIsNonEmpty(s);
    assert PluralRuleOf(s) == PluralRule(0, "es");
    assert s[..|s|] == s;
  }

  /** A word ending in "es" is its own plural. */
  lemma PluralOfEs(p: string)
    requires Ends2(p, 'e', 's')
    ensures Plural(p) == p
  {
    assert p[|p| - 1] > ' ';
    assert PluralRuleOf(p) == PluralRule(0, []);
    assert p[..|p|] + [] == p;
  }

  // ------------------------------------------------------------ base 26

  function LowerLetter(d: int): (r: char)
    requires 0 <= d < 26
    ensures 'a' <= r <= 'z'
  {
    ('a' as int + d) as char
  }

  /**
   * indexToString: bijective base 26 over `a`..`z`.  Each pass of the source's
   * loop emits the letter for `i % 26` and continues with `i / 26 - 1`.
   */
  function IndexToString(i: int): (r: Result<string>)
    ensures i < 0 <==> r == Failure(IllegalArgument)
    ensures r.Success? ==> r.value != [] && forall k :: 0 <= k < |r.value| ==> 'a' <= r.value[k] <= 'z'
  {
    if i < 0 then Failure(IllegalArgument) else Success(Base26(i))
  }

  function Base26(i: nat): (r: string)
    ensures r != [] && forall k :: 0 <= k < |r| ==> 'a' <= r[k] <= 'z'
  {
    if i < 26 then [LowerLetter(i)] else Base26(i / 26 - 1) + [LowerLetter(i % 26)]
  }

  /** The exact value stringToIndex accumulates before subtracting one. */
  function Base26Value(s: string): (r: nat)
    requires forall k :: 0 <= k < |s| ==> 'a' <= s[k] <= 'z'
  {
    if s == [] then 0 else Base26Value(s[..|s| - 1]) * 26 + (s[|s| - 1] as int - 'a' as int + 1)
  }

  lemma {:induction false} Base26ValueOf(i: nat)
    ensures Base26Value(Base26(i)) == i + 1
    decreases i
  {
    var s := Base26(i);
    if i >= 26 {
      assert s[..|s| - 1] == Base26(i / 26 - 1);
      Base26ValueOf(i / 26 - 1);
    }
  }

  /** The left fold stringToIndex performs, in Java int arithmetic. */
  function Fold26(s: string, hold: int): (r: int)
    requires forall k :: 0 <= k < |s| ==> 'a' <= s[k] <= 'z'
  {
    if s == [] then hold
    else Fold26(s[1..], JavaInt.Add32(JavaInt.Mul32(hold, 26), s[0] as int - 'a' as int + 1))
  }

  /**
   * stringToIndex: keeps the letters (the salt stands in for the random word
   * used when there are none), lower-cases them, folds `hold * 26 + (letter + 1)`
   * in Java int arithmetic and subtracts one.
   */
  function StringToIndex(s: string, salt: LetterSalt): (r: int)
    ensures JavaInt.IsInt(r)
  {
    var safe := ToLower(VerySafeWord(s, salt));
    assert forall k :: 0 <= k < |safe| ==> 'a' <= safe[k] <= 'z';
    JavaInt.Add32(Fold26(safe, 0), -1)
  }

  lemma Base26ValueSnoc(s: string, c: char)
    requires forall k :: 0 <= k < |s| ==> 'a' <= s[k] <= 'z'
    requires 'a' <= c <= 'z'
    ensures Base26Value(s + [c]) == Base26Value(s) * 26 + (c as int - 'a' as int + 1)
  {
    assert (s + [c])[..|s|] == s;
  }

  /** The wrapped fold is the exact base-26 value reduced modulo 2^32. */
  lemma {:induction false} Fold26Wraps(s: string, acc: string)
    requires forall k :: 0 <= k < |s| ==> 'a' <= s[k] <= 'z'
    requires forall k :: 0 <= k < |acc| ==> 'a' <= acc[k] <= 'z'
    ensures Fold26(s, JavaInt.Wrap32(Base26Value(acc))) == JavaInt.Wrap32(Base26Value(acc + s))
    decreases |s|
  {
    if s == [] {
      assert acc + s == acc;
    } else {
      var h := JavaInt.Wrap32(Base26Value(acc));
      var d := s[0] as int - 'a' as int + 1;
      var next := JavaInt.Add32(JavaInt.Mul32(h, 26), d);
      Base26ValueSnoc(acc, s[0]);
      WrapStep(Base26Value(acc), d);
      assert next == JavaInt.Wrap32(Base26Value(acc + [s[0]]));
      assert acc + [s[0]] + s[1..] == acc + s;
      Fold26Wraps(s[1..], acc + [s[0]]);
    }
  }

  lemma WrapStep(x: int, d: int)
    ensures JavaInt.Add32(JavaInt.Mul32(JavaInt.Wrap32(x), 26), d) == JavaInt.Wrap32(x * 26 + d)
  {
    var w := JavaInt.Wrap32(x);
    var q := (w - x) / JavaInt.TWO_32;
    assert w == x + q * JavaInt.TWO_32;
    var m := JavaInt.Wrap32(w * 26);
    var q2 := (m - w * 26) / JavaInt.TWO_32;
    assert m == w * 26 + q2 * JavaInt.TWO_32;
    assert m + d == x * 26 + d + (q * 26 + q2) * JavaInt.TWO_32;
    WrapCongruent(m + d, x * 26 + d, q * 26 + q2);
  }

  lemma WrapCongruent(a: int, b: int, k: int)
    requires a == b + k * JavaInt.TWO_32
    ensures JavaInt.Wrap32(a) == JavaInt.Wrap32(b)
  {
    var ra := JavaInt.Wrap32(a);
    var rb := JavaInt.Wrap32(b);
    var qa := (ra - a) / JavaInt.TWO_32;
    var qb := (rb - b) / JavaInt.TWO_32;
    assert ra == a + qa * JavaInt.TWO_32;
    assert rb == b + qb * JavaInt.TWO_32;
    assert ra - rb == (k + qa - qb) * JavaInt.TWO_32;
  }

  predicate LowerLetters(s: string) {
    forall k :: 0 <= k < |s| ==> 'a' <= s[k] <= 'z'
  }

  lemma LowerLettersFixed(s: string, salt: LetterSalt)
    requires s != [] && LowerLetters(s)
    ensures ToLower(VerySafeWord(s, salt)) == s
  {
    assert forall k :: 0 <= k < |s| ==> IsLetter(s[k]);
    assert VerySafeWord(s, salt) == s;
    assert forall k :: 0 <= k < |s| ==> Lower(s[k]) == s[k];
  }

  lemma FoldOfBase26(i: nat)
    ensures Fold26(Base26(i), 0) == JavaInt.Wrap32(i + 1)
  {
    var s := Base26(i);
    Fold26Wraps(s, []);
    assert [] + s == s;
    Base26ValueOf(i);
  }

  /** stringToIndex inverts indexToString for every non-negative Java int. */
  lemma StringToIndexOfIndexToString(i: int, salt: LetterSalt)
    requires 0 <= i <= JavaInt.INT_MAX
    ensures IndexToString(i).Success?
    ensures StringToIndex(IndexToString(i).value, salt) == i
  {
    var s := Base26(i);
    LowerLettersFixed(s, salt);
    FoldOfBase26(i);
    var h := JavaInt.Wrap32(i + 1);
    var q := if i == JavaInt.INT_MAX then -1 else 0;
    assert h == i + 1 + q * JavaInt.TWO_32;
    WrapCongruent(h - 1, i, q);
    assert StringToIndex(s, salt) == JavaInt.Wrap32(h - 1);
  }

  /** The values the library's tests pin down. */
  lemma Base26Examples()
    ensures Base26(0) == "a" && Base26(25) == "z" && Base26(26) == "aa"
    ensures Base26(51) == "az" && Base26(52) == "ba" && Base26(701) == "zz"
    ensures Base26(702) == "aaa" && Base26(1377) == "azz" && Base26(1378) == "baa"
  {
  }

  // ------------------------------------------------------------ trim

  datatype TrimSpec = Both | Leading | Trailing

  /** Where the regular-expression anchor `$` matches: the end, or just before a final line terminator. */
  predicate DollarAt(s: string, j: nat)
    requires j <= |s|
  {
    j == |s|
    || (j == |s| - 1 && (s[j] == '\r' || s[j] == '\U{0085}' || s[j] == '\U{2028}' || s[j] == '\U{2029}'
                         || (s[j] == '\n' && !(j > 0 && s[j - 1] == '\r'))))
    || (j + 2 == |s| && s[j] == '\r' && s[j + 1] == '\n')
  }

  /** The pattern class a trim works with: one literal character, or `\s`. */
  datatype CharClass = Literal(c: char) | Space {
    predicate Has(x: char) {
      match this
      case Literal(c) => x == c
      case Space => IsSpace(x)
    }
  }

  function RunOf(s: string, cls: CharClass, i: nat): (r: nat)
    requires i <= |s|
    ensures i <= r <= |s|
    ensures forall j :: i <= j < r ==> cls.Has(s[j])
    ensures r == |s| || !cls.Has(s[r])
    decreases |s| - i
  {
    if i == |s| || !cls.Has(s[i]) then i else RunOf(s, cls, i + 1)
  }

  /** The largest `e` with `lo < e <= hi` at which `$` matches, if any (how `X+$` backtracks). */
  function LastDollar(s: string, lo: nat, hi: nat): (r: Option<nat>)
    requires lo <= hi <= |s|
    ensures r.Some? ==> lo < r.value <= hi && DollarAt(s, r.value)
    ensures r.None? ==> forall e :: lo < e <= hi ==> !DollarAt(s, e)
    decreases hi
  {
    if hi == lo then None
    else if DollarAt(s, hi) then Some(hi)
    else LastDollar(s, lo, hi - 1)
  }

  /** `s.replaceAll("^X+", "")`: drops the maximal leading run. */
  function StripLeading(s: string, cls: CharClass): (r: string)
    ensures |r| <= |s| && r == s[|s| - |r|..]
    ensures forall j :: 0 <= j < |s| - |r| ==> cls.Has(s[j])
    ensures r == [] || !cls.Has(r[0])
  {
    s[RunOf(s, cls, 0)..]
  }

  /** `s.replaceAll("X+$", "")`, scanning from `i`: every match of a run ending where `$` matches is removed. */
  function StripTrailingFrom(s: string, cls: CharClass, i: nat): (r: string)
    requires i <= |s|
    ensures |r| <= |s| - i
    decreases |s| - i
  {
    if i == |s| then []
    else if cls.Has(s[i]) then
      match LastDollar(s, i, RunOf(s, cls, i))
      case Some(e) => StripTrailingFrom(s, cls, e)
      case None => [s[i]] + StripTrailingFrom(s, cls, i + 1)
    else [s[i]] + StripTrailingFrom(s, cls, i + 1)
  }

  function StripTrailing(s: string, cls: CharClass): (r: string)
    ensures |r| <= |s|
  {
    StripTrailingFrom(s, cls, 0)
  }

  /** The characters the source escapes before building its pattern. */
  predicate Escaped(c: char) {
    c in ".[]\\&+-*"
  }

  /** Characters that act as pattern operators when left unescaped (`}` alone is a literal). */
  predicate PatternOperator(c: char) {
    c in "^$?(){|"
  }

  /**
   * The patterns trim builds around an unescaped operator that
   * Pattern.compile rejects: a group or alternation left open, a `{` that
   * starts no repetition, and, in the trailing pattern `?+$`, a dangling
   * `?`.  A PatternSyntaxException is an IllegalArgumentException.
   */
  predicate PatternRejected(spec: TrimSpec, c: char) {
    c in "(){|" || (c == '?' && spec != Leading)
  }

  /**
   * trim(spec, c, s).  With a space, BOTH is String.trim and the one-sided
   * forms strip `\s` runs; with any other character the maximal leading
   * and/or trailing run of it is removed.  An unescaped `^`, `$` or `?`
   * yields a pattern that matches only the empty string, so the text comes
   * back unchanged; the other operators make the pattern fail to compile.
   */
  function TrimChars(spec: TrimSpec, c: char, s: string): (r: Result<string>)
    ensures r.Failure? <==> c != ' ' && PatternRejected(spec, c)
    ensures r.Failure? ==> r.error == IllegalArgument
    ensures c in "^$?" && r.Success? ==> r.value == s
    ensures r.Success? ==> |r.value| <= |s|
  {
    if c == ' ' then
      match spec
      case Both => Success(Trim(s))
      case Leading => Success(StripLeading(s, Space))
      case Trailing => Success(StripTrailing(s, Space))
    else if PatternRejected(spec, c) then Failure(IllegalArgument)
    else if PatternOperator(c) then Success(s)
    else
      match spec
      case Both => Success(StripTrailing(StripLeading(s, Literal(c)), Literal(c)))
      case Leading => Success(StripLeading(s, Literal(c)))
      case Trailing => Success(StripTrailing(s, Literal(c)))
  }

  predicate EndsInTerminator(s: string) {
    s != [] && (s[|s| - 1] == '\n' || s[|s| - 1] == '\r' || s[|s| - 1] == '\U{0085}'
                || s[|s| - 1] == '\U{2028}' || s[|s| - 1] == '\U{2029}')
  }

  /** The start of the final run of `cls` characters. */
  function FinalRunStart(s: string, cls: CharClass): (r: nat)
    ensures r <= |s|
    ensures forall j :: r <= j < |s| ==> cls.Has(s[j])
    ensures r == 0 || !cls.Has(s[r - 1])
  {
    if s == [] || !cls.Has(s[|s| - 1]) then |s| else FinalRunStart(s[..|s| - 1], cls)
  }

  lemma {:induction false} StripTrailingPlain(s: string, cls: CharClass, i: nat)
    requires !EndsInTerminator(s)
    requires i <= FinalRunStart(s, cls)
    ensures StripTrailingFrom(s, cls, i) == s[i..FinalRunStart(s, cls)]
    decreases |s| - i
  {
    var f := FinalRunStart(s, cls);
    if i == |s| {
    } else if i == f {
      StripTrailingFinalRun(s, cls, i);
    } else {
      StripTrailingKeeps(s, cls, i);
      StripTrailingPlain(s, cls, i + 1);
      SliceCons(s, i, f);
    }
  }

  lemma SliceCons(s: string, i: nat, f: nat)
    requires i < f <= |s|
    ensures s[i..f] == [s[i]] + s[i + 1..f]
  {
  }

  /** Only the end of the text can be where `$` matches, when no line terminator ends it. */
  lemma DollarOnlyAtEnd(s: string, e: nat)
    requires !EndsInTerminator(s) && e < |s|
    ensures !DollarAt(s, e)
  {
  }

  /** The final run reaches the end, where `$` matches: it is all removed. */
  lemma StripTrailingFinalRun(s: string, cls: CharClass, i: nat)
    requires !EndsInTerminator(s)
    requires i == FinalRunStart(s, cls) < |s|
    ensures StripTrailingFrom(s, cls, i) == []
  {
    assert cls.Has(s[i]);
    RunReachesEnd(s, cls, i);
    assert DollarAt(s, |s|);
  }

  lemma {:induction false} LastDollarNone(s: string, lo: nat, hi: nat)
    requires lo <= hi <= |s|
    requires forall e :: lo < e <= hi ==> !DollarAt(s, e)
    ensures LastDollar(s, lo, hi).None?
    decreases hi
  {
    if hi > lo {
      LastDollarNone(s, lo, hi - 1);
    }
  }

  /** A character before the final run is kept. */
  lemma StripTrailingKeeps(s: string, cls: CharClass, i: nat)
    requires !EndsInTerminator(s)
    requires i < FinalRunStart(s, cls)
    ensures StripTrailingFrom(s, cls, i) == [s[i]] + StripTrailingFrom(s, cls, i + 1)
  {
    if cls.Has(s[i]) {
      var m := RunOf(s, cls, i);
      assert m < |s|;
      forall e | i < e <= m
        ensures !DollarAt(s, e)
      {
        DollarOnlyAtEnd(s, e);
      }
      LastDollarNone(s, i, m);
    }
  }

  lemma RunReachesEnd(s: string, cls: CharClass, i: nat)
    requires i <= |s|
    requires forall j :: i <= j < |s| ==> cls.Has(s[j])
    ensures RunOf(s, cls, i) == |s|
    decreases |s| - i
  {
    if i < |s| {
      RunReachesEnd(s, cls, i + 1);
    }
  }

  /**
   * With a non-space character and no line terminator at the end, trim
   * removes exactly the maximal leading and/or trailing run of it.
   */
  lemma TrimCharRuns(spec: TrimSpec, c: char, s: string)
    requires c != ' ' && !PatternOperator(c)
    requires !EndsInTerminator(s)
    ensures spec == Leading ==> TrimChars(spec, c, s) == Success(s[RunOf(s, Literal(c), 0)..])
    ensures spec == Trailing ==> TrimChars(spec, c, s) == Success(s[..FinalRunStart(s, Literal(c))])
    ensures spec == Both ==>
              TrimChars(spec, c, s) == Success(s[RunOf(s, Literal(c), 0)..][..FinalRunStart(s[RunOf(s, Literal(c), 0)..], Literal(c))])
  {
    var cls := Literal(c);
    assert !PatternRejected(spec, c) && !PatternOperator(c);
    var t := s[RunOf(s, cls, 0)..];
    assert StripLeading(s, cls) == t;
    assert StripTrailing(s, cls) == s[..FinalRunStart(s, cls)] by {
      StripTrailingPlain(s, cls, 0);
    }
    assert StripTrailing(t, cls) == t[..FinalRunStart(t, cls)] by {
      if t != [] {
        assert t[|t| - 1] == s[|s| - 1];
      }
      StripTrailingPlain(t, cls, 0);
    }
  }

  /** The trailing form stops in front of a final line terminator, as `$` does. */
  lemma TrimBeforeTerminator()
    ensures TrimChars(Trailing, 'x', "ax\n") == Success("a\n")
  {
    var s := "ax\n";
    assert RunOf(s, Literal('x'), 1) == 2;
    assert DollarAt(s, 2);
    assert LastDollar(s, 1, 2) == Some(2);
    assert RunOf(s, Literal('x'), 2) == 2;
    assert StripTrailingFrom(s, Literal('x'), 3) == [];
    assert StripTrailingFrom(s, Literal('x'), 2) == "\n";
    assert StripTrailingFrom(s, Literal('x'), 1) == "\n";
    assert StripTrailingFrom(s, Literal('x'), 0) == "a\n";
    assert !PatternRejected(Trailing, 'x') && !PatternOperator('x');
  }

  // ------------------------------------------------------------ replaceAll

  /** customEncode with the dollar map: every `$` becomes `+%24`. */
  function DollarEncode(s: string): (r: string)
    ensures '$' !in r
    ensures '\\' !in s ==> '\\' !in r
    ensures '{' !in s ==> '{' !in r
    ensures '}' !in s ==> '}' !in r
    ensures '$' !in s ==> r == s
  {
    if s == [] then []
    else
      assert s == [s[0]] + s[1..];
      (if s[0] == '$' then "+%24" else [s[0]]) + DollarEncode(s[1..])
  }

  /**
   * How Matcher treats a replacement text: a backslash makes the next
   * character literal and a trailing backslash is an error; a `$` starts a
   * group reference, which the model treats as an error (none reaches here).
   */
  function Unescape(t: string): (r: Option<string>)
    ensures '\\' !in t && '$' !in t ==> r == Some(t)
  {
    if t == [] then Some([])
    else if t[0] == '\\' then
      if |t| < 2 then None
      else match Unescape(t[2..])
        case None => None
        case Some(rest) => Some([t[1]] + rest)
    else if t[0] == '$' then None
    else
      assert t == [t[0]] + t[1..];
      match Unescape(t[1..])
      case None => None
      case Some(rest) => Some([t[0]] + rest)
  }

  /** The text that takes the place of a placeholder for one replacement (None is Java's null). */
  function ReplacementText(rep: Option<string>): (r: string)
    ensures rep.None? ==> r == "null"
    ensures rep.Some? && '\\' !in rep.value ==> r == DollarEncode(rep.value)
  {
    match rep
    case None => "null"
    case Some(x) =>
      match Unescape(DollarEncode(x))
      case Some(t) => t
      case None => FormCodec.Encode(x)
  }

  /** A `{}` starts at index `j`. */
  predicate BracesAt(s: string, j: int) {
    0 <= j && j + 2 <= |s| && s[j] == '{' && s[j + 1] == '}'
  }

  /** The index of the first `{}` in `s`. */
  function FindBraces(s: string): (r: Option<nat>)
    ensures r.Some? ==> BracesAt(s, r.value)
    ensures r.Some? ==> forall j :: 0 <= j < r.value ==> !BracesAt(s, j)
    ensures r.None? ==> forall j :: !BracesAt(s, j)
  {
    if |s| < 2 then None
    else if s[0] == '{' && s[1] == '}' then Some(0)
    else match FindBraces(s[1..])
      case None =>
        assert forall j :: BracesAt(s, j) ==> j == 0 || BracesAt(s[1..], j - 1);
        None
      case Some(k) =>
        assert forall j :: BracesAt(s, j) ==> j == 0 || BracesAt(s[1..], j - 1);
        Some(k + 1)
  }

  function ReplaceFirst(s: string, text: string): (r: string)
  {
    match FindBraces(s)
    case None => s
    case Some(k) => s[..k] + text + s[k + 2..]
  }

  /** replaceAll: each replacement in turn fills the first `{}` of the text as it stands (the match argument is unused). */
  function ReplaceAll(input: string, reps: seq<Option<string>>): (r: string)
    decreases |reps|
  {
    if reps == [] then input
    else ReplaceAll(ReplaceFirst(input, ReplacementText(reps[0])), reps[1..])
  }

  /** Without a placeholder the text comes back unchanged, whatever the replacements. */
  lemma {:induction false} ReplaceAllNoPlaceholder(input: string, reps: seq<Option<string>>)
    requires FindBraces(input).None?
    ensures ReplaceAll(input, reps) == input
    decreases |reps|
  {
    if reps != [] {
      ReplaceAllNoPlaceholder(input, reps[1..]);
    }
  }

  predicate NoBrace(s: string) {
    '{' !in s && '}' !in s
  }

  /** The pieces joined with the replacements in their gaps; unfilled gaps keep their `{}`. */
  function Fill(pieces: seq<string>, texts: seq<string>): string
    requires pieces != []
    decreases |pieces|
  {
    if |pieces| == 1 then pieces[0]
    else if texts == [] then pieces[0] + "{}" + Fill(pieces[1..], [])
    else pieces[0] + texts[0] + Fill(pieces[1..], texts[1..])
  }

  function Texts(reps: seq<Option<string>>): (r: seq<string>)
    ensures |r| == |reps| && forall i :: 0 <= i < |reps| ==> r[i] == ReplacementText(reps[i])
  {
    if reps == [] then [] else [ReplacementText(reps[0])] + Texts(reps[1..])
  }

  lemma NoBraceNoPair(s: string)
    requires NoBrace(s)
    ensures FindBraces(s).None?
  {
  }

  lemma {:induction false} FindBracesAfterPlain(p: string, rest: string)
    requires NoBrace(p)
    ensures FindBraces(p + rest) == (match FindBraces(rest) case None => None case Some(k) => Some(|p| + k))
    decreases |p|
  {
    if p == [] {
      assert p + rest == rest;
    } else {
      assert p[0] in p;
      assert (p + rest)[1..] == p[1..] + rest;
      FindBracesAfterPlain(p[1..], rest);
    }
  }

  /**
   * When neither the text pieces nor the replacement texts hold a brace,
   * the i-th replacement lands in the i-th `{}`: extra replacements are
   * ignored and extra placeholders stay.
   */
  lemma {:induction false} ReplaceAllFills(done: string, pieces: seq<string>, reps: seq<Option<string>>)
    requires pieces != [] && NoBrace(done)
    requires forall i :: 0 <= i < |pieces| ==> NoBrace(pieces[i])
    requires forall i :: 0 <= i < |reps| ==> NoBrace(ReplacementText(reps[i]))
    ensures ReplaceAll(done + Join(pieces, "{}"), reps) == done + Fill(pieces, Texts(reps))
    decreases |pieces|
  {
    var s := done + Join(pieces, "{}");
    if |pieces| == 1 {
      NoBraceNoPair(done + pieces[0]);
      ReplaceAllNoPlaceholder(s, reps);
    } else if reps == [] {
      FillEmptyIsJoin(pieces);
    } else {
      var p := done + pieces[0];
      var t := ReplacementText(reps[0]);
      assert NoBrace(p);
      assert s == p + ("{}" + Join(pieces[1..], "{}"));
      ReplaceFirstAfterPlain(p, t, Join(pieces[1..], "{}"));
      ReplaceAllFills(p + t, pieces[1..], reps[1..]);
      FillStep(done, pieces, reps);
    }
  }

  lemma FillStep(done: string, pieces: seq<string>, reps: seq<Option<string>>)
    requires |pieces| > 1 && reps != []
    ensures done + Fill(pieces, Texts(reps)) == (done + pieces[0] + ReplacementText(reps[0])) + Fill(pieces[1..], Texts(reps[1..]))
  {
    assert Texts(reps)[1..] == Texts(reps[1..]);
  }

  /** The first `{}` after brace-free text is the one right after it. */
  lemma ReplaceFirstAfterPlain(p: string, t: string, rest: string)
    requires NoBrace(p)
    ensures ReplaceFirst(p + ("{}" + rest), t) == (p + t) + rest
  {
    var s := p + ("{}" + rest);
    FindBracesAfterPlain(p, "{}" + rest);
    assert FindBraces(s) == Some(|p|);
    assert s[..|p|] == p;
    assert s[|p| + 2..] == rest;
  }

  lemma {:induction false} FillEmptyIsJoin(pieces: seq<string>)
    requires pieces != []
    ensures Fill(pieces, []) == Join(pieces, "{}")
    decreases |pieces|
  {
    if |pieces| > 1 {
      FillEmptyIsJoin(pieces[1..]);
    }
  }

  /** A replacement that itself holds `{}` is filled by the next replacement. */
  lemma ReplacementRefilled()
    ensures ReplaceAll("a{}b", [Some("{}"), Some("X")]) == "aXb"
  {
    var reps := [Some("{}"), Some("X")];
    assert reps[1..] == [Some("X")];
    BracesRefill();
    BracesFilled();
    assert ReplaceAll("a{}b", reps) == ReplaceAll(ReplaceFirst("a{}b", ReplacementText(Some("{}"))), [Some("X")]);
  }

  lemma BracesRefill()
    ensures ReplaceFirst("a{}b", ReplacementText(Some("{}"))) == "a{}b"
  {
    assert ReplacementText(Some("{}")) == "{}";
    assert FindBraces("a{}b") == Some(1);
    assert "a{}b"[..1] + "{}" + "a{}b"[3..] == "a{}b";
  }

  lemma BracesFilled()
    ensures ReplaceAll("a{}b", [Some("X")]) == "aXb"
  {
    assert ReplacementText(Some("X")) == "X";
    assert FindBraces("a{}b") == Some(1);
    assert ReplaceFirst("a{}b", "X") == "aXb";
  }

  /** A dollar sign in a replacement arrives as `+%24`. */
  lemma DollarReplacement()
    ensures ReplaceAll("{}", [Some("$")]) == "+%24"
  {
    assert FindBraces("{}") == Some(0);
    assert DollarEncode("$") == "+%24";
  }
}

=== FILE: text.dfy ===
/**
 * The java.lang.String operations the library relies on, over Dafny strings.
 * Case mapping and digit tests cover ASCII only (see README, Left out).
 */
module Text {

  function Lower(c: char): (r: char)
    ensures 'A' <= c <= 'Z' ==> r as int == c as int + 32
    ensures !('A' <= c <= 'Z') ==> r == c
  {
    if 'A' <= c <= 'Z' then (c as int + 32) as char else c
  }

  function Upper(c: char): (r: char)
    ensures 'a' <= c <= 'z' ==> r as int == c as int - 32
    ensures !('a' <= c <= 'z') ==> r == c
  {
    if 'a' <= c <= 'z' then (c as int - 32) as char else c
  }

  predicate IsDigit(c: char) {
    '0' <= c <= '9'
  }

  predicate IsLetter(c: char) {
    'a' <= c <= 'z' || 'A' <= c <= 'Z'
  }

  /** String.toLowerCase restricted to ASCII letters. */
  function ToLower(s: string): (r: string)
    ensures |r| == |s|
    ensures forall i :: 0 <= i < |s| ==> r[i] == Lower(s[i])
  {
    if s == [] then [] else [Lower(s[0])] + ToLower(s[1..])
  }

  /** String.toUpperCase restricted to ASCII letters. */
  function ToUpper(s: string): (r: string)
    ensures |r| == |s|
    ensures forall i :: 0 <= i < |s| ==> r[i] == Upper(s[i])
  {
    if s == [] then [] else [Upper(s[0])] + ToUpper(s[1..])
  }

  predicate StartsWith(s: string, prefix: string) {
    |prefix| <= |s| && s[..|prefix|] == prefix
  }

  predicate EndsWith(s: string, suffix: string) {
    |suffix| <= |s| && s[|s| - |suffix|..] == suffix
  }

  predicate EqualsIgnoreCase(a: string, b: string) {
    ToLower(a) == ToLower(b)
  }

  /** The index of the last occurrence of `c` in `s`, or -1 (String.lastIndexOf). */
  function LastIndexOf(s: string, c: char): (r: int)
    ensures -1 <= r < |s|
    ensures r >= 0 ==> s[r] == c && c !in s[r + 1..]
    ensures r == -1 <==> c !in s
  {
    if s == [] then -1
    else if s[|s| - 1] == c then |s| - 1
    else
      var k := LastIndexOf(s[..|s| - 1], c);
      assert s[..|s| - 1] + [s[|s| - 1]] == s;
      k
  }

  /** The text after the last `c` (all of `s` when it holds none). */
  function AfterLast(s: string, c: char): (r: string)
    ensures c !in r && |r| <= |s|
    ensures r == s[|s| - |r|..]
    ensures c !in s ==> r == s
  {
    s[LastIndexOf(s, c) + 1..]
  }

  /** A character missing from a string is missing from each of its suffixes. */
  lemma NotInSuffix(s: string, k: nat, c: char)
    requires k <= |s| && c !in s
    ensures c !in s[k..]
  {
  }

  /** String.trim: drops every leading and trailing character at or below U+0020. */
  function Trim(s: string): (r: string)
    ensures |r| <= |s|
    ensures r != [] ==> r[0] > ' ' && r[|r| - 1] > ' '
  {
    TrimEnd(TrimStart(s))
  }

  /** Trimming leaves something exactly when some character is above U+0020. */
  lemma TrimEmptyIff(s: string)
    ensures (exists i :: 0 <= i < |s| && s[i] > ' ') <==> Trim(s) != []
  {
    var t := TrimStart(s);
    if Trim(s) != [] {
      var k := |s| - |t|;
      assert s[k] == t[0];
    }
  }

  function TrimStart(s: string): (r: string)
    ensures |r| <= |s|
    ensures r == s[|s| - |r|..]
    ensures r != [] ==> r[0] > ' '
    ensures forall i :: 0 <= i < |s| - |r| ==> s[i] <= ' '
  {
    if s == [] || s[0] > ' ' then s else TrimStart(s[1..])
  }

  function TrimEnd(s: string): (r: string)
    ensures |r| <= |s|
    ensures r == s[..|r|]
    ensures r != [] ==> r[|r| - 1] > ' '
    ensures forall i :: |r| <= i < |s| ==> s[i] <= ' '
  {
    if s == [] || s[|s| - 1] > ' ' then s else TrimEnd(s[..|s| - 1])
  }

  /** Joins `parts` with `sep` between consecutive parts. */
  function Join(parts: seq<string>, sep: string): (r: string)
    ensures parts == [] ==> r == []
    ensures |parts| == 1 ==> r == parts[0]
  {
    if parts == [] then []
    else if |parts| == 1 then parts[0]
    else parts[0] + sep + Join(parts[1..], sep)
  }

  /** Joining one more part appends the separator and that part. */
  lemma {:induction false} JoinSnoc(parts: seq<string>, p: string, sep: string)
    requires parts != []
    ensures Join(parts + [p], sep) == Join(parts, sep) + sep + p
    decreases |parts|
  {
    assert (parts + [p])[1..] == parts[1..] + [p];
    if |parts| > 1 {
      JoinSnoc(parts[1..], p, sep);
    }
  }

  /** Every piece of `s` between occurrences of `sep`, including empty ones (always at least one piece). */
  function SplitAll(s: string, sep: char): (r: seq<string>)
    ensures |r| >= 1
    ensures forall i :: 0 <= i < |r| ==> sep !in r[i]
    ensures Join(r, [sep]) == s
    decreases |s|
  {
    if sep !in s then [s]
    else
      var k := FirstIndexOf(s, sep);
      var tail := SplitAll(s[k + 1..], sep);
      assert s == s[..k] + [sep] + s[k + 1..];
      [s[..k]] + tail
  }

  function FirstIndexOf(s: string, c: char): (r: nat)
    requires c in s
    ensures r < |s| && s[r] == c && c !in s[..r]
  {
    if s[0] == c then 0 else 1 + FirstIndexOf(s[1..], c)
  }

  /** The parts with every trailing empty part removed. */
  function DropTrailingEmpty(parts: seq<string>): (r: seq<string>)
    ensures |r| <= |parts| && r == parts[..|r|]
    ensures r != [] ==> r[|r| - 1] != []
    ensures forall i :: |r| <= i < |parts| ==> parts[i] == []
  {
    if parts == [] || parts[|parts| - 1] != [] then parts
    else DropTrailingEmpty(parts[..|parts| - 1])
  }

  /**
   * String.split on a one-character literal separator: the input itself when
   * the separator does not occur (so "" gives [""]), otherwise the pieces with
   * trailing empty pieces removed.
   */
  function JavaSplit(s: string, sep: char): (r: seq<string>)
    ensures sep !in s ==> r == [s]
    ensures sep in s ==> r == DropTrailingEmpty(SplitAll(s, sep))
  {
    if sep !in s then [s] else DropTrailingEmpty(SplitAll(s, sep))
  }

  /**
   * String.compareTo(a, b) < 0: the first differing character decides, and a
   * proper prefix comes first.
   */
  predicate Less(a: string, b: string) {
    if a == [] then b != []
    else if b == [] then false
    else a[0] < b[0] || (a[0] == b[0] && Less(a[1..], b[1..]))
  }

  /** Less is a strict total order. */
  lemma {:induction false} LessIrreflexive(a: string)
    ensures !Less(a, a)
  {
    if a != [] {
      LessIrreflexive(a[1..]);
    }
  }

  lemma {:induction false} LessTransitive(a: string, b: string, c: string)
    requires Less(a, b) && Less(b, c)
    ensures Less(a, c)
  {
    if a != [] && b != [] && c != [] && a[0] == b[0] == c[0] {
      LessTransitive(a[1..], b[1..], c[1..]);
    }
  }

  lemma {:induction false} LessTotal(a: string, b: string)
    requires a != b
    ensures Less(a, b) || Less(b, a)
  {
    if a != [] && b != [] && a[0] == b[0] {
      assert a == [a[0]] + a[1..] && b == [b[0]] + b[1..];
      LessTotal(a[1..], b[1..]);
    }
  }

  lemma LessAsymmetric(a: string, b: string)
    requires Less(a, b)
    ensures !Less(b, a)
  {
    if Less(b, a) {
      LessTransitive(a, b, a);
      LessIrreflexive(a);
    }
  }
}

=== FILE: tuples.dfy ===
/**
 * Tuples: the fixed-size tuples Tuple1..Tuple26 (their shared behaviour is
 * AbstractTuple: the members in order plus an alias array, "a".."z" unless
 * replaced), the GenericTuple used beyond 26 members (an insertion-ordered
 * map from element to value), and TupleUtil's choice between them.
 */
module Tuples {
  import opened Wrappers
  import opened ClassModel
  import opened Values
  import StringUtil

  /** TupleElementImpl: an optional alias and a Java type; equal when both are. */
  datatype Element = Element(alias: Option<string>, jtype: ClassName)

  datatype Tuple =
    | Fixed(members: seq<Value>, aliases: seq<string>)
    | Generic(entries: seq<(Element, Value)>)

  /** size(): the number of members. */
  function Size(t: Tuple): nat {
    if t.Fixed? then |t.members| else |t.entries|
  }

  /** toArray: the members in order (for GenericTuple, in insertion order). */
  function ToArray(t: Tuple): (r: seq<Value>)
    ensures |r| == Size(t)
    ensures t.Fixed? ==> r == t.members
    ensures t.Generic? ==> forall i :: 0 <= i < |r| ==> r[i] == t.entries[i].1
  {
    if t.Fixed? then t.members
    else seq(|t.entries|, i requires 0 <= i < |t.entries| => t.entries[i].1)
  }

  /** The letter at position `i` of the alphabet, as a one-letter string. */
  function Letter(i: nat): string
    requires i < 26
  {
    [StringUtil.LowerLetter(i)]
  }

  /** AbstractTuple's default alias array, "a" to "z". */
  const DEFAULT_ALIASES: seq<string> :=
    ["a", "b", "c", "d", "e", "f", "g", "h", "i", "j", "k", "l", "m",
     "n", "o", "p", "q", "r", "s", "t", "u", "v", "w", "x", "y", "z"]

  /** The default aliases are the first 26 names GenericTuple gives its members. */
  lemma DefaultAliasesAreIndexNames(i: nat)
    requires i < 26
    ensures DEFAULT_ALIASES[i] == Letter(i) == StringUtil.Base26(i)
  {
  }

  /** The class getClass reports for a member, or Object for a null one (as getElements records it). */
  function ClassOrObject(v: Value): ClassName {
    if v == Null then OBJECT else RuntimeClass(v).value
  }

  // ------------------------------------------------------------ AbstractTuple

  /**
   * isAlias / getAliasIndex: the first index below `size` whose alias is
   * `alias`, scanning the alias array from `i`; an array shorter than the
   * tuple is an ArrayIndexOutOfBoundsException once the scan passes its end.
   */
  function AliasIndexFrom(aliases: seq<string>, size: nat, alias: string, i: nat): (r: Result<Option<nat>>)
    ensures r.Success? && r.value.Some? ==>
              var k := r.value.value;
              i <= k < size && k < |aliases| && aliases[k] == alias
              && forall j :: i <= j < k ==> aliases[j] != alias
    ensures r == Success(None) ==> (i < size ==> size <= |aliases|) && forall j :: i <= j < size ==> aliases[j] != alias
    ensures r.Failure? ==> r.error == IndexOutOfBounds && |aliases| < size
                           && forall j :: i <= j < |aliases| ==> aliases[j] != alias
    ensures size <= |aliases| ==> r.Success?
    decreases size - i
  {
    if i >= size then Success(None)
    else if i >= |aliases| then Failure(IndexOutOfBounds)
    else if aliases[i] == alias then Success(Some(i))
    else AliasIndexFrom(aliases, size, alias, i + 1)
  }

  /** get(int i) on a fixed tuple: i >= size is an IllegalArgumentException, a negative i out of bounds. */
  function FixedGetIndex(members: seq<Value>, i: int): (r: Result<Value>)
    ensures 0 <= i < |members| <==> r.Success?
    ensures r.Success? ==> r.value == members[i]
    ensures i >= |members| ==> r == Failure(IllegalArgument)
    ensures i < 0 ==> r == Failure(IndexOutOfBounds)
  {
    if i >= |members| then Failure(IllegalArgument)
    else if i < 0 then Failure(IndexOutOfBounds)
    else Success(members[i])
  }

  /**
   * get(String alias) on a fixed tuple: a null alias, or one not among the
   * first `size` aliases, is an IllegalArgumentException; otherwise the
   * member at the first matching index.
   */
  function FixedGetAlias(members: seq<Value>, aliases: seq<string>, alias: Option<string>): (r: Result<Value>)
    ensures alias.None? ==> r == Failure(IllegalArgument)
    ensures r.Success? ==> exists k :: 0 <= k < |members| && k < |aliases| && aliases[k] == alias.value
                                       && r.value == members[k] && forall j :: 0 <= j < k ==> aliases[j] != alias.value
    ensures alias.Some? && |members| <= |aliases| ==>
              (r.Success? <==> exists k :: 0 <= k < |members| && aliases[k] == alias.value)
    ensures r.Failure? ==> r.error == IllegalArgument || (r.error == IndexOutOfBounds && |aliases| < |members|)
  {
    if alias.None? then Failure(IllegalArgument)
    else
      match AliasIndexFrom(aliases, |members|, alias.value, 0)
      case Failure(e) => Failure(e)
      case Success(None) => Failure(IllegalArgument)
      case Success(Some(k)) => Success(members[k])
  }

  /** Member `k` is what get(TupleElement elm) looks for: non-null, of exactly the element's type, with a matching alias. */
  predicate ElementHit(members: seq<Value>, aliases: seq<string>, elm: Element, k: nat)
    requires k < |members|
  {
    k < |aliases| && members[k] != Null && RuntimeClass(members[k]).value == elm.jtype
    && (elm.alias.None? || elm.alias.value == aliases[k])
  }

  /** The scan passes member `k` without stopping: it has an alias, is not null, and is not a hit. */
  predicate ScanPasses(members: seq<Value>, aliases: seq<string>, elm: Element, k: nat)
    requires k < |members|
  {
    k < |aliases| && members[k] != Null && !ElementHit(members, aliases, elm, k)
  }

  /** A scan starting at `i` gets as far as member `k`. */
  predicate ScanReaches(members: seq<Value>, aliases: seq<string>, elm: Element, i: nat, k: nat)
    requires k <= |members|
  {
    forall j :: i <= j < k ==> ScanPasses(members, aliases, elm, j)
  }

  /**
   * get(TupleElement elm) on a fixed tuple: null for a null element;
   * otherwise the first member whose runtime class is the element's type
   * and whose alias matches (any alias when the element has none).  A null
   * member met on the way is a NullPointerException, running out of aliases
   * an ArrayIndexOutOfBoundsException, and no match at all an
   * IllegalArgumentException.
   */
  function FixedGetElementFrom(members: seq<Value>, aliases: seq<string>, elm: Element, i: nat): (r: Result<Value>)
    ensures r.Success? ==> exists k :: i <= k < |members| && k < |aliases| && r.value == members[k]
                                       && members[k] != Null && RuntimeClass(members[k]).value == elm.jtype
                                       && (elm.alias.None? || elm.alias.value == aliases[k])
    ensures r.Failure? ==> r.error in {NullPointer, IndexOutOfBounds, IllegalArgument}
    ensures (i <= |aliases| && forall j :: i <= j < |members| ==> members[j] != Null) && r.Failure? ==>
              (r.error == IllegalArgument <==> |members| <= |aliases|)
    ensures r.Success? <==> exists k :: i <= k < |members| && ElementHit(members, aliases, elm, k)
                                        && ScanReaches(members, aliases, elm, i, k)
    ensures r.Success? ==> exists k :: i <= k < |members| && ElementHit(members, aliases, elm, k)
                                       && ScanReaches(members, aliases, elm, i, k) && r.value == members[k]
    ensures r == Failure(IllegalArgument) <==> i >= |members| || ScanReaches(members, aliases, elm, i, |members|)
    ensures r == Failure(IndexOutOfBounds) <==>
              exists k :: i <= k < |members| && k >= |aliases| && ScanReaches(members, aliases, elm, i, k)
    ensures r == Failure(NullPointer) <==>
              exists k :: i <= k < |members| && k < |aliases| && members[k] == Null && ScanReaches(members, aliases, elm, i, k)
    decreases |members| - i
  {
    if i >= |members| then Failure(IllegalArgument)
    else if i >= |aliases| then
      assert ScanReaches(members, aliases, elm, i, i);
      assert !ScanPasses(members, aliases, elm, i);
      assert forall k :: i < k <= |members| ==> !ScanReaches(members, aliases, elm, i, k);
      Failure(IndexOutOfBounds)
    else if members[i] == Null then
      assert ScanReaches(members, aliases, elm, i, i);
      assert !ScanPasses(members, aliases, elm, i);
      assert forall k :: i < k <= |members| ==> !ScanReaches(members, aliases, elm, i, k);
      Failure(NullPointer)
    else if RuntimeClass(members[i]).value == elm.jtype && (elm.alias.None? || elm.alias.value == aliases[i]) then
      assert ElementHit(members, aliases, elm, i) && ScanReaches(members, aliases, elm, i, i);
      assert !ScanPasses(members, aliases, elm, i);
      assert forall k :: i < k <= |members| ==> !ScanReaches(members, aliases, elm, i, k);
      Success(members[i])
    else
      assert ScanPasses(members, aliases, elm, i);
      var next := i + 1;
      assert forall k :: next <= k <= |members| ==>
        (ScanReaches(members, aliases, elm, i, k) <==> ScanReaches(members, aliases, elm, next, k));
      assert (exists k :: i <= k < |members| && k >= |aliases| && ScanReaches(members, aliases, elm, i, k)) ==>
        exists k :: next <= k < |members| && k >= |aliases| && ScanReaches(members, aliases, elm, next, k);
      FixedGetElementFrom(members, aliases, elm, next)
  }

  /** getElements on a fixed tuple: one element per member, its alias and its class (Object when null). */
  function FixedElements(members: seq<Value>, aliases: seq<string>): (r: Result<seq<Element>>)
    ensures r.Success? <==> |members| <= |aliases|
    ensures r.Failure? ==> r.error == IndexOutOfBounds
    ensures r.Success? ==> |r.value| == |members|
    ensures r.Success? ==> forall i :: 0 <= i < |members| ==>
              r.value[i] == Element(Some(aliases[i]), ClassOrObject(members[i]))
  {
    if |members| > |aliases| then Failure(IndexOutOfBounds)
    else Success(seq(|members|, i requires 0 <= i < |members| => Element(Some(aliases[i]), ClassOrObject(members[i]))))
  }

  // ------------------------------------------------------------ GenericTuple

  /** The first value stored under `k`, if any (LinkedHashMap.get). */
  function Lookup(es: seq<(Element, Value)>, k: Element): (r: Option<Value>)
    ensures r.Some? ==> exists i :: 0 <= i < |es| && es[i] == (k, r.value)
    ensures r.None? <==> forall i :: 0 <= i < |es| ==> es[i].0 != k
  {
    if es == [] then None
    else if es[0].0 == k then Some(es[0].1)
    else Lookup(es[1..], k)
  }

  /** LinkedHashMap.put: an existing key keeps its place and takes the new value; a new key goes last. */
  function Put(es: seq<(Element, Value)>, k: Element, v: Value): (r: seq<(Element, Value)>)
    ensures Lookup(es, k).None? ==> r == es + [(k, v)]
    ensures Lookup(es, k).Some? ==> |r| == |es|
    ensures forall i :: 0 <= i < |es| && es[i].0 != k ==> r[i] == es[i]
  {
    if es == [] then [(k, v)]
    else if es[0].0 == k then [(k, v)] + es[1..]
    else [es[0]] + Put(es[1..], k, v)
  }

  /** The keys of a generic tuple, in order (getElements). */
  function Keys(es: seq<(Element, Value)>): (r: seq<Element>)
    ensures |r| == |es| && forall i :: 0 <= i < |es| ==> r[i] == es[i].0
  {
    seq(|es|, i requires 0 <= i < |es| => es[i].0)
  }

  /**
   * The GenericTuple constructors' loop: each value is put under
   * (alias, value.getClass()); a null value is a NullPointerException.
   */
  function PutAll(es: seq<(Element, Value)>, aliases: seq<string>, values: seq<Value>): (r: Result<seq<(Element, Value)>>)
    requires |aliases| >= |values|
    ensures r.Failure? <==> Null in values
    ensures r.Failure? ==> r.error == NullPointer
    decreases |values|
  {
    if values == [] then Success(es)
    else if values[0] == Null then Failure(NullPointer)
    else PutAll(Put(es, Element(Some(aliases[0]), RuntimeClass(values[0]).value), values[0]), aliases[1..], values[1..])
  }

  /** The names GenericTuple(values...) gives its members: indexToString(0), indexToString(1), ... */
  function IndexNames(n: nat): (r: seq<string>)
    ensures |r| == n && forall i :: 0 <= i < n ==> r[i] == StringUtil.Base26(i)
  {
    seq(n, i requires 0 <= i < n => StringUtil.Base26(i))
  }

  /** new GenericTuple(values...): the members named indexToString(i). */
  function NewGeneric(values: seq<Value>): (r: Result<Tuple>)
    ensures r.Failure? <==> Null in values
    ensures r.Failure? ==> r.error == NullPointer
    ensures r.Success? ==> r.value.Generic?
  {
    match PutAll([], IndexNames(|values|), values)
    case Failure(e) => Failure(e)
    case Success(es) => Success(Generic(es))
  }

  /** new GenericTuple(aliases, values...): fewer aliases than values is an IllegalArgumentException. */
  function NewGenericAliased(aliases: seq<string>, values: seq<Value>): (r: Result<Tuple>)
    ensures |aliases| < |values| ==> r == Failure(IllegalArgument)
    ensures |aliases| >= |values| ==> (r.Failure? <==> Null in values)
    ensures r.Success? ==> r.value.Generic?
  {
    if |aliases| < |values| then Failure(IllegalArgument)
    else
      match PutAll([], aliases, values)
      case Failure(e) => Failure(e)
      case Success(es) => Success(Generic(es))
  }

  /** get(String alias) on a GenericTuple: the first entry whose alias is `alias`. */
  function GenericGetAlias(es: seq<(Element, Value)>, alias: Option<string>): (r: Result<Value>)
    ensures alias.None? ==> r == Failure(IllegalArgument)
    ensures r.Failure? ==> r.error == IllegalArgument
    ensures alias.Some? ==> (r.Success? <==> exists i :: 0 <= i < |es| && es[i].0.alias == alias)
    ensures r.Success? ==> exists i :: 0 <= i < |es| && es[i].0.alias == alias && r.value == es[i].1
                                       && forall j :: 0 <= j < i ==> es[j].0.alias != alias
  {
    if alias.None? then Failure(IllegalArgument)
    else
      match FirstWithAlias(es, alias.value)
      case None => Failure(IllegalArgument)
      case Some(i) => Success(es[i].1)
  }

  function FirstWithAlias(es: seq<(Element, Value)>, alias: string): (r: Option<nat>)
    ensures r.Some? ==> r.value < |es| && es[r.value].0.alias == Some(alias)
                        && forall j :: 0 <= j < r.value ==> es[j].0.alias != Some(alias)
    ensures r.None? <==> forall j :: 0 <= j < |es| ==> es[j].0.alias != Some(alias)
  {
    if es == [] then None
    else if es[0].0.alias == Some(alias) then Some(0)
    else
      match FirstWithAlias(es[1..], alias)
      case None => None
      case Some(k) => Some(k + 1)
  }

  /**
   * get(TupleElement elm) on a GenericTuple: the value stored under exactly
   * that element, which must be an instance of the element's type.
   */
  function GenericGetElement(cm: Classes, es: seq<(Element, Value)>, elm: Option<Element>): (r: Result<Value>)
    ensures r.Failure? ==> r.error == IllegalArgument
    ensures r.Success? ==> elm.Some? && Lookup(es, elm.value) == Some(r.value) && r.value != Null
                           && IsAssignableFrom(cm, elm.value.jtype, RuntimeClass(r.value).value)
    ensures r.Success? <==> elm.Some? && Lookup(es, elm.value).Some? && Lookup(es, elm.value).value != Null
                            && IsAssignableFrom(cm, elm.value.jtype, RuntimeClass(Lookup(es, elm.value).value).value)
  {
    if elm.None? then Failure(IllegalArgument)
    else
      match Lookup(es, elm.value)
      case None => Failure(IllegalArgument)
      case Some(v) =>
        if v == Null then Failure(IllegalArgument)
        else if IsAssignableFrom(cm, elm.value.jtype, RuntimeClass(v).value) then Success(v)
        else Failure(IllegalArgument)
  }

  // ------------------------------------------------------------ the Tuple interface

  /** get(int i). */
  function GetIndex(t: Tuple, i: int): (r: Result<Value>)
    ensures 0 <= i < Size(t) <==> r.Success?
    ensures r.Success? ==> r.value == ToArray(t)[i]
    ensures i >= Size(t) ==> r == Failure(IllegalArgument)
  {
    FixedGetIndex(ToArray(t), i)
  }

  /** get(String alias). */
  function GetAlias(t: Tuple, alias: Option<string>): (r: Result<Value>)
    ensures alias.None? ==> r == Failure(IllegalArgument)
  {
    match t
    case Fixed(ms, als) => FixedGetAlias(ms, als, alias)
    case Generic(es) => GenericGetAlias(es, alias)
  }

  /** get(TupleElement elm). */
  function GetElement(cm: Classes, t: Tuple, elm: Option<Element>): (r: Result<Value>)
    ensures t.Fixed? && elm.None? ==> r == Success(Null)
    ensures t.Generic? && elm.None? ==> r == Failure(IllegalArgument)
  {
    match t
    case Fixed(ms, als) => if elm.None? then Success(Null) else FixedGetElementFrom(ms, als, elm.value, 0)
    case Generic(es) => GenericGetElement(cm, es, elm)
  }

  /**
   * get(String alias, Class cls).  A fixed tuple returns a non-null member
   * only when the member's class is assignable FROM `cls`; a GenericTuple
   * looks up the exact (alias, cls) element.
   */
  function GetAliasTyped(cm: Classes, t: Tuple, alias: Option<string>, cls: ClassName): (r: Result<Value>)
    ensures t.Fixed? && r.Success? && r.value != Null ==> IsAssignableFrom(cm, RuntimeClass(r.value).value, cls)
    ensures t.Generic? && r.Success? ==> Lookup(t.entries, Element(alias, cls)) == Some(r.value)
    ensures r.Failure? && GetAlias(t, alias).Success? && t.Fixed? ==> r.error == IllegalArgument
  {
    match t
    case Fixed(ms, als) =>
      (match FixedGetAlias(ms, als, alias)
       case Failure(e) => Failure(e)
       case Success(v) =>
         if v == Null then Success(Null)
         else if IsAssignableFrom(cm, RuntimeClass(v).value, cls) then Success(v)
         else Failure(IllegalArgument))
    case Generic(es) => GenericGetElement(cm, es, Some(Element(alias, cls)))
  }

  /**
   * get(int i, Class cls).  Null members come back as null.  A fixed tuple
   * checks that the member's class is assignable FROM `cls`; a GenericTuple
   * checks the opposite direction, that `cls` is assignable from it.
   */
  function GetIndexTyped(cm: Classes, t: Tuple, i: int, cls: ClassName): (r: Result<Value>)
    ensures r.Success? ==> 0 <= i < Size(t) && (r.value == Null || r.value == ToArray(t)[i])
    ensures r.Success? && r.value != Null && t.Fixed? ==> IsAssignableFrom(cm, RuntimeClass(r.value).value, cls)
    ensures r.Success? && r.value != Null && t.Generic? ==> IsAssignableFrom(cm, cls, RuntimeClass(r.value).value)
    ensures 0 <= i < Size(t) && ToArray(t)[i] == Null ==> r == Success(Null)
    ensures i >= Size(t) ==> r == Failure(IllegalArgument)
  {
    match GetIndex(t, i)
    case Failure(e) => Failure(e)
    case Success(v) =>
      if v == Null then Success(Null)
      else if t.Fixed? && IsAssignableFrom(cm, RuntimeClass(v).value, cls) then Success(v)
      else if t.Generic? && IsAssignableFrom(cm, cls, RuntimeClass(v).value) then Success(v)
      else Failure(IllegalArgument)
  }

  /** getElements. */
  function GetElements(t: Tuple): (r: Result<seq<Element>>)
    ensures t.Generic? ==> r == Success(Keys(t.entries))
    ensures r.Success? ==> |r.value| == Size(t)
  {
    match t
    case Fixed(ms, als) => FixedElements(ms, als)
    case Generic(es) => Success(Keys(es))
  }

  // ------------------------------------------------------------ TupleUtil

  /**
   * tuple(values...): a null or empty array is a UtilityError; 1 to 26
   * values give the fixed tuple of that size with the default aliases; more
   * give a GenericTuple.
   */
  function MakeTuple(values: Option<seq<Value>>): (r: Result<Tuple>)
    ensures values.None? || values == Some([]) ==> r.Failure? && r.error.UtilityError?
    ensures values.Some? && 1 <= |values.value| <= 26 ==> r == Success(Fixed(values.value, DEFAULT_ALIASES))
    ensures values.Some? && |values.value| > 26 ==> r == NewGeneric(values.value)
  {
    if values.None? || |values.value| == 0 then Failure(UtilityError("values"))
    else if |values.value| <= 26 then Success(Fixed(values.value, DEFAULT_ALIASES))
    else NewGeneric(values.value)
  }

  /**
   * aliasedTuple(aliases, values...): beyond 26 values an aliased
   * GenericTuple; otherwise tuple(values) with its alias array replaced.
   */
  function AliasedTuple(aliases: seq<string>, values: Option<seq<Value>>): (r: Result<Tuple>)
    ensures values.Some? && |values.value| > 26 ==> r == NewGenericAliased(aliases, values.value)
    ensures values.Some? && 1 <= |values.value| <= 26 ==> r == Success(Fixed(values.value, aliases))
  {
    if values.Some? && |values.value| > 26 then NewGenericAliased(aliases, values.value)
    else
      match MakeTuple(values)
      case Failure(e) => Failure(e)
      case Success(t) => Success(Fixed(t.members, aliases))
  }

  /** tupleElement(alias, cls) and tupleElement(cls). */
  function TupleElement(alias: Option<string>, cls: ClassName): (r: Element)
    ensures r.alias == alias && r.jtype == cls
  {
    Element(alias, cls)
  }

  // ------------------------------------------------------------ properties

  /** indexToString never repeats a name. */
  lemma Base26Injective(i: nat, j: nat)
    requires StringUtil.Base26(i) == StringUtil.Base26(j)
    ensures i == j
  {
    StringUtil.Base26ValueOf(i);
    StringUtil.Base26ValueOf(j);
  }

  /** After the first fresh entry is put, the remaining aliases are still distinct and new. */
  lemma PutAllFreshRest(es: seq<(Element, Value)>, aliases: seq<string>, values: seq<Value>)
    requires |aliases| >= |values| > 0 && Null !in values
    requires forall i, j :: 0 <= i < j < |values| ==> aliases[i] != aliases[j]
    requires forall i, k :: 0 <= i < |values| && 0 <= k < |es| ==> es[k].0.alias != Some(aliases[i])
    ensures var es' := es + [(Element(Some(aliases[0]), RuntimeClass(values[0]).value), values[0])];
            (forall i, j :: 0 <= i < j < |values[1..]| ==> aliases[1..][i] != aliases[1..][j])
            && forall i, m :: 0 <= i < |values[1..]| && 0 <= m < |es'| ==> es'[m].0.alias != Some(aliases[1..][i])
  {
    var es' := es + [(Element(Some(aliases[0]), RuntimeClass(values[0]).value), values[0])];
    forall i, m | 0 <= i < |values[1..]| && 0 <= m < |es'|
      ensures es'[m].0.alias != Some(aliases[1..][i])
    {
      assert aliases[1..][i] == aliases[i + 1];
    }
    forall i, j | 0 <= i < j < |values[1..]|
      ensures aliases[1..][i] != aliases[1..][j]
    {
      assert aliases[1..][i] == aliases[i + 1] && aliases[1..][j] == aliases[j + 1];
    }
  }

  /** Putting under keys that are all new appends the entries in order. */
  lemma {:induction false} PutAllFresh(es: seq<(Element, Value)>, aliases: seq<string>, values: seq<Value>)
    requires |aliases| >= |values| && Null !in values
    requires forall i, j :: 0 <= i < j < |values| ==> aliases[i] != aliases[j]
    requires forall i, k :: 0 <= i < |values| && 0 <= k < |es| ==> es[k].0.alias != Some(aliases[i])
    ensures PutAll(es, aliases, values).Success?
    ensures var r := PutAll(es, aliases, values).value;
            |r| == |es| + |values| && (forall i :: 0 <= i < |es| ==> r[i] == es[i])
            && forall i :: 0 <= i < |values| ==>
                 r[|es| + i] == (Element(Some(aliases[i]), RuntimeClass(values[i]).value), values[i])
    decreases |values|
  {
    if values != [] {
      var k := Element(Some(aliases[0]), RuntimeClass(values[0]).value);
      var es' := es + [(k, values[0])];
      assert Put(es, k, values[0]) == es' by {
        assert Lookup(es, k).None?;
      }
      assert PutAll(es, aliases, values) == PutAll(es', aliases[1..], values[1..]);
      PutAllFreshRest(es, aliases, values);
      PutAllFresh(es', aliases[1..], values[1..]);
      var r := PutAll(es', aliases[1..], values[1..]).value;
      forall i | 0 <= i < |values|
        ensures r[|es| + i] == (Element(Some(aliases[i]), RuntimeClass(values[i]).value), values[i])
      {
        if i > 0 {
          assert values[1..][i - 1] == values[i] && aliases[1..][i - 1] == aliases[i];
        }
      }
    }
  }

  /**
   * A GenericTuple built from non-null values keeps them in insertion order,
   * each under its index name and runtime class.
   */
  lemma NewGenericKeepsOrder(values: seq<Value>)
    requires Null !in values
    ensures NewGeneric(values).Success?
    ensures var t := NewGeneric(values).value;
            ToArray(t) == values
            && forall i :: 0 <= i < |values| ==>
                 t.entries[i].0 == Element(Some(StringUtil.Base26(i)), RuntimeClass(values[i]).value)
  {
    var names := IndexNames(|values|);
    forall i, j | 0 <= i < j < |values|
      ensures names[i] != names[j]
    {
      if names[i] == names[j] {
        Base26Injective(i, j);
      }
    }
    PutAllFresh([], names, values);
  }

  /** In a GenericTuple built from non-null values, get(indexToString(i)) is the i-th value. */
  lemma NewGenericAliasLookup(values: seq<Value>, i: nat)
    requires Null !in values && i < |values|
    ensures GetAlias(NewGeneric(values).value, Some(StringUtil.Base26(i))) == Success(values[i])
  {
    NewGenericKeepsOrder(values);
    var t := NewGeneric(values).value;
    forall j | 0 <= j < |values| && t.entries[j].0.alias == Some(StringUtil.Base26(i))
      ensures j == i
    {
      Base26Injective(i, j);
    }
  }

  /** Whatever the size, a tuple built from non-null values gives them back in order. */
  lemma MakeTupleKeepsValues(values: seq<Value>)
    requires |values| >= 1 && Null !in values
    ensures MakeTuple(Some(values)).Success?
    ensures ToArray(MakeTuple(Some(values)).value) == values
    ensures MakeTuple(Some(values)).value.Fixed? <==> |values| <= 26
  {
    if |values| > 26 {
      NewGenericKeepsOrder(values);
    }
  }

  /**
   * With the default aliases, get("a".."z") on a fixed tuple picks the member
   * at that letter's position, and a letter past the size is an
   * IllegalArgumentException.
   */
  lemma FixedDefaultAliasLookup(members: seq<Value>, k: nat)
    requires 1 <= |members| <= 26 && k < 26
    ensures k < |members| ==> GetAlias(Fixed(members, DEFAULT_ALIASES), Some(Letter(k))) == Success(members[k])
    ensures k >= |members| ==> GetAlias(Fixed(members, DEFAULT_ALIASES), Some(Letter(k))) == Failure(IllegalArgument)
  {
    forall j | 0 <= j < 26 && DEFAULT_ALIASES[j] == Letter(k)
      ensures j == k
    {
      DefaultAliasesAreIndexNames(j);
      assert Letter(j)[0] == Letter(k)[0];
    }
    var t := Fixed(members, DEFAULT_ALIASES);
    if k < |members| {
      DefaultAliasesAreIndexNames(k);
      assert GetAlias(t, Some(Letter(k))).Success?;
    }
  }

  /** The scan of get(TupleElement) from `start` stops at the member whose alias no earlier member shares. */
  lemma {:induction false} FixedElementScan(members: seq<Value>, aliases: seq<string>, i: nat, start: nat)
    requires |members| <= |aliases| && start <= i < |members|
    requires forall j :: 0 <= j < |members| ==> members[j] != Null
    requires forall j :: start <= j < i ==> aliases[j] != aliases[i]
    ensures FixedGetElementFrom(members, aliases, Element(Some(aliases[i]), RuntimeClass(members[i]).value), start)
            == Success(members[i])
    decreases i - start
  {
    if start < i {
      FixedElementScan(members, aliases, i, start + 1);
    }
  }

  /**
   * The elements getElements reports lead back to their members: on a fixed
   * tuple with distinct aliases and no null member, get(getElements()[i]) is
   * the i-th member.
   */
  lemma FixedElementsLeadBack(cm: Classes, members: seq<Value>, aliases: seq<string>, i: nat)
    requires |members| <= |aliases| && i < |members|
    requires forall j :: 0 <= j < |members| ==> members[j] != Null
    requires forall j, k :: 0 <= j < k < |aliases| ==> aliases[j] != aliases[k]
    ensures var t := Fixed(members, aliases);
            GetElements(t).Success? && GetElement(cm, t, Some(GetElements(t).value[i])) == Success(members[i])
  {
    FixedElementScan(members, aliases, i, 0);
  }

  /**
   * The same on a GenericTuple built from non-null values: each element
   * getElements reports gives back its value.
   */
  lemma GenericElementsLeadBack(cm: Classes, values: seq<Value>, i: nat)
    requires Null !in values && i < |values|
    ensures Size(NewGeneric(values).value) == |values|
    ensures var t := NewGeneric(values).value;
            GetElement(cm, t, Some(GetElements(t).value[i])) == Success(values[i])
  {
    NewGenericKeepsOrder(values);
    var es := NewGeneric(values).value.entries;
    LookupDistinct(es, i, values);
  }

  /** In a GenericTuple built from values, the i-th key is stored nowhere else. */
  lemma LookupDistinct(es: seq<(Element, Value)>, i: nat, values: seq<Value>)
    requires |es| == |values| && i < |es| && Null !in values
    requires forall j :: 0 <= j < |values| ==>
               es[j] == (Element(Some(StringUtil.Base26(j)), RuntimeClass(values[j]).value), values[j])
    ensures Lookup(es, es[i].0) == Some(values[i])
  {
    forall j | 0 <= j < |es| && es[j].0 == es[i].0
      ensures j == i
    {
      Base26Injective(i, j);
    }
  }

  /**
   * An aliased fixed tuple with fewer aliases than members is built without
   * complaint, but looking up an alias it does not have runs off the alias
   * array; beyond 26 values the same aliases are refused up front.
   */
  lemma ShortAliasArrays(v: Value)
    requires v != Null
    ensures var t := AliasedTuple(["x"], Some([v, v]));
            t == Success(Fixed([v, v], ["x"]))
            && GetAlias(t.value, Some("y")) == Failure(IndexOutOfBounds)
    ensures AliasedTuple(["x"], Some(seq(27, _ => v))) == Failure(IllegalArgument)
  {
    assert AliasIndexFrom(["x"], 2, "y", 1) == Failure(IndexOutOfBounds);
  }

  /**
   * The typed index getters check opposite directions: asked for an Object,
   * a fixed tuple holding an Integer throws, a GenericTuple returns it.
   */
  lemma TypedGettersDisagree(cm: Classes)
    requires cm == map[]
    ensures var one := Int(JavaInt.IntKind.IntegerKind, 1);
            GetIndexTyped(cm, Fixed([one], DEFAULT_ALIASES), 0, OBJECT) == Failure(IllegalArgument)
            && GetIndexTyped(cm, Generic([(Element(Some("a"), "java.lang.Integer"), one)]), 0, OBJECT) == Success(one)
  {
    Undeclared(cm, OBJECT);
  }
}

=== FILE: values.dfy ===
/**
 * Runtime values over the class model: null, the boxed scalars the library
 * treats specially, and objects of model classes whose field slots are a map.
 * Objects are immutable here; an operation that writes a field returns the
 * updated object.
 *
 * Method bodies and the toString of dates and model objects are not visible
 * to the library, so they are supplied by a `Host`.
 */
module Values {
  import opened Wrappers
  import opened ClassModel
  import JavaInt

  /** A field slot: fields are identified by declaring class and name. */
  datatype Slot = Slot(owner: ClassName, name: string)

  datatype Value =
    | Null
    | Str(s: string)
    | Bool(b: bool)
    | Int(kind: JavaInt.IntKind, i: int)
    | Chr(c: char)
    | DateVal(millis: int)
    | Obj(cls: ClassName, slots: map<Slot, Value>)

  /**
   * The code the library calls but cannot see: method bodies, toString, and
   * the body of each class's public zero-argument constructor, which either
   * throws or leaves the new object's slots (field initialisers included).
   */
  datatype Host = Host(
    invoke: (Method, Value, seq<Value>) -> Result<Value>,
    describe: Value -> string,
    initialise: ClassName -> Result<map<Slot, Value>>)

  function SlotOf(f: Field): Slot {
    Slot(f.declaring, f.name)
  }

  function BoxedName(k: JavaInt.IntKind): ClassName {
    match k
    case ByteKind => "java.lang.Byte"
    case ShortKind => "java.lang.Short"
    case IntegerKind => "java.lang.Integer"
    case LongKind => "java.lang.Long"
  }

  function PrimitiveName(k: JavaInt.IntKind): ClassName {
    match k
    case ByteKind => "byte"
    case ShortKind => "short"
    case IntegerKind => "int"
    case LongKind => "long"
  }

  /** getClass(): the runtime class of a non-null value (always a boxed class for scalars). */
  function RuntimeClass(v: Value): (r: Option<ClassName>)
    ensures r.None? <==> v.Null?
  {
    match v
    case Null => None
    case Str(_) => Some(STRING)
    case Bool(_) => Some(BOOLEAN)
    case Int(k, _) => Some(BoxedName(k))
    case Chr(_) => Some(CHARACTER)
    case DateVal(_) => Some(DATE)
    case Obj(c, _) => Some(c)
  }

  /** `cls.isInstance(v)`: non-null and of a class assignable to `cls`. */
  predicate IsInstance(cm: Classes, v: Value, cls: ClassName) {
    v != Null && IsAssignableFrom(cm, cls, RuntimeClass(v).value)
  }

  /** The integral kinds in widening order. */
  function Rank(k: JavaInt.IntKind): nat {
    match k
    case ByteKind => 0
    case ShortKind => 1
    case IntegerKind => 2
    case LongKind => 3
  }

  /** The kind whose primitive name is `t`, if `t` names an integral primitive. */
  function IntegralKind(t: ClassName): (r: Option<JavaInt.IntKind>)
    ensures r.Some? ==> PrimitiveName(r.value) == t
  {
    if t == "byte" then Some(JavaInt.IntKind.ByteKind)
    else if t == "short" then Some(JavaInt.IntKind.ShortKind)
    else if t == "int" then Some(JavaInt.IntKind.IntegerKind)
    else if t == "long" then Some(JavaInt.IntKind.LongKind)
    else None
  }

  /** The value a field of type `t` holds before anything is written to it. */
  function DefaultValue(t: ClassName): (r: Value)
    ensures !IsPrimitive(t) ==> r == Null
  {
    match IntegralKind(t)
    case Some(k) => Int(k, 0)
    case None =>
      if t == "boolean" then Bool(false)
      else if t == "char" then Chr(0 as char)
      else Null
  }

  /**
   * Field.set's acceptance test: a primitive field takes its own boxed kind
   * or a narrower integral one (widening); a reference field takes null or
   * an instance of its type.
   */
  predicate Fits(cm: Classes, t: ClassName, v: Value) {
    if IsPrimitive(t) then
      match v
      case Int(k, _) => IntegralKind(t).Some? && Rank(k) <= Rank(IntegralKind(t).value)
      case Bool(_) => t == "boolean"
      case Chr(_) => t == "char"
      case _ => false
    else v == Null || IsInstance(cm, v, t)
  }

  /** Widening as Field.set performs it: the stored value has the field's own kind. */
  function Widen(t: ClassName, v: Value): (r: Value)
    ensures v.Int? && IntegralKind(t).Some? ==> r == Int(IntegralKind(t).value, v.i)
    ensures !(v.Int? && IntegralKind(t).Some?) ==> r == v
  {
    if v.Int? && IntegralKind(t).Some? then Int(IntegralKind(t).value, v.i) else v
  }

  /**
   * Field.get on a field made accessible, as every Field the library takes
   * through ClassUtil is: null target is a NullPointerException, a target
   * that is not an instance of the declaring class an
   * IllegalArgumentException; an unwritten slot holds the type's default.
   */
  function ReadField(cm: Classes, target: Value, f: Field): (r: Result<Value>)
    ensures target == Null ==> r == Failure(NullPointer)
    ensures target != Null && !(target.Obj? && IsInstance(cm, target, f.declaring)) ==> r == Failure(IllegalArgument)
    ensures r.Success? ==> target.Obj? && IsInstance(cm, target, f.declaring)
    ensures r.Success? && SlotOf(f) in target.slots ==> r.value == target.slots[SlotOf(f)]
    ensures r.Success? && SlotOf(f) !in target.slots ==> r.value == DefaultValue(f.ftype)
  {
    if target == Null then Failure(NullPointer)
    else if !target.Obj? || !IsInstance(cm, target, f.declaring) then Failure(IllegalArgument)
    else if SlotOf(f) in target.slots then Success(target.slots[SlotOf(f)])
    else Success(DefaultValue(f.ftype))
  }

  /**
   * Field.set: the same target checks as ReadField, then the value must fit
   * the field type; the result is the updated target.
   */
  function WriteField(cm: Classes, target: Value, f: Field, v: Value): (r: Result<Value>)
    ensures target == Null ==> r == Failure(NullPointer)
    ensures r.Success? <==> target.Obj? && IsInstance(cm, target, f.declaring) && Fits(cm, f.ftype, v)
    ensures r.Success? ==> r.value.Obj? && r.value.cls == target.cls
    ensures r.Success? ==> r.value.slots == target.slots[SlotOf(f) := Widen(f.ftype, v)]
  {
    if target == Null then Failure(NullPointer)
    else if !target.Obj? || !IsInstance(cm, target, f.declaring) || !Fits(cm, f.ftype, v) then Failure(IllegalArgument)
    else Success(Obj(target.cls, target.slots[SlotOf(f) := Widen(f.ftype, v)]))
  }

  /** Reading a field just written gives the written value back, widened. */
  lemma ReadAfterWrite(cm: Classes, target: Value, f: Field, v: Value)
    requires WriteField(cm, target, f, v).Success?
    ensures ReadField(cm, WriteField(cm, target, f, v).value, f) == Success(Widen(f.ftype, v))
  {
    var t' := WriteField(cm, target, f, v).value;
    assert RuntimeClass(t') == RuntimeClass(target);
  }

  /** Writing one field leaves every other slot as it was. */
  lemma WriteLeavesOtherSlots(cm: Classes, target: Value, f: Field, g: Field, v: Value)
    requires WriteField(cm, target, f, v).Success?
    requires SlotOf(g) != SlotOf(f)
    ensures SlotOf(g) in target.slots <==> SlotOf(g) in WriteField(cm, target, f, v).value.slots
    ensures SlotOf(g) in target.slots ==> WriteField(cm, target, f, v).value.slots[SlotOf(g)] == target.slots[SlotOf(g)]
  {
  }

  /**
   * Method.invoke on a method made accessible: null target is a
   * NullPointerException; a target of the wrong class or the wrong number
   * of arguments an IllegalArgumentException; otherwise whatever the
   * method body does.
   */
  function Invoke(cm: Classes, host: Host, m: Method, target: Value, args: seq<Value>): (r: Result<Value>)
    ensures target == Null ==> r == Failure(NullPointer)
    ensures target != Null && (!IsInstance(cm, target, m.declaring) || |args| != |m.params|) ==> r == Failure(IllegalArgument)
    ensures target != Null && IsInstance(cm, target, m.declaring) && |args| == |m.params| ==> r == host.invoke(m, target, args)
  {
    if target == Null then Failure(NullPointer)
    else if !IsInstance(cm, target, m.declaring) || |args| != |m.params| then Failure(IllegalArgument)
    else host.invoke(m, target, args)
  }

  /**
   * Field.get on a Field object never made accessible (one taken straight
   * from Class.getDeclaredFields): the language access check comes first,
   * and a field that is not public is an IllegalAccessException.
   */
  function CheckedRead(cm: Classes, target: Value, f: Field): (r: Result<Value>)
    ensures r.Success? <==> f.isPublic && ReadField(cm, target, f).Success?
    ensures r.Success? ==> r == ReadField(cm, target, f)
    ensures !f.isPublic ==> r == Failure(IllegalAccess)
  {
    if !f.isPublic then Failure(IllegalAccess) else ReadField(cm, target, f)
  }

  /** Method.invoke on a Method object never made accessible, checked as CheckedRead is. */
  function CheckedInvoke(cm: Classes, host: Host, m: Method, target: Value, args: seq<Value>): (r: Result<Value>)
    ensures r.Success? <==> m.isPublic && Invoke(cm, host, m, target, args).Success?
    ensures r.Success? ==> r == Invoke(cm, host, m, target, args)
    ensures !m.isPublic ==> r == Failure(IllegalAccess)
  {
    if !m.isPublic then Failure(IllegalAccess) else Invoke(cm, host, m, target, args)
  }

  /** A concrete class with a public zero-argument constructor: one Class.newInstance can instantiate. */
  predicate Instantiable(cm: Classes, c: ClassName) {
    HasCtor(cm, c, []) && !Decl(cm, c).isAbstract && !Decl(cm, c).isInterface
  }

  /** The checked exceptions Class.newInstance declares, which its callers catch. */
  predicate NewInstanceChecked(e: Error) {
    e == Instantiation || e == IllegalAccess
  }

  /**
   * Class.newInstance: an abstract class, an interface or a class without a
   * public zero-argument constructor is an InstantiationException;
   * otherwise the constructor body runs, and what it throws passes through
   * unchanged.
   */
  function NewInstance(cm: Classes, host: Host, c: ClassName): (r: Result<Value>)
    ensures !Instantiable(cm, c) ==> r == Failure(Instantiation)
    ensures Instantiable(cm, c) ==> (r.Success? <==> host.initialise(c).Success?)
    ensures r.Success? ==> r.value.Obj? && r.value.cls == c && r.value.slots == host.initialise(c).value
    ensures Instantiable(cm, c) && r.Failure? ==> r.error == host.initialise(c).error
  {
    if !Instantiable(cm, c) then Failure(Instantiation)
    else
      match host.initialise(c)
      case Failure(e) => Failure(e)
      case Success(slots) => Success(Obj(c, slots))
  }

  /** String.valueOf: the text form of a value. */
  function ToText(host: Host, v: Value): (r: string)
    ensures v.Str? ==> r == v.s
    ensures v.Int? ==> r == JavaInt.ShowInt(v.i)
    ensures v.Bool? ==> r == (if v.b then "true" else "false")
    ensures v.Chr? ==> r == [v.c]
    ensures v.Null? ==> r == "null"
  {
    match v
    case Null => "null"
    case Str(s) => s
    case Bool(b) => if b then "true" else "false"
    case Int(_, i) => JavaInt.ShowInt(i)
    case Chr(c) => [c]
    case _ => host.describe(v)
  }
}

=== FILE: version.dfy ===
/**
 * SimpleVersion and its two subclasses: a (major, minor, point) triple of
 * Java ints.  VersionAndBuild adds a build number that equality ignores, and
 * StaticVersion additionally refuses to increment.
 */
module Version {
  import opened Wrappers
  import opened Text
  import JavaInt
  import StringUtil

  /** Which class the version is: the build number is carried but never compared. */
  datatype Variant = Simple | AndBuild(build: int) | Static(build: int)

  datatype Version = Version(major: int, minor: int, point: int, variant: Variant)

  /** Increment: which component to raise. */
  datatype Increment = Major | Minor | Point

  /** All three components are Java ints. */
  predicate Valid(v: Version) {
    JavaInt.IsInt(v.major) && JavaInt.IsInt(v.minor) && JavaInt.IsInt(v.point)
  }

  /** Version.create(major, minor, point); create() is create(0, 0, 0). */
  function Create(major: int, minor: int, point: int): (r: Version)
    requires JavaInt.IsInt(major) && JavaInt.IsInt(minor) && JavaInt.IsInt(point)
    ensures Valid(r) && r.variant == Simple
    ensures r.major == major && r.minor == minor && r.point == point
  {
    Version(major, minor, point, Simple)
  }

  /**
   * increment(inc): MAJOR raises major and zeroes minor and point, MINOR
   * raises minor and zeroes point, POINT raises point; `++` wraps at the
   * int range.  A StaticVersion stays as it is.
   */
  function Inc(v: Version, inc: Increment): (r: Version)
    requires Valid(v)
    ensures Valid(r) && r.variant == v.variant
    ensures v.variant.Static? ==> r == v
  {
    if v.variant.Static? then v
    else
      match inc
      case Major => v.(major := JavaInt.Add32(v.major, 1), minor := 0, point := 0)
      case Minor => v.(minor := JavaInt.Add32(v.minor, 1), point := 0)
      case Point => v.(point := JavaInt.Add32(v.point, 1))
  }

  /** equals: the three components only, against any Version. */
  predicate Equal(a: Version, b: Version) {
    a.major == b.major && a.minor == b.minor && a.point == b.point
  }

  /**
   * includes(ver): compares major, then minor, then point; on a full tie it
   * falls back on equals, which the tie already satisfies.
   */
  predicate Includes(v: Version, ver: Version) {
    if ver.major < v.major then true
    else if ver.major > v.major then false
    else if ver.minor < v.minor then true
    else if ver.minor > v.minor then false
    else if ver.point < v.point then true
    else if ver.point > v.point then false
    else Equal(v, ver)
  }

  /** The lexicographic order on (major, minor, point): the reference for includes. */
  predicate LexLeq(a: Version, b: Version) {
    a.major < b.major
    || (a.major == b.major && a.minor < b.minor)
    || (a.major == b.major && a.minor == b.minor && a.point <= b.point)
  }

  /** includes(ver) holds exactly when ver is at most this version in lexicographic order. */
  lemma IncludesIsLexLeq(v: Version, ver: Version)
    ensures Includes(v, ver) <==> LexLeq(ver, v)
  {
  }

  /** includes is reflexive, transitive and total, and antisymmetric up to equals. */
  lemma IncludesIsTotalPreorder(a: Version, b: Version, c: Version)
    ensures Includes(a, a)
    ensures Includes(a, b) && Includes(b, c) ==> Includes(a, c)
    ensures Includes(a, b) || Includes(b, a)
    ensures Includes(a, b) && Includes(b, a) <==> Equal(a, b)
  {
    IncludesIsLexLeq(a, a);
    IncludesIsLexLeq(a, b);
    IncludesIsLexLeq(b, a);
    IncludesIsLexLeq(b, c);
    IncludesIsLexLeq(a, c);
  }

  /** The results of the three increments, when the raised component does not overflow. */
  lemma IncResults(v: Version)
    requires Valid(v) && !v.variant.Static?
    ensures v.major < JavaInt.INT_MAX ==> Equal(Inc(v, Major), Version(v.major + 1, 0, 0, Simple))
    ensures v.minor < JavaInt.INT_MAX ==> Equal(Inc(v, Minor), Version(v.major, v.minor + 1, 0, Simple))
    ensures v.point < JavaInt.INT_MAX ==> Equal(Inc(v, Point), Version(v.major, v.minor, v.point + 1, Simple))
  {
  }

  /**
   * Without overflow an increment moves strictly forward: the new version
   * includes the old one and not the other way round.
   */
  lemma IncMovesForward(v: Version, inc: Increment)
    requires Valid(v) && !v.variant.Static?
    requires inc == Major ==> v.major < JavaInt.INT_MAX
    requires inc == Minor ==> v.minor < JavaInt.INT_MAX
    requires inc == Point ==> v.point < JavaInt.INT_MAX
    ensures Includes(Inc(v, inc), v) && !Includes(v, Inc(v, inc))
  {
    IncludesIsLexLeq(Inc(v, inc), v);
    IncludesIsLexLeq(v, Inc(v, inc));
  }

  /** At the top of the int range the raised component wraps to the smallest int. */
  lemma IncWraps(v: Version)
    requires Valid(v) && !v.variant.Static? && v.point == JavaInt.INT_MAX
    ensures Inc(v, Point).point == JavaInt.INT_MIN
    ensures !Includes(Inc(v, Point), v)
  {
  }

  /** hashCode: 31 * (31 * (31 + major) + minor) + point, in int arithmetic. */
  function Hash(v: Version): (r: int)
    ensures JavaInt.IsInt(r)
  {
    var h1 := JavaInt.Add32(JavaInt.Mul32(31, 1), v.major);
    var h2 := JavaInt.Add32(JavaInt.Mul32(31, h1), v.minor);
    JavaInt.Add32(JavaInt.Mul32(31, h2), v.point)
  }

  /** Equal versions have equal hash codes, whatever their build numbers. */
  lemma HashConsistent(a: Version, b: Version)
    requires Equal(a, b)
    ensures Hash(a) == Hash(b)
  {
  }

  /** toString: "v" + major + "." + minor + "." + point. */
  function ToString(v: Version): (r: string)
    ensures |r| >= 1 && r[0] == 'v'
  {
    "v" + Join([JavaInt.ShowInt(v.major), JavaInt.ShowInt(v.minor), JavaInt.ShowInt(v.point)], ".")
  }

  /** Reads the text of toString back into its three components. */
  function ParseVersion(s: string): (r: Option<(int, int, int)>)
    ensures r.Some? ==> JavaInt.IsInt(r.value.0) && JavaInt.IsInt(r.value.1) && JavaInt.IsInt(r.value.2)
  {
    if |s| == 0 || s[0] != 'v' then None
    else
      var parts := SplitAll(s[1..], '.');
      if |parts| != 3 then None
      else
        match (JavaInt.ParseInt(parts[0], JavaInt.IntKind.IntegerKind),
               JavaInt.ParseInt(parts[1], JavaInt.IntKind.IntegerKind),
               JavaInt.ParseInt(parts[2], JavaInt.IntKind.IntegerKind))
        case (Some(a), Some(b), Some(c)) => Some((a, b, c))
        case _ => None
  }

  /** The decimal text of an int holds no '.'. */
  lemma NoDotInShowInt(x: int)
    ensures '.' !in JavaInt.ShowInt(x)
  {
    if '.' in JavaInt.ShowInt(x) {
      JavaInt.ShowIntAlphabet(x, '.');
    }
  }

  /** toString loses nothing but the variant: its text gives the three components back. */
  lemma ToStringRoundTrip(v: Version)
    requires Valid(v)
    ensures ParseVersion(ToString(v)) == Some((v.major, v.minor, v.point))
  {
    var parts := [JavaInt.ShowInt(v.major), JavaInt.ShowInt(v.minor), JavaInt.ShowInt(v.point)];
    NoDotInShowInt(v.major);
    NoDotInShowInt(v.minor);
    NoDotInShowInt(v.point);
    StringUtil.SplitJoin(parts, '.');
    assert ToString(v)[1..] == Join(parts, ".");
    JavaInt.ParseShowInt(v.major, JavaInt.IntKind.IntegerKind);
    JavaInt.ParseShowInt(v.minor, JavaInt.IntKind.IntegerKind);
    JavaInt.ParseShowInt(v.point, JavaInt.IntKind.IntegerKind);
  }

  /** Two versions print alike exactly when they are equal. */
  lemma ToStringMatchesEqual(a: Version, b: Version)
    requires Valid(a) && Valid(b)
    ensures ToString(a) == ToString(b) <==> Equal(a, b)
  {
    ToStringRoundTrip(a);
    ToStringRoundTrip(b);
  }
}

=== FILE: wrappers.dfy ===
/** Option and Result types, and the Java exceptions the library throws, as values. */
module Wrappers {

  datatype Option<+T> = None | Some(value: T) {
    function UnwrapOr(default: T): (r: T)
      ensures Some? ==> r == value
      ensures None? ==> r == default
    {
      match this
      case Some(v) => v
      case None => default
    }
  }

  /**
   * The exceptions the library lets escape, by kind.  A `UtilityError` names
   * the class, member or value it is about; the message text is not modelled.
   * `Instantiation` is the InstantiationException of Class.newInstance, and
   * `Thrown` any other exception raised by code the library cannot see (a
   * constructor body, say), named by its class.
   */
  datatype Error =
    | UtilityError(subject: string)
    | IllegalArgument
    | IllegalAccess
    | NullPointer
    | IndexOutOfBounds
    | ClassCast
    | StackOverflow
    | Instantiation
    | Thrown(exception: string)

  datatype Result<+T> = Success(value: T) | Failure(error: Error) {
    predicate IsFailure() {
      Failure?
    }

    function PropagateFailure<U>(): (r: Result<U>)
      requires Failure?
      ensures r.Failure? && r.error == error
    {
      Failure(error)
    }

    function Extract(): (r: T)
      requires Success?
      ensures r == value
    {
      value
    }
  }
}
